=== FILE: README.md ===
# AI-AutoCreate core, modelled in Dafny

AI-AutoCreate is an Android app that turns a prompt, an image, an audio clip
or a video into generated content.  It does this by chaining requests to
remote inference models on the Hugging Face inference API.  This project
models the app's core as pure Dafny functions and proves properties of them.

- **Inference client** (`HFClient`).  One authenticated JSON POST, tried at
  most three times, pausing one second and then two seconds between attempts;
  the third entry of the delay table, four seconds, is never used.  HTTP
  is a parameter: a list of attempt outcomes.
- **Agents**.  Each agent builds a payload, calls the client and turns the
  model's answer into a result record that it saves as a JSON artifact.
  - `Orchestrator`: the five-step content pipeline.  Prompt analysis, script,
    images, audio and video assembly, with the abort-or-continue rule, and
    the files a run writes: its log lines, the script saved under the
    shared "current_project" and the record of its result.
  - `SanityCheck`: the preflight check of storage, permissions, memory,
    FFmpeg and the required directories.
  - `ScriptGenerator`, `ImageInterpreter`, `AudioContext`, `VideoAnalyzer`
    and `ModelValidator`.
- **Screens and the background service**.  Their logic is modelled; their
  widgets are not.
  - `HomeScreen`, `ImageToStory`, `AudioReconstructor`, `VideoReimaginer`
    and `ScriptStudio`: the step-by-step progress tables and what each step
    writes.
  - `ProcessingService`: pause, resume and checkpoint.
  - `AgentPlayground`: agent runs and the saved test results.
  - `ModelsManager` and `ApiKeys`: the model and key stores.
  - `Ideas`: the idea gallery.
  - `ActivityLog`: loading, filtering and clearing logs.
  - `SubtitleStyle`: subtitle styles and presets.
  - `FFmpeg`: command building.
  - `Theme` and `Language`: settings.
- **Utilities**.
  - `Prefs`: the obfuscated preference store, Base64 over UTF-8 text.
  - `FileStore` and `StoragePaths`: the file tree of the app's storage root.
  - `AppLog`: the JSON logger.
  - `MediaUtils`: media helpers.
  - `ListAdapter` and `ProjectsAdapter`: the list adapters.

Several modules model the platform libraries the source relies on, so that
the properties above can be stated exactly:

- `JavaString`: `trim`, `split` and `contains`, ASCII case mapping, and
  `length` and `substring` counted in UTF-16 code units. Java's locale-aware
  `toLowerCase`, which the idea search applies to user text, is a parameter
  there.
- `OrgJson`: Android's `org.json`, including its `opt*` and `get*`
  conversions.
- `JavaInt`: 32-bit `int` and 64-bit `long` arithmetic with wrap-around, and
  Java's truncating division.
- `Utf8`: UTF-8 encoding.
- `Base64`: padded Base64 as in section 4 of RFC 4648.
- `Outcomes`: the `Option` and `Result` types.
- `SeqLaws`: general sequence lemmas.

The clock, random values, HTTP responses, the contents of parsed files and
anything that would be a system call are passed in as parameters.  Where
the Activity and the Fragment versions of a screen hold the same code
(activity log, idea gallery, models manager), that code is modelled once,
and the rows below cite whichever copy states the property most directly.

## Model

| member | source | states |
|---|---|---|
| Base64.Encode | app/src/main/java/com/ai_autocreate/utils/PrefsObfuscator.java:135 | every three bytes become four alphabet characters, a last one or two bytes a padded group (section 4 of RFC 4648) |
| Base64.Decode | app/src/main/java/com/ai_autocreate/utils/PrefsObfuscator.java:144 | a text that is not a canonical padded encoding is rejected, standing in for the exception the decoder throws |
| Base64.DecodeEncode | app/src/main/java/com/ai_autocreate/utils/PrefsObfuscator.java:135-144 | decoding an encoding gives every byte sequence back |
| Base64.EncodeDecode | app/src/main/java/com/ai_autocreate/utils/PrefsObfuscator.java:144-150 | a text that decodes is exactly the encoding of what it decodes to, so stored texts have one spelling |
| Base64.EncodeLength | app/src/main/java/com/ai_autocreate/utils/PrefsObfuscator.java:135 | the text is four characters per started group of three bytes |
| Utf8.Encode | app/src/main/java/com/ai_autocreate/utils/PrefsObfuscator.java:128 | characters are written as one to four bytes each, as section 3 of RFC 3629 sets out |
| Utf8.Decode | app/src/main/java/com/ai_autocreate/utils/PrefsObfuscator.java:151 | well-formed sequences are read back as their characters and each stray byte as U+FFFD |
| Utf8.DecodeEncode | app/src/main/java/com/ai_autocreate/utils/PrefsObfuscator.java:128-151 | reading back the bytes of any text gives the text again |
| Utf8.AsciiLength | app/src/main/java/com/ai_autocreate/utils/PrefsObfuscator.java:128 | text of single-byte characters takes one byte per character |
| Bytes.Latin1RoundTrip | app/src/main/java/com/ai_autocreate/utils/HFClient.java:192-207 | text of characters below U+0100 survives the one-byte-per-character view, and so do bytes |
| Bytes.XorByteTwice | app/src/main/java/com/ai_autocreate/utils/PrefsObfuscator.java:131-133 | combining a byte twice with the same key byte restores it |
| Prefs.Xor | app/src/main/java/com/ai_autocreate/utils/PrefsObfuscator.java:131-133 | the output has the input's length, and byte i is combined with key byte i modulo the key length |
| Prefs.XorTwice | app/src/main/java/com/ai_autocreate/utils/PrefsObfuscator.java:145-149 | applying the key twice gives the bytes back, for every key |
| Prefs.Obfuscate | app/src/main/java/com/ai_autocreate/utils/PrefsObfuscator.java:126-140 | the stored text is the Base64 encoding of the key-combined UTF-8 bytes, so it always decodes |
| Prefs.Deobfuscate | app/src/main/java/com/ai_autocreate/utils/PrefsObfuscator.java:142-156 | a stored text that is not Base64 is returned as it is, the fallback of the catch |
| Prefs.ObfuscateRoundTrip | app/src/main/java/com/ai_autocreate/utils/PrefsObfuscator.java:126-156 | reading back what was obfuscated gives the original value, for every value and key |
| Prefs.Open | app/src/main/java/com/ai_autocreate/utils/PrefsObfuscator.java:158-170 | an existing key is reused when it decodes and the settings cannot be opened when it does not; without one, the fresh 32-byte key is stored as Base64 and used |
| Prefs.KeyCreatedOnce | app/src/main/java/com/ai_autocreate/utils/PrefsObfuscator.java:158-170 | opening the settings a second time keeps the key the first opening created |
| Prefs.CreatedKeyReadBack | app/src/main/java/com/ai_autocreate/utils/PrefsObfuscator.java:163-169 | the stored form of a generated key reads back as that key |
| Prefs.CreatedKeyLength | app/src/main/java/com/ai_autocreate/utils/PrefsObfuscator.java:163 | a generated key is 32 bytes long |
| Prefs.PutString | app/src/main/java/com/ai_autocreate/utils/PrefsObfuscator.java:26-34 | a null value removes the setting; any other value is stored obfuscated under its key |
| Prefs.GetString | app/src/main/java/com/ai_autocreate/utils/PrefsObfuscator.java:36-48 | an absent setting reads as the default; a present one reads as its de-obfuscated text |
| Prefs.PutGetString | app/src/main/java/com/ai_autocreate/utils/PrefsObfuscator.java:26-48 | a put value is read back, and a put null reads back as the default |
| Prefs.PutKeepsOthers | app/src/main/java/com/ai_autocreate/utils/PrefsObfuscator.java:26-34 | putting one setting leaves every other setting and the key as they were |
| Prefs.Remove | app/src/main/java/com/ai_autocreate/utils/PrefsObfuscator.java:114-116 | the setting is gone afterwards and every other setting is kept |
| Prefs.Clear | app/src/main/java/com/ai_autocreate/utils/PrefsObfuscator.java:118-120 | no setting is left stored, the stored key included, while the open object goes on using its key |
| Prefs.ClearForgetsKey | app/src/main/java/com/ai_autocreate/utils/PrefsObfuscator.java:158-167 | opening the settings after a clear creates a new key, because the old one was cleared with the rest |
| Prefs.GetInt | app/src/main/java/com/ai_autocreate/utils/PrefsObfuscator.java:54-65 | an absent setting reads as the default; a stored text that is not a 32-bit decimal reads as the default too |
| Prefs.IntRoundTrip | app/src/main/java/com/ai_autocreate/utils/PrefsObfuscator.java:50-65 | every 32-bit integer put is read back as itself |
| Prefs.GetLong | app/src/main/java/com/ai_autocreate/utils/PrefsObfuscator.java:71-82 | an absent setting or a text that is not a 64-bit decimal reads as the default |
| Prefs.LongRoundTrip | app/src/main/java/com/ai_autocreate/utils/PrefsObfuscator.java:67-82 | every 64-bit integer put is read back as itself |
| Prefs.GetBoolean | app/src/main/java/com/ai_autocreate/utils/PrefsObfuscator.java:88-95 | an absent setting reads as the default; a stored text is true exactly when it equals "true" ignoring case |
| Prefs.BooleanRoundTrip | app/src/main/java/com/ai_autocreate/utils/PrefsObfuscator.java:84-95 | both truth values put are read back as themselves |
| Prefs.OtherTextIsFalse | app/src/main/java/com/ai_autocreate/utils/PrefsObfuscator.java:88-95 | any stored text other than "true" in some case reads as false, not as the default |
| ListAdapter.UpdateList | app/src/main/java/com/ai_autocreate/adapters/ProjectsAdapter.java:100-104 | a refill leaves exactly the new list, unless the new list is the backing list itself, which the clear has already emptied |
| ListAdapter.UpdateListOrNull | app/src/main/java/com/ai_autocreate/adapters/ActivityLogAdapter.java:27-31 | a null list leaves the adapter empty; any other list replaces the contents as a refill does |
| ListAdapter.Click | app/src/main/java/com/ai_autocreate/adapters/ProjectsAdapter.java:140-145 | a click reaches the listener, with the item's position, exactly when a listener is set |
| Language.LocaleLanguage | app/src/main/java/com/ai_autocreate/utils/LanguageUtils.java:24 | a locale reports its language in lower case, Hebrew, Yiddish and Indonesian under their old ISO 639 codes |
| Language.LocaleLanguageStable | app/src/main/java/com/ai_autocreate/utils/LanguageUtils.java:24-25 | a locale made from a reported language reports that same language |
| Language.SetAppLanguage | app/src/main/java/com/ai_autocreate/utils/LanguageUtils.java:19-37 | the code is stored under "app_language", every other setting is kept, and the default locale becomes that language |
| Language.CurrentLanguage | app/src/main/java/com/ai_autocreate/utils/LanguageUtils.java:39-41 | the stored code, or the default locale's language when none is stored |
| Language.SetThenCurrent | app/src/main/java/com/ai_autocreate/utils/LanguageUtils.java:19-41 | a language that was set is then the current one, exactly as given |
| Language.HebrewLocaleNotRtlAsWritten | app/src/main/java/com/ai_autocreate/utils/LanguageUtils.java:43-46 | with nothing stored and a Hebrew default locale the language reads as "iw", which the right-to-left test as written rejects |
| Language.IsRtl | app/src/main/java/com/ai_autocreate/utils/LanguageUtils.java:43-46 | right to left exactly for Arabic, Persian and Hebrew under either of its codes |
| Language.RtlWhenSet | app/src/main/java/com/ai_autocreate/utils/LanguageUtils.java:43-46 | Arabic, Hebrew and Persian set in the app are right to left in both versions of the test |
| Language.UpperCaseNotRtl | app/src/main/java/com/ai_autocreate/utils/LanguageUtils.java:43-46 | the codes are compared exactly, so "AR" is not right to left |
| Language.RtlFromLocale | app/src/main/java/com/ai_autocreate/utils/LanguageUtils.java:39-46 | Arabic, Hebrew and Persian are right to left when they come from the default locale |
| Language.StoredCodesAgree | app/src/main/java/com/ai_autocreate/utils/LanguageUtils.java:43-46 | for any stored code other than "iw" the corrected test agrees with the one as written |
| Theme.SystemDark | app/src/main/java/com/ai_autocreate/utils/ThemeUtils.java:61-69 | below API level 29 the system never counts as dark |
| Theme.NightBitsDecide | app/src/main/java/com/ai_autocreate/utils/ThemeUtils.java:61-69 | whatever the other bits of the configuration, the system is dark exactly when its night bits say yes, from API level 29 on |
| Theme.CurrentTheme | app/src/main/java/com/ai_autocreate/utils/ThemeUtils.java:44-46 | the stored theme, or "system" when none is stored |
| Theme.IsDarkMode | app/src/main/java/com/ai_autocreate/utils/ThemeUtils.java:48-59 | "dark" is dark, "light" is light, and every other value follows the system |
| Theme.SetAppTheme | app/src/main/java/com/ai_autocreate/utils/ThemeUtils.java:17-42 | the value is stored with every other setting kept, and a style is applied exactly when the context is an activity |
| Theme.SetThenCurrent | app/src/main/java/com/ai_autocreate/utils/ThemeUtils.java:17-46 | a theme that was set is the current one |
| Theme.StyleMatchesDarkMode | app/src/main/java/com/ai_autocreate/utils/ThemeUtils.java:17-59 | the style an activity is given is dark exactly when the app then reports dark mode, for every value and device |
| Theme.DefaultFollowsSystem | app/src/main/java/com/ai_autocreate/utils/ThemeUtils.java:44-69 | with nothing stored the app follows the system, and below API level 29 it is light |
| ProjectsAdapter.ColourClasses | app/src/main/java/com/ai_autocreate/adapters/ProjectsAdapter.java:71-84 | each colour stands for exactly its statuses: green for completed, red for failed or error, orange for processing, grey for all others |
| ProjectsAdapter.FormatDate | app/src/main/java/com/ai_autocreate/adapters/ProjectsAdapter.java:106-116 | a date the input pattern parses is shown reformatted, and any other text is shown as it is |
| ProjectsAdapter.Bind | app/src/main/java/com/ai_autocreate/adapters/ProjectsAdapter.java:50-89 | the title, type and date are shown up to the first missing one and nothing after it; the status, "unknown" when absent, is shown with its colour exactly when the date is; a thumbnail only for an existing source video |
| ProjectsAdapter.MissingStatusIsUnknown | app/src/main/java/com/ai_autocreate/adapters/ProjectsAdapter.java:68-84 | a project with no status shows "unknown" in grey |
| ProjectsAdapter.Rows | app/src/main/java/com/ai_autocreate/adapters/ProjectsAdapter.java:50-94 | one row per project, in order, each bound from its project |
| ProjectsAdapter.UpdateList | app/src/main/java/com/ai_autocreate/adapters/ProjectsAdapter.java:100-104 | the list becomes the new list, or empty when handed its own list |
| ProjectsAdapter.ConfigShown | app/src/main/java/com/ai_autocreate/adapters/ProjectsAdapter.java:50-84 | a configuration as the screens write it shows its title and workflow, status "unknown" in grey, and "completed" in green once the pipeline marks it done |
| StoragePaths.Under | app/src/main/java/com/ai_autocreate/utils/StoragePaths.java:8-46 | every fixed directory lies directly below the app root, named by its own name |
| StoragePaths.UnderInjective | app/src/main/java/com/ai_autocreate/utils/StoragePaths.java:12-46 | directories with different names are different directories |
| StoragePaths.DifferentTops | app/src/main/java/com/ai_autocreate/utils/StoragePaths.java:12-46 | files below two fixed directories whose names start with different letters are different files |
| StoragePaths.OutsideOtherTop | app/src/main/java/com/ai_autocreate/utils/StoragePaths.java:12-46 | a file below one fixed directory is not below another whose name starts with a different letter |
| StoragePaths.FixedDirsDistinct | app/src/main/java/com/ai_autocreate/utils/StoragePaths.java:12-46 | the nine fixed directories are pairwise distinct |
| StoragePaths.ProjectDir | app/src/main/java/com/ai_autocreate/utils/StoragePaths.java:48-50 | a project's directory lies directly below the projects directory, named by the project id |
| StoragePaths.ProjectDirInjective | app/src/main/java/com/ai_autocreate/utils/StoragePaths.java:48-50 | different projects get different directories |
| StoragePaths.ProjectSub | app/src/main/java/com/ai_autocreate/utils/StoragePaths.java:52-62 | a project subdirectory lies below the project's own directory and ends in its name |
| StoragePaths.ProjectSubdirs | app/src/main/java/com/ai_autocreate/utils/StoragePaths.java:52-62 | frames, audio and checkpoints of any projects never coincide, each lies strictly inside its project, and equal frames directories mean the same project |
| FileStore.FileName | app/src/main/java/com/ai_autocreate/utils/FileUtils.java:80 | the name is the path's last component: a suffix of the path holding no slash, the whole path when there is none |
| FileStore.Extension | app/src/main/java/com/ai_autocreate/utils/FileUtils.java:79-86 | the extension holds no dot and is empty for a name without one |
| FileStore.BaseName | app/src/main/java/com/ai_autocreate/utils/FileUtils.java:88-95 | the base name is a prefix of the file name, the whole name when it has no dot |
| FileStore.NameSplits | app/src/main/java/com/ai_autocreate/utils/FileUtils.java:79-95 | base name, a dot and extension put back together give the file name |
| FileStore.Read | app/src/main/java/com/ai_autocreate/utils/FileUtils.java:97-118 | a missing file reads as empty text, and whatever is read ends with a line separator unless empty |
| FileStore.ReadBack | app/src/main/java/com/ai_autocreate/utils/FileUtils.java:103-113 | a text without carriage returns reads back unchanged, or with a final line feed added when it lacked one |
| FileStore.LinesClean | app/src/main/java/com/ai_autocreate/utils/FileUtils.java:107-110 | no line the reader yields holds a line terminator |
| FileStore.NormalizeIdempotent | app/src/main/java/com/ai_autocreate/utils/FileUtils.java:97-118 | reading what was read gives it back, and the result holds no carriage return |
| FileStore.LinesAppend | app/src/main/java/com/ai_autocreate/utils/JSONLogger.java:61-73 | the lines of a cleanly ended text followed by more text are its lines followed by the lines of the rest |
| FileStore.LinesOfOne | app/src/main/java/com/ai_autocreate/utils/JSONLogger.java:69-71 | one line written with its line feed reads back as exactly that line |
| FileStore.LinesTerminate | app/src/main/java/com/ai_autocreate/utils/FileUtils.java:107-110 | lines free of terminators, each written with a line feed, read back as themselves |
| FileStore.Write | app/src/main/java/com/ai_autocreate/utils/FileUtils.java:120-135 | the file holds exactly the new content afterwards and no other file changes |
| FileStore.Append | app/src/main/java/com/ai_autocreate/utils/FileUtils.java:137-152 | the new content follows what the file held, a missing file counting as empty, and no other file changes |
| FileStore.WriteAppendLaws | app/src/main/java/com/ai_autocreate/utils/FileUtils.java:120-152 | a second write discards the first, two appends are one append of both texts, and a written file reads as its content |
| FileStore.Copy | app/src/main/java/com/ai_autocreate/utils/FileUtils.java:17-41 | a copy succeeds exactly when the source exists; the destination then holds the source's content, or nothing when it is the source itself, and no other file changes |
| FileStore.Move | app/src/main/java/com/ai_autocreate/utils/FileUtils.java:43-48 | a move succeeds exactly when the source exists, deletes it only after the copy, and leaves other files alone |
| FileStore.MoveThereAndBack | app/src/main/java/com/ai_autocreate/utils/FileUtils.java:43-48 | moving a file to a free path and back restores every file |
| FileStore.MoveOntoItselfLosesFile | app/src/main/java/com/ai_autocreate/utils/FileUtils.java:17-48 | moving a file onto its own path truncates it and then deletes it |
| AppLog.EntryJson | app/src/main/java/com/ai_autocreate/utils/JSONLogger.java:31-59 | an entry object has exactly four members and no type |
| AppLog.EntryReads | app/src/main/java/com/ai_autocreate/utils/JSONLogger.java:31-59 | a reader gets back the agent, date and timestamp, and the message or the data object, whichever was logged, never both |
| AppLog.LogFile | app/src/main/java/com/ai_autocreate/utils/JSONLogger.java:64-65 | the day's file is app_log_<day>.jsonl in the agent-results directory |
| AppLog.LogFileInjective | app/src/main/java/com/ai_autocreate/utils/JSONLogger.java:64-65 | different days log to different files |
| AppLog.Log | app/src/main/java/com/ai_autocreate/utils/JSONLogger.java:61-73 | the entry and a line feed go after what the day's file held, and every other file is kept |
| AppLog.LogAddsOneLine | app/src/main/java/com/ai_autocreate/utils/JSONLogger.java:61-73 | logging one line to a cleanly ended log adds exactly that line after the earlier ones |
| AppLog.LogReadsBack | app/src/main/java/com/ai_autocreate/utils/JSONLogger.java:61-73 | a day's log written only by the logger reads back as its entries, in the order they were logged |
| AppLog.LogSaid | app/src/main/java/com/ai_autocreate/utils/JSONLogger.java:31-73 | logging a run of messages, each to the file of its own day, changes no file but log files |
| AppLog.LogSaidKeepsFiles | app/src/main/java/com/ai_autocreate/utils/JSONLogger.java:61-73 | logging removes no file |
| AppLog.LogSaidAddsOnlyLogs | app/src/main/java/com/ai_autocreate/utils/JSONLogger.java:61-73 | logging creates no file but log files |
| AppLog.LogSaidOneDay | app/src/main/java/com/ai_autocreate/utils/JSONLogger.java:61-73 | within one day, logging messages is logging their entry lines to that day's file |
| AppLog.LogAllAppends | app/src/main/java/com/ai_autocreate/utils/JSONLogger.java:61-73 | appending lines to a cleanly ended log reads back as the earlier lines followed by the new ones, and it still ends cleanly |
| AppLog.LogSaidReadsBack | app/src/main/java/com/ai_autocreate/utils/JSONLogger.java:31-73 | within one day, a run of messages appends exactly their entry lines, in order, to a cleanly ended log, which still ends cleanly |
| AppLog.NotLogFile | app/src/main/java/com/ai_autocreate/utils/JSONLogger.java:64-65 | a file in the agent-results directory whose name does not start with "a" is not a log file |
| AppLog.OutsideResultsNotLogFile | app/src/main/java/com/ai_autocreate/utils/JSONLogger.java:64-65 | no file under another top directory whose name does not start with "a" is a log file |
| MediaUtils.FormatDuration | app/src/main/java/com/ai_autocreate/utils/MediaUtils.java:149-162 | the clock text is at least five characters, two-digit fields separated by colons |
| MediaUtils.FormatDurationReadsBack | app/src/main/java/com/ai_autocreate/utils/MediaUtils.java:149-162 | the clock text of a non-negative duration reads back as its whole seconds, and is five characters exactly below one hour |
| MediaUtils.DurationFields | app/src/main/java/com/ai_autocreate/utils/MediaUtils.java:150-161 | the shown fields are the whole seconds split into hours, minutes below 60 and seconds below 60 |
| MediaUtils.Pad2Value | app/src/main/java/com/ai_autocreate/utils/MediaUtils.java:158-160 | a field printed two digits wide reads back as itself, and takes exactly two characters below 100 |
| MediaUtils.FileSizeShown | app/src/main/java/com/ai_autocreate/utils/MediaUtils.java:164-174 | the size text names a unit the size reaches and below whose next unit it lies, and the number shown is the size in that unit rounded down |
| MediaUtils.Factor | app/src/main/java/com/ai_autocreate/utils/MediaUtils.java:76-77 | doubling in 32-bit arithmetic gives the powers of two up to 2^30, then the wrapped negative 2^31, then 0 |
| MediaUtils.Doubled | app/src/main/java/com/ai_autocreate/utils/MediaUtils.java:77 | one 32-bit doubling steps from each factor to the next |
| MediaUtils.Search | app/src/main/java/com/ai_autocreate/utils/MediaUtils.java:76-78 | a factor the loop stops at fails the loop test |
| MediaUtils.InSampleSize | app/src/main/java/com/ai_autocreate/utils/MediaUtils.java:67-82 | 1 when the image already fits; otherwise the factor at which the doubling loop stops, or a division by zero once the factor wraps to 0 |
| MediaUtils.FirstStopIsFirst | app/src/main/java/com/ai_autocreate/utils/MediaUtils.java:76-78 | the loop stops at the first power of two at which its test fails |
| MediaUtils.SampleIsLeastPowerOfTwo | app/src/main/java/com/ai_autocreate/utils/MediaUtils.java:67-82 | with positive requested dimensions the factor never wraps: it is the least power of two, at most 2^30, at which a half dimension divided by it falls below the request |
| MediaUtils.VideoDuration | app/src/main/java/com/ai_autocreate/utils/MediaUtils.java:102-119 | the clock text of a readable, parseable duration, and "00:00" for an unreadable source, a missing key or a value that is not a long |
| MediaUtils.VideoResolution | app/src/main/java/com/ai_autocreate/utils/MediaUtils.java:121-138 | width, "x" and height when both are known, and "Unknown" otherwise; the two numbers can be read back around the "x" |
| HFClient.AuthHeaders | app/src/main/java/com/ai_autocreate/utils/HFClient.java:83-86 | a bearer credential is sent exactly for a present, non-empty key, as section 2.1 of RFC 6750 spells it |
| HFClient.BearerExactlyWithKey | app/src/main/java/com/ai_autocreate/utils/HFClient.java:183-185 | JSON requests and uploads alike carry an Authorization header exactly when the key is present and non-empty, and it is then "Bearer " and the key |
| HFClient.Attempt | app/src/main/java/com/ai_autocreate/utils/HFClient.java:96-116 | an attempt yields a response exactly on status 200 with a body that parses as an object, and the response is that object |
| HFClient.ComplaintNames | app/src/main/java/com/ai_autocreate/utils/HFClient.java:109-116 | a failed attempt logs the status and endpoint when the answer was not 200, and the exception's message otherwise, the parser's included; an unreadable file logs the reader's message |
| HFClient.UploadAttempt | app/src/main/java/com/ai_autocreate/utils/HFClient.java:196-205 | an upload attempt fails when the file cannot be read, and otherwise fares as a plain attempt |
| HFClient.Retry | app/src/main/java/com/ai_autocreate/utils/HFClient.java:37-64 | the loop's result, attempts, pauses and logged lines are those of the reference definition of the retry policy |
| HFClient.RetryNotes | app/src/main/java/com/ai_autocreate/utils/HFClient.java:37-64 | a retrying call logs one line per failed attempt, that attempt's own, in order |
| HFClient.RetryAttempts | app/src/main/java/com/ai_autocreate/utils/HFClient.java:37-64 | at most the attempts left and at least one are made; the response is the first any attempt produced and nothing runs after it; an empty result without giving up means an interrupted pause |
| HFClient.RetryPauses | app/src/main/java/com/ai_autocreate/utils/HFClient.java:44-62 | the pauses are a prefix of the delays, one per failed attempt but the last, so the 4000 ms delay is never used |
| HFClient.RetryFacts | app/src/main/java/com/ai_autocreate/utils/HFClient.java:36-68 | a call makes one to three attempts, returns the first response any attempt produced, and gives up exactly after three failures with pauses of 1000 and 2000 ms |
| HFClient.AllFailing | app/src/main/java/com/ai_autocreate/utils/HFClient.java:36-68 | when every attempt fails and no pause is interrupted, three attempts are made, each logs its line, 1000 then 2000 ms are waited and null is returned |
| HFClient.RequestModel | app/src/main/java/com/ai_autocreate/utils/HFClient.java:36-68 | the call returns what the retry policy yields over its attempts, and logs each failed attempt's line and then its closing line exactly when it gave up |
| HFClient.RequestLog | app/src/main/java/com/ai_autocreate/utils/HFClient.java:36-131 | every logged attempt line belongs to an attempt that failed and names what went wrong; a call that gave up logs three attempt lines, one that got a response one per attempt before it |
| HFClient.UploadFile | app/src/main/java/com/ai_autocreate/utils/HFClient.java:133-165 | the upload returns what the retry policy yields, logs each failed attempt's line and its closing line exactly when it gave up, and never returns a response for an unreadable file |
| HFClient.UnreadableUploadLog | app/src/main/java/com/ai_autocreate/utils/HFClient.java:133-165 | an unreadable file, with no pause interrupted, logs the reader's message three times and gives up after 1000 and 2000 ms, whatever each connection came to (see Left out) |
| HFClient.Boundary | app/src/main/java/com/ai_autocreate/utils/HFClient.java:173 | every boundary starts with "----WebKitFormBoundary" |
| HFClient.PartHead | app/src/main/java/com/ai_autocreate/utils/HFClient.java:192-194 | the part opens with the delimiter line and its headers end with the octet-stream content type and a blank line |
| HFClient.MultipartBody | app/src/main/java/com/ai_autocreate/utils/HFClient.java:192-207 | the body is exactly as long as the head, the file and the tail together |
| HFClient.FilePart | app/src/main/java/com/ai_autocreate/utils/HFClient.java:192-207 | a recovered part is as long as the body without its framing |
| HFClient.MultipartFraming | app/src/main/java/com/ai_autocreate/utils/HFClient.java:192-207 | the body opens with the delimiter line and closes with the close delimiter of section 5.1.1 of RFC 2046, and removing the framing gives the file's bytes back |
| HFClient.Deliver | app/src/main/java/com/ai_autocreate/utils/HFClient.java:294-300 | a response reaches onSuccess and null reaches onError with "Unknown error" |
| ModelEnvelope.Read | app/src/main/java/com/ai_autocreate/agents/ScriptGeneratorAgent.java:62-65 | no response without member "0"; text exactly when "0" is an array whose first element is an object with generated_text; an exception exactly when "0" or its first element has the wrong kind |
| ModelEnvelope.Envelope | app/src/main/java/com/ai_autocreate/agents/ScriptGeneratorAgent.java:62-65 | the canonical one-candidate response reads as its text |
| FailFast.Executed | app/src/main/java/com/ai_autocreate/agents/OrchestratorAgent.java:45-93 | the steps that run are a prefix of the steps, never empty for a non-empty list; every one but the last succeeded, and a run that stops early stops on a failure |
| FailFast.ExecutedAllOk | app/src/main/java/com/ai_autocreate/agents/OrchestratorAgent.java:45-101 | a run completes exactly when every step succeeds, and it then runs them all |
| FailFast.LastOkIffAllOk | app/src/main/java/com/ai_autocreate/agents/OrchestratorAgent.java:89-101 | a non-empty run completes exactly when the last step it ran succeeded |
| FailFast.Run | app/src/main/java/com/ai_autocreate/agents/OrchestratorAgent.java:45-93 | the loop that counts the steps it runs runs exactly the fail-fast prefix |
| FailFast.StopsAtFirstFailure | app/src/main/java/com/ai_autocreate/agents/OrchestratorAgent.java:45-93 | a run stops at the first failing step, having run it and every step before it |
| FailFast.Drive | app/src/main/java/com/ai_autocreate/fragments/HomeFragment.java:184-256 | a driver announces the progress of exactly the stages it runs, completes exactly when every stage passes, and otherwise reports the failing stage's message |
| FailFast.DriveAllPass | app/src/main/java/com/ai_autocreate/fragments/HomeFragment.java:184-256 | when every stage passes the driver completes after announcing every stage's progress |
| FailFast.DriveProgressIsPrefix | app/src/main/java/com/ai_autocreate/fragments/HomeFragment.java:184-256 | a driver announces a prefix of its progress table, so a table that never decreases is never reported decreasing |
| ScriptText.ExtractKeywords | app/src/main/java/com/ai_autocreate/agents/OrchestratorAgent.java:418-432 | the keywords are the whitespace-separated words whose UTF-16 length exceeds four, in input order |
| ScriptText.KeywordsOfPieces | app/src/main/java/com/ai_autocreate/agents/OrchestratorAgent.java:424-429 | the keywords are the long pieces between single whitespace characters, so the run-collapsing and trailing-token rules of the split do not matter |
| ScriptText.KeywordsOfJoin | app/src/main/java/com/ai_autocreate/agents/OrchestratorAgent.java:418-432 | the keywords of two texts joined by whitespace are the keywords of each, in order |
| ScriptText.KeywordsOfWord | app/src/main/java/com/ai_autocreate/agents/OrchestratorAgent.java:424-429 | a single word is a keyword exactly when its UTF-16 length exceeds four |
| ScriptText.PairsKeyword | app/src/main/java/com/ai_autocreate/agents/OrchestratorAgent.java:426 | three characters outside the Basic Multilingual Plane make a keyword, being six units long |
| ScriptText.LongWordsNonEmpty | app/src/main/java/com/ai_autocreate/agents/OrchestratorAgent.java:426 | empty words never become keywords |
| JavaString.Length16Append | app/src/main/java/com/ai_autocreate/agents/OrchestratorAgent.java:426 | the UTF-16 length of a concatenation is the sum of the lengths |
| JavaString.Prefix16 | app/src/main/java/com/ai_autocreate/activities/VideoReimaginerActivity.java:232 | the first n code units have length n, capped at the text's length, and are a prefix of the text or a prefix followed by the stand-in for a pair cut in two |
| JavaString.Suffix16 | app/src/main/java/com/ai_autocreate/adapters/APIKeysAdapter.java:53 | the last n code units have length n, capped at the text's length, and are a suffix of the text or a suffix preceded by the stand-in for a pair cut in two |
| JavaString.Prefix16Whole | app/src/main/java/com/ai_autocreate/activities/VideoReimaginerActivity.java:232 | a text no longer than n units is kept whole |
| JavaString.Prefix16Local | app/src/main/java/com/ai_autocreate/adapters/APIKeysAdapter.java:53 | the first n units depend only on the first n characters |
| JavaString.Suffix16Local | app/src/main/java/com/ai_autocreate/adapters/APIKeysAdapter.java:53 | the last n units depend only on the last n characters |
| JavaString.Prefix16Bmp | app/src/main/java/com/ai_autocreate/activities/VideoReimaginerActivity.java:232 | inside the Basic Multilingual Plane the first n units are the first n characters |
| JavaString.Suffix16Bmp | app/src/main/java/com/ai_autocreate/adapters/APIKeysAdapter.java:53 | inside the Basic Multilingual Plane the last n units are the last n characters |
| JavaString.Prefix16Pairs | app/src/main/java/com/ai_autocreate/activities/VideoReimaginerActivity.java:232 | on text made only of surrogate pairs, 2k units are k characters |
| JavaString.Length16Pairs | app/src/main/java/com/ai_autocreate/adapters/APIKeysAdapter.java:52 | text made only of surrogate pairs is twice as many units long |
| JavaString.TrimKeepsText | app/src/main/java/com/ai_autocreate/activities/IdeaGalleryActivity.java:160 | `trim` keeps a text that starts and ends with a visible character unchanged |
| ScriptText.ExtractScenes | app/src/main/java/com/ai_autocreate/agents/OrchestratorAgent.java:434-452 | the scenes are the lines opening with "SCENE:" or "Scene:", each without its prefix and trimmed |
| ScriptText.ExtractDialogue | app/src/main/java/com/ai_autocreate/agents/OrchestratorAgent.java:454-466 | the dialogue is every other line holding a colon, trimmed, and no entry is ever empty |
| ScriptText.TrimKeeps | app/src/main/java/com/ai_autocreate/agents/OrchestratorAgent.java:461 | trimming never removes a character above U+0020, so a kept colon survives it |
| ScriptText.ScenesAndDialogueDisjoint | app/src/main/java/com/ai_autocreate/agents/OrchestratorAgent.java:434-466 | no line is both a scene and a dialogue line, so together they never outnumber the lines of the script |
| ScriptText.ScanLinesAppend | app/src/main/java/com/ai_autocreate/agents/OrchestratorAgent.java:434-466 | scenes and dialogue are found line by line: the scan of joined lines is the scans of each part |
| Orchestrator.DefaultModelEndpoint | app/src/main/java/com/ai_autocreate/agents/OrchestratorAgent.java:396-410 | "image" and "audio" each get their own model, and every other category the text model |
| Orchestrator.ScriptPrompt | app/src/main/java/com/ai_autocreate/agents/OrchestratorAgent.java:177-181 | the script request opens with the prompt and closes with the instruction to write scenes, dialogue and descriptions |
| Orchestrator.RequestShape | app/src/main/java/com/ai_autocreate/agents/OrchestratorAgent.java:126-327 | each request goes to the model of its kind with its text as "inputs", and only the two text requests carry parameters |
| Orchestrator.StepIdsDistinct | app/src/main/java/com/ai_autocreate/agents/OrchestratorAgent.java:122-360 | the five step identifiers are distinct, so a step result names its step |
| Orchestrator.DataObject | app/src/main/java/com/ai_autocreate/agents/OrchestratorAgent.java:56-76 | a step's data object reads back exactly when the step holds an object there |
| Orchestrator.StepJsonReads | app/src/main/java/com/ai_autocreate/agents/OrchestratorAgent.java:49-90 | reading a step back gives its identifier, success flag, message and data object |
| Orchestrator.EnvelopeStep | app/src/main/java/com/ai_autocreate/agents/OrchestratorAgent.java:138-164 | a text step succeeds exactly when the response carries text; otherwise no data, and the message says no response, the exception, or nothing for a malformed answer |
| Orchestrator.AnalyzePrompt | app/src/main/java/com/ai_autocreate/agents/OrchestratorAgent.java:118-167 | one text request, success exactly when the response carries text, and then the analysis object with that text |
| Orchestrator.SceneObjects | app/src/main/java/com/ai_autocreate/agents/OrchestratorAgent.java:442-444 | one description object per scene, in order |
| Orchestrator.GenerateScript | app/src/main/java/com/ai_autocreate/agents/OrchestratorAgent.java:169-231 | one text request carrying the analysis, success exactly when the response carries text, and then the script object with its scenes and dialogue |
| Orchestrator.DescriptionsFrom | app/src/main/java/com/ai_autocreate/agents/OrchestratorAgent.java:244-250 | the image prompts read from scene objects are never empty |
| Orchestrator.LinesFrom | app/src/main/java/com/ai_autocreate/agents/OrchestratorAgent.java:306-311 | the dialogue lines read are never empty |
| Orchestrator.ImagePrompts | app/src/main/java/com/ai_autocreate/agents/OrchestratorAgent.java:241-251 | a missing script gives no prompts, and every prompt read is non-empty |
| Orchestrator.DialogueLines | app/src/main/java/com/ai_autocreate/agents/OrchestratorAgent.java:303-312 | a missing script gives no lines, and every line read is non-empty |
| Orchestrator.ItemRequests | app/src/main/java/com/ai_autocreate/agents/OrchestratorAgent.java:255-266 | one request per item, in item order |
| Orchestrator.EntriesFrom | app/src/main/java/com/ai_autocreate/agents/OrchestratorAgent.java:255-277 | the records are those of the answered items: all of them when every request is answered, none when none is |
| Orchestrator.PerItemStep | app/src/main/java/com/ai_autocreate/agents/OrchestratorAgent.java:233-293 | a media step succeeds exactly when its items can be read, however many requests go unanswered, and then records the answered ones |
| Orchestrator.GenerateImages | app/src/main/java/com/ai_autocreate/agents/OrchestratorAgent.java:233-293 | the images step succeeds exactly when the scene descriptions can be read, making one image request per prompt |
| Orchestrator.GenerateAudio | app/src/main/java/com/ai_autocreate/agents/OrchestratorAgent.java:295-354 | the audio step succeeds exactly when the dialogue can be read, making one audio request per line |
| Orchestrator.DescriptionsOfSceneObjects | app/src/main/java/com/ai_autocreate/agents/OrchestratorAgent.java:244-250 | scene objects built from descriptions read back as the non-empty descriptions |
| Orchestrator.LinesOfStrings | app/src/main/java/com/ai_autocreate/agents/OrchestratorAgent.java:306-311 | an array of non-empty strings reads back as those lines |
| Orchestrator.ScriptFeedsMediaSteps | app/src/main/java/com/ai_autocreate/agents/OrchestratorAgent.java:198-204 | on the script object the script step builds, the images step asks for the non-empty scenes and the audio step for every dialogue line |
| Orchestrator.FinalVideoPath | app/src/main/java/com/ai_autocreate/agents/OrchestratorAgent.java:367-368 | the final video lies inside the project's directory |
| Orchestrator.AssembleVideo | app/src/main/java/com/ai_autocreate/agents/OrchestratorAgent.java:356-394 | the assembly makes no request and succeeds with the final video path exactly when its wait is not interrupted |
| Orchestrator.Candidates | app/src/main/java/com/ai_autocreate/agents/OrchestratorAgent.java:45-87 | the five steps come in the fixed order analyse, script, images, audio, assemble |
| Orchestrator.InputError | app/src/main/java/com/ai_autocreate/agents/OrchestratorAgent.java:32-34 | reading the input fails exactly when project_id or prompt is missing or project_config is not an object |
| Orchestrator.ResultJsonReads | app/src/main/java/com/ai_autocreate/agents/OrchestratorAgent.java:37-111 | the result reads as successful exactly when done, carries the outcome's message, names the project unless the input was unreadable, and lists the steps only on success |
| Orchestrator.Finish | app/src/main/java/com/ai_autocreate/agents/OrchestratorAgent.java:45-101 | the steps reported are those of the fail-fast run, the requests are those of the steps that ran, and the run is done exactly when all five succeed |
| Orchestrator.Process | app/src/main/java/com/ai_autocreate/agents/OrchestratorAgent.java:30-116 | an unreadable input ends the run at once with no request; any other input runs the five steps over the responses |
| Orchestrator.FinishStepsInOrder | app/src/main/java/com/ai_autocreate/agents/OrchestratorAgent.java:45-101 | one to five steps run in the fixed order, all but the last succeeding; the run is done exactly when the fifth succeeds, and a halted run ends with the failed step |
| Orchestrator.ProcessStepsInOrder | app/src/main/java/com/ai_autocreate/agents/OrchestratorAgent.java:30-101 | on a readable input the steps run in the fixed order and stop at the first failure |
| Orchestrator.OnlyThreeStepsFail | app/src/main/java/com/ai_autocreate/agents/OrchestratorAgent.java:65-83 | after a successful script the media steps cannot fail, so a halted run stops after one, two or five steps |
| Orchestrator.HaltsAtZeroOneOrFour | app/src/main/java/com/ai_autocreate/agents/OrchestratorAgent.java:45-93 | five steps whose middle two succeed once the script does halt after one, two or five steps |
| Orchestrator.SharedScriptFile | app/src/main/java/com/ai_autocreate/agents/OrchestratorAgent.java:206-211 | the script is saved under the shared project that `getCurrentProjectId` names, below the projects directory, and is no log file |
| Orchestrator.RecordFile | app/src/main/java/com/ai_autocreate/agents/OrchestratorAgent.java:468-472 | the record lies in the agent-results directory under the agent's own name and is no log file |
| Orchestrator.RecordFileNotOther | app/src/main/java/com/ai_autocreate/agents/OrchestratorAgent.java:468-472 | a record is neither the sanity report nor any results file whose name starts with another letter |
| Orchestrator.Recorded | app/src/main/java/com/ai_autocreate/agents/OrchestratorAgent.java:468-475 | `logResult` writes a record exactly for a result that carries a string `project_id` |
| Orchestrator.Leaves | app/src/main/java/com/ai_autocreate/agents/OrchestratorAgent.java:45-101 | a run's record holds its rendered result, the shared script holds the script step's text, every file other than the log, the shared script and the record keeps its content, and every new file is one of those |
| Orchestrator.LeavesLogs | app/src/main/java/com/ai_autocreate/agents/OrchestratorAgent.java:104-378 | the lines a run logs are appended, in order, to the end of the day's app log |
| Orchestrator.LeavesKeepsLogs | app/src/main/java/com/ai_autocreate/agents/OrchestratorAgent.java:206-211 | writing the shared script and the record changes no log file |
| Orchestrator.ProcessRecorded | app/src/main/java/com/ai_autocreate/agents/OrchestratorAgent.java:30-116 | `process` records a run exactly when its input is readable, under the input's project id |
| Orchestrator.RecordedResult | app/src/main/java/com/ai_autocreate/agents/OrchestratorAgent.java:37-100 | every result object but the unreadable input's is recorded under the project it names |
| Orchestrator.SavedScriptFollowsStep | app/src/main/java/com/ai_autocreate/agents/OrchestratorAgent.java:195-216 | a script is saved exactly when the script step ran and succeeded, and its text is the one in the step's script object |
| SanityCheck.StorageMBAsWritten | app/src/main/java/com/ai_autocreate/agents/SanityCheckAgent.java:118-119 | the block count and block size are multiplied in 32-bit arithmetic and only the wrapped product is widened |
| SanityCheck.StorageOverflowExample | app/src/main/java/com/ai_autocreate/agents/SanityCheckAgent.java:118-124 | a 4 GiB volume in 4 KiB blocks wraps to 0 and fails the check although 4096 MB are free |
| SanityCheck.StorageMB | app/src/main/java/com/ai_autocreate/agents/SanityCheckAgent.java:118-119 | with the product taken in 64 bits, the free space in MB is the free bytes divided by 2^20, rounded down |
| SanityCheck.StorageVerdictByBytes | app/src/main/java/com/ai_autocreate/agents/SanityCheckAgent.java:118-124 | the storage check passes exactly when at least 500 MB worth of bytes are free |
| SanityCheck.MemoryMB | app/src/main/java/com/ai_autocreate/agents/SanityCheckAgent.java:195-200 | the heap headroom in MB is what may still be allocated plus what is free, and is never negative |
| SanityCheck.ProbeDirectories | app/src/main/java/com/ai_autocreate/agents/SanityCheckAgent.java:297-304 | every required directory is usable exactly when the loop ends with all found; otherwise it stops at the first unusable one, having probed it and those before |
| SanityCheck.Evaluate | app/src/main/java/com/ai_autocreate/agents/SanityCheckAgent.java:109-326 | corrected half of the storage finding: with the free space taken in 64 bits, storage passes at 500 MB, permissions need a mounted volume and a creatable test directory, memory passes at 200 MB, FFmpeg needs the binary or the kit, and directories need every required one usable |
| SanityCheck.EvaluateAsWritten | app/src/main/java/com/ai_autocreate/agents/SanityCheckAgent.java:109-326 | the program as written: the storage figure is the wrapped 32-bit product divided down to MB and passes at 500; the other four verdicts are the corrected ones |
| SanityCheck.AsWrittenAgreesBelowTwoGiB | app/src/main/java/com/ai_autocreate/agents/SanityCheckAgent.java:118-119 | while the free bytes fit in an int, the program's verdicts equal the corrected ones |
| SanityCheck.Failure | app/src/main/java/com/ai_autocreate/agents/SanityCheckAgent.java:43-77 | a failed check contributes exactly one message and a passed one none |
| SanityCheck.Aggregate | app/src/main/java/com/ai_autocreate/agents/SanityCheckAgent.java:39-89 | the run passes exactly when storage, permissions and directories pass; errors count the failed blocking checks, and warnings appear exactly when memory or FFmpeg fails |
| SanityCheck.RunCheck | app/src/main/java/com/ai_autocreate/agents/SanityCheckAgent.java:30-107 | corrected half of the storage finding: the run is the aggregation of the five checks' verdicts with the storage figure taken in 64 bits |
| SanityCheck.RunCheckAsWritten | app/src/main/java/com/ai_autocreate/agents/SanityCheckAgent.java:30-107 | the run as written: the aggregation of the five verdicts with the wrapped storage figure |
| SanityCheck.RunChecks | app/src/main/java/com/ai_autocreate/agents/SanityCheckAgent.java:30-89 | the five checks run in order, the directories probed one by one, aggregate to the verdicts for the given storage figure |
| SanityCheck.TenGiBFailsAsWritten | app/src/main/java/com/ai_autocreate/agents/SanityCheckAgent.java:118-124 | with 10 GiB free in 4 KiB blocks and every other blocking check fine, the storage figure as written is -2048 MB and the run fails with the storage message alone, while the corrected run passes |
| SanityCheck.RunCheckVerdict | app/src/main/java/com/ai_autocreate/agents/SanityCheckAgent.java:80-89 | corrected half of the storage finding: the run passes exactly when storage, permissions and every required directory are fine, and a failed run's message counts its errors |
| SanityCheck.WarningsNeverBlock | app/src/main/java/com/ai_autocreate/agents/SanityCheckAgent.java:55-69 | two devices that agree on storage, permissions and directories get the same verdict and errors, whatever their memory and FFmpeg |
| SanityCheck.VerdictJsonReads | app/src/main/java/com/ai_autocreate/agents/SanityCheckAgent.java:43-77 | reading a check back gives its verdict and its message, never the fallback |
| SanityCheck.ReportJsonReads | app/src/main/java/com/ai_autocreate/agents/SanityCheckAgent.java:80-94 | reading the result back gives the verdict, the message and the agent name |
| SanityCheck.Record | app/src/main/java/com/ai_autocreate/agents/SanityCheckAgent.java:328-335 | the run's result object replaces the content of agent_results/SanityCheckAgent/sanity_check.json; every other file is kept and only that one can be added |
| SanityCheck.ReportFileInResults | app/src/main/java/com/ai_autocreate/agents/SanityCheckAgent.java:330 | the report lies in the agent-results directory and is not an app-log file |
| SanityCheck.ReportNotRecord | app/src/main/java/com/ai_autocreate/agents/SanityCheckAgent.java:330 | the report is not the analysis record of any agent whose name does not start with "S" |
| SanityCheck.LatestRunWins | app/src/main/java/com/ai_autocreate/agents/SanityCheckAgent.java:328-335 | the report holds the latest run only: recording twice is recording the second result |
| ScriptGenerator.ScriptPrompt | app/src/main/java/com/ai_autocreate/agents/ScriptGeneratorAgent.java:40-46 | the request text is the lead, the prompt and the instructions, in that order |
| ScriptGenerator.PromptRecovered | app/src/main/java/com/ai_autocreate/agents/ScriptGeneratorAgent.java:40-46 | the prompt can be read back from the request text, so different prompts make different requests |
| ScriptGenerator.PayloadReads | app/src/main/java/com/ai_autocreate/agents/ScriptGeneratorAgent.java:48-54 | the body carries the request text as inputs and an 800-token bound |
| ScriptGenerator.Clean | app/src/main/java/com/ai_autocreate/agents/ScriptGeneratorAgent.java:67-70 | an answer that does not open with the request is kept as it is; one that does loses at least the request |
| ScriptGenerator.EchoRemoved | app/src/main/java/com/ai_autocreate/agents/ScriptGeneratorAgent.java:67-70 | a model that echoes the request before its continuation yields the trimmed continuation |
| ScriptGenerator.Generate | app/src/main/java/com/ai_autocreate/agents/ScriptGeneratorAgent.java:60-80 | a script exactly for a response carrying text, cleaned of the echoed request; no response, a malformed one and an exception each give their own outcome |
| ScriptGenerator.ResultJsonReads | app/src/main/java/com/ai_autocreate/agents/ScriptGeneratorAgent.java:32-97 | the result reads as successful exactly for a script, with the message of each outcome, the prompt unless reading threw, and the script when there is one |
| ScriptGenerator.Logged | app/src/main/java/com/ai_autocreate/agents/ScriptGeneratorAgent.java:59-86 | a generation logs the client's lines and then one line of its own, the exception's message, exactly when reading the envelope threw |
| ScriptGenerator.Record | app/src/main/java/com/ai_autocreate/agents/ScriptGeneratorAgent.java:59-117 | the generation's messages go to the app log; every result but the error result replaces the content of the one result file; no other file changes |
| ScriptGenerator.GenerationLogLines | app/src/main/java/com/ai_autocreate/agents/ScriptGeneratorAgent.java:59-117 | within one day a cleanly ended log reads back as its earlier lines followed by the generation's messages, and the result file is not one of the logs |
| ScriptGenerator.LatestResultWins | app/src/main/java/com/ai_autocreate/agents/ScriptGeneratorAgent.java:110-117 | apart from the app log, recording a second result erases every trace of the first |
| AgentRecords.AnalysisFile | app/src/main/java/com/ai_autocreate/agents/ImageInterpreterAgent.java:142-144 | an input's record lies in the agent's own results directory |
| AgentRecords.AnalysisFileInResults | app/src/main/java/com/ai_autocreate/agents/ImageInterpreterAgent.java:142-144 | every analysis record lies in the agent-results directory |
| AgentRecords.AnalysisFileNamed | app/src/main/java/com/ai_autocreate/agents/ImageInterpreterAgent.java:142-144 | an input's record is named after the input's file name, with the `.json` extension |
| AgentRecords.SameFileIffSameName | app/src/main/java/com/ai_autocreate/agents/ImageInterpreterAgent.java:142-144 | two inputs share a record exactly when their file names agree, whatever directories they sit in |
| AgentRecords.Record | app/src/main/java/com/ai_autocreate/agents/ImageInterpreterAgent.java:140-149 | the result text replaces the content of the input's record and no other file changes |
| AgentRecords.RecordKeepsLogs | app/src/main/java/com/ai_autocreate/agents/ImageInterpreterAgent.java:140-149 | an agent's record is never a log file, so recording leaves every log as it was |
| AgentRecords.SameNameOverwrites | app/src/main/java/com/ai_autocreate/agents/AudioContextAgent.java:206-215 | analysing a second input with the same file name, from any directory, overwrites the first one's record |
| TagSteps.DurationStep | app/src/main/java/com/ai_autocreate/agents/AudioContextAgent.java:121-127 | the duration is recorded in milliseconds and as clock text exactly when its tag is present and parses as a long; an unparsable tag stops the extraction, and the stop names that text |
| TagSteps.IntStep | app/src/main/java/com/ai_autocreate/agents/AudioContextAgent.java:130-145 | a numeric tag is recorded as its int when present and parsable; an unparsable one stops the extraction, naming its text, and a stopped extraction keeps its first cause; nothing else changes |
| TagSteps.TextStep | app/src/main/java/com/ai_autocreate/agents/AudioContextAgent.java:148-156 | a text tag is recorded as it is when present, a stopped extraction stays as it is, and nothing else changes |
| ImageInterpreter.Interpret | app/src/main/java/com/ai_autocreate/agents/ImageInterpreterAgent.java:42-86 | a missing file and an undecodable one end the analysis before any request; only a decoded image is described by the model |
| ImageInterpreter.ResultJsonReads | app/src/main/java/com/ai_autocreate/agents/ImageInterpreterAgent.java:35-107 | the result reads as successful exactly when the model's answer carried text, with each outcome's message, the input path unless reading the answer threw, and an analysis only on success |
| ImageInterpreter.AnalysisReads | app/src/main/java/com/ai_autocreate/agents/ImageInterpreterAgent.java:73-78 | a successful result carries the model's text as the description, next to the image's dimensions |
| ImageInterpreter.ImageInfoReads | app/src/main/java/com/ai_autocreate/agents/ImageInterpreterAgent.java:113-132 | the image information reads back as the bitmap's width and height |
| ImageInterpreter.Messages | app/src/main/java/com/ai_autocreate/agents/ImageInterpreterAgent.java:44-101 | each outcome carries its own message: no file, not loaded, no response, invalid format, or the exception |
| ImageInterpreter.Logged | app/src/main/java/com/ai_autocreate/agents/ImageInterpreterAgent.java:66-95 | an analysis logs the client's lines exactly when the model was asked, and one line of its own, the exception's message, exactly when reading the answer threw |
| ImageInterpreter.AnalyzeImage | app/src/main/java/com/ai_autocreate/agents/ImageInterpreterAgent.java:35-107 | the client's lines and, when reading the answer threw, the error line go to the app log; the result is recorded to the input's file unless reading the answer threw |
| ImageInterpreter.UnreadableFileShortCircuits | app/src/main/java/com/ai_autocreate/agents/ImageInterpreterAgent.java:42-56 | a missing or undecodable file sends no request and so logs nothing, fails with its own message whatever the model would have said, and is still recorded |
| ImageInterpreter.OnlyResultFileChanges | app/src/main/java/com/ai_autocreate/agents/ImageInterpreterAgent.java:91-95 | besides the app log, no file other than the input's record ever changes |
| ImageInterpreter.AnalysisLogLines | app/src/main/java/com/ai_autocreate/agents/ImageInterpreterAgent.java:66-95 | within one day a cleanly ended log reads back as its earlier lines followed by the analysis's messages, and recording the result leaves the log alone |
| AudioContext.AfterDurationKeeps | app/src/main/java/com/ai_autocreate/agents/AudioContextAgent.java:129-156 | the tags read after the duration leave the duration members alone |
| AudioContext.DurationRecorded | app/src/main/java/com/ai_autocreate/agents/AudioContextAgent.java:121-127 | the duration is recorded with its clock text exactly when its tag is present and parses, and an unparsable duration leaves the metadata empty |
| AudioContext.NumbersGoing | app/src/main/java/com/ai_autocreate/agents/AudioContextAgent.java:121-145 | when every numeric tag parses, the extraction reaches the text tags |
| AudioContext.TextsKeep | app/src/main/java/com/ai_autocreate/agents/AudioContextAgent.java:148-156 | the title and artist leave every other member alone |
| AudioContext.NumbersRecorded | app/src/main/java/com/ai_autocreate/agents/AudioContextAgent.java:130-145 | when every numeric tag parses, each present numeric tag is recorded as its value and each absent one is not |
| AudioContext.TextsRecorded | app/src/main/java/com/ai_autocreate/agents/AudioContextAgent.java:148-156 | when every numeric tag parses, the title and artist are recorded exactly when present, as they are |
| AudioContext.NumbersLeaveTexts | app/src/main/java/com/ai_autocreate/agents/AudioContextAgent.java:121-145 | the duration and numeric tags record no title or artist |
| AudioContext.BadBitrateStops | app/src/main/java/com/ai_autocreate/agents/AudioContextAgent.java:130-133 | an unparsable bitrate keeps at most the duration, and nothing read after it is recorded |
| AudioContext.Analyze | app/src/main/java/com/ai_autocreate/agents/AudioContextAgent.java:40-92 | a missing file and an unreadable source end before any request; only a readable file has its metadata extracted and the model consulted |
| AudioContext.ResultJsonReads | app/src/main/java/com/ai_autocreate/agents/AudioContextAgent.java:33-95 | the result names the path, reads as successful exactly when the answer carried text, carries each outcome's message, and the metadata whenever extracted |
| AudioContext.Messages | app/src/main/java/com/ai_autocreate/agents/AudioContextAgent.java:43-89 | each outcome carries its own message: no file, no response, invalid format, or the exception |
| AudioContext.Logged | app/src/main/java/com/ai_autocreate/agents/AudioContextAgent.java:87-89 | a missing file logs nothing and an unopenable one logs only its error; a readable one logs the metadata exception if any, then the client's lines for its one request, then the error when reading the answer threw (the catch at lines 158-159 logs the extraction's exception) |
| AudioContext.BadTagLoggedFirst | app/src/main/java/com/ai_autocreate/agents/AudioContextAgent.java:129-160 | an unparsable bitrate is logged first as "Error extracting metadata: " with its number-format message, and the client's lines follow it |
| AudioContext.AnalyzeAudio | app/src/main/java/com/ai_autocreate/agents/AudioContextAgent.java:33-95 | the result is the one `analyzeAudio` reports, its messages go to the app log in order, and every outcome is then recorded to the input's file |
| AudioContext.MissingFileShortCircuits | app/src/main/java/com/ai_autocreate/agents/AudioContextAgent.java:40-46 | a missing file sends no request and logs nothing, fails with its message whatever the model would have said, and is still recorded |
| AudioContext.OnlyResultFileChanges | app/src/main/java/com/ai_autocreate/agents/AudioContextAgent.java:206-215 | besides the app log, the only file an analysis can change is the input's result file |
| AudioContext.AnalysisLogLines | app/src/main/java/com/ai_autocreate/agents/AudioContextAgent.java:33-95 | within one day, an analysis appends exactly its messages, in order, to a cleanly ended app log, and recording the result leaves the log alone |
| VideoAnalyzer.DecimalChars | app/src/main/java/com/ai_autocreate/agents/VideoAnalyzerAgent.java:121 | the decimal text of a dimension holds only digits and a minus sign, so no `x` |
| VideoAnalyzer.ResolutionReadsBack | app/src/main/java/com/ai_autocreate/agents/VideoAnalyzerAgent.java:116-121 | the resolution text splits at its only `x` into texts that parse back as the width and the height |
| VideoAnalyzer.SizeStep | app/src/main/java/com/ai_autocreate/agents/VideoAnalyzerAgent.java:113-123 | the dimensions are read only when both tags are present; both are recorded with the resolution when both parse, and the extraction then goes on exactly when the height is not zero (the aspect ratio is otherwise not finite and `put` refuses it); an unparsable one stops it with the members before; other members are untouched |
| VideoAnalyzer.SizeStepCause | app/src/main/java/com/ai_autocreate/agents/VideoAnalyzerAgent.java:116-123 | the stop names the first dimension text that does not parse, or for a zero height the ratio Java computes: Infinity, -Infinity or NaN by the width's sign |
| VideoAnalyzer.MetadataDuration | app/src/main/java/com/ai_autocreate/agents/VideoAnalyzerAgent.java:104-110 | an unparsable duration leaves the metadata empty; a parsable one is recorded with its clock text whatever follows |
| VideoAnalyzer.MetadataResolution | app/src/main/java/com/ai_autocreate/agents/VideoAnalyzerAgent.java:112-123 | after a usable duration, the resolution is recorded exactly when both dimensions are present and parse, a zero height included, as their decimal texts around an `x` |
| VideoAnalyzer.ZeroHeightStops | app/src/main/java/com/ai_autocreate/agents/VideoAnalyzerAgent.java:112-145 | a zero height records the size and resolution, then ends the extraction with a non-finite value, so neither the rotation nor the bitrate is recorded |
| VideoAnalyzer.AudioInfo | app/src/main/java/com/ai_autocreate/agents/VideoAnalyzerAgent.java:262-290 | the audio information always says whether the track is there (a case-insensitive "yes"); the sample rate and channel count appear only with audio and only when their tags parse |
| VideoAnalyzer.Mark | app/src/main/java/com/ai_autocreate/agents/VideoAnalyzerAgent.java:164-167 | the i-th mark of a duration cut into n lies between zero and the duration, so it never leaves Java's long range |
| VideoAnalyzer.MarkBounds | app/src/main/java/com/ai_autocreate/agents/VideoAnalyzerAgent.java:164-167 | a whole number of truncated n-th parts, at most n of them, stays between zero and the duration |
| VideoAnalyzer.Scenes | app/src/main/java/com/ai_autocreate/agents/VideoAnalyzerAgent.java:150-192 | five scenes, indexed in order, each starting where the previous ended, all but the last a truncated fifth of the duration, the last ending at the duration, each with a frame at its start when frames can be made |
| VideoAnalyzer.Telescope | app/src/main/java/com/ai_autocreate/agents/VideoAnalyzerAgent.java:166-176 | the lengths of contiguous scenes add up to the span they cover |
| VideoAnalyzer.ScenesCoverDuration | app/src/main/java/com/ai_autocreate/agents/VideoAnalyzerAgent.java:160-176 | the scenes cover the whole duration without gap or overlap, and the last is at most four milliseconds longer than the others |
| VideoAnalyzer.MarkStep | app/src/main/java/com/ai_autocreate/agents/VideoAnalyzerAgent.java:164-167 | consecutive marks are one truncated part apart |
| VideoAnalyzer.MarkMonotone | app/src/main/java/com/ai_autocreate/agents/VideoAnalyzerAgent.java:164-167 | for a non-negative duration, marks grow with their index |
| VideoAnalyzer.KeyFrames | app/src/main/java/com/ai_autocreate/agents/VideoAnalyzerAgent.java:194-232 | ten key frames, indexed in order, a truncated tenth of the duration apart starting at zero, each with a frame when frames can be made |
| VideoAnalyzer.KeyFramesInside | app/src/main/java/com/ai_autocreate/agents/VideoAnalyzerAgent.java:204-215 | key frames are evenly spaced and, for a positive duration, all lie inside the video in order |
| VideoAnalyzer.SceneLines | app/src/main/java/com/ai_autocreate/agents/VideoAnalyzerAgent.java:309-316 | one summary line per scene, in the scenes' order |
| VideoAnalyzer.Header | app/src/main/java/com/ai_autocreate/agents/VideoAnalyzerAgent.java:297-303 | a labelled metadata line appears exactly when the member is present |
| VideoAnalyzer.Heading | app/src/main/java/com/ai_autocreate/agents/VideoAnalyzerAgent.java:296-306 | the summary opens with the known duration and resolution and ends its heading with the scene count |
| VideoAnalyzer.SummaryLines | app/src/main/java/com/ai_autocreate/agents/VideoAnalyzerAgent.java:292-318 | the summary has the heading lines and then exactly one line per scene |
| VideoAnalyzer.SummaryCount | app/src/main/java/com/ai_autocreate/agents/VideoAnalyzerAgent.java:306-316 | the line before the scene lines gives their count |
| VideoAnalyzer.SummaryScene | app/src/main/java/com/ai_autocreate/agents/VideoAnalyzerAgent.java:309-316 | scene i's line numbers it from one and shows its start and end clock texts |
| VideoAnalyzer.ClockOneLine | app/src/main/java/com/ai_autocreate/agents/VideoAnalyzerAgent.java:326-339 | a clock text contains no line break |
| VideoAnalyzer.SummaryReadsBack | app/src/main/java/com/ai_autocreate/agents/VideoAnalyzerAgent.java:292-318 | the summary text splits at its line breaks back into exactly its lines |
| VideoAnalyzer.MetadataHeadersOneLine | app/src/main/java/com/ai_autocreate/agents/VideoAnalyzerAgent.java:99-148 | whatever the tags, the duration and resolution texts are single lines |
| VideoAnalyzer.ParsedDuration | app/src/main/java/com/ai_autocreate/agents/VideoAnalyzerAgent.java:155-160 | a parsed duration is a Java long |
| VideoAnalyzer.Analyze | app/src/main/java/com/ai_autocreate/agents/VideoAnalyzerAgent.java:27-78 | a missing file and an unopenable one end early; an unparsable duration fails after the metadata with the number-format message; otherwise the file is analysed with the metadata, scenes and key frames of its tags |
| VideoAnalyzer.AnalyzeLongMarks | app/src/main/java/com/ai_autocreate/agents/VideoAnalyzerAgent.java:150-232 | every time in an analysis fits in a Java long |
| VideoAnalyzer.AnalyzedSummaryReadsBack | app/src/main/java/com/ai_autocreate/agents/VideoAnalyzerAgent.java:63-65 | an analysed file's summary reads back line by line as its heading and scene lines |
| VideoAnalyzer.SceneJsonReads | app/src/main/java/com/ai_autocreate/agents/VideoAnalyzerAgent.java:170-182 | a scene's record shows the clock texts the summary shows, its length, and a thumbnail path exactly when a frame was made |
| VideoAnalyzer.ResultJsonReads | app/src/main/java/com/ai_autocreate/agents/VideoAnalyzerAgent.java:27-78 | the result names the path, reads as successful exactly for an analysed file, carries each outcome's message, the metadata whenever extracted, and the scenes and summary only on success |
| VideoAnalyzer.Present | app/src/main/java/com/ai_autocreate/agents/VideoAnalyzerAgent.java:179-182 | the frame paths recorded are exactly the frames that were made |
| VideoAnalyzer.CreateAll | app/src/main/java/com/ai_autocreate/agents/VideoAnalyzerAgent.java:247-252 | creating the frame files adds empty files where there were none and leaves existing files as they were |
| VideoAnalyzer.CreateAllKeepsContent | app/src/main/java/com/ai_autocreate/agents/VideoAnalyzerAgent.java:247-252 | creating files changes no file's content, since a new file is as empty as a missing one reads |
| VideoAnalyzer.FrameFailures | app/src/main/java/com/ai_autocreate/agents/VideoAnalyzerAgent.java:234-259 | one failure line per scene and then one per key frame, each with its time and the exception's message |
| VideoAnalyzer.Messages | app/src/main/java/com/ai_autocreate/agents/VideoAnalyzerAgent.java:70-72 | a missing file logs nothing and an unopenable one logs only "Error analyzing video: " with its error |
| VideoAnalyzer.BadDurationLoggedTwice | app/src/main/java/com/ai_autocreate/agents/VideoAnalyzerAgent.java:99-160 | an unparsable duration is logged twice, by the metadata catch and then by the analysis catch the scene extraction's exception reaches, with the same number-format message |
| VideoAnalyzer.ZeroHeightLogged | app/src/main/java/com/ai_autocreate/agents/VideoAnalyzerAgent.java:116-145 | a zero height under a positive width is logged first as "Error extracting metadata: Forbidden numeric value: Infinity" |
| VideoAnalyzer.FramelessLogsEveryMark | app/src/main/java/com/ai_autocreate/agents/VideoAnalyzerAgent.java:150-259 | when frame files cannot be created, a parsed duration logs one line per scene start and then one per key frame time, in order, right after the metadata line if there is one |
| VideoAnalyzer.CleanAnalysisLogsNothing | app/src/main/java/com/ai_autocreate/agents/VideoAnalyzerAgent.java:99-290 | a file whose extractions run to the end and whose frames can be made logs nothing |
| VideoAnalyzer.AnalyzeVideo | app/src/main/java/com/ai_autocreate/agents/VideoAnalyzerAgent.java:27-78 | the analysis is the one `analyzeVideo` reports, the record exists afterwards, no existing file but the record and the app log changes, and the only files added are the record, app-log files and the frames the analysis made |
| VideoAnalyzer.FramePathInTemp | app/src/main/java/com/ai_autocreate/agents/VideoAnalyzerAgent.java:240-247 | a frame file lies in the temporary directory |
| VideoAnalyzer.FramesInTemp | app/src/main/java/com/ai_autocreate/agents/VideoAnalyzerAgent.java:150-259 | every frame file an analysis makes lies in the temporary directory |
| VideoAnalyzer.FramesCreated | app/src/main/java/com/ai_autocreate/agents/VideoAnalyzerAgent.java:233-258 | every frame file the analysis made exists afterwards |
| VideoAnalyzer.RecordHoldsResult | app/src/main/java/com/ai_autocreate/agents/VideoAnalyzerAgent.java:345-350 | the input's record holds the rendered result object that was reported |
| VideoAnalyzer.AnalysisLogLines | app/src/main/java/com/ai_autocreate/agents/VideoAnalyzerAgent.java:27-78 | within one day, an analysis appends exactly its messages, in order, to a cleanly ended app log; creating frame files and recording the result leave it alone |
| VideoAnalyzer.NoDurationNoScenes | app/src/main/java/com/ai_autocreate/agents/VideoAnalyzerAgent.java:155-158 | a file without a duration tag is still analysed successfully, with no scenes or key frames and a summary saying "Scenes: 0" |
| VideoAnalyzer.BadDurationFails | app/src/main/java/com/ai_autocreate/agents/VideoAnalyzerAgent.java:143-145 | an unparsable duration makes no frames, leaves the metadata empty and fails with the number-format message |
| ModelValidator.TestInput | app/src/main/java/com/ai_autocreate/agents/ModelValidatorAgent.java:61-76 | each model type gets its own test text, and any other type the generic one |
| ModelValidator.TestPayloadReads | app/src/main/java/com/ai_autocreate/agents/ModelValidatorAgent.java:58-79 | the model reads its test text back from the body, and only a text model is given generation parameters, with ten new tokens |
| ModelValidator.ApiKey | app/src/main/java/com/ai_autocreate/agents/ModelValidatorAgent.java:28-33 | the stored key is sent only when the model says it needs one and has one; otherwise the key is empty |
| ModelValidator.Validate | app/src/main/java/com/ai_autocreate/agents/ModelValidatorAgent.java:24-56 | a model is valid exactly when it has an endpoint and a type and the client answers the test request; a missing endpoint or type fails with its error before any request |
| ModelValidator.VerdictMessages | app/src/main/java/com/ai_autocreate/agents/ModelValidatorAgent.java:42-50 | a reachable model's message says whether the client answered |
| ModelValidator.MissingField | app/src/main/java/com/ai_autocreate/agents/ModelValidatorAgent.java:84-87 | the log entry cannot be built exactly when the model lacks one of its id, name, type or endpoint, and the field named is one it lacks |
| ModelValidator.ValidationEntryReads | app/src/main/java/com/ai_autocreate/agents/ModelValidatorAgent.java:83-90 | the entry records the model's id, the verdict and its message |
| ModelValidator.LogMessage | app/src/main/java/com/ai_autocreate/agents/ModelValidatorAgent.java:81-96 | the logged text is the entry, or the error text when the model lacks a field the entry copies |
| ModelValidator.Logged | app/src/main/java/com/ai_autocreate/agents/ModelValidatorAgent.java:38-53 | a validation logs the client's lines when the request was sent, and then exactly one entry of its own, last |
| ModelValidator.ValidateModel | app/src/main/java/com/ai_autocreate/agents/ModelValidatorAgent.java:24-96 | the verdict is returned, the log gets the client's lines and the validation's entry, and no file other than a log file changes |
| ModelValidator.ValidationLogLines | app/src/main/java/com/ai_autocreate/agents/ModelValidatorAgent.java:24-96 | within one day, a cleanly ended log reads back as its earlier lines, the client's lines when a request was sent, and the validation's entry: one more line than the client logged, or one line when no request was sent |
| ModelValidator.UntypedModelInvalid | app/src/main/java/com/ai_autocreate/agents/ModelValidatorAgent.java:24-56 | a model without a type is never valid whatever the client would answer, and is logged with the missing-type error |
| AgentPlayground.EveryAgentOnce | app/src/main/java/com/ai_autocreate/activities/AgentPlaygroundActivity.java:89-98 | the playground wraps each of the seven agents exactly once, under distinct names |
| AgentPlayground.Dispatch | app/src/main/java/com/ai_autocreate/activities/AgentPlaygroundActivity.java:206-233 | each agent is called with the user's input, except the validator, which gets the fixed test model, and the orchestrator, which gets the input as a prompt |
| AgentPlayground.DispatchChoosesByAgent | app/src/main/java/com/ai_autocreate/activities/AgentPlaygroundActivity.java:212-233 | each test calls a method of the agent under test and of no other, so different agents never receive the same call |
| AgentPlayground.TestRequestFails | app/src/main/java/com/ai_autocreate/activities/AgentPlaygroundActivity.java:229-232 | the orchestrator test always fails before any step, with the missing project configuration as its message |
| AgentPlayground.TestModelInvalid | app/src/main/java/com/ai_autocreate/activities/AgentPlaygroundActivity.java:223-227 | the validator test always reports failure: its test model has no type, so no client answer makes it valid |
| AgentPlayground.Recorded | app/src/main/java/com/ai_autocreate/activities/AgentPlaygroundActivity.java:336-343 | a record keeps the agent's name with the answer and its time, or no result and time 0 when the call threw |
| AgentPlayground.TestAll | app/src/main/java/com/ai_autocreate/activities/AgentPlaygroundActivity.java:303-348 | every agent is tried in order, an exception in one does not stop the next, and each gets exactly one record |
| AgentPlayground.Successes | app/src/main/java/com/ai_autocreate/activities/AgentPlaygroundActivity.java:369-375 | the success count never exceeds the number of records |
| AgentPlayground.CountsAddUp | app/src/main/java/com/ai_autocreate/activities/AgentPlaygroundActivity.java:381-383 | the summary's failed figure, total minus successes, counts each failed record exactly once |
| AgentPlayground.Summary | app/src/main/java/com/ai_autocreate/activities/AgentPlaygroundActivity.java:380-383 | the summary states the total, the successes and the failures, in that order |
| AgentPlayground.Records | app/src/main/java/com/ai_autocreate/activities/AgentPlaygroundActivity.java:303-348 | there is one record per agent, in the agents' order |
| AgentPlayground.TestAllNeverAllSucceeds | app/src/main/java/com/ai_autocreate/activities/AgentPlaygroundActivity.java:303-391 | in a "test all" run the validator and orchestrator records are always failures, so at most five of seven agents succeed |
| AgentPlayground.AtMostOthers | app/src/main/java/com/ai_autocreate/activities/AgentPlaygroundActivity.java:369-383 | two failed records leave at most the rest to succeed |
| AgentPlayground.OneFailure | app/src/main/java/com/ai_autocreate/activities/AgentPlaygroundActivity.java:369-383 | one failed record leaves at most the rest to succeed |
| AgentPlayground.TestOne | app/src/main/java/com/ai_autocreate/activities/AgentPlaygroundActivity.java:251-275 | a single test keeps the measured time even when the call threw, unlike "test all" |
| AgentPlayground.StatusLine | app/src/main/java/com/ai_autocreate/activities/AgentPlaygroundActivity.java:260-270 | a single test's status says SUCCESS exactly when there was a result whose "success" is true |
| AgentPlayground.Slug | app/src/main/java/com/ai_autocreate/activities/AgentPlaygroundActivity.java:409 | the agent's name in a file name keeps its length and has no spaces |
| AgentPlayground.FileName | app/src/main/java/com/ai_autocreate/activities/AgentPlaygroundActivity.java:409 | a test file is named "test_", the slugged agent name, an underscore, the time and ".json" |
| AgentPlayground.FileNamesDiffer | app/src/main/java/com/ai_autocreate/activities/AgentPlaygroundActivity.java:409 | results of different agents saved at the same millisecond go to different files |
| AgentPlayground.TestRecord | app/src/main/java/com/ai_autocreate/activities/AgentPlaygroundActivity.java:394-402 | the saved record has the agent's name and input, and a result member exactly when there was a result |
| AgentPlayground.SaveTest | app/src/main/java/com/ai_autocreate/activities/AgentPlaygroundActivity.java:394-417 | one file is written under the playground's directory with the record, and no other file changes |
| AgentPlayground.AllRecord | app/src/main/java/com/ai_autocreate/activities/AgentPlaygroundActivity.java:419-435 | the "test all" record has one entry per record, in order, each with a result member exactly when there was a result |
| ModelsManager.Trimmed | app/src/main/java/com/ai_autocreate/activities/ModelsManagerActivity.java:320-326 | the dialog hands on its text fields trimmed and the spinner choices as they are; the key is empty exactly when the field was blank |
| ModelsManager.PutFieldsTexts | app/src/main/java/com/ai_autocreate/activities/ModelsManagerActivity.java:334-340 | after the dialog's puts the model holds each text as handed on |
| ModelsManager.PutFieldsChoices | app/src/main/java/com/ai_autocreate/activities/ModelsManagerActivity.java:338-342 | after the dialog's puts the model holds the chosen type and category, says it needs a key exactly when one was given, and is untested again |
| ModelsManager.PutFieldsKeeps | app/src/main/java/com/ai_autocreate/activities/ModelsManagerActivity.java:334-342 | the dialog's puts add exactly the dialog's members and leave every other member alone |
| ModelsManager.HuggingFaceShape | app/src/main/java/com/ai_autocreate/activities/ModelsManagerActivity.java:138-146 | the Hugging Face default is an untested text model that needs a key |
| ModelsManager.GeminiShape | app/src/main/java/com/ai_autocreate/activities/ModelsManagerActivity.java:148-156 | the Gemini default is an untested text model that needs a key |
| ModelsManager.DefaultsShape | app/src/main/java/com/ai_autocreate/fragments/ModelsManagerFragment.java:326-357 | there are two defaults, both untested text models needing a key, under different ids |
| ModelsManager.Objects | app/src/main/java/com/ai_autocreate/activities/ModelsManagerActivity.java:40 | the screen's list has one model per entry |
| ModelsManager.Rows | app/src/main/java/com/ai_autocreate/adapters/ModelsAdapter.java:44-52 | the list view has one row per entry of the adapter's own list |
| ModelsManager.FromObjects | app/src/main/java/com/ai_autocreate/activities/ModelsManagerActivity.java:67-82 | a freshly built screen's list and its adapter's copy both hold the given models in order |
| ModelsManager.Save | app/src/main/java/com/ai_autocreate/activities/ModelsManagerActivity.java:168-181 | the configuration file holds the models as an array in list order, and no other file changes |
| ModelsManager.Open | app/src/main/java/com/ai_autocreate/activities/ModelsManagerActivity.java:114-133 | with no file the defaults are created and saved; with a file its array's objects are loaded without rewriting it; text that is not an array loads nothing |
| ModelsManager.SaveThenOpen | app/src/main/java/com/ai_autocreate/activities/ModelsManagerActivity.java:114-181 | reopening after a save finds the same models in the same order |
| ModelsManager.FirstStartThenReopen | app/src/main/java/com/ai_autocreate/activities/ModelsManagerActivity.java:125-128 | the first start writes the two defaults, and the next start reads them back |
| ModelsManager.Add | app/src/main/java/com/ai_autocreate/activities/ModelsManagerActivity.java:197-228 | a draft lacking a name, id or endpoint changes nothing; an accepted one is appended as a new model and the list is saved, while the list view keeps its rows |
| ModelsManager.NewModelShape | app/src/main/java/com/ai_autocreate/fragments/ModelsManagerFragment.java:390-399 | a new model has exactly the dialog's members, needs a key exactly when one was given, and starts untested |
| ModelsManager.Edit | app/src/main/java/com/ai_autocreate/activities/ModelsManagerActivity.java:277-357 | when the dialog opens and the draft is accepted, the model at the position receives the dialog's puts and the list is saved; otherwise nothing changes |
| ModelsManager.Delete | app/src/main/java/com/ai_autocreate/activities/ModelsManagerActivity.java:366-389 | a model without a name cannot be deleted, since the delete dialog, like the options dialog before it, reads the name with `getString`, and nothing changes; a named one, once confirmed, leaves the list, the rest keep their order, and the list is saved |
| ModelsManager.SetStatus | app/src/main/java/com/ai_autocreate/activities/ModelsManagerActivity.java:412 | setting the status changes that model's status only, and nothing is saved |
| ModelsManager.TestModel | app/src/main/java/com/ai_autocreate/activities/ModelsManagerActivity.java:400-443 | a test leaves the model's status at "valid" or "invalid" by the validator's verdict, a thrown validator counting as invalid, and changes no other model |
| ModelsManager.TestLifecycle | app/src/main/java/com/ai_autocreate/activities/ModelsManagerActivity.java:410-433 | while a test runs the status is "testing" and the row's test button is disabled; afterwards the status is the verdict and the button is back |
| ModelsManager.TestAll | app/src/main/java/com/ai_autocreate/activities/ModelsManagerActivity.java:446-471 | every model in list order goes through the same test, and nothing is saved |
| ModelsManager.SpinnerPosition | app/src/main/java/com/ai_autocreate/activities/ModelsManagerActivity.java:391-398 | the position of the first item equal to the value, or 0 when there is none |
| ModelsManager.Row | app/src/main/java/com/ai_autocreate/adapters/ModelsAdapter.java:85-95 | a row shows "Unnamed" without a name and "unknown" without a status, and its test button is enabled exactly when the model is not being tested |
| ModelsManager.ClickRow | app/src/main/java/com/ai_autocreate/activities/ModelsManagerActivity.java:106-110 | a click on a row finds the screen's model at that position, and has nothing to find when the row is past the list's end |
| ModelsManager.StatusShowsThroughCopy | app/src/main/java/com/ai_autocreate/adapters/ModelsAdapter.java:37-42 | the adapter's copy shares the model objects, so a status set through the screen shows in the row |
| ModelsManager.StaleRowAfterDelete | app/src/main/java/com/ai_autocreate/activities/ModelsManagerActivity.java:366-389 | after the first default is deleted, the list view still has two rows and a click on the second finds nothing |
| ModelsManager.AddedModelNotShown | app/src/main/java/com/ai_autocreate/activities/ModelsManagerActivity.java:226-228 | an added model gets no row |
| ModelsManager.Refresh | app/src/main/java/com/ai_autocreate/adapters/ModelsAdapter.java:128-131 | a refreshed list view shows exactly the screen's models |
| ModelsManager.DeleteAndRefresh | app/src/main/java/com/ai_autocreate/activities/ModelsManagerActivity.java:376-378 | with the refresh, a deletion leaves rows for exactly the remaining models, and a nameless model stays |
| ModelsManager.AddAndRefresh | app/src/main/java/com/ai_autocreate/activities/ModelsManagerActivity.java:226-228 | with the refresh, an added model gets its row at the end |
| ModelsManager.RefreshedRowsClickable | app/src/main/java/com/ai_autocreate/activities/ModelsManagerActivity.java:106-110 | with the refresh, every row stands for the model at its position, so no click fails |
| ApiKeys.StoredText | app/src/main/java/com/ai_autocreate/activities/APIKeysActivity.java:70 | the stored list text, or "[]" when nothing is stored |
| ApiKeys.Load | app/src/main/java/com/ai_autocreate/activities/APIKeysActivity.java:68-80 | the keys are the leading objects of the stored array, in order, stopping at the first element that is not an object; text that is not an array gives no keys |
| ApiKeys.FirstStartIsEmpty | app/src/main/java/com/ai_autocreate/activities/APIKeysActivity.java:68-80 | with nothing stored the screen starts with no keys |
| ApiKeys.Open | app/src/main/java/com/ai_autocreate/activities/APIKeysActivity.java:33-66 | the screen opens with the keys loaded from its settings |
| ApiKeys.Save | app/src/main/java/com/ai_autocreate/activities/APIKeysActivity.java:82-88 | the list is stored as an array in list order, and no other setting changes |
| ApiKeys.SavedLoads | app/src/main/java/com/ai_autocreate/activities/APIKeysActivity.java:68-88 | a saved list is what the next start loads, in the same order |
| ApiKeys.Trimmed | app/src/main/java/com/ai_autocreate/activities/APIKeysActivity.java:103-105 | a text reads as empty after trimming exactly when it was blank |
| ApiKeys.PutTexts | app/src/main/java/com/ai_autocreate/activities/APIKeysActivity.java:166-168 | a confirmed dialog sets the name, key and description and keeps every other member |
| ApiKeys.NewKeyShape | app/src/main/java/com/ai_autocreate/activities/APIKeysActivity.java:113-116 | a new key has exactly a name, a key and a description, the trimmed texts |
| ApiKeys.Add | app/src/main/java/com/ai_autocreate/activities/APIKeysActivity.java:100-127 | a blank name or key changes nothing; otherwise the new key is appended and the list saved |
| ApiKeys.Prefill | app/src/main/java/com/ai_autocreate/activities/APIKeysActivity.java:141-148 | the edit dialog starts from the stored name, then the key, then the description; a missing name or key leaves the later fields empty |
| ApiKeys.Edit | app/src/main/java/com/ai_autocreate/activities/APIKeysActivity.java:152-178 | a blank name or key changes nothing; otherwise that key's texts are rewritten and the list saved |
| ApiKeys.Delete | app/src/main/java/com/ai_autocreate/activities/APIKeysActivity.java:184-207 | the confirmation opens only for a key with a name; confirming removes that key and saves |
| ApiKeys.AddThenLoad | app/src/main/java/com/ai_autocreate/activities/APIKeysActivity.java:100-127 | an accepted add is kept: the next start finds the old keys and then the new one |
| ApiKeys.RewriteOne | app/src/main/java/com/ai_autocreate/activities/APIKeysActivity.java:165-168 | rewriting one key changes that key only |
| ApiKeys.EditThenLoad | app/src/main/java/com/ai_autocreate/activities/APIKeysActivity.java:152-178 | an accepted edit is kept, with the new key text, and every other key is unchanged |
| ApiKeys.DeleteThenLoad | app/src/main/java/com/ai_autocreate/activities/APIKeysActivity.java:192-200 | a confirmed delete is kept: the next start finds every other key, in order |
| ApiKeys.PrefillThenSave | app/src/main/java/com/ai_autocreate/activities/APIKeysActivity.java:133-178 | opening the edit dialog on a key and confirming it unchanged keeps the key as it was |
| ApiKeys.PutTextsSame | app/src/main/java/com/ai_autocreate/activities/APIKeysActivity.java:166-168 | putting the texts a key already holds leaves it as it was |
| ApiKeys.Mask | app/src/main/java/com/ai_autocreate/adapters/APIKeysAdapter.java:50-57 | a key whose UTF-16 length exceeds eight shows 11 units, and a shorter one shows "****" |
| ApiKeys.MaskBmp | app/src/main/java/com/ai_autocreate/adapters/APIKeysAdapter.java:50-57 | a long key inside the Basic Multilingual Plane shows its first four and last four characters around "..." |
| ApiKeys.MaskEnds | app/src/main/java/com/ai_autocreate/adapters/APIKeysAdapter.java:52-53 | a masked key shows the first four units of its first four characters and the last four units of its last four, around "..." |
| ApiKeys.MaskHidesMiddle | app/src/main/java/com/ai_autocreate/adapters/APIKeysAdapter.java:50-57 | two keys longer than eight UTF-16 units that share their first four and last four characters mask alike, and so do any two keys of at most eight units |
| ApiKeys.PairsKeyMasked | app/src/main/java/com/ai_autocreate/adapters/APIKeysAdapter.java:51-53 | five characters outside the Basic Multilingual Plane are ten units, so the key is masked to its first two and last two characters rather than starred |
| ApiKeys.Bind | app/src/main/java/com/ai_autocreate/adapters/APIKeysAdapter.java:43-61 | a row shows the name and description when the key has a name, and the masked key only when it also has a key |
| ApiKeys.Rows | app/src/main/java/com/ai_autocreate/adapters/APIKeysAdapter.java:43-66 | there is one row per key of the shared list, in order |
| ApiKeys.BindNew | app/src/main/java/com/ai_autocreate/adapters/APIKeysAdapter.java:43-61 | a key written by the dialog shows its name, description and masked key |
| ApiKeys.AddedKeyShown | app/src/main/java/com/ai_autocreate/activities/APIKeysActivity.java:118-120 | an added key shows as the last row, with its name, description and masked key |
| OrgJson.ObjectsPrefix | app/src/main/java/com/ai_autocreate/activities/APIKeysActivity.java:72-79 | a loading loop keeps the leading objects of an array, in order, and stops exactly at the first element that is not an object |
| OrgJson.ObjectsPrefixWrap | app/src/main/java/com/ai_autocreate/activities/APIKeysActivity.java:82-88 | an array written from a list of objects loads back as the same list |
| Ideas.Filter | app/src/main/java/com/ai_autocreate/fragments/IdeaGalleryFragment.java:128-141 | the filter keeps exactly the ideas of the selected category, every idea for "All", and never more than there were |
| Ideas.FilterAppend | app/src/main/java/com/ai_autocreate/activities/IdeaGalleryActivity.java:149-153 | filtering keeps the list's order: filtering a concatenation concatenates the filtered parts |
| Ideas.FilterAll | app/src/main/java/com/ai_autocreate/activities/IdeaGalleryActivity.java:150 | the "All" category keeps every idea, in order |
| Ideas.FilterTwice | app/src/main/java/com/ai_autocreate/activities/IdeaGalleryActivity.java:144-157 | filtering again by the same category changes nothing, and filtering by two different real categories keeps nothing |
| Ideas.Search | app/src/main/java/com/ai_autocreate/activities/IdeaGalleryActivity.java:159-181 | a blank term shows the category filter; otherwise exactly the ideas of the category whose title or description, lowered by the locale's case mapping, contains the lowered trimmed term |
| Ideas.SearchTrimmed | app/src/main/java/com/ai_autocreate/activities/IdeaGalleryActivity.java:166-177 | the search keeps exactly the ideas of the category that mention the term under the given case mapping |
| Ideas.SearchWithinFilter | app/src/main/java/com/ai_autocreate/activities/IdeaGalleryActivity.java:159-181 | a search never shows more ideas than the category filter |
| Ideas.SearchFoldsAccentedCapital | app/src/main/java/com/ai_autocreate/activities/IdeaGalleryActivity.java:171-172 | under any case mapping that lowers "Élan" and "élan" alike, as Java's does, searching "élan" finds the idea titled "Élan" |
| Ideas.Insert | app/src/main/java/com/ai_autocreate/activities/IdeaGalleryActivity.java:436-442 | a new idea goes first, with the time as its id and the date as both its dates, and the rest follow unchanged |
| Ideas.Add | app/src/main/java/com/ai_autocreate/activities/IdeaGalleryActivity.java:252-263 | a blank title or description adds nothing; otherwise the trimmed texts are inserted first |
| Ideas.Duplicate | app/src/main/java/com/ai_autocreate/fragments/IdeaGalleryFragment.java:262-265 | a copy titled with " (Copy)", with the same description and category, goes first, without the dialog's checks |
| Ideas.Edit | app/src/main/java/com/ai_autocreate/activities/IdeaGalleryActivity.java:300-311 | a blank title or description changes nothing; otherwise only that idea changes, keeping its id and creation date and taking the new texts, category and modification date |
| Ideas.Replaced | app/src/main/java/com/ai_autocreate/activities/IdeaGalleryActivity.java:335-339 | replacing one idea leaves every other in place |
| Ideas.Delete | app/src/main/java/com/ai_autocreate/fragments/IdeaGalleryFragment.java:267-272 | exactly the deleted idea goes and the others keep their order |
| Ideas.DefaultIdeas | app/src/main/java/com/ai_autocreate/fragments/IdeaGalleryFragment.java:334-341 | there are five default ideas, ids "1" to "5", one per category, dated now |
| Ideas.ReadIdea | app/src/main/java/com/ai_autocreate/activities/IdeaGalleryActivity.java:376-384 | an element reads as an idea exactly when it has an id, title, description and category; missing dates read as empty |
| Ideas.IdeaReadBack | app/src/main/java/com/ai_autocreate/activities/IdeaGalleryActivity.java:376-384 | a written idea reads back whole |
| Ideas.ReadIdeas | app/src/main/java/com/ai_autocreate/fragments/IdeaGalleryFragment.java:294-306 | the ideas read are the leading elements in order, and all of them when nothing throws |
| Ideas.IdeasJson | app/src/main/java/com/ai_autocreate/activities/IdeaGalleryActivity.java:467-478 | one array element per idea, in order |
| Ideas.Save | app/src/main/java/com/ai_autocreate/activities/IdeaGalleryActivity.java:463-488 | the ideas file is written and no other file changes |
| Ideas.LoadFile | app/src/main/java/com/ai_autocreate/activities/IdeaGalleryActivity.java:366-398 | there is nothing to read exactly when the ideas file is missing |
| Ideas.SaveThenLoad | app/src/main/java/com/ai_autocreate/activities/IdeaGalleryActivity.java:366-488 | saved ideas load back with all six fields, in order |
| Ideas.ReadWritten | app/src/main/java/com/ai_autocreate/activities/IdeaGalleryActivity.java:372-386 | a written array reads back as the same ideas, without throwing |
| Ideas.LoadAsWritten | app/src/main/java/com/ai_autocreate/fragments/IdeaGalleryFragment.java:320-331 | after a successful read the refill empties the screen's list, which the adapter shares, so no idea remains |
| Ideas.AddAfterLoadLosesIdeas | app/src/main/java/com/ai_autocreate/activities/IdeaGalleryActivity.java:436-455 | loading a saved gallery and then adding one idea leaves a file holding that idea alone |
| Ideas.LostIdeasExample | app/src/main/java/com/ai_autocreate/activities/IdeaGalleryActivity.java:414-455 | with the five defaults saved, adding one idea leaves one idea in the file instead of six |
| Ideas.Show | app/src/main/java/com/ai_autocreate/adapters/IdeasAdapter.java:57-61 | intended behaviour, the corrected half of the Findings row on `IdeaGalleryActivity.java:401-406`: the adapter's own list shows the filter of the screen's list, which is kept whole |
| Ideas.Load | app/src/main/java/com/ai_autocreate/activities/IdeaGalleryActivity.java:366-411 | intended behaviour, the corrected half of the Findings row on `IdeaGalleryActivity.java:401-406`: a missing file gives the defaults, saved; a good file gives its ideas; either way the adapter shows their filter |
| Ideas.SelectCategory | app/src/main/java/com/ai_autocreate/activities/IdeaGalleryActivity.java:144-157 | intended behaviour, the corrected half of the Findings row on `IdeaGalleryActivity.java:401-406`: choosing a category changes what is shown, never the ideas kept |
| Ideas.AddIdea | app/src/main/java/com/ai_autocreate/activities/IdeaGalleryActivity.java:436-455 | intended behaviour, the corrected half of the Findings row on `IdeaGalleryActivity.java:401-406`: an accepted idea goes first, the file then loads back as the whole list, and the adapter shows its filter; a refused one changes nothing |
| Ideas.AddAfterLoadKeepsIdeas | app/src/main/java/com/ai_autocreate/activities/IdeaGalleryActivity.java:436-455 | loading what was saved and then adding keeps every saved idea after the new one |
| Ideas.Commit | app/src/main/java/com/ai_autocreate/activities/IdeaGalleryActivity.java:335-356 | intended behaviour, the corrected half of the Findings row on `IdeaGalleryActivity.java:401-406`: an edit or delete is saved so that the file loads back as the list, and the adapter shows its filter |
| ActivityLog.SuccessIsNotError | app/src/main/java/com/ai_autocreate/activities/ActivityLogActivity.java:165-170 | no entry type is both an error and a success |
| ActivityLog.QuotBelow | app/src/main/java/com/ai_autocreate/activities/ActivityLogActivity.java:150-163 | a whole-day count truncated toward zero is below n exactly when the time difference is below n days |
| ActivityLog.WindowsInMilliseconds | app/src/main/java/com/ai_autocreate/activities/ActivityLogActivity.java:149-164 | "Today", "This Week" and "This Month" keep an entry exactly when it is less than one, seven or thirty days old, anything dated in the future included |
| ActivityLog.WindowsNested | app/src/main/java/com/ai_autocreate/activities/ActivityLogActivity.java:156-164 | what today keeps the week keeps, and what the week keeps the month keeps |
| ActivityLog.Kept | app/src/main/java/com/ai_autocreate/activities/ActivityLogActivity.java:141-180 | the filter keeps exactly the entries that pass it, each no more often than it was loaded |
| ActivityLog.KeptAll | app/src/main/java/com/ai_autocreate/activities/ActivityLogActivity.java:153-155 | "All" drops nothing and keeps the order |
| ActivityLog.LexTotal | app/src/main/java/com/ai_autocreate/activities/ActivityLogActivity.java:185-187 | any two timestamps compare one way or the other |
| ActivityLog.InsertByTime | app/src/main/java/com/ai_autocreate/activities/ActivityLogActivity.java:183-188 | inserting an entry into a newest-first list keeps it newest first and adds exactly that entry |
| ActivityLog.SortNewestFirst | app/src/main/java/com/ai_autocreate/fragments/ActivityLogFragment.java:196-202 | the sort puts the same entries newest first |
| ActivityLog.Shown | app/src/main/java/com/ai_autocreate/activities/ActivityLogActivity.java:135-191 | the list shown is newest first and holds exactly the entries that pass the filter |
| ActivityLog.AllShowsEverything | app/src/main/java/com/ai_autocreate/activities/ActivityLogActivity.java:153-155 | under "All" every entry is shown as many times as it was loaded |
| ActivityLog.UnparsableAlwaysShown | app/src/main/java/com/ai_autocreate/fragments/ActivityLogFragment.java:186-189 | an entry whose timestamp does not parse is shown under every filter, the outcome filters included |
| ActivityLog.OutcomeFilters | app/src/main/java/com/ai_autocreate/activities/ActivityLogActivity.java:165-170 | an entry with a readable timestamp is shown under "Errors Only" exactly when its type is "error" or "failure", and under "Success Only" exactly when it is "success" or "completed" |
| ActivityLog.Refilter | app/src/main/java/com/ai_autocreate/activities/ActivityLogActivity.java:190 | the adapter shares the screen's list, so filtering leaves that list holding only entries it already held |
| ActivityLog.NarrowingSticks | app/src/main/java/com/ai_autocreate/activities/ActivityLogActivity.java:135-191 | after two filters in a row only entries that passed both remain, until the next reload |
| ActivityLog.ErrorsThenAll | app/src/main/java/com/ai_autocreate/activities/ActivityLogActivity.java:135-191 | "Errors Only" followed by "All" shows no success that has a readable timestamp |
| ActivityLog.TypeColour | app/src/main/java/com/ai_autocreate/adapters/ActivityLogAdapter.java:78-84 | the type label is red exactly for errors and failures and green exactly for successes and completions |
| ActivityLog.TypeLabel | app/src/main/java/com/ai_autocreate/adapters/ActivityLogAdapter.java:75 | the type label is the type in upper case, and empty when there is no type |
| ActivityLog.OutcomeFiltersMatchColours | app/src/main/java/com/ai_autocreate/adapters/ActivityLogAdapter.java:78-84 | what "Errors Only" shows with a readable time is red, and what "Success Only" shows is green |
| ActivityLog.FileEntry | app/src/main/java/com/ai_autocreate/activities/ActivityLogActivity.java:315-346 | a ".json" file yields at most one entry, only for an orchestrator or sanity-check result that parses, typed success or error and carrying the file's text |
| ActivityLog.OrchestratorOutcome | app/src/main/java/com/ai_autocreate/fragments/ActivityLogFragment.java:333-343 | an orchestrator result is a success exactly when its "success" value reads as the text "true" |
| ActivityLog.SanityOutcome | app/src/main/java/com/ai_autocreate/fragments/ActivityLogFragment.java:344-354 | a sanity-check result is a success exactly when "passed" reads as true, with the result's agent and message |
| ActivityLog.SanityReportLoads | app/src/main/java/com/ai_autocreate/activities/ActivityLogActivity.java:330-340 | a saved sanity-check report appears as a success exactly when the run passed, with the run's message and agent |
| ActivityLog.LineEntry | app/src/main/java/com/ai_autocreate/fragments/ActivityLogFragment.java:367-379 | a line yields an entry exactly when it is not blank and parses as an object; the entry is titled with its agent and carries the line |
| ActivityLog.LinesEntries | app/src/main/java/com/ai_autocreate/activities/ActivityLogActivity.java:353-370 | at most one entry per line, each from a non-blank line of the file |
| ActivityLog.JsonlEntries | app/src/main/java/com/ai_autocreate/activities/ActivityLogActivity.java:348-375 | each entry of a log file comes from one non-blank line |
| ActivityLog.AppLogLineReads | app/src/main/java/com/ai_autocreate/activities/ActivityLogActivity.java:356-365 | a line the application logger wrote reads back with its agent, message, day and type |
| ActivityLog.PathEntries | app/src/main/java/com/ai_autocreate/activities/ActivityLogActivity.java:304-312 | files that are neither ".json" nor ".jsonl" contribute nothing |
| ActivityLog.LoadLogsAsWritten | app/src/main/java/com/ai_autocreate/activities/ActivityLogActivity.java:264-271 | the logs are both directory walks followed by the application logs read again |
| ActivityLog.LoadLogs | app/src/main/java/com/ai_autocreate/activities/ActivityLogActivity.java:264-270 | with each file read once, the logs are the two directory walks |
| ActivityLog.JsonlIsNotJson | app/src/main/java/com/ai_autocreate/activities/ActivityLogActivity.java:307-310 | a ".jsonl" file is never taken for a ".json" one |
| ActivityLog.WalkReadsAppLogs | app/src/main/java/com/ai_autocreate/activities/ActivityLogActivity.java:377-392 | when the agent-results directory holds only application logs, its walk and the application-log pass read the same entries |
| ActivityLog.AppLogsLoadedTwice | app/src/main/java/com/ai_autocreate/activities/ActivityLogActivity.java:269-271 | every line of the application logs is listed twice |
| ActivityLog.AppLogsLoadedOnce | app/src/main/java/com/ai_autocreate/activities/ActivityLogActivity.java:269-270 | reading each file once lists each application-log line once |
| ActivityLog.ClearDirectory | app/src/main/java/com/ai_autocreate/activities/ActivityLogActivity.java:445-464 | every file below the directory is deleted, and every other file is kept unchanged |
| ActivityLog.ClearOldFiles | app/src/main/java/com/ai_autocreate/fragments/ActivityLogFragment.java:480-501 | exactly the files below the directory last modified before the cutoff are deleted |
| ActivityLog.ClearErrorLogs | app/src/main/java/com/ai_autocreate/activities/ActivityLogActivity.java:489-507 | exactly the files below the directory whose name contains "error" or "failed" are deleted |
| ActivityLog.CutoffAsWritten | app/src/main/java/com/ai_autocreate/activities/ActivityLogActivity.java:416 | the cutoff as written stays in Java's long range |
| ActivityLog.CutoffAsWrittenIsAhead | app/src/main/java/com/ai_autocreate/activities/ActivityLogActivity.java:416 | the int product wraps to -1702967296, so the cutoff lies about 19.7 days after now |
| ActivityLog.Cutoff | app/src/main/java/com/ai_autocreate/activities/ActivityLogActivity.java:416 | the intended cutoff is exactly thirty days, 2592000000 milliseconds, before now |
| ActivityLog.ClearWith | app/src/main/java/com/ai_autocreate/activities/ActivityLogActivity.java:408-429 | clearing only deletes files, and never outside the agent-results and temporary directories |
| ActivityLog.ClearLogsAsWritten | app/src/main/java/com/ai_autocreate/activities/ActivityLogActivity.java:408-429 | the clearing as written only deletes files |
| ActivityLog.ClearLogs | app/src/main/java/com/ai_autocreate/activities/ActivityLogActivity.java:408-429 | the intended clearing only deletes files |
| ActivityLog.RecentFileDeletedAsWritten | app/src/main/java/com/ai_autocreate/fragments/ActivityLogFragment.java:428-431 | as written, "old" deletes a result file saved a moment ago |
| ActivityLog.OldMeansThirtyDays | app/src/main/java/com/ai_autocreate/activities/ActivityLogActivity.java:414-418 | with the cutoff in long, "old" deletes exactly the files below the two directories modified more than thirty days ago |
| ActivityLog.ErrorsClearsOnlyErrorLogs | app/src/main/java/com/ai_autocreate/activities/ActivityLogActivity.java:419-422 | "errors" deletes exactly the error-named files below the agent-results directory |
| ActivityLog.EverythingClearsBoth | app/src/main/java/com/ai_autocreate/activities/ActivityLogActivity.java:410-413 | "all" deletes exactly the files below the agent-results and temporary directories |
| SubtitleStyle.SelectedColor | app/src/main/java/com/ai_autocreate/activities/SubtitleStyleActivity.java:432-446 | each colour name in the spinner gives its own hex colour, and "Custom" or an unknown name gives white |
| SubtitleStyle.ColoursDistinct | app/src/main/java/com/ai_autocreate/activities/SubtitleStyleActivity.java:432-446 | two different listed names never give the same colour, except names that fall back to white |
| SubtitleStyle.SetProgress | app/src/main/java/com/ai_autocreate/activities/SubtitleStyleActivity.java:650-674 | a slider holds the value it is given when that value is in its range, and the nearest end of the range otherwise |
| SubtitleStyle.SliderInverse | app/src/main/java/com/ai_autocreate/activities/SubtitleStyleActivity.java:407-430 | turning a font size or shadow offset into a slider position and back gives it again, across the slider's whole range |
| SubtitleStyle.Collect | app/src/main/java/com/ai_autocreate/activities/SubtitleStyleActivity.java:407-430 | the style takes every value the controls show and keeps its name |
| SubtitleStyle.AfterBox | app/src/main/java/com/ai_autocreate/activities/SubtitleStyleActivity.java:326-365 | a box that does not change leaves the style alone; one that changes runs the collection, so the style then holds the positions the later sliders and boxes already had |
| SubtitleStyle.Show | app/src/main/java/com/ai_autocreate/activities/SubtitleStyleActivity.java:650-674 | the text field shows the font name and the shadow box the style's shadow setting; every slider stays on its scale; the font colour, position and alignment spinners go back to white, bottom and centre and the other colour spinners stay put |
| SubtitleStyle.ShowDetached | app/src/main/java/com/ai_autocreate/activities/SubtitleStyleActivity.java:650-674 | intended behaviour, the corrected half of the Findings row on `updateUIFromStyle`: with the listeners quiet, every slider and box takes the style's value, on scale, with the same spinner resets |
| SubtitleStyle.ShowThenCollect | app/src/main/java/com/ai_autocreate/activities/SubtitleStyleActivity.java:650-674 | when the boxes already match the style, showing and collecting keeps every value the sliders and boxes hold; otherwise the first box that changes leaves every later field as the controls held it before, case by case for the shadow, outline and background box |
| SubtitleStyle.InSyncShown | app/src/main/java/com/ai_autocreate/activities/SubtitleStyleActivity.java:650-674 | when no box changes, the controls show every value of the style and collecting them gives the style back with the spinner resets |
| SubtitleStyle.ShadowChangesFirst | app/src/main/java/com/ai_autocreate/activities/SubtitleStyleActivity.java:660-674 | when the shadow box changes, the shadow sliders, the outline and background boxes and sliders and the apply-globally box keep their earlier positions |
| SubtitleStyle.OutlineChangesFirst | app/src/main/java/com/ai_autocreate/activities/SubtitleStyleActivity.java:660-674 | when the outline box is the first to change, the shadow sliders show the style and the outline slider and everything after it keep their earlier positions |
| SubtitleStyle.BackgroundChanges | app/src/main/java/com/ai_autocreate/activities/SubtitleStyleActivity.java:660-674 | when only the background box changes, the padding slider and the apply-globally box keep their earlier positions and everything else shows the style |
| SubtitleStyle.ShowDetachedThenCollect | app/src/main/java/com/ai_autocreate/activities/SubtitleStyleActivity.java:650-674 | intended behaviour: with the listeners quiet, showing and collecting keeps every slider and box value whatever the boxes showed before, and agrees with the live version when the boxes already match |
| SubtitleStyle.FontSizeClamped | app/src/main/java/com/ai_autocreate/activities/SubtitleStyleActivity.java:652 | a font size outside 12 to 72 comes back as the nearer bound, except below the int range's bottom plus 12, where the subtraction wraps and 72 comes back |
| SubtitleStyle.CollectThenShow | app/src/main/java/com/ai_autocreate/activities/SubtitleStyleActivity.java:407-430 | reading the controls and showing the result again leaves every slider, box and the font name where it was, when the controls shown on hold the same boxes; with the listeners quiet, whatever they hold |
| SubtitleStyle.ResetControls | app/src/main/java/com/ai_autocreate/activities/SubtitleStyleActivity.java:498-520 | every slider position the reset sets lies within that slider's range |
| SubtitleStyle.ResetStyle | app/src/main/java/com/ai_autocreate/activities/SubtitleStyleActivity.java:498-520 | after a reset the style is the default one except that the shadow is off and the name is kept |
| SubtitleStyle.PreviewPadding | app/src/main/java/com/ai_autocreate/activities/SubtitleStyleActivity.java:474-481 | the preview's padding is twice the background padding when the background is on and 8 otherwise |
| SubtitleStyle.PaddingOnScale | app/src/main/java/com/ai_autocreate/activities/SubtitleStyleActivity.java:474-481 | for any padding the slider can show, the preview's padding is even and at most 40 |
| SubtitleStyle.FromJson | app/src/main/java/com/ai_autocreate/activities/SubtitleStyleActivity.java:866-886 | each field takes its key's value when present and of the right kind, and its initial value otherwise |
| SubtitleStyle.MissingKeysReadDefaults | app/src/main/java/com/ai_autocreate/activities/SubtitleStyleActivity.java:866-886 | an object with none of the keys reads as the default style |
| SubtitleStyle.JsonRoundTrip | app/src/main/java/com/ai_autocreate/activities/SubtitleStyleActivity.java:842-886 | reading back what was written gives the same style |
| SubtitleStyle.StringsRead | app/src/main/java/com/ai_autocreate/activities/SubtitleStyleActivity.java:842-886 | every text field written is read back as it was |
| SubtitleStyle.NumbersRead | app/src/main/java/com/ai_autocreate/activities/SubtitleStyleActivity.java:842-886 | every number field written is read back as it was |
| SubtitleStyle.SwitchesRead | app/src/main/java/com/ai_autocreate/activities/SubtitleStyleActivity.java:842-886 | every on/off field written is read back as it was |
| SubtitleStyle.DefaultPresets | app/src/main/java/com/ai_autocreate/activities/SubtitleStyleActivity.java:558-612 | there are three presets, Default, Clean and Bold, in that order |
| SubtitleStyle.ReadPresets | app/src/main/java/com/ai_autocreate/activities/SubtitleStyleActivity.java:524-548 | the presets read are the leading objects of the array, each read as a style; reading stops with failure at the first element that is not an object |
| SubtitleStyle.LoadPresets | app/src/main/java/com/ai_autocreate/activities/SubtitleStyleActivity.java:524-548 | with no presets file the three defaults load; a file that is not an array loads nothing and fails |
| SubtitleStyle.LoadCurrentStyle | app/src/main/java/com/ai_autocreate/activities/SubtitleStyleActivity.java:616-647 | with no style file the first preset becomes the style; a failed load leaves the style as it was |
| SubtitleStyle.Save | app/src/main/java/com/ai_autocreate/activities/SubtitleStyleActivity.java:684-704 | both files are overwritten, and no other file changes |
| SubtitleStyle.SaveThenLoadPresets | app/src/main/java/com/ai_autocreate/activities/SubtitleStyleActivity.java:522-704 | saved presets load back as they were, in order |
| SubtitleStyle.SaveThenLoadStyle | app/src/main/java/com/ai_autocreate/activities/SubtitleStyleActivity.java:614-704 | a saved style loads back as it was |
| SubtitleStyle.FilesDiffer | app/src/main/java/com/ai_autocreate/activities/SubtitleStyleActivity.java:618-696 | the style file and the presets file are different files |
| SubtitleStyle.FirstStart | app/src/main/java/com/ai_autocreate/activities/SubtitleStyleActivity.java:616-647 | on a first start, with neither file, the style is the default one |
| SubtitleStyle.SavePresetAsWritten | app/src/main/java/com/ai_autocreate/activities/SubtitleStyleActivity.java:782-840 | the new preset is the current style, including the current style's name |
| SubtitleStyle.SavedPresetKeepsOldName | app/src/main/java/com/ai_autocreate/activities/SubtitleStyleActivity.java:782-840 | whatever name is entered, the saved preset carries the current style's name |
| SubtitleStyle.SavedPresetNameExample | app/src/main/java/com/ai_autocreate/activities/SubtitleStyleActivity.java:782-840 | saving the default style as "Mine" stores a preset named "Default" |
| SubtitleStyle.SavePreset | app/src/main/java/com/ai_autocreate/activities/SubtitleStyleActivity.java:782-790 | the new preset is the current style under the entered name, added after the existing presets |
| SubtitleStyle.SavePresetDialog | app/src/main/java/com/ai_autocreate/activities/SubtitleStyleActivity.java:743-762 | intended behaviour, the corrected half of the Findings row on `savePreset`: a name that trims to nothing saves nothing; otherwise the preset is added under the trimmed name and both files are written |
| SubtitleStyle.SavedPresetReloads | app/src/main/java/com/ai_autocreate/activities/SubtitleStyleActivity.java:743-797 | intended behaviour, the corrected half of the Findings row on `savePreset`: after a restart the saved preset is found at the end of the presets, under the trimmed name |
| SubtitleStyle.LoadPresetAsWritten | app/src/main/java/com/ai_autocreate/activities/SubtitleStyleActivity.java:792-797 | loading a preset takes its name, font name and shadow setting; when the boxes already match the preset, the style becomes the preset with the spinner resets |
| SubtitleStyle.BoldAfterReset | app/src/main/java/com/ai_autocreate/activities/SubtitleStyleActivity.java:792-797 | after a reset, loading the Bold preset switches the shadow on but keeps radius 3, offset 2, outline off and background on, where the preset says 5, 3, on and off |
| SubtitleStyle.LoadPreset | app/src/main/java/com/ai_autocreate/activities/SubtitleStyleActivity.java:792-797 | intended behaviour, the corrected half of the Findings row on `updateUIFromStyle`: the boxes show the preset's settings and the style becomes the preset with the spinner resets |
| SubtitleStyle.BoldAfterResetIntended | app/src/main/java/com/ai_autocreate/activities/SubtitleStyleActivity.java:792-797 | intended behaviour: after a reset, loading the Bold preset gives radius 5, offset 3, outline on and background off |
| FFmpeg.ScanFacts | app/src/main/java/com/ai_autocreate/utils/FFmpegRunner.java:78-94 | after any prefix of the command the quote flag is the parity of the quote characters read, every finished token is non-empty and quote-free, and the tokens with the current one spell the characters kept so far |
| FFmpeg.TokensFacts | app/src/main/java/com/ai_autocreate/utils/FFmpegRunner.java:76-98 | the command's tokens are non-empty and quote-free, and together they spell the command with its quote characters and its unquoted spaces removed |
| FFmpeg.QuotedStretch | app/src/main/java/com/ai_autocreate/utils/FFmpegRunner.java:84-93 | inside quotes every character but a quote, spaces included, joins the current token |
| FFmpeg.MixedQuotesClose | app/src/main/java/com/ai_autocreate/utils/FFmpegRunner.java:84-85 | a double quote and a single quote share one flag, so a double quote followed by a single quote closes what it opened |
| FFmpeg.QuoteFreeTokens | app/src/main/java/com/ai_autocreate/utils/FFmpegRunner.java:86-98 | a command without quotes is cut at its spaces, and the empty pieces left by runs of spaces are dropped |
| FFmpeg.JoinedWords | app/src/main/java/com/ai_autocreate/utils/FFmpegRunner.java:76-98 | words without spaces or quotes, joined by single spaces, are cut back into exactly those words |
| FFmpeg.BinaryPath | app/src/main/java/com/ai_autocreate/utils/FFmpegRunner.java:106-121 | the app's own binary when it exists, else the one on shared storage when that exists, else the bare name; a path that is not a file is only ever the bare name |
| FFmpeg.ParseCommand | app/src/main/java/com/ai_autocreate/utils/FFmpegRunner.java:76-104 | the binary comes first, followed by the command's tokens in order |
| FFmpeg.Execute | app/src/main/java/com/ai_autocreate/utils/FFmpegRunner.java:27-70 | a result comes back exactly when FFmpeg is available and the process finishes, carrying the process's exit code and its output's lines, each ended by a newline; otherwise a reason is logged, "not available" or a timeout among them |
| FFmpeg.ExecuteAsync | app/src/main/java/com/ai_autocreate/utils/FFmpegRunner.java:211-233 | the success callback fires exactly when the run gives a result and passes that result on; a failure always says "Unknown error" |
| FFmpeg.Available | app/src/main/java/com/ai_autocreate/utils/FFmpegRunner.java:123-149 | FFmpeg counts as available exactly when the probe exits with 0, or when the probe throws and the FFmpegKit class loads |
| FFmpeg.Version | app/src/main/java/com/ai_autocreate/utils/FFmpegRunner.java:155-177 | the result names a version exactly when FFmpeg is available and its first output line names one, and then it is that line; otherwise a fixed message, "Not available" when FFmpeg is missing |
| FFmpeg.WithoutF | app/src/main/java/com/ai_autocreate/utils/FFmpegRunner.java:155-177 | text without the letter f never names a version, so none of the fixed messages can be mistaken for one |
| FFmpeg.PresetCommand | app/src/main/java/com/ai_autocreate/fragments/FFmpegFragment.java:106-127 | exactly the eight presets have a command line, and each starts with an option |
| FFmpeg.PresetTokens | app/src/main/java/com/ai_autocreate/fragments/FFmpegFragment.java:82-127 | a preset placed in the editor and run is cut into exactly its words |
| FFmpeg.ExitCode | app/src/main/java/com/ai_autocreate/fragments/FFmpegFragment.java:153-173 | the code is 0 exactly when the run gave a successful result, and -1 when it gave none |
| FFmpeg.ClosingLine | app/src/main/java/com/ai_autocreate/fragments/FFmpegFragment.java:183-199 | the closing line reports success exactly for exit code 0, and the failure line otherwise |
| FFmpeg.RunButton | app/src/main/java/com/ai_autocreate/fragments/FFmpegFragment.java:60-72 | a blank command runs nothing; any other command runs and reports 0 exactly when FFmpeg is available and the process finishes with 0, and -1 when FFmpeg is missing |
| FFmpeg.LogRecord | app/src/main/java/com/ai_autocreate/fragments/FFmpegFragment.java:202-214 | the record holds the output exactly when the run gave one, and its exit code is 0 exactly when the run succeeded |
| HomeScreen.NewProjectId | app/src/main/java/com/ai_autocreate/fragments/HomeFragment.java:147-153 | a new project id starts with "proj_", the time and an underscore |
| HomeScreen.SuccessfulRun | app/src/main/java/com/ai_autocreate/fragments/HomeFragment.java:184-256 | generation succeeds exactly when the sanity check passes and the orchestrator returns a result marked successful |
| HomeScreen.SuccessTableComplete | app/src/main/java/com/ai_autocreate/fragments/HomeFragment.java:189-248 | the progress published by a successful run never decreases and ends at 100 |
| HomeScreen.SuccessProgress | app/src/main/java/com/ai_autocreate/fragments/HomeFragment.java:189-248 | a successful run publishes 10, 20, 30, 60, 68, 76, 84, 92, 95 and 100, in that order |
| HomeScreen.FailuresStop | app/src/main/java/com/ai_autocreate/fragments/HomeFragment.java:188-224 | a failed check stops the run at 10 with the check's message or "Sanity check failed"; a missing orchestrator result stops it at 30 with "Orchestrator returned null", and an unsuccessful one at 30 with its message or "Orchestrator failed" |
| HomeScreen.LabelMonotone | app/src/main/java/com/ai_autocreate/fragments/HomeFragment.java:259-276 | the status label never moves back as progress grows; it is "finalizing" exactly from 90 and "initializing" exactly below 20 |
| HomeScreen.LabelsOfSuccessfulRun | app/src/main/java/com/ai_autocreate/fragments/HomeFragment.java:259-276 | along a successful run the label reads initializing, sanity check twice, generating four times and finalizing to the end, and never the project-configuration label |
| HomeScreen.ScriptTextNamesNothing | app/src/main/java/com/ai_autocreate/fragments/HomeFragment.java:294-303 | the script placeholder never names the user's prompt, because the orchestrator's results carry none |
| HomeScreen.Effects | app/src/main/java/com/ai_autocreate/fragments/HomeFragment.java:197-246 | the check's result always replaces the sanity report; a failed check changes nothing else; a passed check writes the project configuration; no file other than the report, the project's configuration and script, the app log, the orchestrator's shared script and its record changes, and no other file appears |
| HomeScreen.Generate | app/src/main/java/com/ai_autocreate/fragments/HomeFragment.java:205-246 | after a passed check, the configuration exists, and only the project's configuration and script and the orchestrator's own files can change or appear |
| HomeScreen.Launch | app/src/main/java/com/ai_autocreate/fragments/HomeFragment.java:197-217 | the configuration is written as first composed, and the orchestrator's run leaves it alone; only the configuration and the orchestrator's own files change |
| HomeScreen.EffectsFollowRun | app/src/main/java/com/ai_autocreate/fragments/HomeFragment.java:197-246 | the configuration is marked completed and the script placeholder written exactly when the run succeeds; otherwise the configuration stays as first written and there is no script, even though the orchestrator writes a script of its own |
| HomeScreen.GenerateFollowsRun | app/src/main/java/com/ai_autocreate/fragments/HomeFragment.java:217-246 | after a passed check, the orchestrator's success completes the configuration and writes the placeholder; its failure leaves the first configuration and no project script |
| HomeScreen.NewProjectNotShared | app/src/main/java/com/ai_autocreate/fragments/HomeFragment.java:147-153 | a new project id never names the orchestrator's shared project |
| ProcessingService.SuccessfulRun | app/src/main/java/com/ai_autocreate/services/ProcessingService.java:152-237 | a run completes exactly when the sanity check passes and the orchestrator returns a result marked successful |
| ProcessingService.SuccessTableComplete | app/src/main/java/com/ai_autocreate/services/ProcessingService.java:166-226 | the progress of a successful run never decreases and ends at 100 |
| ProcessingService.SuccessProgress | app/src/main/java/com/ai_autocreate/services/ProcessingService.java:166-226 | a successful run announces 10, 20, 30, 60, 60, 66, 72, 78, 84, 90 and 100, in that order |
| ProcessingService.SanityFailureStops | app/src/main/java/com/ai_autocreate/services/ProcessingService.java:165-172 | a failed check stops the run at 10 with the check's message, or "Sanity check failed" |
| ProcessingService.OrchestratorFailureStops | app/src/main/java/com/ai_autocreate/services/ProcessingService.java:187-202 | a missing orchestrator result stops the run at 30 with "Orchestrator returned null", and an unsuccessful one with its message or "Orchestrator failed" |
| ProcessingService.Effects | app/src/main/java/com/ai_autocreate/services/ProcessingService.java:174-224 | the check's result always replaces the sanity report; a failed check changes nothing else; a passed check writes the project configuration; no file other than the report, the project's configuration and script, the app log, the orchestrator's shared script and its record changes, and no other file appears |
| ProcessingService.Generate | app/src/main/java/com/ai_autocreate/services/ProcessingService.java:176-224 | after a passed check, the configuration exists, and only the project's configuration and script and the orchestrator's own files can change or appear |
| ProcessingService.Launch | app/src/main/java/com/ai_autocreate/services/ProcessingService.java:174-194 | the configuration is written as first composed, and the orchestrator's run leaves it alone; only the configuration and the orchestrator's own files change |
| ProcessingService.EffectsFollowRun | app/src/main/java/com/ai_autocreate/services/ProcessingService.java:174-224 | the configuration is marked completed and the script placeholder, naming the user's prompt, written exactly when the run completes; otherwise the configuration stays as first written and there is no script |
| ProcessingService.GenerateFollowsRun | app/src/main/java/com/ai_autocreate/services/ProcessingService.java:194-224 | after a passed check, the orchestrator's success completes the configuration and writes the placeholder; its failure leaves the first configuration and no project script |
| ProcessingService.Start | app/src/main/java/com/ai_autocreate/services/ProcessingService.java:137-144 | a start is accepted exactly when no pipeline runs, and then the service is busy with the new project; a refused start changes nothing |
| ProcessingService.Finish | app/src/main/java/com/ai_autocreate/services/ProcessingService.java:232-236 | however a run ends, the service is free again afterwards |
| ProcessingService.Cancel | app/src/main/java/com/ai_autocreate/services/ProcessingService.java:257-274 | cancelling frees the service and announces "cancelled" |
| ProcessingService.Pause | app/src/main/java/com/ai_autocreate/services/ProcessingService.java:241-255 | pausing writes the checkpoint of the project last started, announces "paused", and leaves the service busy and every other file as it was |
| ProcessingService.Resume | app/src/main/java/com/ai_autocreate/services/ProcessingService.java:276-291 | resuming only announces "resumed" |
| ProcessingService.CheckpointReads | app/src/main/java/com/ai_autocreate/services/ProcessingService.java:293-305 | the checkpoint names the project, its time and the status "paused", and is neither the configuration nor the script |
| ProcessingService.PauseKeepsRunning | app/src/main/java/com/ai_autocreate/services/ProcessingService.java:241-255 | pausing or resuming does not stop the pipeline: a second start is still refused, and only the checkpoint file changes |
| ProcessingService.Updates | app/src/main/java/com/ai_autocreate/services/ProcessingService.java:307-361 | a run announces each progress value in order and then one status: "completed" exactly when the run completed, otherwise "error" with the failing step's message |
| ProcessingService.SuccessfulUpdates | app/src/main/java/com/ai_autocreate/services/ProcessingService.java:166-227 | a successful run announces the whole progress table in order and then "completed", with no status before the end |
| ProcessingService.OneRunAtATime | app/src/main/java/com/ai_autocreate/services/ProcessingService.java:137-144 | while a pipeline runs a second start is refused and changes nothing; once it finishes the next start is accepted |
| ProcessingService.CancelAdmitsSecondRun | app/src/main/java/com/ai_autocreate/services/ProcessingService.java:257-274 | cancelling frees the service without stopping the running pipeline, so a second start is accepted while the first may still run |
| ProcessingService.BarDuringRun | app/src/main/java/com/ai_autocreate/services/ProcessingService.java:385-389 | a successful run's notification shows a bar at every step but the final 100, and the first notification, at 0, shows none |
| ScreenSteps.SanityVerdict | app/src/main/java/com/ai_autocreate/activities/ImageToStoryActivity.java:247-252 | the sanity step passes exactly when the check's "passed" reads true, and otherwise fails with the check's message or "Sanity check failed" |
| ScreenSteps.AgentVerdict | app/src/main/java/com/ai_autocreate/activities/ImageToStoryActivity.java:258-264 | an agent step passes exactly when a result came back marked successful; a missing result fails with the screen's null text, any other failure with the result's message or the screen's fallback |
| ScreenSteps.Title | app/src/main/java/com/ai_autocreate/activities/VideoReimaginerActivity.java:232 | the project title is the prompt's first 50 UTF-16 units, or the whole of a shorter prompt; inside the Basic Multilingual Plane, its first 50 characters; a pair cut in two ends it with the stand-in character |
| ScreenSteps.PairsTitle | app/src/main/java/com/ai_autocreate/activities/VideoReimaginerActivity.java:232 | a prompt of characters outside the Basic Multilingual Plane, such as emoji, keeps only its first 25 |
| ScreenSteps.Submit | app/src/main/java/com/ai_autocreate/activities/ScriptStudioActivity.java:82-88 | the work starts exactly when the trimmed text is not empty, and then with the trimmed text |
| ScreenSteps.ProjectId | app/src/main/java/com/ai_autocreate/activities/ImageToStoryActivity.java:112-118 | an identifier starts with the screen's prefix, the time and an underscore, and ends with the random number |
| ScreenSteps.CurrentProject | app/src/main/java/com/ai_autocreate/activities/ImageToStoryActivity.java:61-65 | the screen works on the project named by its opening intent, and otherwise on a new identifier with its prefix |
| ScreenSteps.ProjectIdsDiffer | app/src/main/java/com/ai_autocreate/activities/ImageToStoryActivity.java:112-118 | two identifiers made in the same second with different random numbers differ |
| ScreenSteps.OrchestratorInputAccepted | app/src/main/java/com/ai_autocreate/fragments/HomeFragment.java:212-217 | the input the screens build for the orchestrator always gets past its input check |
| ScreenSteps.Ramp | app/src/main/java/com/ai_autocreate/activities/VideoReimaginerActivity.java:267-270 | the simulated work announces the given number of values, from the start in equal steps |
| ScreenSteps.ProjectFile | app/src/main/java/com/ai_autocreate/activities/ImageToStoryActivity.java:200-214 | a project file lies directly inside the project's directory |
| ScreenSteps.ProjectFilesDiffer | app/src/main/java/com/ai_autocreate/activities/ImageToStoryActivity.java:200-214 | two different names in the same project are two different files |
| ScreenSteps.ProjectFileUnderProjects | app/src/main/java/com/ai_autocreate/activities/ImageToStoryActivity.java:200-214 | a project file lies below the projects directory |
| ScreenSteps.ResultsOutsideProject | app/src/main/java/com/ai_autocreate/activities/ImageToStoryActivity.java:200-214 | no file in the agent-results directory is a project file, so the agents' records and the app log never touch a project |
| ScreenSteps.OtherNameNotShared | app/src/main/java/com/ai_autocreate/agents/OrchestratorAgent.java:206-211 | a project file whose name ends in another letter than `script.txt` is never the orchestrator's shared script |
| ScreenSteps.ScriptFileNamesProject | app/src/main/java/com/ai_autocreate/agents/OrchestratorAgent.java:206-211 | a project's script path names its project between the projects directory and "/script.txt" |
| ScreenSteps.OtherProjectNotShared | app/src/main/java/com/ai_autocreate/agents/OrchestratorAgent.java:206-211 | only the shared project's script is the orchestrator's shared script |
| ScreenSteps.ProjectFileNotOwn | app/src/main/java/com/ai_autocreate/agents/OrchestratorAgent.java:206-211 | a project file other than the shared script is none of the orchestrator's files, whatever result it recorded |
| ScreenSteps.ReportNotOwn | app/src/main/java/com/ai_autocreate/agents/OrchestratorAgent.java:468-472 | the sanity report is none of the orchestrator's files |
| ScreenSteps.ConfigReads | app/src/main/java/com/ai_autocreate/fragments/HomeFragment.java:197-246 | the configuration names the project and the workflow, keeps the whole prompt and titles it with its first 50 UTF-16 units; only the completed one has a status, and completing it keeps every other member |
| ScreenSteps.Pick | app/src/main/java/com/ai_autocreate/activities/ImageToStoryActivity.java:142-169 | a cancelled pick changes nothing; a picked path is remembered at once, and only a successful copy into the project moves the selection there and enables the button; an item without a path clears the selection |
| ScreenSteps.Request | app/src/main/java/com/ai_autocreate/activities/ImageToStoryActivity.java:177-190 | a run starts exactly when a file is selected and the trimmed prompt is not empty, and then with the trimmed prompt |
| ScreenSteps.PickedFileIsCopied | app/src/main/java/com/ai_autocreate/activities/ImageToStoryActivity.java:145-161 | after a successful pick the screen is ready and holds the project copy, which has the picked file's content; a path that cannot be copied is still remembered and the project is unchanged |
| ScreenSteps.StaleButton | app/src/main/java/com/ai_autocreate/activities/ImageToStoryActivity.java:142-169 | after a successful pick, an item without a path clears the selection but leaves the button enabled, while every request is refused |
| ScreenSteps.SavedConfig | app/src/main/java/com/ai_autocreate/activities/ImageToStoryActivity.java:206-212 | the saved metadata names the project, the fixed title and the workflow, and holds the source exactly when there is one |
| ImageToStory.NewProjectId | app/src/main/java/com/ai_autocreate/activities/ImageToStoryActivity.java:112-118 | a new project id starts with "image_to_story_", the time and an underscore |
| ImageToStory.RunOutcome | app/src/main/java/com/ai_autocreate/activities/ImageToStoryActivity.java:242-284 | a run succeeds exactly when the check passes and the image analysis succeeds, announcing 10, 30, 60 and 90; a failing step ends it with its own message |
| ImageToStory.Story | app/src/main/java/com/ai_autocreate/activities/ImageToStoryActivity.java:274 | the story is the prompt set between a fixed opening and a fixed ending |
| ImageToStory.StoryNamesPrompt | app/src/main/java/com/ai_autocreate/activities/ImageToStoryActivity.java:274 | different prompts give different stories, so the image analysis plays no part |
| ImageToStory.Generate | app/src/main/java/com/ai_autocreate/activities/ImageToStoryActivity.java:292-304 | after a run the editor holds the story exactly when the run succeeded, the old text otherwise, and the generate button is back |
| ImageToStory.Save | app/src/main/java/com/ai_autocreate/activities/ImageToStoryActivity.java:192-223 | an empty story saves nothing; otherwise the story and the metadata are written and no other file changes |
| ImageToStory.SavedStoryReadsBack | app/src/main/java/com/ai_autocreate/activities/ImageToStoryActivity.java:192-215 | a saved story reads back as the editor held it, line by line, and the metadata names the image exactly when one is selected |
| AudioReconstructor.NewProjectId | app/src/main/java/com/ai_autocreate/activities/AudioReconstructorActivity.java:120-126 | a new project id starts with "audio_reconstructor_", the time and an underscore |
| AudioReconstructor.RunOutcome | app/src/main/java/com/ai_autocreate/activities/AudioReconstructorActivity.java:268-319 | a run succeeds exactly when the check passes and the audio analysis succeeds, announcing 10, 30, 60 and 90; a failing step ends it with its own message |
| AudioReconstructor.ResultText | app/src/main/java/com/ai_autocreate/activities/AudioReconstructorActivity.java:308-309 | the result text is the prompt set between a fixed opening and a fixed ending |
| AudioReconstructor.ResultTextNamesPrompt | app/src/main/java/com/ai_autocreate/activities/AudioReconstructorActivity.java:308-309 | different prompts give different result texts |
| AudioReconstructor.PickAudio | app/src/main/java/com/ai_autocreate/activities/AudioReconstructorActivity.java:149-171 | a successful pick enables the generate button, enables play only when audio was already generated, and keeps the generated audio and the result |
| AudioReconstructor.AnalyzerEffects | app/src/main/java/com/ai_autocreate/activities/AudioReconstructorActivity.java:284 | analysing the picked audio writes its result to the analyzer's record, keeps the sanity report, and otherwise only adds app-log lines |
| AudioReconstructor.Checked | app/src/main/java/com/ai_autocreate/activities/AudioReconstructorActivity.java:272-290 | the check's result always replaces the sanity report; a failed check changes nothing else; after a passed one the analyzer's record holds its result; only agent files are added |
| AudioReconstructor.Generate | app/src/main/java/com/ai_autocreate/activities/AudioReconstructorActivity.java:257-340 | a successful run sets the generated path, copies the picked audio there after the agents wrote their files, enables play and shows the result text; a failed one leaves only the agents' files changed and brings the generate button back; no file but the generated one and the agents' own changes |
| AudioReconstructor.PlayableWithoutFile | app/src/main/java/com/ai_autocreate/activities/AudioReconstructorActivity.java:299-334 | when the picked audio cannot be copied, a successful run still enables play on a generated file that does not exist |
| AudioReconstructor.GeneratedCopiesInput | app/src/main/java/com/ai_autocreate/activities/AudioReconstructorActivity.java:299-305 | after a successful run from a picked file the generated file holds the picked audio |
| AudioReconstructor.GeneratedNotAgentFile | app/src/main/java/com/ai_autocreate/activities/AudioReconstructorActivity.java:301-302 | the generated file is neither the sanity report, nor an analyzer record, nor an app-log file |
| AudioReconstructor.SavedData | app/src/main/java/com/ai_autocreate/activities/AudioReconstructorActivity.java:229-237 | the metadata holds the source and the generated file exactly when each is set, the result text as shown, and the workflow "audio_reconstructor" |
| AudioReconstructor.Save | app/src/main/java/com/ai_autocreate/activities/AudioReconstructorActivity.java:224-248 | saving writes the metadata to the project's configuration and leaves every other file as it was |
| VideoReimaginer.NewProjectId | app/src/main/java/com/ai_autocreate/activities/VideoReimaginerActivity.java:103-109 | a new project id starts with "video_reimaginer_", the time and an underscore |
| VideoReimaginer.SuccessfulRun | app/src/main/java/com/ai_autocreate/activities/VideoReimaginerActivity.java:200-295 | a run succeeds exactly when the check passes and both the video analysis and the orchestrator succeed |
| VideoReimaginer.SuccessTableComplete | app/src/main/java/com/ai_autocreate/activities/VideoReimaginerActivity.java:205-287 | the progress of a successful run never decreases and ends at 100 |
| VideoReimaginer.SuccessProgress | app/src/main/java/com/ai_autocreate/activities/VideoReimaginerActivity.java:205-287 | a successful run announces 10, 20, 30, 40, 60, 60, 66, 72, 78, 84, 90 and 100, in that order |
| VideoReimaginer.SanityFailureStops | app/src/main/java/com/ai_autocreate/activities/VideoReimaginerActivity.java:205-212 | a failed check stops the run at 10 with the check's message or "Sanity check failed" |
| VideoReimaginer.AnalysisFailureStops | app/src/main/java/com/ai_autocreate/activities/VideoReimaginerActivity.java:215-224 | a missing video analysis stops the run at 20 with "Video analysis returned null", and a failed one with its message or "Video analysis failed" |
| VideoReimaginer.OrchestratorFailureStops | app/src/main/java/com/ai_autocreate/activities/VideoReimaginerActivity.java:244-260 | a missing orchestrator result stops the run at 40 with "Orchestrator returned null", and an unsuccessful one with its message or "Orchestrator failed" |
| VideoReimaginer.RequestAccepted | app/src/main/java/com/ai_autocreate/activities/VideoReimaginerActivity.java:247-253 | the extra analysis member does not keep the orchestrator's input check from accepting the request |
| VideoReimaginer.AnalyzerEffects | app/src/main/java/com/ai_autocreate/activities/VideoReimaginerActivity.java:218 | analysing the picked video writes its result to the analyzer's record, keeps the sanity report, and otherwise only adds app-log lines and frame files in the temporary directory |
| VideoReimaginer.Effects | app/src/main/java/com/ai_autocreate/activities/VideoReimaginerActivity.java:205-285 | the check's result always replaces the sanity report and a failed check changes nothing else; a passed one lets the analyzer record its result; the configuration and the orchestrator's files are written only after a successful analysis; besides the configuration, only the report, the analyzer's record, the app log, the orchestrator's shared script and record, and new files in the temporary directory can differ afterwards |
| VideoReimaginer.AfterCheck | app/src/main/java/com/ai_autocreate/activities/VideoReimaginerActivity.java:215-285 | after a passed check the analyzer's record holds its result; the configuration is written exactly when the analysis succeeded, and the orchestrator's files change only then; the report is kept |
| VideoReimaginer.Configure | app/src/main/java/com/ai_autocreate/activities/VideoReimaginerActivity.java:227-283 | the configuration step writes the configuration, runs the orchestrator and changes no other file than the configuration and the orchestrator's own files |
| VideoReimaginer.EffectsFollowRun | app/src/main/java/com/ai_autocreate/activities/VideoReimaginerActivity.java:273-285 | the configuration is marked completed exactly when the run succeeds, and the final video exists afterwards exactly when it existed before, since neither the screen nor its agents write it |
| VideoReimaginer.AnalysisRecordNotOwn | app/src/main/java/com/ai_autocreate/activities/VideoReimaginerActivity.java:215-253 | the analyzer's record is none of the orchestrator's own files, so the orchestrator's run keeps it |
| VideoReimaginer.FinalConfigReads | app/src/main/java/com/ai_autocreate/activities/VideoReimaginerActivity.java:230-283 | the finished configuration is completed, keeps the source and the analysis, and names the final video inside the project |
| VideoReimaginer.PickVideo | app/src/main/java/com/ai_autocreate/activities/VideoReimaginerActivity.java:133-160 | a successful pick copies the video to the project's input.mp4, selects that copy and enables the process button |
| ScriptStudio.RunOutcome | app/src/main/java/com/ai_autocreate/activities/ScriptStudioActivity.java:192-223 | a run succeeds exactly when the check passes and the generator succeeds, announcing 10, 30 and 80; a failing step ends it with its own message |
| ScriptStudio.Generate | app/src/main/java/com/ai_autocreate/activities/ScriptStudioActivity.java:231-243 | after a successful run the editor shows the result's script, empty when it has none; otherwise the old text stays |
| ScriptStudio.WithGenerator | app/src/main/java/com/ai_autocreate/activities/ScriptStudioActivity.java:205-216 | with the script generator's own result, a run succeeds exactly when the check passes and a script was produced, which then fills the editor; otherwise the generator's message is shown |
| ScriptStudio.NewProjectId | app/src/main/java/com/ai_autocreate/activities/ScriptStudioActivity.java:107-113 | a new project id starts with "script_studio_", the time and an underscore |
| ScriptStudio.Load | app/src/main/java/com/ai_autocreate/activities/ScriptStudioActivity.java:129-141 | the editor starts empty and shows the saved script, line by line, when the project has one |
| ScriptStudio.Save | app/src/main/java/com/ai_autocreate/activities/ScriptStudioActivity.java:143-173 | an empty editor saves nothing; otherwise the script and the metadata are written and no other file changes |
| ScriptStudio.SaveThenLoad | app/src/main/java/com/ai_autocreate/activities/ScriptStudioActivity.java:129-173 | reopening after a save shows the saved text with each line ended by a line feed, unchanged when it had no carriage returns and already ended in one |

## Left out

- User interface: layouts, widgets, dialogs, toasts, menus, navigation, notifications beyond the rule for when the progress bar shows, and the messenger plumbing between the service and its clients. Listeners are modelled where they feed back into a value the model states, as the style screen's check boxes do.
- Threads and `AsyncTask` ordering: each task is modelled as running to completion in the order the screen starts it. The fragments' asynchronous loads are modelled the same way, and so are the idea gallery's deferred save task and the models fragment's `LoadModelsTask`, whose adapter is built before the load completes.
- The `statusText.setText` calls made from `doInBackground`: ImageToStory at 256 and 268, AudioReconstructor at 282 and 294, VideoReimaginer at 206, 216, 228, 245, 264 and 278. Android may throw there and turn the run into a failure. The model treats these calls as having no effect.
- `Thread.sleep`, the clock and random numbers. Delays are recorded as values, and times and identifiers are parameters.
- HTTP transport and connection and read timeouts. Each attempt's outcome is an input.
- Process execution: FFmpeg, `MediaPlayer` playback in the audio reconstructor and the video reimaginer's success-dialog playback. Commands are built and their results are inputs.
- Floating point: sampling temperatures, alpha values, `getFloat` and `putFloat`, `duration_seconds`, the value of an aspect ratio, and the video frame rate. A zero height, whose ratio is infinite or NaN and ends metadata extraction, is modelled. The frame rate is not read: its `Double.parseDouble` failure, or a NaN or infinite rate, would end metadata extraction with one more "Error extracting metadata" line.
- SHA-256 in `hashString`: not modelled; a hash function would be a parameter.
- JSON text: rendering and parsing are not modelled. A parsed document is an input, `None` when it does not parse, and the text of an array or object read as a string is a fixed stand-in.
- Android's lenient Base64 decoder skips characters outside the alphabet and accepts missing padding. The model decodes canonical padded text only.
- Malformed UTF-8 is decoded to one U+FFFD per bad byte, a simplification of Java's replacement rule.
- Java's UTF-16 `compareTo`: timestamps are compared by `seq<char>` order, which agrees with it on the characters timestamps use.
- A lone surrogate: a `substring` that cuts a surrogate pair in two leaves half a pair, which Dafny strings cannot hold. The model puts '?' there, the character that writing the text out as UTF-8 produces, so the title, the mask and any later use see '?' instead of the half pair.
- `File.listFiles` order: an input. The result can be `null`; that case is modelled as an empty directory.
- The file store has no separate directories, so `FileUtils.deleteDirectory`, `getDirectorySize`, `mkdirs` (including `createNewProjectId`'s) and the external-storage state checks are not modelled.
- `SimpleDateFormat`: a formatted date is a parameter.
- Unreachable `catch` blocks: `JSONException` from `put` with literal keys, for example in SanityCheckAgent and JSONLogger. Also `getView`'s catch and the null adapter fields that are never null.
- JSONLogger's fallback file and its plain-text fallback: I/O errors are not modelled.
- Orchestrator.Leaves: the lines a run logs are a parameter, in the order they are logged. The model does not work out which of them come from the catch blocks at OrchestratorAgent.java:104-378 and which from the model client's failed attempts; the frame still covers every one of them, since all go to the app log.
- Orchestrator.Leaves: the script text saved is a parameter of the screens' runs, whose orchestrator result is an input. `SavedScript` derives it from a run's responses.
- HomeScreen.EffectsFollowRun: requires that the project is not "current_project", the orchestrator's shared project, whose `script.txt` the orchestrator writes itself. HomeFragment's ids start with "proj_" (`NewProjectNotShared`).
- ProcessingService.EffectsFollowRun: requires, for the same reason, that the project is not "current_project". The service takes its id from the intent, which the model does not constrain.
- `analyzeVideoAsync`, `validateModelAsync` and `ValidationTask`'s null message: thread wrappers around the modelled calls.
- ModelValidator: the model's answer is an input, not derived from a real inference.
- `saveAllTestResults`' write of `test_all_<time>.json`.
- The placeholder audio features and placeholder frames: fixed values in the source that the model carries as given.
- The line separator is taken as `"\n"`.
- ModelsManager's Add and Edit also start a `TestModelTask`: a network check.
- The models fragment's swipe-to-refresh: it reloads, as modelled.
- ProcessingService's resume does not read the checkpoint back, because the source only broadcasts.
- Locale and configuration updates and `setTheme`: outputs only.
- Ideas.Search: the case mapping is a parameter standing for `toLowerCase()` in the default locale; no locale's table is fixed.
- JavaString.ToLower: maps ASCII letters only, as do `ToUpper` and `EqualsIgnoreCase`. Java maps every letter with a case, and `toLowerCase`/`toUpperCase` follow the default locale (Turkish maps "I" to "ı"). The model applies them only to the app's own ASCII names, language codes and keywords ("true", "yes") and to log types; `equalsIgnoreCase` would also match such texts as "yeſ" (long s) with "yes", which the model does not.
- MediaUtils.FormatDuration: pads with ASCII digits. `String.format("%02d")` uses the default locale's digits, so once LanguageUtils.java:24-25 makes a language such as Persian or Arabic the default locale, the app shows that language's digits instead.
- JavaString.ParseDecimal: accepts ASCII digits only. `Integer.parseInt` and `Long.parseLong` also accept any other Unicode decimal digit (`Character.digit`), such as Arabic-Indic ones.
- The import and export stubs for API keys and models: they show a message.
- `RecyclerView.NO_POSITION`: positions passed to the adapters' clicks are in range.
- Thumbnails: whether one exists is a boolean.
- The ActivityLog export task: writing a file chosen through the UI.
- MainActivity, SettingsActivity, TestFragment, NotificationUtils, BootReceiver and TaskSchedulerService: not part of this model.
- UploadFile: an unreadable file is logged with the reader's message on every attempt. The source opens the connection first, so a connection that also fails would log its own message instead.
- HFClient.UnreadableUploadLog: holds for every exchange, so it inherits UploadFile's ordering: `getOutputStream` connects (HFClient.java:188) before the file is opened (:196), and a connection that also fails logs its own message, not the reader's, which the lemma does not promise.
- GeneratedCopiesInput: requires that the picked audio is not one of the files the agents write (the sanity report, an analyzer record or an app-log file), because those change before the copy.
- PlayableWithoutFile: requires, for the same reason, that the picked audio is not one of the agents' files.
- VideoReimaginer.Effects: the analysis object the run reads and the analyzer's run whose files it writes are separate parameters. The app takes both from one `analyzeVideo` call, and the record holds the rendered result of that run. The same holds for AudioReconstructor.Generate.
- Ideas.Delete: the source removes an idea by object identity; the model removes by position.
- ApiKeys.MaskHidesMiddle: weaker than "the mask never contains the middle of the key". It states that the mask does not depend on the middle characters, which implies the middle cannot be recovered from it.
- SubtitleStyle: the source edits a style object shared with the preset list. The model copies values instead, and the lost-name defect is stated under Findings.

## Findings

| source | as written | input that shows it | evidently intended | confidence | as-written member | corrected member |
|---|---|---|---|---|---|---|
| app/src/main/java/com/ai_autocreate/agents/SanityCheckAgent.java:118 | available storage is `blocks * blockSize` in 32-bit `int`, which wraps before being divided down to megabytes, and `runCheck` fails on the wrapped figure | 1048576 free blocks of 4096 bytes (4 GiB) give 0 MB; 2621440 blocks (10 GiB) give -2048 MB, and the whole run fails with the storage error alone | multiply in `long`, as `getAvailableBlocksLong` provides | not executed | SanityCheck.TenGiBFailsAsWritten | SanityCheck.StorageVerdictByBytes |
| app/src/main/java/com/ai_autocreate/activities/SubtitleStyleActivity.java:782-840 | `savePreset` names the new preset, then `copyFrom` overwrites every field including the name | saving the default style as "Mine" stores a preset named "Default" | the preset keeps the entered name | not executed | SubtitleStyle.SavedPresetNameExample | SubtitleStyle.SavePreset |
| app/src/main/java/com/ai_autocreate/activities/SubtitleStyleActivity.java:650-674 | `updateUIFromStyle` sets each check box while its listener is live; a box that changes runs `updatePreview`, which overwrites the style being shown with the controls' current positions before the later sliders are set from it | after a reset, loading the Bold preset keeps shadow radius 3, outline off and background on instead of 5, on and off | every control shows the loaded style, as with the listeners detached while the controls are set | not executed | SubtitleStyle.BoldAfterReset | SubtitleStyle.LoadPreset |
| app/src/main/java/com/ai_autocreate/activities/IdeaGalleryActivity.java:401-406 | the adapter is built on the screen's own list, so `updateList(ideasList)` clears the list it copies from; the same at IdeaGalleryFragment.java:320-331 | with five saved ideas, loading and then adding one idea leaves one idea in `ideas.json` | the adapter keeps its own list and the screen keeps all ideas | not executed | Ideas.AddAfterLoadLosesIdeas | Ideas.AddAfterLoadKeepsIdeas |
| app/src/main/java/com/ai_autocreate/activities/ActivityLogActivity.java:416 | `30 * 24 * 60 * 60 * 1000` is evaluated in `int` and wraps to -1702967296 before the subtraction; the same at ActivityLogFragment.java:430 | "clear old" deletes a result file modified at the moment of clearing, because the cutoff lies about 19.7 days in the future | a `long` product, so that only files older than 30 days are deleted | not executed | ActivityLog.RecentFileDeletedAsWritten | ActivityLog.OldMeansThirtyDays |
| app/src/main/java/com/ai_autocreate/activities/ActivityLogActivity.java:268-270 | the app logs are read twice: once by the walk over the log directory and once by `loadAppLogs`; the same at ActivityLogFragment.java:283-285 | one app-log line shows as two entries | each log entry is shown once | not executed | ActivityLog.AppLogsLoadedTwice | ActivityLog.AppLogsLoadedOnce |
| app/src/main/java/com/ai_autocreate/activities/ModelsManagerActivity.java:226-228 | the adapter copies the model list once, and deletes and adds only call `notifyDataSetChanged`; the same in ModelsManagerFragment | in ModelsManagerFragment, whose adapter gets a click listener (ModelsManagerFragment.java:78-92): deleting the first default model (:491-503) leaves two rows, and a click on the second throws in `modelsList.get(position)` (:176); in ModelsManagerActivity the adapter has no listener, so the row's own click handler (ModelsAdapter.java:105-110) ignores the click | call `updateData` after every change | not executed | ModelsManager.StaleRowAfterDelete | ModelsManager.RefreshedRowsClickable |
| app/src/main/java/com/ai_autocreate/utils/LanguageUtils.java:43-46 | `isRTL` compares with "he", but `Locale.getLanguage()` reports Hebrew as "iw" | no language stored and a Hebrew default locale: not right to left | Hebrew is right to left under either code | not executed | Language.HebrewLocaleNotRtlAsWritten | Language.RtlFromLocale |

=== FILE: activity_log.dfy ===
/** The activity-log screen (`ActivityLogActivity` and its fragment twin,
    which run the same logic): log entries gathered from the result files
    of the agents and from the application's JSONL logs, filtered by a
    time window or an outcome, shown newest first through
    `ActivityLogAdapter`, and the three ways of clearing old results.

    The clock, the parse of a timestamp text (`SimpleDateFormat` with
    "yyyy-MM-dd HH:mm:ss"), the parse of a JSON text, the order in which
    `listFiles` visits a directory tree and the modification times of the
    files are all parameters. */
module ActivityLog {
  import opened Outcomes
  import opened JavaInt
  import opened JavaString
  import opened OrgJson
  import opened StoragePaths
  import opened FileStore
  import opened SeqLaws
  import ListAdapter
  import AppLog
  import SanityCheck

  /** A row of the log: the entry's `type` is called `kind` here, and
      `details` holds the text the entry was read from. */
  datatype LogEntry = LogEntry(title: string, agent: string, message: string,
                               timestamp: string, kind: string, details: string)

  // ------------------------------------------------------------- filtering

  /** The items of the filter spinner. */
  datatype Choice = All | Today | ThisWeek | ThisMonth | ErrorsOnly | SuccessOnly

  /** Milliseconds in a day; `24 * 60 * 60 * 1000` fits in an `int`. */
  const DAY_MS: int := 86400000

  /** Whole days from `t` to `now`: the difference is taken in `long` and
      divided rounding toward zero, so a time in the future is day 0 or a
      negative day. */
  function DaysDiff(now: int, t: int): int {
    Quot(WrapLong(now - t), DAY_MS)
  }

  predicate IsError(kind: string) {
    kind == "error" || kind == "failure"
  }

  predicate IsSuccess(kind: string) {
    kind == "success" || kind == "completed"
  }

  /** No type is both an error and a success. */
  lemma SuccessIsNotError(kind: string)
    ensures !(IsSuccess(kind) && IsError(kind))
  {
  }

  /** The body of the filter loop for one entry whose timestamp parsed to
      `time`, or failed to parse (`None`): a failed parse lands in the
      catch, which includes the entry whatever the filter. */
  predicate Keep(e: LogEntry, choice: Choice, now: int, time: Option<int>) {
    match time
    case None => true
    case Some(t) =>
      match choice
      case All => true
      case Today => DaysDiff(now, t) < 1
      case ThisWeek => DaysDiff(now, t) < 7
      case ThisMonth => DaysDiff(now, t) < 30
      case ErrorsOnly => IsError(e.kind)
      case SuccessOnly => IsSuccess(e.kind)
  }

  predicate Passes(e: LogEntry, choice: Choice, now: int, parseTime: string -> Option<int>) {
    Keep(e, choice, now, parseTime(e.timestamp))
  }

  /** Multiplying by a non-negative factor keeps the order. */
  lemma MulMono(d: int, x: int, y: int)
    requires d >= 0 && x <= y
    ensures d * x <= d * y
  {
    assert d * y - d * x == d * (y - x);
  }

  /** Java's quotient of `a` by a positive `d` is below `n >= 1` exactly
      when `a` is below `n` times `d`. */
  lemma QuotBelow(a: int, d: int, n: int)
    requires d > 0 && n >= 1
    ensures Quot(a, d) < n <==> a < n * d
  {
    assert n * d == d * n;
    if a >= 0 {
      var q, m := a / d, a % d;
      assert Quot(a, d) == q;
      assert a == d * q + m && 0 <= m < d;
      if q < n {
        MulMono(d, q + 1, n);
        assert d * (q + 1) == d * q + d;
      } else {
        MulMono(d, n, q);
      }
    } else {
      assert Quot(a, d) <= 0;
      MulMono(d, 1, n);
    }
  }

  /** The time windows in milliseconds: "Today" keeps what is less than a
      day old (and anything dated in the future), "This Week" less than
      seven days, "This Month" less than thirty. */
  lemma WindowsInMilliseconds(e: LogEntry, now: int, t: int)
    ensures Keep(e, Today, now, Some(t)) <==> WrapLong(now - t) < DAY_MS
    ensures Keep(e, ThisWeek, now, Some(t)) <==> WrapLong(now - t) < 7 * DAY_MS
    ensures Keep(e, ThisMonth, now, Some(t)) <==> WrapLong(now - t) < 30 * DAY_MS
  {
    QuotBelow(WrapLong(now - t), DAY_MS, 1);
    QuotBelow(WrapLong(now - t), DAY_MS, 7);
    QuotBelow(WrapLong(now - t), DAY_MS, 30);
  }

  /** The windows are nested: what today keeps, the week keeps, and what
      the week keeps, the month keeps. */
  lemma WindowsNested(e: LogEntry, now: int, time: Option<int>)
    ensures Keep(e, Today, now, time) ==> Keep(e, ThisWeek, now, time)
    ensures Keep(e, ThisWeek, now, time) ==> Keep(e, ThisMonth, now, time)
  {
  }

  /** The entries that pass the filter, in list order. */
  function Kept(entries: seq<LogEntry>, choice: Choice, now: int, parseTime: string -> Option<int>): (r: seq<LogEntry>)
    ensures forall x :: x in r <==> x in entries && Passes(x, choice, now, parseTime)
    ensures multiset(r) <= multiset(entries)
    ensures |r| <= |entries|
  {
    if entries == [] then []
    else
      assert entries == [entries[0]] + entries[1..];
      var rest := Kept(entries[1..], choice, now, parseTime);
      (if Passes(entries[0], choice, now, parseTime) then [entries[0]] else []) + rest
  }

  /** "All" drops nothing. */
  lemma {:induction false} KeptAll(entries: seq<LogEntry>, now: int, parseTime: string -> Option<int>)
    ensures Kept(entries, All, now, parseTime) == entries
  {
    if entries != [] {
      KeptAll(entries[1..], now, parseTime);
      assert entries == [entries[0]] + entries[1..];
    }
  }

  // ---------------------------------------------------------------- sorting

  /** `a.compareTo(b) <= 0`: `a` is a prefix of `b` or has the smaller
      character where they first differ. */
  predicate LexLeq(a: string, b: string)
    decreases |a|
  {
    a == [] || (b != [] && (a[0] < b[0] || (a[0] == b[0] && LexLeq(a[1..], b[1..]))))
  }

  /** Any two strings compare one way or the other. */
  lemma {:induction false} LexTotal(a: string, b: string)
    ensures LexLeq(a, b) || LexLeq(b, a)
    decreases |a|
  {
    if a != [] && b != [] && a[0] == b[0] {
      LexTotal(a[1..], b[1..]);
    }
  }

  /** Newest first: no timestamp is later than the one before it. */
  predicate NewestFirst(s: seq<LogEntry>) {
    forall i :: 0 < i < |s| ==> LexLeq(s[i].timestamp, s[i - 1].timestamp)
  }

  /** Inserts `x` before the first entry that is not later than it, so
      that it stays ahead of the equal entries that followed it. */
  function InsertByTime(x: LogEntry, s: seq<LogEntry>): (r: seq<LogEntry>)
    requires NewestFirst(s)
    ensures NewestFirst(r)
    ensures multiset(r) == multiset(s) + multiset{x}
    ensures |r| == |s| + 1
    ensures r[0] == x || (s != [] && r[0] == s[0])
  {
    if s == [] then [x]
    else if LexLeq(s[0].timestamp, x.timestamp) then [x] + s
    else
      LexTotal(s[0].timestamp, x.timestamp);
      assert s == [s[0]] + s[1..];
      [s[0]] + InsertByTime(x, s[1..])
  }

  /** The comparator `o2.timestamp.compareTo(o1.timestamp)` given to the
      stable `Collections.sort`: the same entries, newest first. */
  function SortNewestFirst(s: seq<LogEntry>): (r: seq<LogEntry>)
    ensures NewestFirst(r)
    ensures multiset(r) == multiset(s)
    ensures |r| == |s|
  {
    if s == [] then []
    else
      assert s == [s[0]] + s[1..];
      InsertByTime(s[0], SortNewestFirst(s[1..]))
  }

  /** `filterLogs`: the entries that pass the filter, newest first. */
  function Shown(entries: seq<LogEntry>, choice: Choice, now: int, parseTime: string -> Option<int>): (r: seq<LogEntry>)
    ensures NewestFirst(r)
    ensures forall x :: x in r <==> x in entries && Passes(x, choice, now, parseTime)
    ensures multiset(r) <= multiset(entries)
    ensures |r| <= |entries|
  {
    var kept := Kept(entries, choice, now, parseTime);
    var r := SortNewestFirst(kept);
    assert forall x :: x in r <==> x in multiset(kept);
    r
  }

  /** Under "All" every entry is shown, as many times as it was loaded. */
  lemma AllShowsEverything(entries: seq<LogEntry>, now: int, parseTime: string -> Option<int>)
    ensures multiset(Shown(entries, All, now, parseTime)) == multiset(entries)
  {
    KeptAll(entries, now, parseTime);
  }

  /** An entry whose timestamp does not parse is shown under every filter,
      "Errors Only" and "Success Only" included. */
  lemma UnparsableAlwaysShown(entries: seq<LogEntry>, choice: Choice, now: int,
                              parseTime: string -> Option<int>, x: LogEntry)
    requires x in entries && parseTime(x.timestamp).None?
    ensures x in Shown(entries, choice, now, parseTime)
  {
  }

  /** An entry with a readable timestamp is shown under "Errors Only"
      exactly when its type is "error" or "failure", and under "Success
      Only" exactly when it is "success" or "completed". */
  lemma OutcomeFilters(entries: seq<LogEntry>, now: int, parseTime: string -> Option<int>, x: LogEntry)
    requires x in entries && parseTime(x.timestamp).Some?
    ensures x in Shown(entries, ErrorsOnly, now, parseTime) <==> IsError(x.kind)
    ensures x in Shown(entries, SuccessOnly, now, parseTime) <==> IsSuccess(x.kind)
  {
  }

  // ----------------------------------------------------- the shared list

  /** One run of `filterLogs` on the screen: the adapter was built on the
      screen's own list, and `updateList` of the filtered copy overwrites
      that list with what is shown. */
  function Refilter(list: seq<LogEntry>, choice: Choice, now: int, parseTime: string -> Option<int>): (r: seq<LogEntry>)
    ensures forall x :: x in r ==> x in list
  {
    ListAdapter.UpdateList(list, Shown(list, choice, now, parseTime), false)
  }

  /** A narrower filter cannot be undone by a broader one: after two
      filters in a row, only entries that passed both are left, until the
      next reload. */
  lemma NarrowingSticks(list: seq<LogEntry>, first: Choice, second: Choice, now1: int, now2: int,
                        parseTime: string -> Option<int>, x: LogEntry)
    requires x in Refilter(Refilter(list, first, now1, parseTime), second, now2, parseTime)
    ensures x in list
    ensures Passes(x, first, now1, parseTime) && Passes(x, second, now2, parseTime)
  {
  }

  /** For instance "Errors Only" then "All" shows no success with a
      readable timestamp. */
  lemma ErrorsThenAll(list: seq<LogEntry>, now1: int, now2: int, parseTime: string -> Option<int>, x: LogEntry)
    requires x in list && parseTime(x.timestamp).Some? && IsSuccess(x.kind)
    ensures x !in Refilter(Refilter(list, ErrorsOnly, now1, parseTime), All, now2, parseTime)
  {
    var once := Refilter(list, ErrorsOnly, now1, parseTime);
    var twice := Refilter(once, All, now2, parseTime);
    if x in twice {
      NarrowingSticks(list, ErrorsOnly, All, now1, now2, parseTime, x);
      assert IsError(x.kind);
      SuccessIsNotError(x.kind);
    }
  }

  // ---------------------------------------------------------------- adapter

  datatype Colour = Red | Green | Grey

  /** The colour of the type label; a missing type is grey. */
  function TypeColour(kind: Option<string>): (c: Colour)
    ensures c == Red <==> kind.Some? && IsError(kind.value)
    ensures c == Green <==> kind.Some? && IsSuccess(kind.value)
  {
    match kind
    case None => Grey
    case Some(k) => if IsError(k) then Red else if IsSuccess(k) then Green else Grey
  }

  /** The type label: upper case, empty for a missing type. */
  function TypeLabel(kind: Option<string>): (r: string)
    ensures kind.None? ==> r == ""
    ensures kind.Some? ==> |r| == |kind.value| && EqualsIgnoreCase(r, kind.value)
  {
    match kind
    case None => ""
    case Some(k) =>
      var r := ToUpper(k);
      assert forall i :: 0 <= i < |k| ==> LowerChar(r[i]) == LowerChar(k[i]);
      assert ToLower(r) == ToLower(k);
      r
  }

  /** What "Errors Only" shows with a readable time is red, and what
      "Success Only" shows is green. */
  lemma OutcomeFiltersMatchColours(entries: seq<LogEntry>, now: int, parseTime: string -> Option<int>, x: LogEntry)
    requires parseTime(x.timestamp).Some?
    ensures x in Shown(entries, ErrorsOnly, now, parseTime) ==> TypeColour(Some(x.kind)) == Red
    ensures x in Shown(entries, SuccessOnly, now, parseTime) ==> TypeColour(Some(x.kind)) == Green
  {
    if x in Shown(entries, ErrorsOnly, now, parseTime) {
      assert IsError(x.kind);
    }
    if x in Shown(entries, SuccessOnly, now, parseTime) {
      assert IsSuccess(x.kind);
    }
  }

  // ---------------------------------------------------------------- loading

  /** `loadLogsFromFile` on a ".json" file called `name` holding `content`,
      which parses to `doc` (`None`: not JSON): orchestrator results and
      sanity-check results become one entry; a text that is not an object
      is skipped, and every other file is not even parsed. */
  function FileEntry(name: string, content: string, doc: Option<Json>): (r: seq<LogEntry>)
    ensures |r| <= 1
    ensures r != [] ==> r[0].details == content && (r[0].kind == "success" || r[0].kind == "error")
    ensures !Contains(name, "orchestrator") && !Contains(name, "sanity_check") ==> r == []
    ensures Contains(name, "orchestrator") || Contains(name, "sanity_check") ==>
              (r != [] <==> doc.Some? && doc.value.JObj?)
  {
    if Contains(name, "orchestrator") then
      match doc
      case Some(JObj(o)) =>
        [LogEntry("Orchestrator", OptString(o, "agent", "Orchestrator"), OptString(o, "message", ""),
                  OptString(o, "timestamp", ""),
                  if OptString(o, "success", "false") == "true" then "success" else "error", content)]
      case _ => []
    else if Contains(name, "sanity_check") then
      match doc
      case Some(JObj(o)) =>
        [LogEntry("Sanity Check", OptString(o, "agent", "SanityCheckAgent"), OptString(o, "message", ""),
                  OptString(o, "timestamp", ""),
                  if OptBoolean(o, "passed", false) then "success" else "error", content)]
      case _ => []
    else []
  }

  /** An orchestrator result is a success exactly when its "success" value
      reads as the text "true" (a boolean true or the string "true"), and
      an error when the value is missing. */
  lemma OrchestratorOutcome(name: string, content: string, o: Obj)
    requires Contains(name, "orchestrator")
    ensures FileEntry(name, content, Some(JObj(o))) != []
    ensures FileEntry(name, content, Some(JObj(o)))[0].kind == "success" <==>
              "success" in o && Text(o["success"]) == "true"
    ensures "success" in o && (o["success"] == JBool(true) || o["success"] == JStr("true")) ==>
              FileEntry(name, content, Some(JObj(o)))[0].kind == "success"
    ensures FileEntry(name, content, Some(JObj(o)))[0].title == "Orchestrator"
  {
  }

  /** A sanity-check result is a success exactly when "passed" reads as
      true, and carries the result's agent (by default the sanity-check
      agent) and message. */
  lemma SanityOutcome(name: string, content: string, o: Obj)
    requires Contains(name, "sanity_check") && !Contains(name, "orchestrator")
    ensures FileEntry(name, content, Some(JObj(o))) != []
    ensures FileEntry(name, content, Some(JObj(o)))[0].kind == "success" <==> OptBoolean(o, "passed", false)
    ensures FileEntry(name, content, Some(JObj(o)))[0].message == OptString(o, "message", "")
    ensures FileEntry(name, content, Some(JObj(o)))[0].agent == OptString(o, "agent", "SanityCheckAgent")
    ensures FileEntry(name, content, Some(JObj(o)))[0].title == "Sanity Check"
  {
  }

  /** A saved sanity-check report appears as a success exactly when the
      run passed, with the run's message and agent name. */
  lemma SanityReportLoads(name: string, content: string, r: SanityCheck.Report, now: int)
    requires Contains(name, "sanity_check") && !Contains(name, "orchestrator")
    ensures FileEntry(name, content, Some(JObj(SanityCheck.ReportJson(r, now)))) != []
    ensures FileEntry(name, content, Some(JObj(SanityCheck.ReportJson(r, now))))[0].kind == "success" <==> r.passed
    ensures FileEntry(name, content, Some(JObj(SanityCheck.ReportJson(r, now))))[0].message == SanityCheck.ReportMessage(r)
    ensures FileEntry(name, content, Some(JObj(SanityCheck.ReportJson(r, now))))[0].agent == "SanityCheckAgent"
  {
    var o := SanityCheck.ReportJson(r, now);
    SanityCheck.ReportJsonReads(r, now, "");
    SanityCheck.ReportJsonReads(r, now, "SanityCheckAgent");
    SanityOutcome(name, content, o);
  }

  /** One line of a JSONL file: a blank line or one that is not a JSON
      object is skipped; otherwise the "agent" member is both title and
      agent, "date" is the timestamp and the type is "info" unless given. */
  function LineEntry(line: string, parse: string -> Option<Json>): (r: seq<LogEntry>)
    ensures |r| <= 1
    ensures r != [] <==> !IsBlank(line) && parse(line).Some? && parse(line).value.JObj?
    ensures r != [] ==> r[0].details == line && r[0].title == r[0].agent
  {
    if IsBlank(line) then []
    else
      match parse(line)
      case Some(JObj(o)) =>
        [LogEntry(OptString(o, "agent", "Unknown"), OptString(o, "agent", "Unknown"), OptString(o, "message", ""),
                  OptString(o, "date", ""), OptString(o, "type", "info"), line)]
      case _ => []
  }

  /** The entries of a sequence of lines, in order. */
  function LinesEntries(lines: seq<string>, parse: string -> Option<Json>): (r: seq<LogEntry>)
    ensures |r| <= |lines|
    ensures forall e :: e in r ==> e.details in lines && !IsBlank(e.details) && e.title == e.agent
  {
    if lines == [] then []
    else
      var rest := LinesEntries(lines[1..], parse);
      assert forall l :: l in lines[1..] ==> l in lines;
      LineEntry(lines[0], parse) + rest
  }

  /** `loadLogsFromJsonlFile` on the text `readFromFile` returned: split on
      line feeds, one entry per object line. */
  function JsonlEntries(content: string, parse: string -> Option<Json>): (r: seq<LogEntry>)
    ensures forall e :: e in r ==> '\n' !in e.details && !IsBlank(e.details)
  {
    LinesEntries(Split(content, '\n'), parse)
  }

  /** A line the application logger wrote reads back as an "info" entry
      titled with its agent, dated with its day, with the logged message
      (or none when data was logged). */
  lemma AppLogLineReads(e: AppLog.Entry, line: string, parse: string -> Option<Json>)
    requires !IsBlank(line) && parse(line) == Some(JObj(AppLog.EntryJson(e)))
    ensures LineEntry(line, parse) ==
              [LogEntry(e.agent, e.agent, if e.body.Message? then e.body.text else "", e.date, "info", line)]
  {
    AppLog.EntryReads(e);
  }

  /** One visited file: ".json" files by `FileEntry`, ".jsonl" files line
      by line, anything else ignored. */
  function PathEntries(fs: Files, path: string, parse: string -> Option<Json>): (r: seq<LogEntry>)
    ensures !EndsWith(FileName(path), ".json") && !EndsWith(FileName(path), ".jsonl") ==> r == []
  {
    var name := FileName(path);
    var content := Read(fs, path);
    if EndsWith(name, ".json") then FileEntry(name, content, parse(content))
    else if EndsWith(name, ".jsonl") then JsonlEntries(content, parse)
    else []
  }

  /** `loadLogsFromDirectory`: the files of a directory tree in the order
      the recursive walk visits them, given as `walk`. */
  function WalkEntries(fs: Files, walk: seq<string>, parse: string -> Option<Json>): (r: seq<LogEntry>)
  {
    if walk == [] then [] else PathEntries(fs, walk[0], parse) + WalkEntries(fs, walk[1..], parse)
  }

  /** A file directly in the agent-results directory whose name starts
      with "app_log_", as `loadAppLogs` selects them. */
  predicate IsAppLogPath(p: string) {
    p == AgentResultsDir() + "/" + FileName(p) && StartsWith(FileName(p), "app_log_")
  }

  /** `loadAppLogs`: every selected file read as JSONL, whatever its
      extension. */
  function AppLogEntries(fs: Files, walk: seq<string>, parse: string -> Option<Json>): (r: seq<LogEntry>)
  {
    if walk == [] then []
    else
      (if IsAppLogPath(walk[0]) then JsonlEntries(Read(fs, walk[0]), parse) else [])
      + AppLogEntries(fs, walk[1..], parse)
  }

  /** `LoadLogsTask` as written: both directory walks, then the application
      logs a second time.  The agent-results walk already read every
      ".jsonl" file there, the application logs included. */
  function LoadLogsAsWritten(fs: Files, agentWalk: seq<string>, configWalk: seq<string>,
                             parse: string -> Option<Json>): (r: seq<LogEntry>)
    ensures r == LoadLogs(fs, agentWalk, configWalk, parse) + AppLogEntries(fs, agentWalk, parse)
  {
    WalkEntries(fs, agentWalk, parse) + WalkEntries(fs, configWalk, parse) + AppLogEntries(fs, agentWalk, parse)
  }

  /** `LoadLogsTask` with each file read once: the two directory walks. */
  function LoadLogs(fs: Files, agentWalk: seq<string>, configWalk: seq<string>,
                    parse: string -> Option<Json>): (r: seq<LogEntry>)
    ensures configWalk == [] ==> r == WalkEntries(fs, agentWalk, parse)
  {
    WalkEntries(fs, agentWalk, parse) + WalkEntries(fs, configWalk, parse)
  }

  /** An application log is a ".jsonl" file, not a ".json" one. */
  lemma JsonlIsNotJson(name: string)
    requires EndsWith(name, ".jsonl")
    ensures !EndsWith(name, ".json")
  {
    assert name[|name| - 1] == 'l';
  }

  /** When the agent-results directory holds only application logs, the
      walk and `loadAppLogs` read exactly the same entries. */
  lemma {:induction false} WalkReadsAppLogs(fs: Files, walk: seq<string>, parse: string -> Option<Json>)
    requires forall p :: p in walk ==> IsAppLogPath(p) && EndsWith(FileName(p), ".jsonl")
    ensures WalkEntries(fs, walk, parse) == AppLogEntries(fs, walk, parse)
  {
    if walk != [] {
      JsonlIsNotJson(FileName(walk[0]));
      WalkReadsAppLogs(fs, walk[1..], parse);
    }
  }

  /** As written, every line of the application logs is listed twice. */
  lemma AppLogsLoadedTwice(fs: Files, agentWalk: seq<string>, parse: string -> Option<Json>)
    requires forall p :: p in agentWalk ==> IsAppLogPath(p) && EndsWith(FileName(p), ".jsonl")
    ensures LoadLogsAsWritten(fs, agentWalk, [], parse) ==
              AppLogEntries(fs, agentWalk, parse) + AppLogEntries(fs, agentWalk, parse)
  {
    WalkReadsAppLogs(fs, agentWalk, parse);
  }

  /** Reading each file once lists each application-log line once. */
  lemma AppLogsLoadedOnce(fs: Files, agentWalk: seq<string>, parse: string -> Option<Json>)
    requires forall p :: p in agentWalk ==> IsAppLogPath(p) && EndsWith(FileName(p), ".jsonl")
    ensures LoadLogs(fs, agentWalk, [], parse) == AppLogEntries(fs, agentWalk, parse)
  {
    WalkReadsAppLogs(fs, agentWalk, parse);
  }

  // --------------------------------------------------------------- clearing

  /** Below a directory: the path names something inside it. */
  predicate Below(p: string, dir: string) {
    StartsWith(p, dir + "/")
  }

  /** `clearDirectory`: every file below the directory is deleted. */
  function ClearDirectory(fs: Files, dir: string): (r: Files)
    ensures forall p :: p in r <==> p in fs && !Below(p, dir)
    ensures forall p :: p in r ==> r[p] == fs[p]
  {
    map p | p in fs && !Below(p, dir) :: fs[p]
  }

  /** `clearOldFiles`: the files below the directory last modified before
      the cutoff are deleted. */
  function ClearOldFiles(fs: Files, dir: string, cutoff: int, lastModified: string -> int): (r: Files)
    ensures forall p :: p in r <==> p in fs && !(Below(p, dir) && lastModified(p) < cutoff)
    ensures forall p :: p in r ==> r[p] == fs[p]
  {
    map p | p in fs && !(Below(p, dir) && lastModified(p) < cutoff) :: fs[p]
  }

  /** A name `clearErrorLogs` deletes. */
  predicate IsErrorLogName(name: string) {
    Contains(name, "error") || Contains(name, "failed")
  }

  /** `clearErrorLogs`: the files below the directory whose name contains
      "error" or "failed" are deleted. */
  function ClearErrorLogs(fs: Files, dir: string): (r: Files)
    ensures forall p :: p in r <==> p in fs && !(Below(p, dir) && IsErrorLogName(FileName(p)))
    ensures forall p :: p in r ==> r[p] == fs[p]
  {
    map p | p in fs && !(Below(p, dir) && IsErrorLogName(FileName(p))) :: fs[p]
  }

  /** The options of the clear dialog: "all", "old" and "errors". */
  datatype ClearKind = Everything | Old | Errors

  /** The "old" cutoff as written: `30 * 24 * 60 * 60 * 1000` is an `int`
      product, which wraps before it is subtracted from the `long` clock. */
  function CutoffAsWritten(now: int): (r: int)
    ensures IsLong(r)
  {
    WrapLong(now - WrapInt(30 * 24 * 60 * 60 * 1000))
  }

  /** The wrapped product is negative, so the cutoff lies about 19.7 days
      after `now`. */
  lemma CutoffAsWrittenIsAhead(now: int)
    requires IsLong(now) && now <= LONG_MAX - 1702967296
    ensures WrapInt(30 * 24 * 60 * 60 * 1000) == -1702967296
    ensures CutoffAsWritten(now) == now + 1702967296
  {
  }

  /** Thirty days before `now`, computed in `long`. */
  function Cutoff(now: int): (r: int)
    requires IsLong(now) && now >= LONG_MIN + 30 * DAY_MS
    ensures r == now - 2592000000
  {
    WrapLong(now - 30 * DAY_MS)
  }

  /** `ClearLogsTask` with a given cutoff for "old". */
  function ClearWith(fs: Files, kind: ClearKind, cutoff: int, lastModified: string -> int): (r: Files)
    ensures forall p :: p in r ==> p in fs && r[p] == fs[p]
    ensures forall p :: p in fs && !Below(p, AgentResultsDir()) && !Below(p, TempDir()) ==> p in r
  {
    match kind
    case Everything => ClearDirectory(ClearDirectory(fs, AgentResultsDir()), TempDir())
    case Old =>
      ClearOldFiles(ClearOldFiles(fs, AgentResultsDir(), cutoff, lastModified), TempDir(), cutoff, lastModified)
    case Errors => ClearErrorLogs(fs, AgentResultsDir())
  }

  /** `ClearLogsTask` as written. */
  function ClearLogsAsWritten(fs: Files, kind: ClearKind, now: int, lastModified: string -> int): (r: Files)
    ensures forall p :: p in r ==> p in fs && r[p] == fs[p]
  {
    ClearWith(fs, kind, CutoffAsWritten(now), lastModified)
  }

  /** `ClearLogsTask` with the thirty days computed in `long`. */
  function ClearLogs(fs: Files, kind: ClearKind, now: int, lastModified: string -> int): (r: Files)
    requires IsLong(now) && now >= LONG_MIN + 30 * DAY_MS
    ensures forall p :: p in r ==> p in fs && r[p] == fs[p]
  {
    ClearWith(fs, kind, Cutoff(now), lastModified)
  }

  /** As written, "old" deletes a result file saved a moment ago. */
  lemma RecentFileDeletedAsWritten(fs: Files, now: int, lastModified: string -> int, p: string)
    requires IsLong(now) && now <= LONG_MAX - 1702967296
    requires p in fs && Below(p, AgentResultsDir()) && lastModified(p) <= now
    ensures p !in ClearLogsAsWritten(fs, Old, now, lastModified)
  {
    CutoffAsWrittenIsAhead(now);
  }

  /** With the cutoff in `long`, "old" deletes exactly the files below the
      two directories modified more than thirty days before `now`. */
  lemma OldMeansThirtyDays(fs: Files, now: int, lastModified: string -> int, p: string)
    requires IsLong(now) && now >= LONG_MIN + 30 * DAY_MS
    requires p in fs
    ensures p !in ClearLogs(fs, Old, now, lastModified) <==>
              (Below(p, AgentResultsDir()) || Below(p, TempDir())) && lastModified(p) < now - 2592000000
  {
  }

  /** "errors" deletes only error results of the agents: other names, and
      everything outside the agent-results directory, stay. */
  lemma ErrorsClearsOnlyErrorLogs(fs: Files, cutoff: int, lastModified: string -> int, p: string)
    requires p in fs
    ensures p !in ClearWith(fs, Errors, cutoff, lastModified) <==>
              Below(p, AgentResultsDir()) && IsErrorLogName(FileName(p))
  {
  }

  /** "all" empties both directories. */
  lemma EverythingClearsBoth(fs: Files, cutoff: int, lastModified: string -> int, p: string)
    requires p in fs
    ensures p !in ClearWith(fs, Everything, cutoff, lastModified) <==>
              Below(p, AgentResultsDir()) || Below(p, TempDir())
  {
  }
}

=== FILE: agent_playground.dfy ===
/** `AgentPlaygroundActivity`: a developer screen that sends one input to
    one agent, or to all seven in turn, and records what came back.  What
    each agent call returns (or the exception it throws), the clock
    readings and the serialisation of objects are inputs. */
module AgentPlayground {
  import opened Outcomes
  import opened JavaString
  import opened OrgJson
  import opened FileStore
  import ScreenSteps
  import Orchestrator
  import ModelValidator
  import StoragePaths

  // ----------------------------------------------------------------- agents

  /** The seven agents the playground wraps. */
  datatype Agent = SanityAgent | VideoAgent | ScriptAgent | ImageAgent | AudioAgent | ValidatorAgent | OrchestratorAgent {
    /** The wrapper's display name. */
    function Name(): string {
      match this
      case SanityAgent => "Sanity Check Agent"
      case VideoAgent => "Video Analyzer Agent"
      case ScriptAgent => "Script Generator Agent"
      case ImageAgent => "Image Interpreter Agent"
      case AudioAgent => "Audio Context Agent"
      case ValidatorAgent => "Model Validator Agent"
      case OrchestratorAgent => "Orchestrator Agent"
    }
  }

  /** `initializeAgents`: the wrappers, in spinner order. */
  const AGENTS: seq<Agent> := [SanityAgent, VideoAgent, ScriptAgent, ImageAgent, AudioAgent, ValidatorAgent, OrchestratorAgent]

  /** Every agent is wrapped exactly once. */
  lemma EveryAgentOnce(a: Agent)
    ensures a in AGENTS
    ensures forall j, k :: 0 <= j < k < |AGENTS| ==> AGENTS[j] != AGENTS[k] && AGENTS[j].Name() != AGENTS[k].Name()
  {
  }

  // --------------------------------------------------------------- dispatch

  /** The one agent method a test invokes, with its argument. */
  datatype Call =
    | RunCheck
    | AnalyzeVideo(videoPath: string)
    | GenerateScript(prompt: string)
    | AnalyzeImage(imagePath: string)
    | AnalyzeAudio(audioPath: string)
    | ValidateModel(model: Obj)
    | Process(request: Obj)

  /** The model the validator is tested with: an id and the inference
      host, nothing else. */
  function TestModel(): Obj {
    map["id" := JStr("test-model"), "endpoint" := JStr("https://api-inference.huggingface.co/models/")]
  }

  /** The orchestrator input a test builds: a fixed project and the input
      as the prompt, nothing else. */
  function TestRequest(input: string): Obj {
    map["project_id" := JStr("test-project"), "prompt" := JStr(input)]
  }

  /** The call a test makes, chosen by the agent's type. */
  function Dispatch(a: Agent, input: string): (c: Call)
    ensures c.AnalyzeVideo? ==> c.videoPath == input
    ensures c.GenerateScript? ==> c.prompt == input
    ensures c.AnalyzeImage? ==> c.imagePath == input
    ensures c.AnalyzeAudio? ==> c.audioPath == input
    ensures c.ValidateModel? ==> c.model == TestModel()
    ensures c.Process? ==> c.request == TestRequest(input)
  {
    match a
    case SanityAgent => RunCheck
    case VideoAgent => AnalyzeVideo(input)
    case ScriptAgent => GenerateScript(input)
    case ImageAgent => AnalyzeImage(input)
    case AudioAgent => AnalyzeAudio(input)
    case ValidatorAgent => ValidateModel(TestModel())
    case OrchestratorAgent => Process(TestRequest(input))
  }

  /** The agent whose method a call is. */
  function Callee(c: Call): Agent {
    match c
    case RunCheck => SanityAgent
    case AnalyzeVideo(_) => VideoAgent
    case GenerateScript(_) => ScriptAgent
    case AnalyzeImage(_) => ImageAgent
    case AnalyzeAudio(_) => AudioAgent
    case ValidateModel(_) => ValidatorAgent
    case Process(_) => OrchestratorAgent
  }

  /** Each test calls a method of the agent under test and of no other, so
      different agents never receive the same call. */
  lemma DispatchChoosesByAgent(a: Agent, b: Agent, input: string, other: string)
    ensures Callee(Dispatch(a, input)) == a
    ensures a != b ==> Dispatch(a, input) != Dispatch(b, other)
  {
  }

  /** The validator test's result object: only the verdict. */
  function ValidatorResult(valid: bool): Obj {
    map["success" := JBool(valid)]
  }

  /** The playground's orchestrator test always fails: its input has no
      project configuration, so `process` stops before any step with that
      input error and reports it. */
  lemma TestRequestFails(input: string, rs: Orchestrator.Responses)
    ensures var run := Orchestrator.Process(TestRequest(input), rs);
            run.outcome == Orchestrator.BadInput(NoValue("project_config")) && run.requests == []
            && !OptBoolean(Orchestrator.ResultJson(run.outcome), "success", false)
            && OptString(Orchestrator.ResultJson(run.outcome), "message", "")
               == "Error processing input: " + Message(NoValue("project_config"))
  {
    var run := Orchestrator.Process(TestRequest(input), rs);
    assert Orchestrator.InputError(TestRequest(input)) == Some(NoValue("project_config"));
    Orchestrator.ResultJsonReads(run.outcome, "");
  }

  /** The playground's validator test always fails: the test model has no
      type, so no client answer makes it valid. */
  lemma TestModelInvalid(client: (string, string, Obj) -> Option<Obj>)
    ensures !ModelValidator.Validate(TestModel(), client).valid
    ensures !OptBoolean(ValidatorResult(ModelValidator.Validate(TestModel(), client).valid), "success", true)
  {
  }

  // ----------------------------------------------------------------- results

  /** What one agent call did: returned a result (`None` for `null`) after
      some milliseconds, or threw. */
  datatype Attempt = Answer(result: Option<Obj>, elapsed: int) | Thrown(message: string)

  /** An `AgentTestResult`. */
  datatype TestResult = TestResult(agentName: string, result: Option<Obj>, duration: int)

  /** A test counts as a success when a result came back whose `success`
      reads true. */
  predicate Succeeded(r: TestResult) {
    r.result.Some? && OptBoolean(r.result.value, "success", false)
  }

  /** What the loop of "test all" records for one agent: the answer and
      its time, or a `null` result with time 0 when the call threw. */
  function Recorded(a: Agent, at: Attempt): (r: TestResult)
    ensures r.agentName == a.Name()
    ensures at.Thrown? ==> r.result.None? && r.duration == 0
    ensures at.Answer? ==> r.result == at.result && r.duration == at.elapsed
  {
    match at
    case Answer(result, elapsed) => TestResult(a.Name(), result, elapsed)
    case Thrown(_) => TestResult(a.Name(), None, 0)
  }

  /** `TestAllAgentsTask.doInBackground`: every agent is tried in order, an
      exception in one does not stop the next, and each gets one record. */
  method TestAll(attempts: seq<Attempt>) returns (results: seq<TestResult>)
    requires |attempts| == |AGENTS|
    ensures results == Records(attempts)
  {
    results := [];
    var k := 0;
    while k < |AGENTS|
      invariant 0 <= k <= |AGENTS|
      invariant |results| == k
      invariant forall j :: 0 <= j < k ==> results[j] == Recorded(AGENTS[j], attempts[j])
    {
      results := results + [Recorded(AGENTS[k], attempts[k])];
      k := k + 1;
    }
  }

  /** The number of successful records. */
  function Successes(results: seq<TestResult>): (n: nat)
    ensures n <= |results|
  {
    if results == [] then 0 else (if Succeeded(results[0]) then 1 else 0) + Successes(results[1..])
  }

  /** The number of failed records, counted on their own. */
  function Failures(results: seq<TestResult>): nat {
    if results == [] then 0 else (if Succeeded(results[0]) then 0 else 1) + Failures(results[1..])
  }

  /** The summary's "Failed" figure, total minus successes, is the number
      of failed records: every record is counted exactly once. */
  lemma {:induction false} CountsAddUp(results: seq<TestResult>)
    ensures Successes(results) + Failures(results) == |results|
  {
    if results != [] {
      CountsAddUp(results[1..]);
    }
  }

  /** The summary lines of "test all". */
  function Summary(results: seq<TestResult>): (lines: seq<string>)
    ensures |lines| == 3
    ensures lines[0] == "Total: " + NatToString(|results|) + " agents"
    ensures lines[1] == "Success: " + NatToString(Successes(results)) + " agents"
    ensures lines[2] == "Failed: " + NatToString(Failures(results)) + " agents"
  {
    CountsAddUp(results);
    ["Total: " + NatToString(|results|) + " agents",
     "Success: " + NatToString(Successes(results)) + " agents",
     "Failed: " + NatToString(|results| - Successes(results)) + " agents"]
  }

  /** The records "test all" keeps for the given attempts. */
  function Records(attempts: seq<Attempt>): (results: seq<TestResult>)
    requires |attempts| == |AGENTS|
    ensures |results| == |AGENTS|
    ensures forall k :: 0 <= k < |results| ==> results[k] == Recorded(AGENTS[k], attempts[k])
  {
    seq(|AGENTS|, k requires 0 <= k < |AGENTS| => Recorded(AGENTS[k], attempts[k]))
  }

  /** What the validator wrapper answers for the test model. */
  function ValidatorAnswer(client: (string, string, Obj) -> Option<Obj>): Obj {
    ValidatorResult(ModelValidator.Validate(TestModel(), client).valid)
  }

  /** What the orchestrator wrapper answers for a test input. */
  function OrchestratorAnswer(input: string, rs: Orchestrator.Responses): Obj {
    Orchestrator.ResultJson(Orchestrator.Process(TestRequest(input), rs).outcome)
  }

  /** In a playground run every tested agent receives the same input, and
      the validator and orchestrator records are always failures. */
  lemma TestAllNeverAllSucceeds(input: string, attempts: seq<Attempt>, rs: Orchestrator.Responses,
                                client: (string, string, Obj) -> Option<Obj>)
    requires |attempts| == |AGENTS|
    requires attempts[5].Answer? ==> attempts[5].result == Some(ValidatorAnswer(client))
    requires attempts[6].Answer? ==> attempts[6].result == Some(OrchestratorAnswer(input, rs))
    ensures !Succeeded(Records(attempts)[5]) && !Succeeded(Records(attempts)[6])
    ensures Successes(Records(attempts)) <= 5
  {
    var results := Records(attempts);
    assert !Succeeded(results[5]) by {
      TestModelInvalid(client);
    }
    assert !Succeeded(results[6]) by {
      TestRequestFails(input, rs);
    }
    AtMostOthers(results, 5, 6);
  }

  /** Two failed records leave at most the rest to succeed. */
  lemma {:induction false} AtMostOthers(results: seq<TestResult>, i: nat, j: nat)
    requires i < j < |results| && !Succeeded(results[i]) && !Succeeded(results[j])
    ensures Successes(results) <= |results| - 2
    decreases |results|
  {
    if i == 0 {
      assert results[1..][j - 1] == results[j];
      OneFailure(results[1..], j - 1);
    } else {
      assert results[1..][i - 1] == results[i] && results[1..][j - 1] == results[j];
      AtMostOthers(results[1..], i - 1, j - 1);
    }
  }

  /** One failed record leaves at most the rest to succeed. */
  lemma {:induction false} OneFailure(results: seq<TestResult>, i: nat)
    requires i < |results| && !Succeeded(results[i])
    ensures Successes(results) <= |results| - 1
    decreases |results|
  {
    if i > 0 {
      assert results[1..][i - 1] == results[i];
      OneFailure(results[1..], i - 1);
    }
  }

  /** `TestAgentTask`: a single test keeps the measured time even when the
      call threw, unlike "test all". */
  function TestOne(a: Agent, at: Attempt, measured: int): (r: TestResult)
    ensures r.agentName == a.Name() && r.duration == measured
    ensures r.result == (if at.Answer? then at.result else None)
  {
    TestResult(a.Name(), if at.Answer? then at.result else None, measured)
  }

  /** The status line of a single test. */
  function StatusLine(r: TestResult): (line: string)
    ensures line == "Status: SUCCESS" <==> Succeeded(r)
    ensures line == "Status: FAILED" <==> !Succeeded(r)
  {
    if Succeeded(r) then "Status: SUCCESS" else "Status: FAILED"
  }

  // ------------------------------------------------------------------ files

  /** The playground's directory of saved results. */
  function ResultsDir(): string {
    StoragePaths.AgentResultsDir() + "/AgentPlayground"
  }

  /** The agent name as it appears in a file name: spaces become
      underscores and ASCII letters are lower-cased. */
  function Slug(name: string): (s: string)
    ensures |s| == |name|
    ensures ' ' !in s
  {
    var s := ToLower(ReplaceChar(name, ' ', '_'));
    assert forall i :: 0 <= i < |s| ==> s[i] != ' ';
    s
  }

  /** `saveTestResult`'s file name. */
  function FileName(agentName: string, time: int): (f: string)
    ensures StartsWith(f, "test_") && EndsWith(f, ".json")
    ensures |f| == 5 + |agentName| + 1 + |IntToString(time)| + 5
    ensures f[5..5 + |agentName|] == Slug(agentName)
  {
    var slug, stamp := Slug(agentName), "_" + IntToString(time);
    var f := "test_" + slug + stamp + ".json";
    Pieces("test_", slug, stamp, ".json");
    f
  }

  /** Where the four pieces of a concatenation sit. */
  lemma Pieces(a: string, b: string, c: string, d: string)
    ensures var f := a + b + c + d;
            f[..|a|] == a && f[|a|..|a| + |b|] == b && f[|f| - |d|..] == d
  {
    var f := a + b + c + d;
    assert f == a + (b + (c + d));
    assert (b + (c + d))[..|b|] == b;
  }

  /** Results of different agents saved at the same millisecond go to
      different files: names of different lengths give file names of
      different lengths, and the only two names of equal length differ in
      their first letter. */
  lemma FileNamesDiffer(a: Agent, b: Agent, time: int)
    requires a != b
    ensures FileName(a.Name(), time) != FileName(b.Name(), time)
  {
    if |a.Name()| == |b.Name()| {
      assert Slug(a.Name())[0] == LowerChar(a.Name()[0]);
      assert Slug(b.Name())[0] == LowerChar(b.Name()[0]);
      assert FileName(a.Name(), time)[5] == Slug(a.Name())[0];
      assert FileName(b.Name(), time)[5] == Slug(b.Name())[0];
    }
  }

  /** The object `saveTestResult` writes; a `null` result is left out, as
      `put` removes a name given `null`. */
  function TestRecord(r: TestResult, input: string, stamp: int, date: string): (o: Obj)
    ensures "result" in o <==> r.result.Some?
    ensures r.result.Some? ==> OptObject(o, "result") == r.result
    ensures OptString(o, "agent_name", "") == r.agentName && OptString(o, "input", "") == input
  {
    var base := map["agent_name" := JStr(r.agentName), "input" := JStr(input), "duration_ms" := JNum(r.duration),
                    "timestamp" := JNum(stamp), "date" := JStr(date)];
    if r.result.Some? then base["result" := JObj(r.result.value)] else base
  }

  /** `saveTestResult`: one new file per test under the playground's
      directory, named after the agent and the time. */
  function SaveTest(fs: Files, r: TestResult, input: string, stamp: int, date: string, fileTime: int,
                    render: Obj -> string): (after: Files)
    ensures var path := ResultsDir() + "/" + FileName(r.agentName, fileTime);
            path in after && after[path] == render(TestRecord(r, input, stamp, date))
            && forall p :: p in fs && p != path ==> p in after && after[p] == fs[p]
  {
    Write(fs, ResultsDir() + "/" + FileName(r.agentName, fileTime), render(TestRecord(r, input, stamp, date)))
  }

  /** The object `saveAllTestResults` writes: one entry per record, in
      order, each without `result` when it was `null`. */
  function AllRecord(input: string, results: seq<TestResult>, total: int, stamp: int, date: string): (o: Obj)
    ensures "results" in o && o["results"].JArr? && |o["results"].items| == |results|
    ensures forall k :: 0 <= k < |results| ==>
              o["results"].items[k].JObj? && ("result" in o["results"].items[k].fields <==> results[k].result.Some?)
  {
    var entries := seq(|results|, k requires 0 <= k < |results| =>
                     var base := map["agent_name" := JStr(results[k].agentName), "duration_ms" := JNum(results[k].duration)];
                     JObj(if results[k].result.Some? then base["result" := JObj(results[k].result.value)] else base));
    map["input" := JStr(input), "total_duration_ms" := JNum(total), "timestamp" := JNum(stamp), "date" := JStr(date),
        "results" := JArr(entries)]
  }
}

=== FILE: agent_records.dfy ===
/** Where the media-analysing agents write their results: one file per
    analysed input, `analysis_<file name>.json` in the agent's own
    directory under the agent-results directory.  The file is chosen by the
    input's file name alone. */
module AgentRecords {
  import opened JavaString
  import opened FileStore
  import StoragePaths
  import AppLog

  /** The result file of agent `agent` for the input at `path`. */
  function AnalysisFile(agent: string, path: string): (r: string)
    ensures StartsWith(r, StoragePaths.AgentResultsDir() + "/" + agent + "/analysis_")
  {
    var head := StoragePaths.AgentResultsDir() + "/" + agent + "/analysis_";
    var r := head + (FileName(path) + ".json");
    assert r[..|head|] == head;
    r
  }

  /** The record is named after the input's file name. */
  lemma AnalysisFileNamed(agent: string, path: string)
    ensures EndsWith(AnalysisFile(agent, path), FileName(path) + ".json")
  {
    var head := StoragePaths.AgentResultsDir() + "/" + agent + "/analysis_";
    var tail := FileName(path) + ".json";
    var r := head + tail;
    assert r[|r| - |tail|..] == tail;
  }

  /** Two inputs share a result file exactly when their file names agree,
      whatever directories they sit in. */
  lemma SameFileIffSameName(agent: string, path1: string, path2: string)
    ensures AnalysisFile(agent, path1) == AnalysisFile(agent, path2) <==> FileName(path1) == FileName(path2)
  {
    var head := StoragePaths.AgentResultsDir() + "/" + agent + "/analysis_";
    var n1, n2 := FileName(path1), FileName(path2);
    if AnalysisFile(agent, path1) == AnalysisFile(agent, path2) {
      var r1, r2 := head + (n1 + ".json"), head + (n2 + ".json");
      assert |n1| == |n2|;
      assert n1 == r1[|head|..|head| + |n1|];
      assert n2 == r2[|head|..|head| + |n2|];
    }
  }

  /** An input's record lies in the agent-results directory. */
  lemma AnalysisFileInResults(agent: string, path: string)
    ensures StartsWith(AnalysisFile(agent, path), StoragePaths.AgentResultsDir() + "/")
  {
    var head := StoragePaths.AgentResultsDir() + "/";
    assert AnalysisFile(agent, path)[..|head|] == (head + agent + "/analysis_")[..|head|] == head;
  }

  /** `logResult`: the result text replaces the content of the input's
      result file. */
  function Record(fs: Files, agent: string, path: string, text: string): (r: Files)
    ensures AnalysisFile(agent, path) in r && r[AnalysisFile(agent, path)] == text
    ensures forall p :: p in fs && p != AnalysisFile(agent, path) ==> p in r && r[p] == fs[p]
  {
    Write(fs, AnalysisFile(agent, path), text)
  }

  /** Analysing a second input with the same file name, from any
      directory, overwrites the first one's record. */
  lemma SameNameOverwrites(fs: Files, agent: string, path1: string, path2: string, text1: string, text2: string)
    requires FileName(path1) == FileName(path2)
    ensures Record(Record(fs, agent, path1, text1), agent, path2, text2) == Record(fs, agent, path2, text2)
  {
    SameFileIffSameName(agent, path1, path2);
    WriteAppendLaws(fs, AnalysisFile(agent, path2), text1, text2);
  }

  /** An agent whose name does not start with a lower-case `a` never
      records into a log file, so its records and the app log never touch
      each other. */
  lemma RecordKeepsLogs(fs: Files, agent: string, path: string, text: string, p: string)
    requires agent != [] && agent[0] != 'a'
    requires AppLog.IsLogFile(p)
    ensures !AppLog.IsLogFile(AnalysisFile(agent, path))
    ensures Content(Record(fs, agent, path, text), p) == Content(fs, p)
  {
    var name := agent + ("/analysis_" + (FileName(path) + ".json"));
    assert AnalysisFile(agent, path) == StoragePaths.AgentResultsDir() + "/" + name;
    assert name[0] == agent[0];
    AppLog.NotLogFile(name);
  }
}

=== FILE: api_keys.dfy ===
/** The API keys screen: a list of `{name, key, description}` objects kept
    as the JSON text of the obfuscated setting "api_keys", an add dialog, an
    edit dialog, a delete confirmation, and a list adapter that shows each
    key masked.  The adapter holds the screen's own list, so every change
    is on screen after `notifyDataSetChanged`; the rows are therefore a
    function of the list.  The JSON text itself is a codec given as an
    argument: a `parse` of the stored text and a `show` of an array. */
module ApiKeys {
  import opened Outcomes
  import opened JavaString
  import opened OrgJson
  import Prefs

  /** The setting the list is kept under, and what it reads as when absent. */
  const KEYS_PREF: string := "api_keys"
  const NO_KEYS: string := "[]"

  /** `new JSONArray(text)` and `JSONArray.toString()`. */
  datatype Codec = Codec(parse: string -> Option<Json>, show: Json -> string)

  /** The stored text of a saved list. */
  predicate Saved(s: Screen, c: Codec) {
    Prefs.GetString(s.prefs, KEYS_PREF, None) == Some(c.show(JArr(Wrap(s.keys))))
  }

  /** A codec that reads back what it writes and reads "[]" as the empty
      array. */
  ghost predicate Faithful(c: Codec) {
    c.parse(NO_KEYS) == Some(JArr([])) && forall j :: c.parse(c.show(j)) == Some(j)
  }

  /** The settings and the list of key objects that the adapter shares. */
  datatype Screen = Screen(prefs: Prefs.Prefs, keys: seq<Obj>)

  // ---------------------------------------------------------- load and save

  /** The setting's text, "[]" when it is absent. */
  function StoredText(p: Prefs.Prefs): (t: string)
    ensures KEYS_PREF !in p.store ==> t == NO_KEYS
    ensures KEYS_PREF in p.store ==> Some(t) == Prefs.GetString(p, KEYS_PREF, None)
  {
    Prefs.GetString(p, KEYS_PREF, Some(NO_KEYS)).value
  }

  /** `loadAPIKeys`: the objects of the array the stored text parses to,
      up to the first element that is not an object; an empty list when
      the text is not an array. */
  function Load(p: Prefs.Prefs, c: Codec): (r: seq<Obj>)
    ensures !(c.parse(StoredText(p)).Some? && c.parse(StoredText(p)).value.JArr?) ==> r == []
    ensures c.parse(StoredText(p)).Some? && c.parse(StoredText(p)).value.JArr? ==>
              var items := c.parse(StoredText(p)).value.items;
              |r| <= |items| && (forall i :: 0 <= i < |r| ==> items[i] == JObj(r[i]))
              && (|r| < |items| ==> !items[|r|].JObj?)
  {
    match c.parse(StoredText(p))
    case Some(JArr(items)) => ObjectsPrefix(items)
    case _ => []
  }

  /** A first start, with nothing stored, has no keys. */
  lemma FirstStartIsEmpty(p: Prefs.Prefs, c: Codec)
    requires Faithful(c) && KEYS_PREF !in p.store
    ensures Load(p, c) == []
  {
  }

  /** `onCreate`: the list loaded from the settings. */
  function Open(p: Prefs.Prefs, c: Codec): (s: Screen)
    ensures s.prefs == p && s.keys == Load(p, c)
  {
    Screen(p, Load(p, c))
  }

  /** `saveAPIKeys`: the list, as an array in list order, is written to
      the setting; no other setting changes. */
  function Save(s: Screen, c: Codec): (r: Screen)
    ensures r.keys == s.keys && r.prefs.key == s.prefs.key
    ensures Saved(r, c)
    ensures forall k :: k != KEYS_PREF ==> Prefs.GetString(r.prefs, k, None) == Prefs.GetString(s.prefs, k, None)
  {
    var text := c.show(JArr(Wrap(s.keys)));
    Prefs.PutGetString(s.prefs, KEYS_PREF, Some(text), None);
    s.(prefs := Prefs.PutString(s.prefs, KEYS_PREF, Some(text)))
  }

  /** A saved list is what the next start loads, in the same order. */
  lemma SavedLoads(s: Screen, c: Codec)
    requires Faithful(c) && Saved(s, c)
    ensures Load(s.prefs, c) == s.keys
  {
    ObjectsPrefixWrap(s.keys);
  }

  // ------------------------------------------------------------ the dialogs

  /** The three texts of the add or edit dialog. */
  datatype Entry = Entry(name: string, key: string, description: string)

  /** The texts as the dialog reads them: trimmed. */
  function Trimmed(e: Entry): (t: Entry)
    ensures t.name == [] <==> IsBlank(e.name)
    ensures t.key == [] <==> IsBlank(e.key)
  {
    Entry(Trim(e.name), Trim(e.key), Trim(e.description))
  }

  /** The dialogs refuse an empty name or key, once trimmed; the
      description may be empty. */
  predicate Accepts(e: Entry) {
    !IsBlank(e.name) && !IsBlank(e.key)
  }

  /** The puts of a confirmed dialog on an object: the three texts replace
      the old ones and every other member is kept. */
  function PutTexts(o: Obj, t: Entry): (r: Obj)
    ensures forall k :: k in r <==> k in o || k == "name" || k == "key" || k == "description"
    ensures Holds(r, "name", JStr(t.name)) && Holds(r, "key", JStr(t.key))
    ensures Holds(r, "description", JStr(t.description))
    ensures forall k :: k in o && k != "name" && k != "key" && k != "description" ==> r[k] == o[k]
  {
    o["name" := JStr(t.name)]["key" := JStr(t.key)]["description" := JStr(t.description)]
  }

  /** A new key object: the dialog's puts on an empty object. */
  function NewKey(e: Entry): Obj {
    PutTexts(map[], Trimmed(e))
  }

  /** A new key has exactly a name, a key and a description. */
  lemma NewKeyShape(e: Entry)
    ensures NewKey(e).Keys == {"name", "key", "description"}
    ensures Holds(NewKey(e), "name", JStr(Trimmed(e).name)) && Holds(NewKey(e), "key", JStr(Trimmed(e).key))
    ensures Holds(NewKey(e), "description", JStr(Trimmed(e).description))
  {
    PutTextsOnEmpty(Trimmed(e));
  }

  lemma PutTextsOnEmpty(t: Entry)
    ensures PutTexts(map[], t).Keys == {"name", "key", "description"}
  {
    var o := PutTexts(map[], t);
    assert forall k :: k in o <==> k in {"name", "key", "description"};
  }

  /** The positive button of the add dialog: a refused entry changes
      nothing; an accepted one is appended and the list saved. */
  function Add(s: Screen, c: Codec, e: Entry): (r: Screen)
    ensures !Accepts(e) ==> r == s
    ensures Accepts(e) ==> r.keys == s.keys + [NewKey(e)] && Saved(r, c)
  {
    if !Accepts(e) then s
    else Save(s.(keys := s.keys + [NewKey(e)]), c)
  }

  /** The edit dialog's initial texts: `getString("name")`, then
      `getString("key")`, then `optString("description", "")`, in one
      `try`, so that a missing name leaves all three fields empty and a
      missing key leaves the key and the description empty. */
  function Prefill(o: Obj): (r: Entry)
    ensures r.name == if "name" in o then Text(o["name"]) else ""
    ensures r.key == if "name" in o && "key" in o then Text(o["key"]) else ""
    ensures "name" in o && "key" in o ==> r.description == OptString(o, "description", "")
    ensures !("name" in o && "key" in o) ==> r.description == ""
  {
    match GetString(o, "name")
    case Err(_) => Entry("", "", "")
    case Ok(n) =>
      match GetString(o, "key")
      case Err(_) => Entry(n, "", "")
      case Ok(k) => Entry(n, k, OptString(o, "description", ""))
  }

  /** The positive button of the edit dialog for the row at `p`: a refused
      entry changes nothing; an accepted one rewrites that object and the
      list is saved. */
  function Edit(s: Screen, c: Codec, p: nat, e: Entry): (r: Screen)
    requires p < |s.keys|
    ensures !Accepts(e) ==> r == s
    ensures Accepts(e) ==> r.keys == s.keys[p := PutTexts(s.keys[p], Trimmed(e))] && Saved(r, c)
  {
    if !Accepts(e) then s
    else Save(s.(keys := s.keys[p := PutTexts(s.keys[p], Trimmed(e))]), c)
  }

  /** The delete confirmation for the row at `p`: it only opens when the
      object has a name to show; confirming removes the object and saves. */
  function Delete(s: Screen, c: Codec, p: nat): (r: Screen)
    requires p < |s.keys|
    ensures "name" !in s.keys[p] ==> r == s
    ensures "name" in s.keys[p] ==> r.keys == s.keys[..p] + s.keys[p + 1..] && Saved(r, c)
  {
    match GetString(s.keys[p], "name")
    case Err(_) => s
    case Ok(_) => Save(s.(keys := s.keys[..p] + s.keys[p + 1..]), c)
  }

  /** An accepted add is kept: the next start finds the old keys and then
      the new one. */
  lemma AddThenLoad(s: Screen, c: Codec, e: Entry)
    requires Faithful(c) && Accepts(e)
    ensures Load(Add(s, c, e).prefs, c) == s.keys + [NewKey(e)]
  {
    SavedLoads(Add(s, c, e), c);
  }

  /** Rewriting the object at `p` changes that object only. */
  lemma RewriteOne(keys: seq<Obj>, p: nat, t: Entry, l: seq<Obj>)
    requires p < |keys| && l == keys[p := PutTexts(keys[p], t)]
    ensures |l| == |keys| && Holds(l[p], "key", JStr(t.key))
    ensures forall i :: 0 <= i < |l| && i != p ==> l[i] == keys[i]
  {
  }

  /** An accepted edit is kept, and only the edited object changes. */
  lemma EditThenLoad(s: Screen, c: Codec, p: nat, e: Entry)
    requires Faithful(c) && p < |s.keys| && Accepts(e)
    ensures var l := Load(Edit(s, c, p, e).prefs, c);
            |l| == |s.keys| && Holds(l[p], "key", JStr(Trimmed(e).key))
            && forall i :: 0 <= i < |l| && i != p ==> l[i] == s.keys[i]
  {
    var r := Edit(s, c, p, e);
    SavedLoads(r, c);
    RewriteOne(s.keys, p, Trimmed(e), r.keys);
  }

  /** A confirmed delete is kept: the next start finds every other key. */
  lemma DeleteThenLoad(s: Screen, c: Codec, p: nat)
    requires Faithful(c) && p < |s.keys| && "name" in s.keys[p]
    ensures Load(Delete(s, c, p).prefs, c) == s.keys[..p] + s.keys[p + 1..]
  {
    SavedLoads(Delete(s, c, p), c);
  }

  /** Opening the edit dialog on a key object and confirming it unchanged
      keeps the object as it was. */
  lemma PrefillThenSave(o: Obj, e: Entry)
    requires o.Keys == {"name", "key", "description"}
    requires o["name"] == JStr(e.name) && o["key"] == JStr(e.key) && o["description"] == JStr(e.description)
    requires Trimmed(e) == e
    ensures PutTexts(o, Trimmed(Prefill(o))) == o
  {
    assert Prefill(o) == e;
    PutTextsSame(o, e);
  }

  /** Putting the texts an object already holds leaves it as it was. */
  lemma PutTextsSame(o: Obj, t: Entry)
    requires o.Keys == {"name", "key", "description"}
    requires o["name"] == JStr(t.name) && o["key"] == JStr(t.key) && o["description"] == JStr(t.description)
    ensures PutTexts(o, t) == o
  {
    var r := PutTexts(o, t);
    assert r.Keys == o.Keys;
  }

  // ------------------------------------------------------------ the adapter

  /** The key as a row shows it: the first four and the last four UTF-16
      units around "..." when its `length()` exceeds eight, "****"
      otherwise. */
  function Mask(key: string): (r: string)
    ensures Length16(key) > 8 ==> Length16(r) == 11
    ensures Length16(key) <= 8 ==> r == "****"
  {
    if Length16(key) > 8 then
      MaskedLength(Prefix16(key, 4), Suffix16(key, 4));
      Prefix16(key, 4) + "..." + Suffix16(key, 4)
    else "****"
  }

  lemma MaskedLength(head: string, tail: string)
    requires Length16(head) == 4 && Length16(tail) == 4
    ensures Length16(head + "..." + tail) == 11
  {
    Length16Append(head, "...");
    Length16Append(head + "...", tail);
    assert Length16("...") == 3;
  }

  /** A key inside the Basic Multilingual Plane shows its first and last
      four characters. */
  lemma MaskBmp(key: string)
    requires IsBmp(key) && |key| > 8
    ensures var r := Mask(key);
            |r| == 11 && r[..4] == key[..4] && r[4..7] == "..." && r[7..] == key[|key| - 4..]
  {
    Prefix16Bmp(key, 4);
    Suffix16Bmp(key, 4);
  }

  /** A masked key shows only what lies in its first and last four
      characters. */
  lemma MaskEnds(key: string)
    requires Length16(key) > 8
    ensures |key| > 4
    ensures Mask(key) == Prefix16(key[..4], 4) + "..." + Suffix16(key[|key| - 4..], 4)
  {
    Prefix16Local(key, 4);
    Suffix16Local(key, 4);
  }

  /** The mask tells nothing about a key's middle: two keys that agree on
      their first and last four characters show the same, and so do any
      two short keys. */
  lemma MaskHidesMiddle(k1: string, k2: string)
    requires (Length16(k1) > 8 && Length16(k2) > 8 && |k1| >= 4 && |k2| >= 4
              && k1[..4] == k2[..4] && k1[|k1| - 4..] == k2[|k2| - 4..])
             || (Length16(k1) <= 8 && Length16(k2) <= 8)
    ensures Mask(k1) == Mask(k2)
  {
    if Length16(k1) > 8 && Length16(k2) > 8 {
      MaskEnds(k1);
      MaskEnds(k2);
    }
  }

  /** A key of five characters outside the Basic Multilingual Plane is
      ten units long, so it is masked rather than starred: two characters,
      "..." and the last two. */
  lemma PairsKeyMasked(key: string)
    requires |key| == 5 && forall i :: 0 <= i < |key| ==> Units(key[i]) == 2
    ensures Mask(key) == key[..2] + "..." + key[3..]
  {
    AllPairsOf(key);
    Length16Pairs(key);
    Prefix16Pairs(key, 2);
    PairsSuffix(key);
  }

  lemma PairsSuffix(key: string)
    requires |key| == 5 && forall i :: 0 <= i < |key| ==> Units(key[i]) == 2
    ensures Suffix16(key, 4) == key[3..]
  {
    AllPairsOf(key);
    AllPairsOf(key[1..]);
    AllPairsOf(key[2..]);
    AllPairsOf(key[3..]);
    Length16Pairs(key);
    Length16Pairs(key[1..]);
    Length16Pairs(key[2..]);
    Length16Pairs(key[3..]);
    assert key[1..][1..] == key[2..];
    assert key[2..][1..] == key[3..];
  }

  /** A bound row's texts; `None` for a view left as it was. */
  datatype RowView = RowView(name: Option<string>, description: Option<string>, key: Option<string>)

  /** `onBindViewHolder`: the name, the description (empty when absent)
      and the masked key, set in that order inside one `try`, so that a
      missing name sets nothing and a missing key leaves the key view as
      it was. */
  function Bind(o: Obj): (v: RowView)
    ensures v.name.Some? <==> "name" in o
    ensures v.description.Some? <==> "name" in o
    ensures v.key.Some? <==> "name" in o && "key" in o
    ensures "name" in o ==> v.name == Some(Text(o["name"])) && v.description == Some(OptString(o, "description", ""))
    ensures v.key.Some? ==> v.key == Some(Mask(Text(o["key"])))
  {
    match GetString(o, "name")
    case Err(_) => RowView(None, None, None)
    case Ok(n) =>
      var d := OptString(o, "description", "");
      match GetString(o, "key")
      case Err(_) => RowView(Some(n), Some(d), None)
      case Ok(k) => RowView(Some(n), Some(d), Some(Mask(k)))
  }

  /** The rows on screen: one per object of the shared list, in order. */
  function Rows(s: Screen): (r: seq<RowView>)
    ensures |r| == |s.keys|
    ensures forall i :: 0 <= i < |r| ==> r[i] == Bind(s.keys[i])
  {
    seq(|s.keys|, i requires 0 <= i < |s.keys| => Bind(s.keys[i]))
  }

  /** The row of a key object written by the dialog. */
  lemma BindNew(s: Screen, n: nat, t: Entry)
    requires n < |s.keys| && s.keys[n] == PutTexts(map[], t)
    ensures Rows(s)[n] == RowView(Some(t.name), Some(t.description), Some(Mask(t.key)))
  {
  }

  /** A new key shows as the last row, with its name, its description and
      its key masked. */
  lemma AddedKeyShown(s: Screen, c: Codec, e: Entry)
    requires Accepts(e)
    ensures var r := Add(s, c, e);
            |Rows(r)| == |s.keys| + 1
            && Rows(r)[|s.keys|] == RowView(Some(Trimmed(e).name), Some(Trimmed(e).description), Some(Mask(Trimmed(e).key)))
  {
    var r := Add(s, c, e);
    assert r.keys == s.keys + [NewKey(e)];
    assert r.keys[|s.keys|] == PutTexts(map[], Trimmed(e));
    BindNew(r, |s.keys|, Trimmed(e));
  }
}

=== FILE: audio_context.dfy ===
/** `AudioContextAgent.analyzeAudio`: a missing file stops at once; a
    readable file has its metadata extracted and one request is made to the
    audio model; every result is written to the file of the input's name.
    The file system's answer, the metadata retriever's tags, the model's
    `Reading`, the lines the client logs, the clock and the wording of
    Java's number-format message are inputs. */
module AudioContext {
  import opened Outcomes
  import opened JavaInt
  import opened JavaString
  import opened OrgJson
  import opened ModelEnvelope
  import opened FileStore
  import MediaUtils
  import AgentRecords
  import AppLog
  import HFClient
  import opened TagSteps

  const AGENT: string := "AudioContextAgent"
  const ENDPOINT: string := "https://api-inference.huggingface.co/models/facebook/musicgen-small"
  const INSTRUCTION: string :=
    "Analyze this audio and provide insights about its content, mood, instruments, and potential applications for reconstruction."

  // -------------------------------------------------------------- metadata

  /** The retriever's raw tag texts, `None` for an absent tag.  The
      "sample_rate" member is read from the CD-track-number tag and
      "num_channels" from the number-of-tracks tag. */
  datatype Tags = Tags(duration: Option<string>, bitrate: Option<string>, cdTrackNumber: Option<string>,
                       numTracks: Option<string>, title: Option<string>, artist: Option<string>)

  /** Everything after the duration, in the order `extractMetadata` reads it. */
  function AfterDuration(p: Progress, t: Tags): Progress {
    var p := IntStep(p, "bitrate", t.bitrate);
    var p := IntStep(p, "sample_rate", t.cdTrackNumber);
    var p := IntStep(p, "num_channels", t.numTracks);
    var p := TextStep(p, "title", t.title);
    TextStep(p, "artist", t.artist)
  }

  /** `extractMetadata`: the tags in order; the first numeric tag whose
      text does not parse ends the extraction and keeps what came before. */
  function ExtractMetadata(t: Tags): Obj {
    Extraction(t).members
  }

  /** The extraction's end: its members, and whether and why it stopped. */
  function Extraction(t: Tags): Progress {
    AfterDuration(DurationStep(t.duration), t)
  }

  /** The later tags leave the duration members alone, and a stopped
      extraction stays as it is. */
  lemma AfterDurationKeeps(p: Progress, t: Tags, k: string)
    requires k == "duration_ms" || k == "duration_formatted"
    ensures k in AfterDuration(p, t).members <==> k in p.members
    ensures k in p.members ==> AfterDuration(p, t).members[k] == p.members[k]
    ensures p.Stopped? ==> AfterDuration(p, t).members == p.members
  {
  }

  /** The duration is recorded, with its clock text, exactly when its tag
      is present and parses as a `long`; an unparsable duration stops the
      extraction before anything is recorded. */
  lemma DurationRecorded(t: Tags)
    ensures "duration_ms" in ExtractMetadata(t) <==> t.duration.Some? && ParseLong(t.duration.value).Some?
    ensures t.duration.Some? && ParseLong(t.duration.value).Some? ==>
              var d := ParseLong(t.duration.value).value;
              ExtractMetadata(t)["duration_ms"] == JNum(d)
              && ExtractMetadata(t)["duration_formatted"] == JStr(MediaUtils.FormatDuration(d))
    ensures t.duration.Some? && ParseLong(t.duration.value).None? ==> ExtractMetadata(t) == map[]
  {
    AfterDurationKeeps(DurationStep(t.duration), t, "duration_ms");
    AfterDurationKeeps(DurationStep(t.duration), t, "duration_formatted");
  }

  /** The progress after the numeric tags, when each of them parses. */
  lemma NumbersGoing(t: Tags)
    requires t.duration.None? || ParseLong(t.duration.value).Some?
    requires ParsesAsInt(t.bitrate) && ParsesAsInt(t.cdTrackNumber) && ParsesAsInt(t.numTracks)
    ensures IntStep(IntStep(IntStep(DurationStep(t.duration), "bitrate", t.bitrate), "sample_rate", t.cdTrackNumber),
                    "num_channels", t.numTracks).Going?
  {
  }

  /** The text tags leave every other member alone. */
  lemma TextsKeep(p: Progress, t: Tags, k: string)
    requires k != "title" && k != "artist"
    ensures var q := TextStep(TextStep(p, "title", t.title), "artist", t.artist);
            (k in q.members <==> k in p.members) && (k in p.members ==> q.members[k] == p.members[k])
  {
  }

  /** When every numeric tag parses, each present numeric tag is recorded
      and each absent one is not. */
  lemma NumbersRecorded(t: Tags)
    requires t.duration.None? || ParseLong(t.duration.value).Some?
    requires ParsesAsInt(t.bitrate) && ParsesAsInt(t.cdTrackNumber) && ParsesAsInt(t.numTracks)
    ensures "bitrate" in ExtractMetadata(t) <==> t.bitrate.Some?
    ensures "sample_rate" in ExtractMetadata(t) <==> t.cdTrackNumber.Some?
    ensures "num_channels" in ExtractMetadata(t) <==> t.numTracks.Some?
    ensures t.bitrate.Some? ==> ExtractMetadata(t)["bitrate"] == JNum(ParseInt(t.bitrate.value).value)
  {
    var p0 := DurationStep(t.duration);
    var p1 := IntStep(p0, "bitrate", t.bitrate);
    var p2 := IntStep(p1, "sample_rate", t.cdTrackNumber);
    var p3 := IntStep(p2, "num_channels", t.numTracks);
    NumbersGoing(t);
    assert ExtractMetadata(t) == TextStep(TextStep(p3, "title", t.title), "artist", t.artist).members;
    TextsKeep(p3, t, "bitrate");
    TextsKeep(p3, t, "sample_rate");
    TextsKeep(p3, t, "num_channels");
  }

  /** When every numeric tag parses, the title and artist are recorded
      exactly when present, as they are. */
  lemma TextsRecorded(t: Tags)
    requires t.duration.None? || ParseLong(t.duration.value).Some?
    requires ParsesAsInt(t.bitrate) && ParsesAsInt(t.cdTrackNumber) && ParsesAsInt(t.numTracks)
    ensures "title" in ExtractMetadata(t) <==> t.title.Some?
    ensures t.title.Some? ==> ExtractMetadata(t)["title"] == JStr(t.title.value)
    ensures "artist" in ExtractMetadata(t) <==> t.artist.Some?
    ensures t.artist.Some? ==> ExtractMetadata(t)["artist"] == JStr(t.artist.value)
  {
    var p0 := DurationStep(t.duration);
    var p1 := IntStep(p0, "bitrate", t.bitrate);
    var p2 := IntStep(p1, "sample_rate", t.cdTrackNumber);
    var p3 := IntStep(p2, "num_channels", t.numTracks);
    NumbersGoing(t);
    NumbersLeaveTexts(t.duration, t.bitrate, t.cdTrackNumber, t.numTracks);
    var p4 := TextStep(p3, "title", t.title);
    var p5 := TextStep(p4, "artist", t.artist);
    assert ExtractMetadata(t) == p5.members;
  }

  /** The duration and numeric tags record no text member. */
  lemma NumbersLeaveTexts(d: Option<string>, b: Option<string>, c: Option<string>, n: Option<string>)
    ensures var p := IntStep(IntStep(IntStep(DurationStep(d), "bitrate", b), "sample_rate", c), "num_channels", n);
            "title" !in p.members && "artist" !in p.members
  {
  }

  /** An unparsable bitrate keeps at most the duration: nothing read after
      it is recorded. */
  lemma BadBitrateStops(t: Tags)
    requires t.bitrate.Some? && ParseInt(t.bitrate.value).None?
    ensures ExtractMetadata(t).Keys <= {"duration_ms", "duration_formatted"}
  {
    var p0 := DurationStep(t.duration);
    var p1 := IntStep(p0, "bitrate", t.bitrate);
    assert p1.Stopped? && p1.members == p0.members;
    AfterDurationKeeps(p0, t, "duration_ms");
    var p2 := IntStep(p1, "sample_rate", t.cdTrackNumber);
    var p3 := IntStep(p2, "num_channels", t.numTracks);
    var p4 := TextStep(p3, "title", t.title);
    var p5 := TextStep(p4, "artist", t.artist);
    assert p5 == p1;
  }

  // --------------------------------------------------------------- outcome

  /** What opening the input came to. */
  datatype Source =
    | Missing                   // `new File(path).exists()` is false
    | Unreadable(error: string) // `setDataSource` threw, with this message
    | Readable(tags: Tags)

  /** What `analyzeAudio` comes to. */
  datatype Analysis =
    | NoFile
    | SourceFailed(error: string)
    | Replied(metadata: Obj, reading: Reading)

  /** `analyzeAudio(path)`: the model's answer is consulted only for a
      readable file. */
  function Analyze(source: Source, reading: Reading): (a: Analysis)
    ensures a.NoFile? <==> source.Missing?
    ensures a.SourceFailed? <==> source.Unreadable?
    ensures a.Replied? <==> source.Readable?
    ensures a.Replied? ==> a.metadata == ExtractMetadata(source.tags) && a.reading == reading
  {
    match source
    case Missing => NoFile
    case Unreadable(e) => SourceFailed(e)
    case Readable(tags) => Replied(ExtractMetadata(tags), reading)
  }

  /** Whether a request went to the model. */
  predicate Requested(a: Analysis) {
    a.Replied?
  }

  predicate Succeeded(a: Analysis) {
    a.Replied? && a.reading.Generated?
  }

  function AnalysisMessage(a: Analysis): string {
    match a
    case NoFile => "Audio file does not exist"
    case SourceFailed(e) => "Error analyzing audio: " + e
    case Replied(_, reading) =>
      (match reading
       case Generated(_) => "Audio analyzed successfully"
       case Broken(e) => "Error analyzing audio: " + Message(e)
       case _ => FailureMessage(reading))
  }

  /** The placeholder audio features. */
  function Features(): Obj {
    map["tempo" := JStr("120 BPM"), "key" := JStr("C Major"), "genre" := JStr("Unknown"),
        "mood" := JStr("Neutral"), "instruments" := JStr("Various")]
  }

  /** The result object. */
  function ResultJson(path: string, a: Analysis): Obj {
    var base := map["agent" := JStr(AGENT), "audio_path" := JStr(path), "success" := JBool(Succeeded(a)),
                    "message" := JStr(AnalysisMessage(a))];
    match a
    case Replied(metadata, reading) =>
      var withMeta := base["metadata" := JObj(metadata)];
      if reading.Generated? then
        withMeta["analysis" := JObj(map["description" := JStr(reading.text), "audio_features" := JObj(Features())])]
      else withMeta
    case _ => base
  }

  /** What callers read off the result: success exactly when the model's
      answer carried text, whose text is then the analysis description; the
      message of each way to fail; the metadata whenever the file was read. */
  lemma ResultJsonReads(path: string, a: Analysis)
    ensures OptString(ResultJson(path, a), "audio_path", "") == path
    ensures OptBoolean(ResultJson(path, a), "success", false) <==> a.Replied? && a.reading.Generated?
    ensures OptString(ResultJson(path, a), "message", "") == AnalysisMessage(a)
    ensures OptObject(ResultJson(path, a), "metadata") == (if a.Replied? then Some(a.metadata) else None)
    ensures Succeeded(a) ==>
              OptObject(ResultJson(path, a), "analysis").Some?
              && OptString(OptObject(ResultJson(path, a), "analysis").value, "description", "") == a.reading.text
    ensures !Succeeded(a) ==> "analysis" !in ResultJson(path, a)
  {
  }

  /** The messages of the outcomes that send no request, and of a reply's
      failures. */
  lemma Messages(a: Analysis)
    ensures a.NoFile? ==> AnalysisMessage(a) == "Audio file does not exist"
    ensures a.Replied? && a.reading.NoResponse? ==> AnalysisMessage(a) == "Failed to get response from model"
    ensures a.Replied? && a.reading.BadFormat? ==> AnalysisMessage(a) == "Invalid response format from model"
    ensures a.Replied? && a.reading.Broken? ==> AnalysisMessage(a) == "Error analyzing audio: " + Message(a.reading.error)
    ensures a.SourceFailed? ==> AnalysisMessage(a) == "Error analyzing audio: " + a.error
  {
  }

  /** The messages analysing audio logs, in order: the extraction's
      exception; the client's lines (`clientLog`, what
      `HFClient.RequestModel` logged) for the one request; the error line
      when reading the answer threw.  A file that cannot be opened logs its
      error line alone; a missing one logs nothing. */
  function Logged(source: Source, reading: Reading, clientLog: seq<string>, numberError: string -> string)
    : (r: seq<AppLog.Said>)
    ensures source.Missing? ==> r == []
    ensures source.Unreadable? ==> r == [AppLog.Said(AGENT, "Error analyzing audio: " + source.error)]
    ensures source.Readable? ==>
              |r| == (if Extraction(source.tags).Stopped? then 1 else 0) + |clientLog| + (if reading.Broken? then 1 else 0)
    ensures source.Readable? && reading.Broken? ==>
              r[|r| - 1] == AppLog.Said(AGENT, "Error analyzing audio: " + Message(reading.error))
  {
    match source
    case Missing => []
    case Unreadable(e) => [AppLog.Said(AGENT, "Error analyzing audio: " + e)]
    case Readable(t) =>
      AppLog.SaidBy(AGENT, StopMessages(Extraction(t), "Error extracting metadata: ", numberError))
      + AppLog.SaidBy(HFClient.LOG_AGENT, clientLog)
      + (if reading.Broken? then [AppLog.Said(AGENT, "Error analyzing audio: " + Message(reading.error))] else [])
  }

  /** An unparsable tag is logged first, with the number-format message
      for its text, and the client's lines follow it. */
  lemma BadTagLoggedFirst(t: Tags, reading: Reading, clientLog: seq<string>, numberError: string -> string)
    requires t.bitrate.Some? && ParseInt(t.bitrate.value).None?
    requires t.duration.None? || ParseLong(t.duration.value).Some?
    ensures var r := Logged(Readable(t), reading, clientLog, numberError);
            |r| > |clientLog|
            && r[0] == AppLog.Said(AGENT, "Error extracting metadata: " + numberError(t.bitrate.value))
            && forall k :: 0 <= k < |clientLog| ==> r[1 + k] == AppLog.Said(HFClient.LOG_AGENT, clientLog[k])
  {
    var p0 := DurationStep(t.duration);
    var p1 := IntStep(p0, "bitrate", t.bitrate);
    assert p1 == Stopped(p0.members, BadNumber(t.bitrate.value));
    var p2 := IntStep(p1, "sample_rate", t.cdTrackNumber);
    var p3 := IntStep(p2, "num_channels", t.numTracks);
    var p4 := TextStep(p3, "title", t.title);
    assert Extraction(t) == TextStep(p4, "artist", t.artist) == p1;
    var head := AppLog.SaidBy(AGENT, StopMessages(Extraction(t), "Error extracting metadata: ", numberError));
    var client := AppLog.SaidBy(HFClient.LOG_AGENT, clientLog);
    var tail := if reading.Broken? then [AppLog.Said(AGENT, "Error analyzing audio: " + Message(reading.error))] else [];
    var r := Logged(Readable(t), reading, clientLog, numberError);
    assert r == head + client + tail;
    forall k | 0 <= k < |clientLog|
      ensures r[1 + k] == AppLog.Said(HFClient.LOG_AGENT, clientLog[k])
    {
      assert r[1 + k] == client[k];
    }
  }

  /** `analyzeAudio` with its effects: the result; the log with the
      analysis's messages, the k-th at the clock reading `clock(k)`; and
      the result written to the input's file. */
  function AnalyzeAudio(fs: Files, path: string, source: Source, reading: Reading, clientLog: seq<string>,
                        numberError: string -> string, clock: nat -> AppLog.Stamp, render: Obj -> string)
    : (r: (Analysis, Files))
    ensures r.0 == Analyze(source, reading)
    ensures r.1 == AgentRecords.Record(AppLog.LogSaid(fs, Logged(source, reading, clientLog, numberError), clock, render),
                                       AGENT, path, render(ResultJson(path, r.0)))
  {
    var a := Analyze(source, reading);
    var logged := AppLog.LogSaid(fs, Logged(source, reading, clientLog, numberError), clock, render);
    (a, AgentRecords.Record(logged, AGENT, path, render(ResultJson(path, a))))
  }

  /** A missing file sends no request, so the client logs nothing; it
      fails with its message whatever the model would have said, and is
      still recorded. */
  lemma MissingFileShortCircuits(fs: Files, path: string, reading: Reading, clientLog: seq<string>,
                                 numberError: string -> string, clock: nat -> AppLog.Stamp, render: Obj -> string)
    ensures var (a, after) := AnalyzeAudio(fs, path, Missing, reading, clientLog, numberError, clock, render);
            !Requested(a) && !Succeeded(a) && AnalysisMessage(a) == "Audio file does not exist"
            && AgentRecords.AnalysisFile(AGENT, path) in after
    ensures AnalyzeAudio(fs, path, Missing, reading, clientLog, numberError, clock, render)
            == AnalyzeAudio(fs, path, Missing, NoResponse, [], numberError, clock, render)
  {
  }

  /** Besides the app log, the only file an analysis can change is the
      input's result file. */
  lemma OnlyResultFileChanges(fs: Files, path: string, source: Source, reading: Reading, clientLog: seq<string>,
                              numberError: string -> string, clock: nat -> AppLog.Stamp, render: Obj -> string, p: string)
    requires p in fs && p != AgentRecords.AnalysisFile(AGENT, path) && !AppLog.IsLogFile(p)
    ensures var after := AnalyzeAudio(fs, path, source, reading, clientLog, numberError, clock, render).1;
            p in after && after[p] == fs[p]
  {
  }

  /** Within one day, an analysis appends its messages to a cleanly ended
      log; recording the result leaves the log alone. */
  lemma AnalysisLogLines(fs: Files, path: string, source: Source, reading: Reading, clientLog: seq<string>,
                         numberError: string -> string, clock: nat -> AppLog.Stamp, day: string, render: Obj -> string)
    requires forall o: Obj :: '\n' !in render(o) && '\r' !in render(o)
    requires forall k :: 0 <= k <= |clientLog| + 1 ==> clock(k).day == day
    requires Terminated(Content(fs, AppLog.LogFile(day)))
    ensures var after := AnalyzeAudio(fs, path, source, reading, clientLog, numberError, clock, render).1;
            Lines(Content(after, AppLog.LogFile(day)))
            == Lines(Content(fs, AppLog.LogFile(day)))
               + AppLog.SaidLines(Logged(source, reading, clientLog, numberError), clock, render)
  {
    var said := Logged(source, reading, clientLog, numberError);
    var logged := AppLog.LogSaid(fs, said, clock, render);
    assert |said| <= |clientLog| + 2;
    AppLog.LogSaidReadsBack(fs, said, clock, day, render);
    AgentRecords.RecordKeepsLogs(logged, AGENT, path, render(ResultJson(path, Analyze(source, reading))), AppLog.LogFile(day));
  }
}

=== FILE: audio_reconstructor.dfy ===
/** `AudioReconstructorActivity`: a picked audio file and a prompt become a
    reconstructed-audio project.  A run checks the device, analyses the
    audio, and puts a copy of the picked audio in place of the generated
    file; the screen then shows a result text and enables playing.  The
    agents' result objects, the clock's texts, the random number and the
    serialisation of objects are inputs. */
module AudioReconstructor {
  import opened Outcomes
  import opened JavaString
  import opened OrgJson
  import opened FileStore
  import opened FailFast
  import opened ScreenSteps
  import AppLog
  import AgentRecords
  import SanityCheck
  import AudioContext
  import ModelEnvelope

  /** `createNewProjectId`: "audio_reconstructor_", the formatted time, "_"
      and a random number below 1000. */
  function NewProjectId(timestamp: string, n: int): (id: string)
    requires 0 <= n < 1000
    ensures StartsWith(id, "audio_reconstructor_" + timestamp + "_")
  {
    ProjectId("audio_reconstructor_", timestamp, n)
  }

  /** The project copy of a picked audio file. */
  function InputFile(projectId: string): string {
    ProjectFile(projectId, "input.mp3")
  }

  /** Where the generated audio is expected. */
  function GeneratedFile(projectId: string): string {
    ProjectFile(projectId, "generated_audio.mp3")
  }

  // -------------------------------------------------------------------- run

  /** What a run is given: the check's result and the audio analysis
      (`None` for `null`). */
  datatype Inputs = Inputs(sanity: Obj, analysis: Option<Obj>)

  /** `GenerateAudioTask.doInBackground`: the check at 10, the analysis at
      30, and the simulated generation at 60 and 90. */
  function Stages(i: Inputs): (s: seq<Stage>)
    ensures |s| == 3
  {
    [Stage([10], SanityVerdict(i.sanity)),
     Stage([30], AgentVerdict(i.analysis, "Audio analysis failed", "Audio analysis returned null")),
     Stage([60, 90], Pass)]
  }

  function Run(i: Inputs): Report {
    Drive(Stages(i))
  }

  /** Whether the analysis reads as a success. */
  predicate Analysed(i: Inputs) {
    i.analysis.Some? && OptBoolean(i.analysis.value, "success", false)
  }

  /** A run succeeds exactly when the check passes and the analysis
      succeeds, and then publishes 10, 30, 60 and 90; a failing step ends
      it with its own message. */
  lemma RunOutcome(i: Inputs)
    ensures Run(i).status.Completed? <==> OptBoolean(i.sanity, "passed", false) && Analysed(i)
    ensures Run(i).status.Completed? ==> Run(i).progress == [10, 30, 60, 90]
    ensures !OptBoolean(i.sanity, "passed", false) ==>
              Run(i) == Report([10], Error(OptString(i.sanity, "message", "Sanity check failed")))
    ensures OptBoolean(i.sanity, "passed", false) && i.analysis.None? ==>
              Run(i) == Report([10, 30], Error("Audio analysis returned null"))
    ensures OptBoolean(i.sanity, "passed", false) && i.analysis.Some? && !Analysed(i) ==>
              Run(i) == Report([10, 30], Error(OptString(i.analysis.value, "message", "Audio analysis failed")))
  {
    var s := Stages(i);
    Peel3(s);
    assert AllOk(s, Passes) <==> Passes(s[0]) && Passes(s[1]);
    if Passes(s[0]) && Passes(s[1]) {
      assert Drive(s[1..][1..]) == Report([60, 90], Completed);
    } else if Passes(s[0]) {
      assert Drive(s[1..]).progress == [30];
    }
  }

  const RESULT_LEAD: string := "Audio reconstruction completed based on prompt: "
  const RESULT_TAIL: string := ". The audio has been processed and reconstructed according to your requirements."

  /** The result text of a successful run. */
  function ResultText(prompt: string): (t: string)
    ensures |t| == |RESULT_LEAD| + |prompt| + |RESULT_TAIL|
    ensures t[|RESULT_LEAD|..|RESULT_LEAD| + |prompt|] == prompt
  {
    var t := RESULT_LEAD + prompt + RESULT_TAIL;
    assert t[|RESULT_LEAD|..|RESULT_LEAD| + |prompt|] == prompt;
    t
  }

  /** Different prompts give different result texts: the text names the
      prompt it was made from. */
  lemma ResultTextNamesPrompt(p: string, q: string)
    requires ResultText(p) == ResultText(q)
    ensures p == q
  {
    assert |p| == |q|;
  }

  // ----------------------------------------------------------------- screen

  /** The screen: the picked audio and the generate button, the generated
      file's path (`None` before a successful run), the play button and
      the result text. */
  datatype Screen = Screen(media: MediaScreen, generated: Option<string>, playable: bool, result: string)

  /** The screen as `onCreate` leaves it. */
  const START: Screen := Screen(FRESH, None, false, "")

  /** Picking audio: the copy goes to the project's `input.mp3`; a
      successful pick refreshes both buttons. */
  function PickAudio(s: Screen, fs: Files, picked: PickResult, projectId: string): (r: (Screen, Files))
    ensures picked.Path? && picked.path in fs ==> r.0.media.enabled && r.0.playable == s.generated.Some?
    ensures r.0.generated == s.generated && r.0.result == s.result
  {
    var (m, after) := Pick(s.media, fs, picked, InputFile(projectId));
    if picked.Path? && picked.path in fs then (s.(media := m, playable := s.generated.Some?), after)
    else (s.(media := m), after)
  }

  /** How the audio analyzer's run goes: what opening the audio comes to,
      the model's reply, the client's log lines, the parse exception's
      message and the clock its log lines are stamped with. */
  datatype Analyzer = Analyzer(audio: AudioContext.Source, reading: ModelEnvelope.Reading, clientLog: seq<string>,
                               numberError: string -> string, clock: nat -> AppLog.Stamp)

  /** The analyzer's record of the picked audio. */
  function AnalysisRecord(source: string): string {
    AgentRecords.AnalysisFile(AudioContext.AGENT, source)
  }

  /** What the analyzer records: its rendered result object. */
  function RecordText(source: string, analyzer: Analyzer, render: Obj -> string): string {
    render(AudioContext.ResultJson(source, AudioContext.Analyze(analyzer.audio, analyzer.reading)))
  }

  /** The files the agents a run calls write for themselves: the check's
      report, the analyzer's record and the app log. */
  predicate AgentFile(p: string, source: string) {
    p == SanityCheck.ReportFile() || p == AnalysisRecord(source) || AppLog.IsLogFile(p)
  }

  /** `analyzeAudio` on the picked audio, as its effects on the files: its
      log lines and its record; the check's report is kept. */
  function AnalyzerEffects(fs: Files, source: string, analyzer: Analyzer, render: Obj -> string): (r: Files)
    ensures AnalysisRecord(source) in r && r[AnalysisRecord(source)] == RecordText(source, analyzer, render)
    ensures forall p :: p in fs && !AgentFile(p, source) ==> p in r && r[p] == fs[p]
    ensures SanityCheck.ReportFile() in fs ==> SanityCheck.ReportFile() in r && r[SanityCheck.ReportFile()] == fs[SanityCheck.ReportFile()]
    ensures forall p :: p in r && p !in fs ==> AgentFile(p, source)
  {
    var said := AudioContext.Logged(analyzer.audio, analyzer.reading, analyzer.clientLog, analyzer.numberError);
    AppLog.LogSaidAddsOnlyLogs(fs, said, analyzer.clock, render);
    SanityCheck.ReportFileInResults();
    SanityCheck.ReportNotRecord(AudioContext.AGENT, source);
    AudioContext.AnalyzeAudio(fs, source, analyzer.audio, analyzer.reading, analyzer.clientLog, analyzer.numberError,
                              analyzer.clock, render).1
  }

  /** The files a run leaves before the copy: the check's report, and,
      when the check passed, the analyzer's log lines and record. */
  function Checked(fs: Files, source: string, i: Inputs, analyzer: Analyzer, render: Obj -> string): (r: Files)
    ensures SanityCheck.ReportFile() in r && r[SanityCheck.ReportFile()] == render(i.sanity)
    ensures !OptBoolean(i.sanity, "passed", false) ==> r == fs[SanityCheck.ReportFile() := render(i.sanity)]
    ensures OptBoolean(i.sanity, "passed", false) ==>
              AnalysisRecord(source) in r && r[AnalysisRecord(source)] == RecordText(source, analyzer, render)
    ensures forall p :: p in fs && !AgentFile(p, source) ==> p in r && r[p] == fs[p]
    ensures forall p :: p in r && p !in fs ==> AgentFile(p, source)
  {
    var checked := SanityCheck.Record(fs, i.sanity, render);
    if !OptBoolean(i.sanity, "passed", false) then checked
    else AnalyzerEffects(checked, source, analyzer, render)
  }

  /** A run started from `s` (whose selection the guard checked) and its
      completion: the check's report is written, and the analyzer's log
      lines and record once the check passed; on success the generated
      path is set, the picked audio is copied there (a failed copy is
      ignored), the result text is shown and the buttons are refreshed; on
      failure only the generate button comes back. */
  function Generate(s: Screen, fs: Files, projectId: string, prompt: string, i: Inputs, analyzer: Analyzer,
                    render: Obj -> string): (r: (Screen, Files))
    requires s.media.selected.Some?
    ensures var checked := Checked(fs, s.media.selected.value, i, analyzer, render);
            Run(i).status.Completed? ==>
              r.0.generated == Some(GeneratedFile(projectId)) && r.0.playable && r.0.result == ResultText(prompt)
              && r.1 == Copy(checked, s.media.selected.value, GeneratedFile(projectId)).1
    ensures Run(i).status.Error? ==>
              r.1 == Checked(fs, s.media.selected.value, i, analyzer, render) && r.0 == s.(media := s.media.(enabled := true))
    ensures forall p :: p in fs && p != GeneratedFile(projectId) && !AgentFile(p, s.media.selected.value) ==>
              p in r.1 && r.1[p] == fs[p]
  {
    RunOutcome(i);
    var checked := Checked(fs, s.media.selected.value, i, analyzer, render);
    if Run(i).status.Completed? then
      var after := Copy(checked, s.media.selected.value, GeneratedFile(projectId)).1;
      (Screen(s.media.(enabled := true), Some(GeneratedFile(projectId)), true, ResultText(prompt)), after)
    else (s.(media := s.media.(enabled := true)), checked)
  }

  /** The play button is enabled after every successful run, even when the
      picked audio could not be copied, so it can point at a file that was
      never written. */
  lemma PlayableWithoutFile(s: Screen, fs: Files, projectId: string, prompt: string, i: Inputs, analyzer: Analyzer,
                            render: Obj -> string)
    requires s.media.selected.Some? && s.media.selected.value !in fs
    requires !AgentFile(s.media.selected.value, s.media.selected.value)
    requires GeneratedFile(projectId) !in fs
    requires OptBoolean(i.sanity, "passed", false) && Analysed(i)
    ensures var (t, after) := Generate(s, fs, projectId, prompt, i, analyzer, render);
            t.playable && t.generated == Some(GeneratedFile(projectId)) && GeneratedFile(projectId) !in after
  {
    RunOutcome(i);
    GeneratedNotAgentFile(projectId, s.media.selected.value);
  }

  /** A successful run from a picked file leaves the generated file holding
      the picked audio. */
  lemma GeneratedCopiesInput(s: Screen, fs: Files, projectId: string, prompt: string, i: Inputs, analyzer: Analyzer,
                             render: Obj -> string)
    requires s.media.selected.Some? && s.media.selected.value in fs
    requires !AgentFile(s.media.selected.value, s.media.selected.value)
    requires s.media.selected.value != GeneratedFile(projectId)
    requires OptBoolean(i.sanity, "passed", false) && Analysed(i)
    ensures var (t, after) := Generate(s, fs, projectId, prompt, i, analyzer, render);
            GeneratedFile(projectId) in after && after[GeneratedFile(projectId)] == fs[s.media.selected.value]
  {
    RunOutcome(i);
  }

  /** The generated file is a project file, which no agent writes. */
  lemma GeneratedNotAgentFile(projectId: string, source: string)
    ensures !AgentFile(GeneratedFile(projectId), source)
  {
    var g := GeneratedFile(projectId);
    ProjectFileUnderProjects(projectId, "generated_audio.mp3");
    SanityCheck.ReportFileInResults();
    ResultsOutsideProject(SanityCheck.ReportFile(), projectId, "generated_audio.mp3");
    AgentRecords.AnalysisFileInResults(AudioContext.AGENT, source);
    ResultsOutsideProject(AnalysisRecord(source), projectId, "generated_audio.mp3");
    AppLog.OutsideResultsNotLogFile(g, "projects");
  }

  // ------------------------------------------------------------------- save

  /** `saveAudio`: the project metadata, with the source and the generated
      file left out while they are `null`, and the result text. */
  function SavedData(projectId: string, s: Screen, createdAt: string, modified: string): (c: Obj)
    ensures "source_audio" in c <==> s.media.selected.Some?
    ensures "generated_audio" in c <==> s.generated.Some?
    ensures OptString(c, "result_text", "") == s.result
    ensures OptString(c, "workflowType", "") == "audio_reconstructor"
  {
    var base := SavedConfig(projectId, "Audio Reconstructor Project", "audio_reconstructor", "source_audio",
                            s.media.selected, createdAt, modified);
    var withResult := base["result_text" := JStr(s.result)];
    if s.generated.Some? then withResult["generated_audio" := JStr(s.generated.value)] else withResult
  }

  /** The save button writes the metadata to the project's configuration
      and leaves every other file as it was. */
  function Save(fs: Files, projectId: string, s: Screen, createdAt: string, modified: string, render: Obj -> string): (r: Files)
    ensures ConfigFile(projectId) in r && r[ConfigFile(projectId)] == render(SavedData(projectId, s, createdAt, modified))
    ensures forall p :: p in fs && p != ConfigFile(projectId) ==> p in r && r[p] == fs[p]
  {
    Write(fs, ConfigFile(projectId), render(SavedData(projectId, s, createdAt, modified)))
  }
}

=== FILE: base64.dfy ===
/** Base64 with padding and without line breaks (`Base64.NO_WRAP`), the
    encoding of section 4 of RFC 4648: every three bytes become four
    characters of the 64-character alphabet, and a final one or two bytes
    become two or three characters followed by `=` padding up to four.
    The decoder accepts exactly the canonical encodings. */
module Base64 {
  import opened Outcomes
  import opened Bytes

  /** The alphabet of Table 1 of RFC 4648. */
  function Digit(v: int): (c: char)
    requires 0 <= v < 64
  {
    if v < 26 then ('A' as int + v) as char
    else if v < 52 then ('a' as int + v - 26) as char
    else if v < 62 then ('0' as int + v - 52) as char
    else if v == 62 then '+'
    else '/'
  }

  /** The value of an alphabet character; `None` for any other character,
      the padding `=` included. */
  function Value(c: char): (r: Option<int>)
    ensures r.Some? ==> 0 <= r.value < 64 && Digit(r.value) == c
  {
    if 'A' <= c <= 'Z' then Some(c as int - 'A' as int)
    else if 'a' <= c <= 'z' then Some(c as int - 'a' as int + 26)
    else if '0' <= c <= '9' then Some(c as int - '0' as int + 52)
    else if c == '+' then Some(62)
    else if c == '/' then Some(63)
    else None
  }

  lemma ValueOfDigit(v: int)
    requires 0 <= v < 64
    ensures Value(Digit(v)) == Some(v)
  {
  }

  /** Three bytes as four characters. */
  function Quad(a: byte, b: byte, c: byte): (r: string)
    ensures |r| == 4
  {
    [Digit(a as int / 4), Digit(a as int % 4 * 16 + b as int / 16), Digit(b as int % 16 * 4 + c as int / 64), Digit(c as int % 64)]
  }

  /** `Base64.encodeToString(bytes, NO_WRAP)`. */
  function Encode(bs: seq<byte>): (r: string)
    ensures |r| % 4 == 0
    ensures r == [] <==> bs == []
    decreases |bs|
  {
    if |bs| == 0 then []
    else if |bs| == 1 then [Digit(bs[0] as int / 4), Digit(bs[0] as int % 4 * 16), '=', '=']
    else if |bs| == 2 then TwoLast(bs[0], bs[1])
    else Quad(bs[0], bs[1], bs[2]) + Encode(bs[3..])
  }

  /** Four alphabet characters as three bytes. */
  function DecodeQuad(q: string): (r: Option<seq<byte>>)
    requires |q| == 4
    ensures r.Some? ==> |r.value| == 3
  {
    match (Value(q[0]), Value(q[1]), Value(q[2]), Value(q[3]))
      case (Some(w), Some(x), Some(y), Some(z)) =>
        Some(Bytes3(w, x, y, z))
      case _ => None
  }

  /** The last four characters: a full group, or one or two bytes with
      padding, whose unused bits must be zero. */
  function DecodeLast(q: string): (r: Option<seq<byte>>)
    requires |q| == 4
    ensures r.Some? ==> 1 <= |r.value| <= 3
  {
    if q[2] == '=' && q[3] == '=' then
      match (Value(q[0]), Value(q[1]))
        case (Some(w), Some(x)) => if x % 16 == 0 then Some([(w * 4 + x / 16) as byte]) else None
        case _ => None
    else if q[3] == '=' then
      match (Value(q[0]), Value(q[1]), Value(q[2]))
        case (Some(w), Some(x), Some(y)) =>
          if y % 4 == 0 then Some([(w * 4 + x / 16) as byte, (x % 16 * 16 + y / 4) as byte]) else None
        case _ => None
    else DecodeQuad(q)
  }

  /** `Base64.decode(text, NO_WRAP)` on canonical input; `None` stands for
      the `IllegalArgumentException` of a text that is not an encoding. */
  function Decode(s: string): (r: Option<seq<byte>>)
    ensures r == Some([]) <==> s == []
    decreases |s|
  {
    if s == [] then Some([])
    else if |s| < 4 then None
    else if |s| == 4 then DecodeLast(s)
    else match DecodeQuad(s[..4])
      case None => None
      case Some(head) =>
        match Decode(s[4..])
          case None => None
          case Some(tail) => Some(head + tail)
  }

  // Splitting a byte into its high and low bits and joining them again.

  lemma Split(a: int, d: int)
    requires 0 <= a < 256 && (d == 4 || d == 16 || d == 64)
    ensures 0 <= a / d < 256 / d && 0 <= a % d < d && a == a / d * d + a % d
  {
  }

  lemma Join4(hi: int, lo: int)
    requires 0 <= lo < 4
    ensures (hi * 4 + lo) / 4 == hi && (hi * 4 + lo) % 4 == lo
  {
  }

  lemma Join16(hi: int, lo: int)
    requires 0 <= lo < 16
    ensures (hi * 16 + lo) / 16 == hi && (hi * 16 + lo) % 16 == lo
  {
  }

  /** The three bytes that the four values of a group spell. */
  function Bytes3(w: int, x: int, y: int, z: int): seq<byte>
    requires 0 <= w < 64 && 0 <= x < 64 && 0 <= y < 64 && 0 <= z < 64
  {
    [(w * 4 + x / 16) as byte, (x % 16 * 16 + y / 4) as byte, (y % 4 * 64 + z) as byte]
  }

  lemma Bytes3OfQuad(a: byte, b: byte, c: byte)
    ensures Bytes3(a as int / 4, a as int % 4 * 16 + b as int / 16, b as int % 16 * 4 + c as int / 64, c as int % 64) == [a, b, c]
  {
    Split(a as int, 4);
    Split(b as int, 16);
    Split(c as int, 64);
    Join16(a as int % 4, b as int / 16);
    Join4(b as int % 16, c as int / 64);
  }

  lemma QuadRoundTrip(a: byte, b: byte, c: byte, rest: string)
    ensures |Quad(a, b, c) + rest| >= 4
    ensures DecodeQuad((Quad(a, b, c) + rest)[..4]) == Some([a, b, c])
  {
    var q := Quad(a, b, c);
    assert (q + rest)[..4] == q;
    Split(a as int, 4);
    Split(b as int, 16);
    Split(c as int, 64);
    var w, x, y, z := a as int / 4, a as int % 4 * 16 + b as int / 16, b as int % 16 * 4 + c as int / 64, c as int % 64;
    ValueOfDigit(w);
    ValueOfDigit(x);
    ValueOfDigit(y);
    ValueOfDigit(z);
    Bytes3OfQuad(a, b, c);
    assert DecodeQuad(q) == Some(Bytes3(w, x, y, z));
  }

  lemma OneByteRoundTrip(bs: seq<byte>)
    requires |bs| == 1
    ensures Decode(Encode(bs)) == Some(bs)
  {
    var a := bs[0];
    assert bs == [a];
    Split(a as int, 4);
    ValueOfDigit(a as int / 4);
    ValueOfDigit(a as int % 4 * 16);
    Join16(a as int % 4, 0);
  }

  /** The last group of two bytes. */
  function TwoLast(a: byte, b: byte): string {
    [Digit(a as int / 4), Digit(a as int % 4 * 16 + b as int / 16), Digit(b as int % 16 * 4), '=']
  }

  lemma TwoLastDecodes(a: byte, b: byte)
    ensures DecodeLast(TwoLast(a, b)) == Some([a, b])
  {
    Split(a as int, 4);
    Split(b as int, 16);
    ValueOfDigit(a as int / 4);
    ValueOfDigit(a as int % 4 * 16 + b as int / 16);
    ValueOfDigit(b as int % 16 * 4);
    Join16(a as int % 4, b as int / 16);
    Join4(b as int % 16, 0);
  }

  lemma TwoBytesRoundTrip(bs: seq<byte>)
    requires |bs| == 2
    ensures Decode(Encode(bs)) == Some(bs)
  {
    var a, b := bs[0], bs[1];
    assert bs == [a, b];
    assert Encode(bs) == TwoLast(a, b);
    TwoLastDecodes(a, b);
  }

  /** A full group followed by more text decodes group by group. */
  lemma DecodeStep(q: string, rest: string)
    requires |q| == 4 && rest != [] && DecodeQuad(q).Some? && Decode(rest).Some?
    ensures Decode(q + rest) == Some(DecodeQuad(q).value + Decode(rest).value)
  {
    var s := q + rest;
    assert s[..4] == q && s[4..] == rest;
  }

  /** Three bytes alone make one full last group. */
  lemma ThreeBytesRoundTrip(a: byte, b: byte, c: byte)
    ensures Decode(Quad(a, b, c)) == Some([a, b, c])
  {
    var q := Quad(a, b, c);
    QuadRoundTrip(a, b, c, []);
    assert q + [] == q && q[..4] == q;
    assert Value(q[3]).Some?;
  }

  lemma ThreeBytesAlone(bs: seq<byte>)
    requires |bs| == 3
    ensures Decode(Encode(bs)) == Some(bs)
  {
    assert bs[3..] == [] && Encode(bs) == Quad(bs[0], bs[1], bs[2]) + [];
    ThreeBytesRoundTrip(bs[0], bs[1], bs[2]);
    assert bs == [bs[0], bs[1], bs[2]];
  }

  lemma EncodeFront(bs: seq<byte>)
    requires |bs| > 3
    ensures Encode(bs) == Quad(bs[0], bs[1], bs[2]) + Encode(bs[3..]) && Encode(bs[3..]) != []
  {
  }

  lemma FrontSplit<T>(s: seq<T>)
    requires |s| >= 3
    ensures s == [s[0], s[1], s[2]] + s[3..]
  {
  }

  /** Decoding an encoding gives the bytes back. */
  lemma {:induction false} DecodeEncode(bs: seq<byte>)
    ensures Decode(Encode(bs)) == Some(bs)
    decreases |bs|
  {
    if |bs| == 1 {
      OneByteRoundTrip(bs);
    } else if |bs| == 2 {
      TwoBytesRoundTrip(bs);
    } else if |bs| == 3 {
      ThreeBytesAlone(bs);
    } else if |bs| > 3 {
      DecodeEncode(bs[3..]);
      EncodeFront(bs);
      var q := Quad(bs[0], bs[1], bs[2]);
      QuadRoundTrip(bs[0], bs[1], bs[2], []);
      assert q + [] == q;
      DecodeStep(q, Encode(bs[3..]));
      FrontSplit(bs);
    }
  }

  lemma Join64(hi: int, lo: int)
    requires 0 <= lo < 64
    ensures (hi * 64 + lo) / 64 == hi && (hi * 64 + lo) % 64 == lo
  {
  }

  /** The bytes a group spells give the group's values back. */
  lemma ValuesOfBytes3(w: int, x: int, y: int, z: int)
    requires 0 <= w < 64 && 0 <= x < 64 && 0 <= y < 64 && 0 <= z < 64
    ensures var v := Bytes3(w, x, y, z);
            v[0] as int / 4 == w && v[0] as int % 4 * 16 + v[1] as int / 16 == x
            && v[1] as int % 16 * 4 + v[2] as int / 64 == y && v[2] as int % 64 == z
  {
    Split(x, 16);
    Split(y, 4);
    Join4(w, x / 16);
    Join16(x % 16, y / 4);
    Join64(y % 4, z);
  }

  lemma QuadCanonical(q: string)
    requires |q| == 4 && DecodeQuad(q).Some?
    ensures var v := DecodeQuad(q).value; Quad(v[0], v[1], v[2]) == q
  {
    var w, x, y, z := Value(q[0]).value, Value(q[1]).value, Value(q[2]).value, Value(q[3]).value;
    ValuesOfBytes3(w, x, y, z);
  }

  lemma OnePaddedCanonical(q: string)
    requires |q| == 4 && q[2] == '=' && q[3] == '=' && DecodeLast(q).Some?
    ensures Encode(DecodeLast(q).value) == q
  {
    var w, x := Value(q[0]).value, Value(q[1]).value;
    Split(x, 16);
    Join4(w, x / 16);
  }

  lemma TwoPaddedCanonical(q: string)
    requires |q| == 4 && q[2] != '=' && q[3] == '=' && DecodeLast(q).Some?
    ensures Encode(DecodeLast(q).value) == q
  {
    var w, x, y := Value(q[0]).value, Value(q[1]).value, Value(q[2]).value;
    Split(x, 16);
    Split(y, 4);
    Join4(w, x / 16);
    Join16(x % 16, y / 4);
  }

  lemma LastCanonical(q: string)
    requires |q| == 4 && DecodeLast(q).Some?
    ensures Encode(DecodeLast(q).value) == q
  {
    if q[2] == '=' && q[3] == '=' {
      OnePaddedCanonical(q);
    } else if q[3] == '=' {
      TwoPaddedCanonical(q);
    } else {
      QuadCanonical(q);
      var v := DecodeLast(q).value;
      assert v[3..] == [];
    }
  }

  /** Every three bytes, and a last one or two, take four characters. */
  lemma {:induction false} EncodeLength(bs: seq<byte>)
    ensures |Encode(bs)| == (|bs| + 2) / 3 * 4
    decreases |bs|
  {
    if |bs| >= 3 {
      EncodeLength(bs[3..]);
      assert |Encode(bs)| == 4 + |Encode(bs[3..])|;
      GroupsStep(|bs|);
    }
  }

  lemma GroupsStep(n: int)
    requires n >= 3
    ensures (n + 2) / 3 * 4 == 4 + (n - 3 + 2) / 3 * 4
  {
    assert (n + 2) / 3 == 1 + (n - 1) / 3;
  }

  /** Only canonical encodings are accepted: a text that decodes is the
      encoding of what it decodes to. */
  lemma {:induction false} EncodeDecode(s: string)
    requires Decode(s).Some?
    ensures Encode(Decode(s).value) == s
    decreases |s|
  {
    if |s| == 4 {
      LastCanonical(s);
    } else if |s| > 4 {
      var head := DecodeQuad(s[..4]).value;
      var tail := Decode(s[4..]).value;
      EncodeDecode(s[4..]);
      QuadCanonical(s[..4]);
      assert tail != [];
      var bs := head + tail;
      assert bs[3..] == tail;
      assert s == s[..4] + s[4..];
    }
  }
}

=== FILE: bytes.dfy ===
/** Byte strings, and the single-byte view of text that
    `DataOutputStream.writeBytes` takes: each character contributes its low
    eight bits. */
module Bytes {

  newtype byte = x: int | 0 <= x < 256

  /** `writeBytes(s)`: one byte per character, its low eight bits. */
  function Latin1(s: string): (r: seq<byte>)
    ensures |r| == |s|
    ensures forall i :: 0 <= i < |s| ==> r[i] as int == s[i] as int % 256
  {
    seq(|s|, i requires 0 <= i < |s| => (s[i] as int % 256) as byte)
  }

  /** Text whose characters all fit in one byte. */
  predicate IsLatin1(s: string) {
    forall i :: 0 <= i < |s| ==> s[i] as int < 256
  }

  /** Bytes read back as characters U+0000 to U+00FF. */
  function Latin1Text(bs: seq<byte>): (s: string)
    ensures |s| == |bs| && IsLatin1(s)
    ensures forall i :: 0 <= i < |bs| ==> s[i] as int == bs[i] as int
  {
    seq(|bs|, i requires 0 <= i < |bs| => (bs[i] as int) as char)
  }

  /** Single-byte text survives the byte view unchanged, and so do bytes. */
  lemma Latin1RoundTrip(s: string, bs: seq<byte>)
    ensures IsLatin1(s) ==> Latin1Text(Latin1(s)) == s
    ensures Latin1(Latin1Text(bs)) == bs
  {
    if IsLatin1(s) {
      var t := Latin1Text(Latin1(s));
      forall i | 0 <= i < |s| ensures t[i] == s[i] {
        assert t[i] as int == s[i] as int;
      }
    }
  }

  lemma Latin1Append(a: string, b: string)
    ensures Latin1(a + b) == Latin1(a) + Latin1(b)
  {
    var l, r := Latin1(a + b), Latin1(a) + Latin1(b);
    forall i | 0 <= i < |l| ensures l[i] == r[i] {
      if i < |a| { assert (a + b)[i] == a[i]; } else { assert (a + b)[i] == b[i - |a|]; }
    }
  }

  function Pow2(n: nat): (r: nat)
    ensures r >= 1
  {
    if n == 0 then 1 else 2 * Pow2(n - 1)
  }

  /** The low `n` bits of `a` and `b` combined by exclusive or, lowest bit
      first. */
  function XorBits(a: nat, b: nat, n: nat): (r: nat)
    ensures r < Pow2(n)
  {
    if n == 0 then 0
    else (if a % 2 == b % 2 then 0 else 1) + 2 * XorBits(a / 2, b / 2, n - 1)
  }

  /** XOR with the same bits undoes itself on numbers of `n` bits. */
  lemma {:induction false} XorBitsTwice(a: nat, k: nat, n: nat)
    requires a < Pow2(n)
    ensures XorBits(XorBits(a, k, n), k, n) == a
  {
    if n > 0 {
      var r := XorBits(a, k, n);
      var low := if a % 2 == k % 2 then 0 else 1;
      assert r == low + 2 * XorBits(a / 2, k / 2, n - 1);
      assert r % 2 == low && r / 2 == XorBits(a / 2, k / 2, n - 1);
      XorBitsTwice(a / 2, k / 2, n - 1);
    }
  }

  /** Java's `(byte) (x ^ k)`: the eight bits of one byte XORed with those
      of one key byte. */
  function XorByte(x: byte, k: byte): byte {
    XorBits(x as nat, k as nat, 8) as byte
  }

  /** XOR with the same byte undoes itself. */
  lemma XorByteTwice(x: byte, k: byte)
    ensures XorByte(XorByte(x, k), k) == x
  {
    XorBitsTwice(x as nat, k as nat, 8);
  }
}

=== FILE: envelope.dfy ===
/** The shape the agents expect of a text-generation response: member "0"
    holding an array whose first element is an object with a
    "generated_text" member.  Every capability agent and every orchestrator
    step reads a response the same way; only the messages differ. */
module ModelEnvelope {
  import opened Outcomes
  import opened OrgJson

  /** How a response reads. */
  datatype Reading =
    | NoResponse                 // null, or an object without member "0"
    | BadFormat                  // "0" is empty or its first element has no generated_text
    | Generated(text: string)    // the first candidate's text
    | Broken(error: JsonError)   // `getJSONArray("0")` or `getJSONObject(0)` threw

  /** The test `response != null && response.has("0")`, then
      `getJSONArray("0")`, then `length() > 0 && getJSONObject(0).has(...)`,
      then `getString("generated_text")`. */
  function Read(response: Option<Obj>): (r: Reading)
    ensures r.NoResponse? <==> response.None? || "0" !in response.value
    ensures r.Generated? <==>
              response.Some? && "0" in response.value && response.value["0"].JArr?
              && |response.value["0"].items| > 0 && response.value["0"].items[0].JObj?
              && "generated_text" in response.value["0"].items[0].fields
    ensures r.Generated? ==> r.text == Text(response.value["0"].items[0].fields["generated_text"])
    ensures r.Broken? <==>
              response.Some? && "0" in response.value
              && (!response.value["0"].JArr?
                  || (|response.value["0"].items| > 0 && !response.value["0"].items[0].JObj?))
  {
    if response.None? || "0" !in response.value then NoResponse
    else
      match GetArray(response.value, "0")
      case Err(e) => Broken(e)
      case Ok(candidates) =>
        if |candidates| == 0 then BadFormat
        else
          match ObjectAt(candidates, 0)
          case Err(e) => Broken(e)
          case Ok(first) =>
            if "generated_text" in first then Generated(Text(first["generated_text"]))
            else BadFormat
  }

  /** The canonical response carrying `text` as its only candidate. */
  function Envelope(text: string): (o: Obj)
    ensures Read(Some(o)) == Generated(text)
  {
    map["0" := JArr([JObj(map["generated_text" := JStr(text)])])]
  }

  /** The message the capability agents attach when no text was produced
      without an exception: "Failed to get response from model" for no
      response, "Invalid response format from model" for a malformed one. */
  function FailureMessage(r: Reading): (m: string)
    requires r.NoResponse? || r.BadFormat?
  {
    if r.NoResponse? then "Failed to get response from model"
    else "Invalid response format from model"
  }
}

=== FILE: fail_fast.dfy ===
/** Fail-fast runs: steps execute in order and the first step that fails
    ends the run.  The screens' drivers also announce a fixed list of
    progress values as each step starts. */
module FailFast {

  /** The steps that execute: every step up to and including the first one
      that fails. */
  function Executed<T>(steps: seq<T>, ok: T -> bool): (r: seq<T>)
    ensures |r| <= |steps| && r == steps[..|r|]
    ensures steps != [] ==> r != []
    ensures forall i :: 0 <= i < |r| - 1 ==> ok(r[i])
    ensures |r| < |steps| ==> !ok(r[|r| - 1])
  {
    if steps == [] then []
    else if !ok(steps[0]) then [steps[0]]
    else [steps[0]] + Executed(steps[1..], ok)
  }

  predicate AllOk<T>(steps: seq<T>, ok: T -> bool) {
    forall i :: 0 <= i < |steps| ==> ok(steps[i])
  }

  /** A run completes exactly when every step succeeds; it then executes
      them all. */
  lemma {:induction false} ExecutedAllOk<T>(steps: seq<T>, ok: T -> bool)
    ensures AllOk(steps, ok) <==> (Executed(steps, ok) == steps && (steps == [] || ok(steps[|steps| - 1])))
    decreases |steps|
  {
    if steps != [] {
      ExecutedAllOk(steps[1..], ok);
      if AllOk(steps, ok) {
        assert AllOk(steps[1..], ok);
      }
    }
  }

  /** A non-empty run completes exactly when its last executed step
      succeeds. */
  lemma LastOkIffAllOk<T>(steps: seq<T>, ok: T -> bool)
    requires steps != []
    ensures var r := Executed(steps, ok); ok(r[|r| - 1]) <==> AllOk(steps, ok)
  {
    ExecutedAllOk(steps, ok);
  }

  /** The run as a loop that counts executed steps; it executes exactly
      `Executed`. */
  method Run<T>(steps: seq<T>, ok: T -> bool) returns (ran: nat, failed: bool)
    ensures ran == |Executed(steps, ok)|
    ensures failed <==> !AllOk(steps, ok)
  {
    ran, failed := 0, false;
    while ran < |steps| && !failed
      invariant 0 <= ran <= |steps|
      invariant failed ==> ran >= 1 && !ok(steps[ran - 1])
      invariant !failed ==> forall i :: 0 <= i < ran ==> ok(steps[i])
      invariant |Executed(steps, ok)| == ran + (if failed then 0 else |Executed(steps[ran..], ok)|)
    {
      ExecutedFrom(steps, ok, ran);
      if !ok(steps[ran]) {
        failed := true;
      }
      ran := ran + 1;
    }
    if !failed {
      assert steps[ran..] == [];
    }
  }

  /** A run stops at the first failing step: it executes that step and
      every one before it. */
  lemma {:induction false} StopsAtFirstFailure<T>(steps: seq<T>, ok: T -> bool, k: nat)
    requires k < |steps| && !ok(steps[k])
    requires forall i :: 0 <= i < k ==> ok(steps[i])
    ensures Executed(steps, ok) == steps[..k + 1]
    decreases k
  {
    if k > 0 {
      StopsAtFirstFailure(steps[1..], ok, k - 1);
      assert steps[1..][..k] == steps[1..k + 1];
    }
  }

  lemma ExecutedFrom<T>(steps: seq<T>, ok: T -> bool, k: nat)
    requires k < |steps|
    ensures |Executed(steps[k..], ok)| == 1 + (if ok(steps[k]) then |Executed(steps[k + 1..], ok)| else 0)
  {
    assert steps[k..][1..] == steps[k + 1..];
  }

  // ------------------------------------------------------------- progress

  datatype Verdict = Pass | Fail(message: string)

  /** A stage announces its progress values, then runs and yields a verdict. */
  datatype Stage = Stage(progress: seq<int>, verdict: Verdict)

  datatype Status = Completed | Error(message: string)

  /** What a driver reports: the progress values in the order announced and
      the final status. */
  datatype Report = Report(progress: seq<int>, status: Status)

  predicate Passes(s: Stage) {
    s.verdict.Pass?
  }

  /** Every progress value of `stages`, in order. */
  function Progress(stages: seq<Stage>): seq<int> {
    if stages == [] then [] else stages[0].progress + Progress(stages[1..])
  }

  /** The report of a fail-fast run of `stages`. */
  function Drive(stages: seq<Stage>): (r: Report)
    ensures r.progress == Progress(Executed(stages, Passes))
    ensures r.status.Completed? <==> AllOk(stages, Passes)
    ensures r.status.Error? ==>
              var ran := Executed(stages, Passes);
              ran != [] && ran[|ran| - 1].verdict == Fail(r.status.message)
  {
    if stages == [] then Report([], Completed)
    else
      match stages[0].verdict
      case Fail(m) => Report(stages[0].progress, Error(m))
      case Pass =>
        var rest := Drive(stages[1..]);
        assert AllOk(stages, Passes) <==> AllOk(stages[1..], Passes) by {
          if AllOk(stages[1..], Passes) {
            forall i | 0 <= i < |stages| ensures Passes(stages[i]) {
              if i > 0 { assert stages[i] == stages[1..][i - 1]; }
            }
          }
        }
        Report(stages[0].progress + rest.progress, rest.status)
  }

  /** A run of stages that all pass completes and announces every stage's
      progress. */
  lemma DriveAllPass(stages: seq<Stage>)
    requires AllOk(stages, Passes)
    ensures Drive(stages) == Report(Progress(stages), Completed)
  {
    ExecutedAllOk(stages, Passes);
  }

  predicate NonDecreasing(xs: seq<int>) {
    forall i, j :: 0 <= i < j < |xs| ==> xs[i] <= xs[j]
  }

  lemma {:induction false} ProgressOfPrefix(stages: seq<Stage>, k: nat)
    requires k <= |stages|
    ensures Progress(stages) == Progress(stages[..k]) + Progress(stages[k..])
    decreases k
  {
    if k > 0 {
      assert stages[..k][1..] == stages[1..][..k - 1];
      assert stages[k..] == stages[1..][k - 1..];
      ProgressOfPrefix(stages[1..], k - 1);
    } else {
      assert stages[..k] == [];
      assert stages[k..] == stages;
    }
  }

  /** A run announces a prefix of the full progress table, so a run whose
      table never decreases never reports a decreasing progress either. */
  lemma DriveProgressIsPrefix(stages: seq<Stage>)
    ensures var full := Progress(stages);
            var p := Drive(stages).progress;
            |p| <= |full| && p == full[..|p|]
    ensures NonDecreasing(Progress(stages)) ==> NonDecreasing(Drive(stages).progress)
  {
    var ran := Executed(stages, Passes);
    ProgressOfPrefix(stages, |ran|);
  }
}

=== FILE: ffmpeg.dfy ===
/** `FFmpegRunner` and `FFmpegFragment`: a command line typed or picked
    from the presets is cut into tokens, put behind the FFmpeg binary and
    run as a process; the fragment reports the exit code.  What the
    process does (whether it starts, finishes in time, what it prints and
    how it exits) is an input. */
module FFmpeg {
  import opened Outcomes
  import opened JavaString
  import opened OrgJson
  import opened FileStore
  import opened SeqLaws
  import ScreenSteps

  // -------------------------------------------------------------- tokens

  /** Both quote characters open and close the same quoted stretch. */
  predicate IsQuote(c: char) {
    c == '"' || c == '\''
  }

  predicate QuoteFree(s: string) {
    '"' !in s && '\'' !in s
  }

  /** The tokenizer part-way through a command: the finished tokens, the
      token being built, and whether a quote is open. */
  datatype Scan = Scan(done: seq<string>, current: string, quoted: bool)

  const START: Scan := Scan([], [], false)

  /** One character of `parseCommand`: a quote flips the flag and is
      dropped; a space outside quotes ends a non-empty token; anything
      else joins the current token. */
  function Step(st: Scan, c: char): Scan {
    if IsQuote(c) then st.(quoted := !st.quoted)
    else if c == ' ' && !st.quoted then
      if st.current != [] then Scan(st.done + [st.current], [], st.quoted) else st
    else st.(current := st.current + [c])
  }

  /** The tokenizer after reading all of `s`. */
  function ScanAll(s: string): Scan
    decreases |s|
  {
    if s == [] then START else Step(ScanAll(s[..|s| - 1]), s[|s| - 1])
  }

  /** The tokens of the user's command: the finished ones and the last one
      when it is not empty. */
  function UserTokens(command: string): seq<string> {
    var st := ScanAll(command);
    if st.current != [] then st.done + [st.current] else st.done
  }

  // The reference the tokens are compared against: which characters of a
  // command reach the process, counted without any notion of token.

  function QuoteCount(s: string): nat
    decreases |s|
  {
    if s == [] then 0 else QuoteCount(s[..|s| - 1]) + (if IsQuote(s[|s| - 1]) then 1 else 0)
  }

  /** A quote is open after `s` when `s` holds an odd number of quote
      characters, whichever kind they are. */
  predicate OpenQuote(s: string) {
    QuoteCount(s) % 2 == 1
  }

  /** The characters of `s` that survive: all but the quotes and the spaces
      outside quotes. */
  function Kept(s: string): string
    decreases |s|
  {
    if s == [] then []
    else
      var init := s[..|s| - 1];
      var c := s[|s| - 1];
      Kept(init) + (if IsQuote(c) || (c == ' ' && !OpenQuote(init)) then [] else [c])
  }

  function Flatten(ts: seq<string>): string
    decreases |ts|
  {
    if ts == [] then [] else ts[0] + Flatten(ts[1..])
  }

  lemma {:induction false} FlattenSnoc(ts: seq<string>, t: string)
    ensures Flatten(ts + [t]) == Flatten(ts) + t
    decreases |ts|
  {
    if ts == [] {
      assert [] + [t] == [t];
    } else {
      assert (ts + [t])[1..] == ts[1..] + [t];
      FlattenSnoc(ts[1..], t);
      ConcatAssoc(ts[0], Flatten(ts[1..]), t);
    }
  }

  predicate GoodToken(t: string) {
    t != [] && QuoteFree(t)
  }

  /** What holds of the tokenizer after every prefix: its flag is the
      parity of the quotes read, the finished tokens are non-empty and
      quote-free, and the tokens together hold exactly the kept
      characters. */
  lemma {:induction false} ScanFacts(s: string)
    ensures ScanAll(s).quoted == OpenQuote(s)
    ensures forall i :: 0 <= i < |ScanAll(s).done| ==> GoodToken(ScanAll(s).done[i])
    ensures QuoteFree(ScanAll(s).current)
    ensures Flatten(ScanAll(s).done) + ScanAll(s).current == Kept(s)
    decreases |s|
  {
    if s != [] {
      var init := s[..|s| - 1];
      var c := s[|s| - 1];
      ScanFacts(init);
      var st := ScanAll(init);
      if IsQuote(c) {
      } else if c == ' ' && !st.quoted {
        if st.current != [] {
          FlattenSnoc(st.done, st.current);
          assert Flatten(st.done + [st.current]) + [] == Kept(init);
        }
      } else {
        ConcatAssoc(Flatten(st.done), st.current, [c]);
      }
    }
  }

  /** The user's tokens are non-empty, free of quote characters, and
      together spell exactly the kept characters of the command. */
  lemma TokensFacts(command: string)
    ensures forall i :: 0 <= i < |UserTokens(command)| ==> GoodToken(UserTokens(command)[i])
    ensures Flatten(UserTokens(command)) == Kept(command)
  {
    ScanFacts(command);
    var st := ScanAll(command);
    if st.current != [] {
      FlattenSnoc(st.done, st.current);
    } else {
      assert Flatten(st.done) + [] == Flatten(st.done);
    }
  }

  /** Inside quotes every character but a quote joins the current token,
      spaces included. */
  lemma {:induction false} QuotedStretch(a: string, w: string)
    requires ScanAll(a).quoted && QuoteFree(w)
    ensures ScanAll(a + w) == ScanAll(a).(current := ScanAll(a).current + w)
    decreases |w|
  {
    if w == [] {
      assert a + w == a;
    } else {
      var init := w[..|w| - 1];
      assert init + [w[|w| - 1]] == w;
      assert QuoteFree(init);
      assert (a + w)[..|a + w| - 1] == a + init;
      QuotedStretch(a, init);
      ConcatAssoc(ScanAll(a).current, init, [w[|w| - 1]]);
    }
  }

  /** The two quote characters share one flag: a `"` followed by a `'`
      leaves the tokenizer as it was. */
  lemma MixedQuotesClose(a: string)
    ensures ScanAll(a + "\"'") == ScanAll(a)
  {
    var b := a + "\"'";
    assert b[..|b| - 1] == a + "\"";
    assert (a + "\"")[..|a|] == a;
  }

  // Without quotes the tokens are the words between the spaces.

  /** One step of `Pieces` from the front. */
  lemma PiecesUnfold(s: string, sep: char)
    requires s != []
    ensures var q := Pieces(s[1..], sep);
            Pieces(s, sep) == if s[0] == sep then [[]] + q else [[s[0]] + q[0]] + q[1..]
  {
  }

  lemma {:induction false} PiecesSnoc(s: string, c: char, sep: char)
    ensures var p := Pieces(s, sep);
            Pieces(s + [c], sep) == if c == sep then p + [[]] else p[..|p| - 1] + [p[|p| - 1] + [c]]
    decreases |s|
  {
    var t := s + [c];
    var p, pc := Pieces(s, sep), Pieces(t, sep);
    if s == [] {
      assert t == [c] && t[1..] == [];
      PiecesUnfold(t, sep);
      assert p == [[]];
      if c != sep {
        assert pc == [[c]];
        assert p[..0] + [p[0] + [c]] == [[c]];
      }
    } else {
      var q, qc := Pieces(s[1..], sep), Pieces(s[1..] + [c], sep);
      assert t[1..] == s[1..] + [c] && t[0] == s[0];
      PiecesSnoc(s[1..], c, sep);
      assert pc == if s[0] == sep then [[]] + qc else [[s[0]] + qc[0]] + qc[1..] by {
        PiecesUnfold(t, sep);
      }
      assert p == if s[0] == sep then [[]] + q else [[s[0]] + q[0]] + q[1..] by {
        PiecesUnfold(s, sep);
      }
      SnocStep(s[0], sep, c, q, qc, p, pc);
    }
  }

  /** The step of `PiecesSnoc` on the pieces alone: appending to the tail
      commutes with putting the first character in front. */
  lemma SnocStep(h: char, sep: char, c: char, q: seq<string>, qc: seq<string>, p: seq<string>, pc: seq<string>)
    requires |q| >= 1
    requires qc == if c == sep then q + [[]] else q[..|q| - 1] + [q[|q| - 1] + [c]]
    requires p == if h == sep then [[]] + q else [[h] + q[0]] + q[1..]
    requires pc == if h == sep then [[]] + qc else [[h] + qc[0]] + qc[1..]
    ensures pc == if c == sep then p + [[]] else p[..|p| - 1] + [p[|p| - 1] + [c]]
  {
    if h == sep {
      if c == sep {
        ConcatAssoc([[]], q, [[]]);
      } else {
        SnocUnderHead([], q, c);
      }
    } else if c == sep {
      ConsNewPiece([h], q);
    } else {
      SnocUnderJoined([h], q, c);
    }
  }

  // The sequence steps of `PiecesSnoc`, stated without `Pieces`.

  lemma SnocUnderHead(x: string, q: seq<string>, c: char)
    requires |q| >= 1
    ensures var p := [x] + q;
            [x] + (q[..|q| - 1] + [q[|q| - 1] + [c]]) == p[..|p| - 1] + [p[|p| - 1] + [c]]
  {
    var p := [x] + q;
    assert p[..|p| - 1] == [x] + q[..|q| - 1];
  }

  lemma ConsNewPiece(x: string, q: seq<string>)
    requires |q| >= 1
    ensures var rest := q + [[]];
            [x + rest[0]] + rest[1..] == [x + q[0]] + q[1..] + [[]]
  {
    var rest := q + [[]];
    assert rest[1..] == q[1..] + [[]];
  }

  lemma SnocUnderJoined(x: string, q: seq<string>, c: char)
    requires |q| >= 1
    ensures var rest := q[..|q| - 1] + [q[|q| - 1] + [c]];
            var p := [x + q[0]] + q[1..];
            [x + rest[0]] + rest[1..] == p[..|p| - 1] + [p[|p| - 1] + [c]]
  {
    var n := |q|;
    var rest := q[..n - 1] + [q[n - 1] + [c]];
    var p := [x + q[0]] + q[1..];
    if n == 1 {
      assert x + (q[0] + [c]) == (x + q[0]) + [c];
    } else {
      assert rest[0] == q[0] && rest[1..] == q[1..n - 1] + [q[n - 1] + [c]];
      assert p[..|p| - 1] == [x + q[0]] + q[1..n - 1];
    }
  }

  lemma {:induction false} NonEmptySnoc(ts: seq<string>, t: string)
    ensures NonEmpty(ts + [t]) == NonEmpty(ts) + (if t == [] then [] else [t])
    decreases |ts|
  {
    if ts == [] {
      assert [] + [t] == [t];
      assert [t][1..] == [];
    } else {
      assert (ts + [t])[1..] == ts[1..] + [t];
      NonEmptySnoc(ts[1..], t);
    }
  }

  lemma {:induction false} ScanWords(s: string)
    requires QuoteFree(s)
    ensures var p := Pieces(s, ' ');
            !ScanAll(s).quoted && ScanAll(s).current == p[|p| - 1] && ScanAll(s).done == NonEmpty(p[..|p| - 1])
    decreases |s|
  {
    if s != [] {
      var init := s[..|s| - 1];
      var c := s[|s| - 1];
      assert init + [c] == s;
      assert QuoteFree(init) && !IsQuote(c);
      ScanWords(init);
      PiecesSnoc(init, c, ' ');
      var p := Pieces(init, ' ');
      var st := ScanAll(init);
      if c == ' ' {
        assert (p + [[]])[..|p|] == p;
        if st.current != [] {
          InitLast(p);
          NonEmptySnoc(p[..|p| - 1], p[|p| - 1]);
        } else {
          InitLast(p);
          NonEmptySnoc(p[..|p| - 1], p[|p| - 1]);
        }
      } else {
        var q := p[..|p| - 1] + [p[|p| - 1] + [c]];
        assert q[..|q| - 1] == p[..|p| - 1];
      }
    }
  }

  /** A command without quote characters is cut at its spaces, and the
      empty pieces that runs of spaces leave are dropped. */
  lemma QuoteFreeTokens(command: string)
    requires QuoteFree(command)
    ensures UserTokens(command) == NonEmpty(Pieces(command, ' '))
  {
    ScanWords(command);
    var p := Pieces(command, ' ');
    InitLast(p);
    NonEmptySnoc(p[..|p| - 1], p[|p| - 1]);
  }

  /** Words that hold neither spaces nor quotes, joined by single spaces,
      come back as exactly those words. */
  lemma JoinedWords(words: seq<string>)
    requires |words| >= 1
    requires forall i :: 0 <= i < |words| ==> PlainWord(words[i])
    ensures UserTokens(Join(words, ' ')) == words
  {
    JoinQuoteFree(words);
    QuoteFreeTokens(Join(words, ' '));
    PiecesOfJoin(words, ' ');
    NonEmptyKeeps(words);
  }

  lemma {:induction false} JoinQuoteFree(words: seq<string>)
    requires |words| >= 1
    requires forall i :: 0 <= i < |words| ==> QuoteFree(words[i])
    ensures QuoteFree(Join(words, ' '))
    decreases |words|
  {
    if |words| > 1 {
      JoinQuoteFree(words[1..]);
      assert Join(words, ' ') == words[0] + [' '] + Join(words[1..], ' ');
    }
  }

  lemma {:induction false} PiecesOfWord(w: string, rest: string, sep: char)
    requires sep !in w
    ensures Pieces(w + [sep] + rest, sep) == [w] + Pieces(rest, sep)
    decreases |w|
  {
    var s := w + [sep] + rest;
    if w == [] {
      assert s == [sep] + rest;
      assert s[1..] == rest;
    } else {
      assert s[1..] == w[1..] + [sep] + rest;
      PiecesOfWord(w[1..], rest, sep);
      assert [w[0]] + w[1..] == w;
    }
  }

  lemma {:induction false} PiecesOfJoin(words: seq<string>, sep: char)
    requires |words| >= 1
    requires forall i :: 0 <= i < |words| ==> sep !in words[i]
    ensures Pieces(Join(words, sep), sep) == words
    decreases |words|
  {
    if |words| > 1 {
      PiecesOfJoin(words[1..], sep);
      PiecesOfWord(words[0], Join(words[1..], sep), sep);
      assert [words[0]] + words[1..] == words;
    }
  }

  lemma {:induction false} NonEmptyKeeps(ts: seq<string>)
    requires forall i :: 0 <= i < |ts| ==> ts[i] != []
    ensures NonEmpty(ts) == ts
    decreases |ts|
  {
    if ts != [] {
      NonEmptyKeeps(ts[1..]);
      assert [ts[0]] + ts[1..] == ts;
    }
  }

  // -------------------------------------------------------------- binary

  /** `getFFmpegBinaryPath`: the app's own `ffmpeg` when it exists, else
      the one on the shared storage when it exists, else the bare name for
      the system to find. */
  function BinaryPath(fs: Files, filesDir: string): (r: string)
    ensures filesDir + "/ffmpeg" in fs ==> r == filesDir + "/ffmpeg"
    ensures filesDir + "/ffmpeg" !in fs && EXTERNAL_BINARY in fs ==> r == EXTERNAL_BINARY
    ensures r in fs || r == "ffmpeg"
    ensures r !in fs ==> filesDir + "/ffmpeg" !in fs && EXTERNAL_BINARY !in fs
  {
    if filesDir + "/ffmpeg" in fs then filesDir + "/ffmpeg"
    else if EXTERNAL_BINARY in fs then EXTERNAL_BINARY
    else "ffmpeg"
  }

  const EXTERNAL_BINARY: string := "/storage/emulated/0/AIAutoCreate/ffmpeg"

  /** `parseCommand`, as the source's loop runs it: the binary first, then
      the user's tokens in order. */
  method ParseCommand(binary: string, command: string) returns (parts: seq<string>)
    ensures |parts| >= 1 && parts[0] == binary && parts[1..] == UserTokens(command)
    ensures forall i :: 1 <= i < |parts| ==> GoodToken(parts[i])
    ensures Flatten(parts[1..]) == Kept(command)
  {
    var done: seq<string> := [];
    var quoted := false;
    var current: string := [];
    var i := 0;
    while i < |command|
      invariant 0 <= i <= |command|
      invariant ScanAll(command[..i]) == Scan(done, current, quoted)
    {
      var c := command[i];
      assert command[..i + 1][..i] == command[..i];
      if c == '"' || c == '\'' {
        quoted := !quoted;
      } else if c == ' ' && !quoted {
        if |current| > 0 {
          done := done + [current];
          current := [];
        }
      } else {
        current := current + [c];
      }
      i := i + 1;
    }
    assert command[..i] == command;
    if |current| > 0 {
      done := done + [current];
    }
    parts := [binary] + done;
    TokensFacts(command);
  }

  // ------------------------------------------------------------ execution

  /** What the process did: it finished within 30 seconds with an exit code
      and its merged output and error text, it did not finish in time, or
      starting or reading it threw. */
  datatype ProcessRun = Finished(exitCode: int, raw: string) | TimedOut | Threw(message: string)

  /** `FFmpegResult`. */
  datatype FFmpegResult = FFmpegResult(exitCode: int, output: string)

  predicate IsSuccess(r: FFmpegResult) {
    r.exitCode == 0
  }

  /** A call of `execute`: its result (`None` for `null`) and the message
      it logs. */
  datatype Execution = Execution(result: Option<FFmpegResult>, logged: Option<string>)

  /** `execute`: nothing when FFmpeg is unavailable, when the process does
      not finish in time or when it throws; otherwise the exit code and the
      output read line by line. */
  function Execute(available: bool, command: string, run: ProcessRun): (e: Execution)
    ensures e.result.Some? <==> available && run.Finished?
    ensures e.result.None? <==> e.logged.Some?
    ensures !available ==> e.logged == Some("FFmpeg is not available")
    ensures e.result.Some? ==> e.result.value.exitCode == run.exitCode
                               && Lines(e.result.value.output) == Lines(run.raw)
                               && Terminated(e.result.value.output)
                               && '\r' !in e.result.value.output
    ensures available && run.TimedOut? ==> StartsWith(e.logged.value, "FFmpeg command timed out: ")
  {
    if !available then Execution(None, Some("FFmpeg is not available"))
    else match run
      case Finished(code, raw) =>
        NormalizeIdempotent(raw);
        LinesClean(raw);
        LinesTerminate(Lines(raw));
        Execution(Some(FFmpegResult(code, Normalize(raw))), None)
      case TimedOut => Execution(None, Some("FFmpeg command timed out: " + command))
      case Threw(m) => Execution(None, Some("Error executing FFmpeg command: " + m))
  }

  /** What `executeAsync` hands its callback. */
  datatype Callback = OnSuccess(result: FFmpegResult) | OnError(message: string)

  /** `ExecuteFFmpegTask`: `execute` catches everything itself, so the
      task's own error message is never set and a failed run is always
      reported as "Unknown error". */
  function ExecuteAsync(available: bool, command: string, run: ProcessRun): (r: Callback)
    ensures r.OnSuccess? <==> Execute(available, command, run).result.Some?
    ensures r.OnSuccess? ==> Some(r.result) == Execute(available, command, run).result
    ensures r.OnError? ==> r.message == "Unknown error"
  {
    var e := Execute(available, command, run);
    if e.result.Some? then OnSuccess(e.result.value) else OnError("Unknown error")
  }

  /** What the availability probe (`ffmpeg -version`, given 5 seconds)
      did: it finished with an exit code, timed out, or threw. */
  datatype Probe = ProbeExit(code: int) | ProbeTimeout | ProbeThrew

  /** `checkFFmpegAvailability`: a probe that exits with 0 in time; when
      the probe throws, whether the FFmpegKit class can be loaded. */
  function Available(probe: Probe, kitLoads: bool): (r: bool)
    ensures r <==> probe == ProbeExit(0) || (probe.ProbeThrew? && kitLoads)
  {
    match probe
      case ProbeExit(code) => code == 0
      case ProbeTimeout => false
      case ProbeThrew => kitLoads
  }

  /** What reading the version did: the first line printed (`None` when
      there is none), or it threw. */
  datatype VersionRead = FirstLine(line: Option<string>) | VersionThrew

  const VERSION_MARK: string := "ffmpeg version"

  /** `getFFmpegVersion`: the first line when it names a version, a fixed
      message otherwise. */
  function Version(available: bool, read: VersionRead): (r: string)
    ensures Contains(r, VERSION_MARK) <==> available && read.FirstLine? && read.line.Some? && Contains(read.line.value, VERSION_MARK)
    ensures Contains(r, VERSION_MARK) ==> r == read.line.value
    ensures !available ==> r == "Not available"
  {
    if !available then NotAvailable()
    else match read
      case FirstLine(line) =>
        if line.Some? && Contains(line.value, VERSION_MARK) then line.value else UnknownVersion()
      case VersionThrew => VersionError()
  }

  // None of the fixed messages holds an 'f', so none names a version.
  function NotAvailable(): (r: string)
    ensures !Contains(r, VERSION_MARK)
  {
    WithoutF("Not available");
    "Not available"
  }

  function UnknownVersion(): (r: string)
    ensures !Contains(r, VERSION_MARK)
  {
    WithoutF("Unknown version");
    "Unknown version"
  }

  function VersionError(): (r: string)
    ensures !Contains(r, VERSION_MARK)
  {
    WithoutF("Error getting version");
    "Error getting version"
  }

  lemma {:induction false} WithoutF(s: string)
    requires 'f' !in s
    ensures !Contains(s, VERSION_MARK)
    decreases |s|
  {
    if s != [] {
      assert s[0] != VERSION_MARK[0];
      assert 'f' !in s[1..];
      WithoutF(s[1..]);
    }
  }

  // ------------------------------------------------------------- fragment

  /** The words of the eight presets of `getPresetCommand`. */
  function PresetWords(index: int): seq<string>
    requires 0 <= index < 8
  {
    match index
      case 0 => ["-i", "input.mp4", "-c:v", "libx264", "-c:a", "aac", "output.mp4"]
      case 1 => ["-i", "input.mp4", "-vn", "-acodec", "copy", "output.aac"]
      case 2 => ["-framerate", "24", "-i", "frame_%04d.jpg", "-c:v", "libx264", "-pix_fmt", "yuv420p", "output.mp4"]
      case 3 => ["-i", "input.mp4", "-vf", "fps=24", "frame_%04d.jpg"]
      case 4 => ["-i", "input.mp4", "-i", "subtitles.srt", "-c", "copy", "-c:s", "mov_text", "output.mp4"]
      case 5 => ["-i", "input.mp4", "-ss", "00:00:10", "-t", "00:00:30", "-c", "copy", "output.mp4"]
      case 6 => ["-i", "input.mp4", "-vf", "scale=1280:720", "-c:a", "copy", "output.mp4"]
      case _ => ["-i", "input.mp4", "-r", "30", "output.mp4"]
  }

  /** `getPresetCommand`: the eight preset command lines, each its words
      separated by single spaces, and nothing for any other choice. */
  function PresetCommand(index: int): (r: string)
    ensures 0 <= index < 8 <==> r != []
    ensures 0 <= index < 8 ==> r[0] == '-'
  {
    if 0 <= index < 8 then
      JoinHead(PresetWords(index), ' ');
      Join(PresetWords(index), ' ')
    else ""
  }

  lemma JoinHead(words: seq<string>, sep: char)
    requires |words| >= 1 && words[0] != []
    ensures Join(words, sep) != [] && Join(words, sep)[0] == words[0][0]
  {
  }

  predicate PlainWord(w: string) {
    GoodToken(w) && ' ' !in w
  }

  /** A preset put in the editor and run is cut into exactly its words. */
  lemma PresetTokens(index: int)
    requires 0 <= index < 8
    ensures UserTokens(PresetCommand(index)) == PresetWords(index)
  {
    match index {
      case 0 => PlainPreset0();
      case 1 => PlainPreset1();
      case 2 => PlainPreset2();
      case 3 => PlainPreset3();
      case 4 => PlainPreset4();
      case 5 => PlainPreset5();
      case 6 => PlainPreset6();
      case 7 => PlainPreset7();
    }
    JoinedWords(PresetWords(index));
  }

  // Each preset's words hold neither spaces nor quotes, checked one preset
  // at a time.

  lemma PlainPreset0() ensures forall i :: 0 <= i < |PresetWords(0)| ==> PlainWord(PresetWords(0)[i]) {}
  lemma PlainPreset1() ensures forall i :: 0 <= i < |PresetWords(1)| ==> PlainWord(PresetWords(1)[i]) {}
  lemma PlainPreset2() ensures forall i :: 0 <= i < |PresetWords(2)| ==> PlainWord(PresetWords(2)[i]) {}
  lemma PlainPreset3() ensures forall i :: 0 <= i < |PresetWords(3)| ==> PlainWord(PresetWords(3)[i]) {}
  lemma PlainPreset4() ensures forall i :: 0 <= i < |PresetWords(4)| ==> PlainWord(PresetWords(4)[i]) {}
  lemma PlainPreset5() ensures forall i :: 0 <= i < |PresetWords(5)| ==> PlainWord(PresetWords(5)[i]) {}
  lemma PlainPreset6() ensures forall i :: 0 <= i < |PresetWords(6)| ==> PlainWord(PresetWords(6)[i]) {}
  lemma PlainPreset7() ensures forall i :: 0 <= i < |PresetWords(7)| ==> PlainWord(PresetWords(7)[i]) {}

  /** The exit code the fragment works with: the process's, or -1 when
      `execute` gave nothing. */
  function ExitCode(result: Option<FFmpegResult>): (code: int)
    ensures code == 0 <==> result.Some? && IsSuccess(result.value)
    ensures result.None? ==> code == -1
  {
    if result.Some? then result.value.exitCode else -1
  }

  const SUCCESS_LINE: string := "Command completed successfully"
  const FAILURE_LEAD: string := "Command failed with exit code: "

  /** The closing line of the output: success for exit code 0 only. */
  function ClosingLine(code: int): (line: string)
    ensures line == SUCCESS_LINE <==> code == 0
    ensures code != 0 ==> StartsWith(line, FAILURE_LEAD)
  {
    if code == 0 then SUCCESS_LINE
    else
      var line := FAILURE_LEAD + IntToString(code);
      assert |line| > |SUCCESS_LINE|;
      assert line[..|FAILURE_LEAD|] == FAILURE_LEAD;
      line
  }

  /** The run button: a blank command is refused; otherwise the trimmed
      command is executed and the exit code reported. */
  function RunButton(text: string, available: bool, run: ProcessRun): (r: Option<int>)
    ensures r.None? <==> !ScreenSteps.Submittable(text)
    ensures r == Some(0) <==> ScreenSteps.Submittable(text) && available && run.Finished? && run.exitCode == 0
    ensures r.Some? && !available ==> r == Some(-1)
  {
    match ScreenSteps.Submit(text)
      case None => None
      case Some(command) => Some(ExitCode(Execute(available, command, run).result))
  }

  /** `logFFmpegResult`: the command, the exit code, the output (left out
      when `execute` gave nothing) and the time. */
  function LogRecord(command: string, result: Option<FFmpegResult>, now: int): (o: Obj)
    ensures "output" in o <==> result.Some?
    ensures "exit_code" in o && o["exit_code"].JNum?
    ensures o["exit_code"].n == 0 <==> result.Some? && IsSuccess(result.value)
  {
    var base := map["command" := JStr(command), "exit_code" := JNum(ExitCode(result)), "timestamp" := JNum(now)];
    if result.Some? then base["output" := JStr(result.value.output)] else base
  }
}

=== FILE: file_store.dfy ===
/** `FileUtils` (and the identical helpers of `JSONLogger`) over an
    abstract file system: a map from absolute path to text content.
    Directories are implicit (every write creates its parents) and the line
    separator is Android's `"\n"`. */
module FileStore {
  import opened JavaString
  import opened SeqLaws

  /** The files on the device, by absolute path. */
  type Files = map<string, string>

  // ------------------------------------------------------------ file names

  /** `File.getName()`: the text after the last `/`. */
  function FileName(path: string): (r: string)
    ensures '/' !in r
    ensures |r| <= |path| && path[|path| - |r|..] == r
    ensures '/' !in path ==> r == path
  {
    path[LastIndexOf(path, '/') + 1..]
  }

  /** `getFileExtension`: the text of the name after its last `.`, empty
      when the name has none. */
  function Extension(path: string): (r: string)
    ensures '.' !in r
    ensures '.' !in FileName(path) ==> r == ""
  {
    var name := FileName(path);
    var dot := LastIndexOf(name, '.');
    if dot == -1 then "" else name[dot + 1..]
  }

  /** `getFileNameWithoutExtension`: the name up to its last `.`, the whole
      name when it has none. */
  function BaseName(path: string): (r: string)
    ensures '.' !in FileName(path) ==> r == FileName(path)
    ensures |r| <= |FileName(path)| && FileName(path)[..|r|] == r
  {
    var name := FileName(path);
    var dot := LastIndexOf(name, '.');
    if dot == -1 then name else name[..dot]
  }

  /** A name with a dot splits into base and extension around its last
      dot, and the two put back together give the name. */
  lemma NameSplits(path: string)
    requires '.' in FileName(path)
    ensures BaseName(path) + "." + Extension(path) == FileName(path)
    ensures '.' !in Extension(path)
  {
    var name := FileName(path);
    var dot := LastIndexOf(name, '.');
    assert name[dot] == '.';
    assert name == name[..dot] + [name[dot]] + name[dot + 1..];
  }

  // ------------------------------------------------------------ reading

  /** The index of the first line terminator (`\n` or `\r`) of `s`, or `|s|`. */
  function LineEnd(s: string): (i: nat)
    ensures i <= |s|
    ensures i < |s| ==> s[i] == '\n' || s[i] == '\r'
  {
    if s == [] || s[0] == '\n' || s[0] == '\r' then 0 else 1 + LineEnd(s[1..])
  }

  /** No terminator comes before `LineEnd`. */
  lemma {:induction false} BeforeLineEnd(s: string, k: nat)
    requires k < LineEnd(s)
    ensures s[k] != '\n' && s[k] != '\r'
    decreases k
  {
    if k > 0 {
      BeforeLineEnd(s[1..], k - 1);
    }
  }

  /** Where the line after a terminator at `i` starts: `\r\n` counts as one
      terminator. */
  function NextLine(s: string, i: nat): (j: nat)
    requires i < |s|
    ensures i < j <= |s|
  {
    if s[i] == '\r' && i + 1 < |s| && s[i + 1] == '\n' then i + 2 else i + 1
  }

  /** The lines `BufferedReader.readLine` yields, in order, until it
      returns `null`: a last line without terminator still counts, and an
      empty text has no lines. */
  function Lines(s: string): (r: seq<string>)
    decreases |s|
  {
    if s == [] then []
    else
      var i := LineEnd(s);
      if i == |s| then [s] else [s[..i]] + Lines(s[NextLine(s, i)..])
  }

  /** Each line followed by the line separator, as the read loop builds it. */
  function Terminate(lines: seq<string>): (r: string)
    ensures Terminated(r)
  {
    if lines == [] then [] else lines[0] + "\n" + Terminate(lines[1..])
  }

  /** The text `readFromFile` returns for a file holding `s`. */
  function Normalize(s: string): (r: string)
    ensures Terminated(r)
  {
    Terminate(Lines(s))
  }

  /** A text ends cleanly: empty or with a line feed as its last character. */
  predicate Terminated(s: string) {
    s == [] || s[|s| - 1] == '\n'
  }

  /** `readFromFile`: `""` for a missing file, else its lines each followed
      by the separator. */
  function Read(fs: Files, path: string): (r: string)
    ensures path !in fs ==> r == ""
    ensures Terminated(r)
  {
    if path in fs then Normalize(fs[path]) else ""
  }

  /** On text with no carriage return, reading changes nothing but adds
      the missing final line feed. */
  lemma {:induction false} ReadBack(s: string)
    requires '\r' !in s
    ensures Terminated(s) ==> Normalize(s) == s
    ensures !Terminated(s) ==> Normalize(s) == s + "\n"
    decreases |s|
  {
    if s != [] {
      var i := LineEnd(s);
      if i == |s| {
        assert Lines(s) == [s] + [];
        TerminateCons(s, []);
        BeforeLineEnd(s, |s| - 1);
      } else {
        assert s[i] == '\n';
        var rest := s[i + 1..];
        assert NextLine(s, i) == i + 1;
        assert Lines(s) == [s[..i]] + Lines(rest);
        ReadBack(rest);
        TerminateCons(s[..i], Lines(rest));
        SplitAt(s, i);
        var head := s[..i] + "\n";
        assert s == head + rest;
        assert Normalize(s) == head + Normalize(rest);
        if !Terminated(rest) {
          assert head + (rest + "\n") == (head + rest) + "\n";
        }
      }
    }
  }

  /** A text is its prefix, the character at `i` and its suffix; it ends
      cleanly exactly when a non-empty suffix does. */
  lemma SplitAt(s: string, i: nat)
    requires i < |s|
    ensures s == s[..i] + [s[i]] + s[i + 1..]
    ensures i + 1 < |s| ==> (Terminated(s) <==> Terminated(s[i + 1..]))
    ensures i + 1 == |s| ==> (Terminated(s) <==> s[i] == '\n')
  {
  }

  lemma TerminateCons(line: string, lines: seq<string>)
    ensures Terminate([line] + lines) == line + "\n" + Terminate(lines)
  {
    assert ([line] + lines)[1..] == lines;
  }

  /** The text before `LineEnd` holds no terminator. */
  lemma LineBeforeEnd(s: string)
    ensures '\n' !in s[..LineEnd(s)] && '\r' !in s[..LineEnd(s)]
  {
    var i := LineEnd(s);
    forall k | 0 <= k < i
      ensures s[..i][k] != '\n' && s[..i][k] != '\r'
    {
      BeforeLineEnd(s, k);
    }
  }

  /** No line read holds a terminator. */
  lemma {:induction false} LinesClean(s: string)
    ensures forall k :: 0 <= k < |Lines(s)| ==> '\n' !in Lines(s)[k] && '\r' !in Lines(s)[k]
    decreases |s|
  {
    if s != [] {
      var i := LineEnd(s);
      LineBeforeEnd(s);
      if i < |s| {
        LinesClean(s[NextLine(s, i)..]);
      }
    }
  }

  /** Reading never yields a carriage return. */
  lemma {:induction false} TerminateClean(lines: seq<string>)
    requires forall k :: 0 <= k < |lines| ==> '\r' !in lines[k]
    ensures '\r' !in Terminate(lines)
  {
    if lines != [] {
      TerminateClean(lines[1..]);
    }
  }

  /** Reading is a normal form: reading what was read gives it back. */
  lemma NormalizeIdempotent(s: string)
    ensures '\r' !in Normalize(s)
    ensures Normalize(Normalize(s)) == Normalize(s)
  {
    LinesClean(s);
    TerminateClean(Lines(s));
    ReadBack(Normalize(s));
  }

  /** Lines do not run across the end of a cleanly ended text. */
  lemma {:induction false} LinesAppend(a: string, b: string)
    requires Terminated(a)
    ensures Lines(a + b) == Lines(a) + Lines(b)
    decreases |a|
  {
    if a == [] {
      assert a + b == b;
    } else {
      var i := LineEnd(a);
      if i == |a| {
        BeforeLineEnd(a, |a| - 1);
      }
      var ab := a + b;
      assert ab[..|a|] == a;
      assert LineEnd(ab) == i by {
        LineEndPrefix(a, b);
      }
      assert NextLine(ab, i) == NextLine(a, i);
      var j := NextLine(a, i);
      DropAppend(a, b, j);
      assert Terminated(a[j..]) by {
        if j < |a| {
          assert a[j..][|a[j..]| - 1] == a[|a| - 1];
        }
      }
      LinesAppend(a[j..], b);
      assert ab[..i] == a[..i];
      LinesStep(ab);
      LinesStep(a);
      var first := [a[..i]];
      assert Lines(ab) == first + (Lines(a[j..]) + Lines(b));
      assert Lines(a) == first + Lines(a[j..]);
      ConcatAssoc(first, Lines(a[j..]), Lines(b));
    }
  }

  /** The first line and the lines after its terminator. */
  lemma LinesStep(s: string)
    requires LineEnd(s) < |s|
    ensures Lines(s) == [s[..LineEnd(s)]] + Lines(s[NextLine(s, LineEnd(s))..])
  {
  }

  lemma DropAppend(a: string, b: string, j: nat)
    requires j <= |a|
    ensures (a + b)[j..] == a[j..] + b
  {
  }

  lemma {:induction false} LineEndPrefix(a: string, b: string)
    requires LineEnd(a) < |a|
    ensures LineEnd(a + b) == LineEnd(a)
    decreases |a|
  {
    if a[0] != '\n' && a[0] != '\r' {
      assert (a + b)[1..] == a[1..] + b;
      LineEndPrefix(a[1..], b);
    }
  }

  /** One terminated line reads back as exactly that line. */
  lemma LinesOfOne(line: string)
    requires '\n' !in line && '\r' !in line
    ensures Lines(line + "\n") == [line]
  {
    var s := line + "\n";
    assert LineEnd(s) == |line| by {
      LineEndOfLine(line, "\n");
    }
    assert s[..|line|] == line;
    assert s[|line| + 1..] == [];
  }

  /** Lines without terminators, each followed by a line feed, read back
      as themselves. */
  lemma {:induction false} LinesTerminate(lines: seq<string>)
    requires forall k :: 0 <= k < |lines| ==> '\n' !in lines[k] && '\r' !in lines[k]
    ensures Lines(Terminate(lines)) == lines
    decreases |lines|
  {
    if lines != [] {
      var head := lines[0] + "\n";
      LinesTerminate(lines[1..]);
      LinesOfOne(lines[0]);
      assert Terminate(lines) == head + Terminate(lines[1..]);
      LinesAppend(head, Terminate(lines[1..]));
      assert [lines[0]] + lines[1..] == lines;
    }
  }

  lemma {:induction false} LineEndOfLine(line: string, rest: string)
    requires '\n' !in line && '\r' !in line
    requires rest != [] && (rest[0] == '\n' || rest[0] == '\r')
    ensures LineEnd(line + rest) == |line|
    decreases |line|
  {
    if line != [] {
      assert (line + rest)[1..] == line[1..] + rest;
      LineEndOfLine(line[1..], rest);
    } else {
      assert line + rest == rest;
    }
  }

  // ------------------------------------------------------------ writing

  /** `writeToFile`: the file's content becomes `content`, whatever it was. */
  function Write(fs: Files, path: string, content: string): (r: Files)
    ensures path in r && r[path] == content
    ensures forall p :: p in fs && p != path ==> p in r && r[p] == fs[p]
    ensures r.Keys == fs.Keys + {path}
  {
    fs[path := content]
  }

  /** The content of a file, `""` for a missing one. */
  function Content(fs: Files, path: string): string {
    if path in fs then fs[path] else ""
  }

  /** `appendToFile`: `content` goes after what the file held (a missing
      file starts empty). */
  function Append(fs: Files, path: string, content: string): (r: Files)
    ensures path in r && |r[path]| == |Content(fs, path)| + |content|
    ensures r[path][..|Content(fs, path)|] == Content(fs, path)
    ensures r[path][|Content(fs, path)|..] == content
    ensures forall p :: p in fs && p != path ==> p in r && r[p] == fs[p]
    ensures r.Keys == fs.Keys + {path}
  {
    fs[path := Content(fs, path) + content]
  }

  /** A second write discards the first; two appends are one append of
      both texts in order. */
  lemma WriteAppendLaws(fs: Files, path: string, a: string, b: string)
    ensures Write(Write(fs, path, a), path, b) == Write(fs, path, b)
    ensures Append(Append(fs, path, a), path, b) == Append(fs, path, a + b)
    ensures Append(Write(fs, path, a), path, b) == Write(fs, path, a + b)
    ensures Read(Write(fs, path, a), path) == Normalize(a)
  {
    assert Content(fs, path) + a + b == Content(fs, path) + (a + b);
  }

  // ------------------------------------------------------------ copy and move

  /** `copyFile`: `false` when the source cannot be opened; else the
      destination holds the source's bytes.  Copying a file onto itself
      truncates it before anything is read, so it ends empty. */
  function Copy(fs: Files, src: string, dst: string): (r: (bool, Files))
    ensures r.0 <==> src in fs
    ensures !r.0 ==> r.1 == fs
    ensures r.0 ==> dst in r.1 && r.1[dst] == (if src == dst then "" else fs[src])
    ensures r.0 ==> forall p :: p in fs && p != dst ==> p in r.1 && r.1[p] == fs[p]
  {
    if src !in fs then (false, fs)
    else (true, Write(fs, dst, if src == dst then "" else fs[src]))
  }

  /** `moveFile`: the source is deleted only after a successful copy. */
  function Move(fs: Files, src: string, dst: string): (r: (bool, Files))
    ensures r.0 <==> src in fs
    ensures !r.0 ==> r.1 == fs
    ensures r.0 ==> src !in r.1
    ensures r.0 && src != dst ==> dst in r.1 && r.1[dst] == fs[src]
    ensures r.0 ==> forall p :: p in fs && p != src && p != dst ==> p in r.1 && r.1[p] == fs[p]
  {
    var (copied, after) := Copy(fs, src, dst);
    if copied then (true, after - {src}) else (false, fs)
  }

  /** Moving a file to a new path and back restores the file system when
      the new path was free. */
  lemma MoveThereAndBack(fs: Files, src: string, dst: string)
    requires src in fs && dst !in fs && src != dst
    ensures Move(Move(fs, src, dst).1, dst, src) == (true, fs)
  {
    var mid := Move(fs, src, dst).1;
    var back := Move(mid, dst, src).1;
    assert back.Keys == fs.Keys;
    assert forall p :: p in fs ==> back[p] == fs[p];
    assert back == fs;
  }

  /** Moving a file onto its own path loses it. */
  lemma MoveOntoItselfLosesFile(fs: Files, path: string)
    requires path in fs
    ensures Move(fs, path, path) == (true, fs - {path})
  {
    var after := Move(fs, path, path).1;
    assert after.Keys == (fs - {path}).Keys;
    assert after == fs - {path};
  }
}

=== FILE: hf_client.dfy ===
/** `HFClient`: the inference client.  Each call makes up to three
    attempts; an attempt yields a response object only on HTTP status 200
    with a body that parses as a JSON object, and a failed attempt that is
    not the last is followed by a pause of 1000 and then 2000 milliseconds.
    The network is an input: what each attempt's exchange came to, and
    whether each pause was interrupted. */
module HFClient {
  import opened Outcomes
  import opened JavaString
  import opened OrgJson
  import opened Bytes

  /** The agent name the client logs under. */
  const LOG_AGENT: string := "HFClient"
  const MAX_RETRIES: nat := 3
  const RETRY_DELAYS: seq<int> := [1000, 2000, 4000]
  const CONNECT_TIMEOUT: int := 10000
  const READ_TIMEOUT: int := 30000

  // ---------------------------------------------------------------- headers

  datatype Header = Header(name: string, value: string)

  /** The bearer credential (section 2.1 of RFC 6750), sent only for a
      present, non-empty key. */
  function AuthHeaders(apiKey: Option<string>): (hs: seq<Header>)
    ensures |hs| <= 1
    ensures hs != [] <==> apiKey.Some? && apiKey.value != ""
    ensures hs != [] ==> hs[0] == Header("Authorization", "Bearer " + apiKey.value)
  {
    if apiKey.Some? && apiKey.value != "" then [Header("Authorization", "Bearer " + apiKey.value)] else []
  }

  /** The headers of `makeRequest`. */
  function JsonHeaders(apiKey: Option<string>): seq<Header> {
    [Header("Content-Type", "application/json"), Header("Accept", "application/json")] + AuthHeaders(apiKey)
  }

  /** The headers of `makeFileUploadRequest`. */
  function UploadHeaders(boundary: string, apiKey: Option<string>): seq<Header> {
    [Header("Content-Type", "multipart/form-data; boundary=" + boundary),
     Header("Accept", "application/json")] + AuthHeaders(apiKey)
  }

  predicate HasHeader(hs: seq<Header>, h: Header) {
    exists i :: 0 <= i < |hs| && hs[i] == h
  }

  predicate Authorizes(hs: seq<Header>) {
    exists i :: 0 <= i < |hs| && hs[i].name == "Authorization"
  }

  /** Both kinds of request carry an `Authorization` header exactly when
      the key is present and non-empty, and it is then "Bearer " + key. */
  lemma BearerExactlyWithKey(boundary: string, apiKey: Option<string>)
    ensures Authorizes(JsonHeaders(apiKey)) <==> apiKey.Some? && apiKey.value != ""
    ensures Authorizes(UploadHeaders(boundary, apiKey)) <==> apiKey.Some? && apiKey.value != ""
    ensures apiKey.Some? && apiKey.value != "" ==>
              HasHeader(JsonHeaders(apiKey), Header("Authorization", "Bearer " + apiKey.value))
              && HasHeader(UploadHeaders(boundary, apiKey), Header("Authorization", "Bearer " + apiKey.value))
  {
    var j, u := JsonHeaders(apiKey), UploadHeaders(boundary, apiKey);
    assert j[0].name != "Authorization" && j[1].name != "Authorization";
    assert u[0].name != "Authorization" && u[1].name != "Authorization";
    if apiKey.Some? && apiKey.value != "" {
      assert j[2] == Header("Authorization", "Bearer " + apiKey.value);
      assert u[2] == Header("Authorization", "Bearer " + apiKey.value);
    }
  }

  // --------------------------------------------------------------- attempts

  /** What one HTTP exchange came to. */
  datatype Exchange =
    | Failed(error: string)                          // an I/O error or other exception, with its message
    | Answered(status: int, parsed: Result<Obj, string>)
      // the status, and the body parsed as an object or the parser's message

  /** One attempt (`makeRequest`): the response object on status 200 with
      a body that parses as an object, and null otherwise, whether the
      status is wrong, the body is not an object or the exchange failed. */
  function Attempt(e: Exchange): (r: Option<Obj>)
    ensures r.Some? <==> e.Answered? && e.status == 200 && e.parsed.Ok?
    ensures r.Some? ==> r.value == e.parsed.value
  {
    match e
    case Failed(_) => None
    case Answered(status, parsed) =>
      if status == 200 && parsed.Ok? then Some(parsed.value) else None
  }

  /** The line `makeRequest` logs for an attempt that yields nothing: the
      status for a wrong one, and otherwise the exception's message, the
      parser's included. */
  function Complaint(endpoint: string, e: Exchange): string {
    match e
    case Failed(error) => "Error making request: " + error
    case Answered(status, parsed) =>
      if status != 200 then "HTTP error: " + IntToString(status) + " for endpoint: " + endpoint
      else "Error making request: " + (if parsed.Err? then parsed.error else "")
  }

  /** One upload attempt: a file that cannot be read fails the attempt
      like any other exception. */
  function UploadAttempt(content: Result<seq<byte>, string>, e: Exchange): (r: Option<Obj>)
    ensures content.Err? ==> r.None?
    ensures content.Ok? ==> r == Attempt(e)
  {
    if content.Err? then None else Attempt(e)
  }

  /** The line `makeFileUploadRequest` logs for an attempt that yields
      nothing. */
  function UploadComplaint(endpoint: string, content: Result<seq<byte>, string>, e: Exchange): string {
    if content.Err? then "Error making file upload request: " + content.error
    else match e
      case Failed(error) => "Error making file upload request: " + error
      case Answered(status, parsed) =>
        if status != 200 then "HTTP error: " + IntToString(status) + " for file upload to endpoint: " + endpoint
        else "Error making file upload request: " + (if parsed.Err? then parsed.error else "")
  }

  /** A failed attempt's line names what went wrong: the status when the
      answer was not 200, and the exception's message otherwise. */
  lemma ComplaintNames(endpoint: string, content: Result<seq<byte>, string>, e: Exchange)
    ensures Attempt(e).None? && e.Answered? && e.status != 200 ==>
              Complaint(endpoint, e) == "HTTP error: " + IntToString(e.status) + " for endpoint: " + endpoint
    ensures e.Failed? ==> Complaint(endpoint, e) == "Error making request: " + e.error
    ensures Attempt(e).None? && e.Answered? && e.status == 200 ==>
              Complaint(endpoint, e) == "Error making request: " + e.parsed.error
    ensures content.Err? ==> UploadComplaint(endpoint, content, e) == "Error making file upload request: " + content.error
    ensures content.Ok? && UploadAttempt(content, e).None? && e.Answered? && e.status != 200 ==>
              UploadComplaint(endpoint, content, e)
              == "HTTP error: " + IntToString(e.status) + " for file upload to endpoint: " + endpoint
  {
  }

  // ------------------------------------------------------------------ retry

  /** A retrying call: its result, how many attempts ran, the pauses it
      began, in order, whether it gave up after the last attempt, and the
      lines its failed attempts logged. */
  datatype Retried = Retried(result: Option<Obj>, attempts: nat, pauses: seq<int>, exhausted: bool,
                             notes: seq<string>)

  /** The retry loop from attempt `k` on, as a reference definition; a
      failed attempt `i` logs `note(i)`. */
  function RetryFrom(call: nat -> Option<Obj>, note: nat -> string, interrupted: nat -> bool, k: nat): (r: Retried)
    requires k <= MAX_RETRIES
    decreases MAX_RETRIES - k
  {
    if k == MAX_RETRIES then Retried(None, 0, [], true, [])
    else if call(k).Some? then Retried(call(k), 1, [], false, [])
    else if k < MAX_RETRIES - 1 && interrupted(k) then Retried(None, 1, [RETRY_DELAYS[k]], false, [note(k)])
    else
      var rest := RetryFrom(call, note, interrupted, k + 1);
      var pause := if k < MAX_RETRIES - 1 then [RETRY_DELAYS[k]] else [];
      Retried(rest.result, 1 + rest.attempts, pause + rest.pauses, rest.exhausted, [note(k)] + rest.notes)
  }

  /** What the loop still has to contribute after `done` attempts and the
      pauses and lines so far. */
  function After(done: nat, pauses: seq<int>, notes: seq<string>, rest: Retried): Retried {
    Retried(rest.result, done + rest.attempts, pauses + rest.pauses, rest.exhausted, notes + rest.notes)
  }

  /** A failed attempt whose pause is not interrupted moves its pause and
      its line from what is still to come to what has been done. */
  lemma RetryStep(call: nat -> Option<Obj>, note: nat -> string, interrupted: nat -> bool, k: nat,
                  pauses: seq<int>, notes: seq<string>)
    requires k < MAX_RETRIES && call(k).None? && !(k < MAX_RETRIES - 1 && interrupted(k))
    ensures var pause := if k < MAX_RETRIES - 1 then [RETRY_DELAYS[k]] else [];
            After(k, pauses, notes, RetryFrom(call, note, interrupted, k))
            == After(k + 1, pauses + pause, notes + [note(k)], RetryFrom(call, note, interrupted, k + 1))
  {
    var pause := if k < MAX_RETRIES - 1 then [RETRY_DELAYS[k]] else [];
    var rest := RetryFrom(call, note, interrupted, k + 1);
    assert pauses + (pause + rest.pauses) == pauses + pause + rest.pauses;
    assert notes + ([note(k)] + rest.notes) == notes + [note(k)] + rest.notes;
  }

  /** `requestModel`'s and `uploadFile`'s loop: an attempt that yields a
      response ends the call with it; a failed attempt other than the last
      is followed by a pause, and an interrupted pause ends the call with
      null. */
  method Retry(call: nat -> Option<Obj>, note: nat -> string, interrupted: nat -> bool) returns (r: Retried)
    ensures r == RetryFrom(call, note, interrupted, 0)
  {
    var attempt: nat := 0;
    var pauses: seq<int> := [];
    var notes: seq<string> := [];
    while attempt < MAX_RETRIES
      invariant attempt <= MAX_RETRIES
      invariant RetryFrom(call, note, interrupted, 0)
                == After(attempt, pauses, notes, RetryFrom(call, note, interrupted, attempt))
    {
      var response := call(attempt);
      if response.Some? {
        return Retried(response, attempt + 1, pauses, false, notes);
      }
      var pause := if attempt < MAX_RETRIES - 1 then [RETRY_DELAYS[attempt]] else [];
      if attempt < MAX_RETRIES - 1 && interrupted(attempt) {
        return Retried(None, attempt + 1, pauses + pause, false, notes + [note(attempt)]);
      }
      RetryStep(call, note, interrupted, attempt, pauses, notes);
      notes := notes + [note(attempt)];
      pauses := pauses + pause;
      attempt := attempt + 1;
    }
    return Retried(None, MAX_RETRIES, pauses, true, notes);
  }

  /** The attempts of a retrying call from attempt `k` on: at most the
      ones left, at least one while any are left; the response is the
      first one any attempt produced, and no attempt after it runs; it
      gives up only after every attempt failed, and otherwise stops without
      a response only on an interrupted pause. */
  lemma {:induction false} RetryAttempts(call: nat -> Option<Obj>, note: nat -> string, interrupted: nat -> bool, k: nat)
    requires k <= MAX_RETRIES
    ensures var r := RetryFrom(call, note, interrupted, k);
            && (k < MAX_RETRIES ==> 1 <= r.attempts) && r.attempts <= MAX_RETRIES - k
            && (forall i :: k <= i < k + r.attempts - 1 ==> call(i).None?)
            && (r.result.Some? ==> r.attempts >= 1 && r.result == call(k + r.attempts - 1))
            && (r.result.None? ==> forall i :: k <= i < k + r.attempts ==> call(i).None?)
            && (r.exhausted ==> r.result.None? && r.attempts == MAX_RETRIES - k)
            && (!r.exhausted && r.result.None? ==> r.attempts >= 1 && interrupted(k + r.attempts - 1))
    decreases MAX_RETRIES - k
  {
    if k < MAX_RETRIES && call(k).None? && !(k < MAX_RETRIES - 1 && interrupted(k)) {
      RetryAttempts(call, note, interrupted, k + 1);
    }
  }

  /** The pauses of a retrying call from attempt `k` on: a prefix of the
      delays from `k`, one per failed attempt but the last, so the 4000 ms
      delay is never used; all of them when the call gave up, and one per
      attempt when an interrupted pause ended it. */
  lemma {:induction false} RetryPauses(call: nat -> Option<Obj>, note: nat -> string, interrupted: nat -> bool, k: nat)
    requires k <= MAX_RETRIES
    ensures var r := RetryFrom(call, note, interrupted, k);
            && r.attempts <= MAX_RETRIES - k && |r.pauses| <= r.attempts
            && r.pauses == RETRY_DELAYS[k..k + |r.pauses|]
            && (forall i :: 0 <= i < |r.pauses| ==> r.pauses[i] != 4000)
            && (r.exhausted && k < MAX_RETRIES ==> r.pauses == RETRY_DELAYS[k..MAX_RETRIES - 1])
            && (!r.exhausted && r.result.None? ==> |r.pauses| == r.attempts)
    decreases MAX_RETRIES - k
  {
    if k < MAX_RETRIES && call(k).None? && !(k < MAX_RETRIES - 1 && interrupted(k)) {
      RetryPauses(call, note, interrupted, k + 1);
    }
  }

  /** The lines of a retrying call from attempt `k` on: one per failed
      attempt, in order, so every attempt but a successful last one logs
      exactly its own line. */
  lemma {:induction false} RetryNotes(call: nat -> Option<Obj>, note: nat -> string, interrupted: nat -> bool, k: nat)
    requires k <= MAX_RETRIES
    ensures var r := RetryFrom(call, note, interrupted, k);
            && |r.notes| == (if r.result.Some? then r.attempts - 1 else r.attempts)
            && (forall i :: 0 <= i < |r.notes| ==> r.notes[i] == note(k + i))
    decreases MAX_RETRIES - k
  {
    if k < MAX_RETRIES && call(k).None? && !(k < MAX_RETRIES - 1 && interrupted(k)) {
      RetryNotes(call, note, interrupted, k + 1);
      RetryAttempts(call, note, interrupted, k + 1);
      var rest := RetryFrom(call, note, interrupted, k + 1);
      var notes := [note(k)] + rest.notes;
      forall i | 0 <= i < |notes| ensures notes[i] == note(k + i) {
        if i > 0 {
          assert notes[i] == rest.notes[i - 1];
        }
      }
    }
  }

  /** The facts about a retrying call: it makes between one and three
      attempts; its response is the first one any attempt produced; the
      pauses are a prefix of 1000, 2000; it gives up only after three
      failed attempts and two uninterrupted pauses. */
  lemma RetryFacts(call: nat -> Option<Obj>, note: nat -> string, interrupted: nat -> bool)
    ensures var r := RetryFrom(call, note, interrupted, 0);
            && 1 <= r.attempts <= MAX_RETRIES
            && (forall i :: 0 <= i < r.attempts - 1 ==> call(i).None?)
            && (r.result.Some? ==> r.result == call(r.attempts - 1))
            && (r.result.None? ==> forall i :: 0 <= i < r.attempts ==> call(i).None?)
            && r.pauses == RETRY_DELAYS[..|r.pauses|] && |r.pauses| <= 2
            && (r.exhausted <==> r.result.None? && r.attempts == MAX_RETRIES && r.pauses == [1000, 2000])
  {
    RetryAttempts(call, note, interrupted, 0);
    RetryPauses(call, note, interrupted, 0);
  }

  /** A call whose every attempt fails and whose pauses are never
      interrupted makes three attempts, pauses exactly 1000 then 2000 ms,
      logs each attempt's line and returns null. */
  lemma AllFailing(call: nat -> Option<Obj>, note: nat -> string, interrupted: nat -> bool)
    requires forall i :: 0 <= i < MAX_RETRIES ==> call(i).None?
    requires forall i :: 0 <= i < MAX_RETRIES ==> !interrupted(i)
    ensures RetryFrom(call, note, interrupted, 0) == Retried(None, 3, [1000, 2000], true, [note(0), note(1), note(2)])
  {
    assert RetryFrom(call, note, interrupted, 2) == Retried(None, 1, [], true, [note(2)]);
  }

  // --------------------------------------------------------------- the calls

  /** `requestModel(endpoint, apiKey, payload)`: the retry loop over
      `makeRequest`; the lines logged are each failed attempt's, then the
      closing line when every attempt failed. */
  method RequestModel(endpoint: string, exchange: nat -> Exchange, interrupted: nat -> bool)
    returns (response: Option<Obj>, pauses: seq<int>, log: seq<string>)
    ensures var r := RetryFrom((k: nat) => Attempt(exchange(k)), (k: nat) => Complaint(endpoint, exchange(k)),
                               interrupted, 0);
            response == r.result && pauses == r.pauses
            && log == r.notes + (if r.exhausted then ["All request attempts failed for endpoint: " + endpoint] else [])
  {
    var r := Retry((k: nat) => Attempt(exchange(k)), (k: nat) => Complaint(endpoint, exchange(k)), interrupted);
    response, pauses := r.result, r.pauses;
    log := r.notes + if r.exhausted then ["All request attempts failed for endpoint: " + endpoint] else [];
  }

  /** What a request logs: one line per failed attempt, naming what went
      wrong, in order; a call that gave up logs its three attempts' lines
      and then the closing line, and a call that got a response logs one
      line per attempt before the one that answered. */
  lemma RequestLog(endpoint: string, exchange: nat -> Exchange, interrupted: nat -> bool)
    ensures var r := RetryFrom((k: nat) => Attempt(exchange(k)), (k: nat) => Complaint(endpoint, exchange(k)),
                               interrupted, 0);
            && (forall i :: 0 <= i < |r.notes| ==> Attempt(exchange(i)).None? && r.notes[i] == Complaint(endpoint, exchange(i)))
            && (r.result.Some? ==> |r.notes| == r.attempts - 1)
            && (r.exhausted ==> |r.notes| == 3)
  {
    var call, note := (k: nat) => Attempt(exchange(k)), (k: nat) => Complaint(endpoint, exchange(k));
    RetryAttempts(call, note, interrupted, 0);
    RetryNotes(call, note, interrupted, 0);
  }

  /** `uploadFile(endpoint, apiKey, file, fieldName)`: the same loop over
      `makeFileUploadRequest`. */
  method UploadFile(endpoint: string, content: Result<seq<byte>, string>, exchange: nat -> Exchange,
                    interrupted: nat -> bool)
    returns (response: Option<Obj>, pauses: seq<int>, log: seq<string>)
    ensures var r := RetryFrom((k: nat) => UploadAttempt(content, exchange(k)),
                               (k: nat) => UploadComplaint(endpoint, content, exchange(k)), interrupted, 0);
            response == r.result && pauses == r.pauses
            && log == r.notes + (if r.exhausted then ["All file upload attempts failed for endpoint: " + endpoint] else [])
    ensures content.Err? ==> response.None?
  {
    var call := (k: nat) => UploadAttempt(content, exchange(k));
    var note := (k: nat) => UploadComplaint(endpoint, content, exchange(k));
    var r := Retry(call, note, interrupted);
    RetryAttempts(call, note, interrupted, 0);
    if content.Err? {
      var last: nat := r.attempts - 1;
      assert call(last) == UploadAttempt(content, exchange(last));
    }
    response, pauses := r.result, r.pauses;
    log := r.notes + if r.exhausted then ["All file upload attempts failed for endpoint: " + endpoint] else [];
  }

  /** An unreadable file fails every attempt with the reader's message:
      with no pause interrupted, the upload logs that line three times and
      then gives up.  As in `UploadAttempt`, the reader's failure is taken
      before the exchange's, whatever the exchange; the source connects
      first, so a failed connection would log its own message. */
  lemma UnreadableUploadLog(endpoint: string, error: string, exchange: nat -> Exchange, interrupted: nat -> bool)
    requires forall i :: 0 <= i < MAX_RETRIES ==> !interrupted(i)
    ensures var line := "Error making file upload request: " + error;
            RetryFrom((k: nat) => UploadAttempt(Err(error), exchange(k)),
                      (k: nat) => UploadComplaint(endpoint, Err(error), exchange(k)), interrupted, 0)
            == Retried(None, 3, [1000, 2000], true, [line, line, line])
  {
    var call := (k: nat) => UploadAttempt(Err(error), exchange(k));
    var note := (k: nat) => UploadComplaint(endpoint, Err(error), exchange(k));
    forall i: nat | i < MAX_RETRIES ensures call(i).None? {
      assert call(i) == UploadAttempt(Err(error), exchange(i));
    }
    AllFailing(call, note, interrupted);
    assert note(0) == UploadComplaint(endpoint, Err(error), exchange(0));
    assert note(1) == UploadComplaint(endpoint, Err(error), exchange(1));
    assert note(2) == UploadComplaint(endpoint, Err(error), exchange(2));
  }

  // -------------------------------------------------------------- multipart

  /** The boundary of an upload started at `now` milliseconds. */
  function Boundary(now: int): (b: string)
    ensures StartsWith(b, "----WebKitFormBoundary")
  {
    var b := "----WebKitFormBoundary" + IntToString(now);
    assert b[..22] == "----WebKitFormBoundary";
    b
  }

  /** Everything before the file's bytes: the delimiter line, the
      Content-Disposition line naming the field and the file, the
      Content-Type line and the blank line that ends the part's headers. */
  function PartHead(boundary: string, fieldName: string, fileName: string): (h: string)
    ensures StartsWith(h, "--" + boundary + "\r\n")
    ensures EndsWith(h, "Content-Type: application/octet-stream\r\n\r\n")
  {
    var delimiter := "--" + boundary + "\r\n";
    var disposition := "Content-Disposition: form-data; name=\"" + fieldName + "\"; filename=\"" + fileName + "\"\r\n";
    var contentType := "Content-Type: application/octet-stream\r\n\r\n";
    var h := delimiter + disposition + contentType;
    assert h[..|delimiter|] == delimiter;
    assert h[|h| - |contentType|..] == contentType;
    h
  }

  /** Everything after the file's bytes: the line break that ends the part
      and the close delimiter (section 5.1.1 of RFC 2046). */
  function PartTail(boundary: string): string {
    "\r\n" + "--" + boundary + "--\r\n"
  }

  /** The multipart/form-data body (RFC 7578) of a one-file upload. */
  function MultipartBody(boundary: string, fieldName: string, fileName: string, content: seq<byte>): (body: seq<byte>)
    ensures |body| == |PartHead(boundary, fieldName, fileName)| + |content| + |PartTail(boundary)|
  {
    Latin1(PartHead(boundary, fieldName, fileName)) + content + Latin1(PartTail(boundary))
  }

  /** The file's bytes recovered from a body, given the part's head and
      tail; none when the body does not have that framing. */
  function FilePart(body: seq<byte>, head: string, tail: string): (r: Option<seq<byte>>)
    ensures r.Some? ==> |r.value| == |body| - |head| - |tail|
  {
    if |head| + |tail| <= |body| && body[..|head|] == Latin1(head) && body[|body| - |tail|..] == Latin1(tail)
    then Some(body[|head|..|body| - |tail|])
    else None
  }

  /** The body opens with the delimiter line, closes with the close
      delimiter, and carries the file's bytes unchanged between them:
      removing the framing gives the file back. */
  lemma MultipartFraming(boundary: string, fieldName: string, fileName: string, content: seq<byte>)
    ensures var body := MultipartBody(boundary, fieldName, fileName, content);
            var head := PartHead(boundary, fieldName, fileName);
            && body[..|"--" + boundary + "\r\n"|] == Latin1("--" + boundary + "\r\n")
            && body[|body| - |PartTail(boundary)|..] == Latin1(PartTail(boundary))
            && body[|head|..|head| + |content|] == content
            && FilePart(body, head, PartTail(boundary)) == Some(content)
  {
    var head := PartHead(boundary, fieldName, fileName);
    var tail := PartTail(boundary);
    var body := MultipartBody(boundary, fieldName, fileName, content);
    var delimiter := "--" + boundary + "\r\n";
    assert body[..|head|] == Latin1(head);
    assert head[..|delimiter|] == delimiter;
    assert body[..|delimiter|] == Latin1(head)[..|delimiter|];
    assert Latin1(head)[..|delimiter|] == Latin1(delimiter);
    assert body[|body| - |tail|..] == Latin1(tail);
    assert body[|head|..|body| - |tail|] == content;
  }

  // ------------------------------------------------------------ async calls

  /** What the asynchronous wrappers hand their callback. */
  datatype Delivery = OnSuccess(response: Obj) | OnError(message: string)

  /** `onPostExecute`: a response goes to `onSuccess`, null to `onError`
      with "Unknown error" (the wrapped calls never throw, so no other
      message arises). */
  function Deliver(result: Option<Obj>): (d: Delivery)
    ensures d.OnSuccess? <==> result.Some?
    ensures d.OnSuccess? ==> d.response == result.value
    ensures d.OnError? ==> d.message == "Unknown error"
  {
    if result.Some? then OnSuccess(result.value) else OnError("Unknown error")
  }
}

=== FILE: home_screen.dfy ===
/** `HomeFragment`: the home screen's one-tap generation.  A non-blank
    prompt starts a task that checks the device, writes the project
    configuration, runs the orchestrator, simulates the content work,
    writes the script placeholder and completes the configuration,
    publishing progress as it goes; the status label follows the progress.
    The agents' result objects, the clock's texts, the random number and
    the serialisation of objects are inputs. */
module HomeScreen {
  import opened Outcomes
  import opened JavaString
  import opened OrgJson
  import opened FileStore
  import opened FailFast
  import opened ScreenSteps
  import SanityCheck
  import Orchestrator

  // ------------------------------------------------------------ project id

  /** `createNewProjectId`: "proj_", the formatted time, "_" and a random
      number below 1000. */
  function NewProjectId(timestamp: string, n: int): (id: string)
    requires 0 <= n < 1000
    ensures StartsWith(id, "proj_" + timestamp + "_")
  {
    ProjectId("proj_", timestamp, n)
  }

  // -------------------------------------------------------------------- run

  datatype Inputs = Inputs(sanity: Obj, orchestrator: Option<Obj>, createdAt: string, completedAt: string)

  /** `GenerateContentTask.doInBackground`: the sanity check at 10, the
      configuration at 20, the orchestrator at 30, the simulated work at
      60, 68, 76, 84 and 92, and the finishing at 95 and 100.  Writing the
      script placeholder cannot fail here. */
  function Stages(i: Inputs): (s: seq<Stage>)
    ensures |s| == 4
  {
    [Stage([10], SanityVerdict(i.sanity)),
     Stage([20], Pass),
     Stage([30], AgentVerdict(i.orchestrator, "Orchestrator failed", "Orchestrator returned null")),
     Stage(Ramp(60, 8, 5) + [95, 100], Pass)]
  }

  function Run(i: Inputs): Report {
    Drive(Stages(i))
  }

  const SUCCESS_TABLE: seq<int> := [10, 20, 30, 60, 68, 76, 84, 92, 95, 100]

  /** A run succeeds exactly when the check passes and the orchestrator
      returns a successful result. */
  lemma SuccessfulRun(i: Inputs)
    ensures Run(i).status.Completed? <==>
              OptBoolean(i.sanity, "passed", false)
              && i.orchestrator.Some? && OptBoolean(i.orchestrator.value, "success", false)
  {
    var s := Stages(i);
    assert AllOk(s, Passes) <==> Passes(s[0]) && Passes(s[2]);
  }

  /** The table of a successful run never decreases and ends at 100. */
  lemma SuccessTableComplete()
    ensures CompleteTable(SUCCESS_TABLE)
  {
    StepsUp(SUCCESS_TABLE);
  }

  /** A successful run publishes the whole table. */
  lemma SuccessProgress(i: Inputs)
    requires OptBoolean(i.sanity, "passed", false)
    requires i.orchestrator.Some? && OptBoolean(i.orchestrator.value, "success", false)
    ensures Run(i).progress == SUCCESS_TABLE
  {
    var s := Stages(i);
    Peel4(s);
    assert Ramp(60, 8, 5) == [60, 68, 76, 84, 92];
    assert Drive(s[1..][1..][1..]) == Report(s[3].progress, Completed);
    assert Drive(s[1..][1..]) == Report([30] + s[3].progress, Completed);
    assert Drive(s[1..]) == Report([20] + ([30] + s[3].progress), Completed);
  }

  /** A failed check ends the run at 10 with its message; a failed or
      missing orchestrator result ends it at 30 with its message or
      "Orchestrator returned null". */
  lemma FailuresStop(i: Inputs)
    ensures !OptBoolean(i.sanity, "passed", false) ==>
              Run(i) == Report([10], Error(OptString(i.sanity, "message", "Sanity check failed")))
    ensures OptBoolean(i.sanity, "passed", false) && i.orchestrator.None? ==>
              Run(i) == Report([10, 20, 30], Error("Orchestrator returned null"))
    ensures OptBoolean(i.sanity, "passed", false) && i.orchestrator.Some?
            && !OptBoolean(i.orchestrator.value, "success", false) ==>
              Run(i) == Report([10, 20, 30], Error(OptString(i.orchestrator.value, "message", "Orchestrator failed")))
  {
    var s := Stages(i);
    Peel4(s);
    if Passes(s[0]) {
      assert Drive(s[1..]).progress == [20] + Drive(s[1..][1..]).progress;
    }
  }

  // ------------------------------------------------------------------ label

  /** The status labels, in the order a run passes them. */
  datatype Label = Initializing | SanityCheck | ProjectConfig | Generating | Finalizing {
    function Rank(): nat {
      match this
      case Initializing => 0
      case SanityCheck => 1
      case ProjectConfig => 2
      case Generating => 3
      case Finalizing => 4
    }
  }

  /** `onProgressUpdate`: the label of a progress value. */
  function LabelOf(p: int): Label {
    if p < 20 then Initializing
    else if p < 40 then SanityCheck
    else if p < 60 then ProjectConfig
    else if p < 90 then Generating
    else Finalizing
  }

  /** The label never moves backwards as progress grows, so a run's labels
      follow the order of the steps; each label covers one band of values. */
  lemma LabelMonotone(p: int, q: int)
    requires p <= q
    ensures LabelOf(p).Rank() <= LabelOf(q).Rank()
    ensures LabelOf(p) == Finalizing <==> p >= 90
    ensures LabelOf(p) == Initializing <==> p < 20
  {
  }

  /** Along a successful run the labels read initializing, sanity check
      (at 20 and 30), generating (60 to 84) and finalizing (92 to 100);
      the project-configuration label is never shown. */
  lemma LabelsOfSuccessfulRun()
    ensures LabelOf(SUCCESS_TABLE[0]) == Initializing
    ensures LabelOf(SUCCESS_TABLE[1]) == SanityCheck && LabelOf(SUCCESS_TABLE[2]) == SanityCheck
    ensures forall k :: 3 <= k <= 6 ==> LabelOf(SUCCESS_TABLE[k]) == Generating
    ensures forall k :: 7 <= k < |SUCCESS_TABLE| ==> LabelOf(SUCCESS_TABLE[k]) == Finalizing
    ensures forall k :: 0 <= k < |SUCCESS_TABLE| ==> LabelOf(SUCCESS_TABLE[k]) != ProjectConfig
  {
  }

  // ------------------------------------------------------------------ files

  function Config(projectId: string, prompt: string, createdAt: string): Obj {
    ScreenSteps.ProjectConfig(projectId, prompt, "auto_generate", createdAt)
  }

  /** `generateContent`: the script placeholder names the orchestrator
      result's `prompt` member, or nothing when it has none. */
  function ScriptText(orchestrator: Obj): string {
    "Generated script content based on: " + OptString(orchestrator, "prompt", "")
  }

  /** The orchestrator's result objects never carry a prompt, so the
      placeholder never names the user's prompt. */
  lemma ScriptTextNamesNothing(o: Orchestrator.Outcome)
    ensures ScriptText(Orchestrator.ResultJson(o)) == "Generated script content based on: "
  {
    assert "prompt" !in Orchestrator.ResultJson(o);
  }

  /** The files a run leaves: only the sanity report after a failed
      check; once the check passed, the configuration and whatever the
      orchestrator wrote (its log lines, the shared script, its record);
      the script placeholder and the completed configuration after a
      successful run. */
  function Effects(fs: Files, projectId: string, prompt: string, i: Inputs, w: Orchestrator.Writes,
                   render: Obj -> string): (r: Files)
    ensures SanityCheck.ReportFile() in r && r[SanityCheck.ReportFile()] == render(i.sanity)
    ensures !OptBoolean(i.sanity, "passed", false) ==> r == fs[SanityCheck.ReportFile() := render(i.sanity)]
    ensures OptBoolean(i.sanity, "passed", false) ==> ConfigFile(projectId) in r
    ensures forall p :: p in fs && p != ConfigFile(projectId) && p != ScriptFile(projectId) && p != SanityCheck.ReportFile()
                        && !Orchestrator.OwnFile(p, i.orchestrator) ==>
              p in r && r[p] == fs[p]
    ensures forall p :: p in r && p !in fs ==>
              p == ConfigFile(projectId) || p == ScriptFile(projectId) || p == SanityCheck.ReportFile()
              || Orchestrator.OwnFile(p, i.orchestrator)
  {
    var checked := SanityCheck.Record(fs, i.sanity, render);
    if !Passes(Stages(i)[0]) then checked
    else
      SanityCheck.ReportFileInResults();
      ResultsOutsideProject(SanityCheck.ReportFile(), projectId, "project.json");
      ResultsOutsideProject(SanityCheck.ReportFile(), projectId, "script.txt");
      ReportNotOwn(i.orchestrator);
      Generate(checked, projectId, prompt, i, w, render)
  }

  /** What follows a passed check: the configuration is written, the
      orchestrator runs, and a successful run adds the script placeholder
      and completes the configuration. */
  function Generate(fs: Files, projectId: string, prompt: string, i: Inputs, w: Orchestrator.Writes,
                    render: Obj -> string): (r: Files)
    ensures ConfigFile(projectId) in r
    ensures forall p :: p in fs && p != ConfigFile(projectId) && p != ScriptFile(projectId)
                        && !Orchestrator.OwnFile(p, i.orchestrator) ==>
              p in r && r[p] == fs[p]
    ensures forall p :: p in r && p !in fs ==>
              p == ConfigFile(projectId) || p == ScriptFile(projectId) || Orchestrator.OwnFile(p, i.orchestrator)
  {
    var launched := Launch(fs, projectId, prompt, i, w, render);
    if !Passes(Stages(i)[2]) then launched
    else
      var scripted := Write(launched, ScriptFile(projectId), ScriptText(i.orchestrator.value));
      Write(scripted, ConfigFile(projectId), render(MarkCompleted(Config(projectId, prompt, i.createdAt), i.completedAt)))
  }

  /** The configuration is written and the orchestrator runs; what it
      writes leaves the configuration alone. */
  function Launch(fs: Files, projectId: string, prompt: string, i: Inputs, w: Orchestrator.Writes,
                  render: Obj -> string): (r: Files)
    ensures ConfigFile(projectId) in r && r[ConfigFile(projectId)] == render(Config(projectId, prompt, i.createdAt))
    ensures forall p :: p in fs && p != ConfigFile(projectId) && !Orchestrator.OwnFile(p, i.orchestrator) ==>
              p in r && r[p] == fs[p]
    ensures forall p :: p in r && p !in fs ==> p == ConfigFile(projectId) || Orchestrator.OwnFile(p, i.orchestrator)
  {
    var configured := Write(fs, ConfigFile(projectId), render(Config(projectId, prompt, i.createdAt)));
    OtherNameNotShared(projectId, "project.json");
    ProjectFileNotOwn(i.orchestrator, projectId, "project.json");
    Orchestrator.Leaves(configured, i.orchestrator, w, render)
  }

  /** The configuration is completed exactly when the run succeeds, and the
      script placeholder appears only after a successful run.  Screen
      project ids start with "proj_" (`NewProjectNotShared`), so the
      project is never the orchestrator's shared one. */
  lemma EffectsFollowRun(fs: Files, projectId: string, prompt: string, i: Inputs, w: Orchestrator.Writes,
                         render: Obj -> string)
    requires OptBoolean(i.sanity, "passed", false)
    requires ScriptFile(projectId) !in fs
    requires projectId != Orchestrator.SHARED_PROJECT
    ensures var r := Effects(fs, projectId, prompt, i, w, render);
            var config := Config(projectId, prompt, i.createdAt);
            (Run(i).status.Completed? ==>
               r[ConfigFile(projectId)] == render(MarkCompleted(config, i.completedAt))
               && ScriptFile(projectId) in r && r[ScriptFile(projectId)] == ScriptText(i.orchestrator.value))
            && (Run(i).status.Error? ==>
                  r[ConfigFile(projectId)] == render(config) && ScriptFile(projectId) !in r)
  {
    SuccessfulRun(i);
    var checked := SanityCheck.Record(fs, i.sanity, render);
    SanityCheck.ReportFileInResults();
    ResultsOutsideProject(SanityCheck.ReportFile(), projectId, "script.txt");
    assert ScriptFile(projectId) !in checked;
    EffectsPastCheck(fs, projectId, prompt, i, w, render);
    GenerateFollowsRun(checked, projectId, prompt, i, w, render);
  }

  /** A passed check hands the report's file store on to the rest of the
      run. */
  lemma EffectsPastCheck(fs: Files, projectId: string, prompt: string, i: Inputs, w: Orchestrator.Writes,
                         render: Obj -> string)
    requires OptBoolean(i.sanity, "passed", false)
    ensures Effects(fs, projectId, prompt, i, w, render)
            == Generate(SanityCheck.Record(fs, i.sanity, render), projectId, prompt, i, w, render)
  {
  }

  /** After a passed check: the orchestrator's success completes the
      configuration and adds the placeholder; its failure leaves the
      configuration as first written and no script of the project's. */
  lemma GenerateFollowsRun(fs: Files, projectId: string, prompt: string, i: Inputs, w: Orchestrator.Writes,
                           render: Obj -> string)
    requires ScriptFile(projectId) !in fs
    requires projectId != Orchestrator.SHARED_PROJECT
    ensures var r := Generate(fs, projectId, prompt, i, w, render);
            var config := Config(projectId, prompt, i.createdAt);
            (Passes(Stages(i)[2]) ==>
               r[ConfigFile(projectId)] == render(MarkCompleted(config, i.completedAt))
               && ScriptFile(projectId) in r && r[ScriptFile(projectId)] == ScriptText(i.orchestrator.value))
            && (!Passes(Stages(i)[2]) ==>
                  r[ConfigFile(projectId)] == render(config) && ScriptFile(projectId) !in r)
  {
    ProjectFilesDiffer(projectId, "project.json", "script.txt");
    OtherProjectNotShared(projectId);
    ProjectFileNotOwn(i.orchestrator, projectId, "script.txt");
  }

  /** A new project's id is never the orchestrator's shared project. */
  lemma NewProjectNotShared(timestamp: string, n: int)
    requires 0 <= n < 1000
    ensures NewProjectId(timestamp, n) != Orchestrator.SHARED_PROJECT
  {
    assert ("proj_" + timestamp + "_")[0] == 'p';
  }
}

=== FILE: ideas.dfy ===
/** The idea gallery (`IdeaGalleryActivity` and `IdeaGalleryFragment`,
    which share one implementation): a list of ideas kept in
    "ideas.json" in the configuration directory, shown through
    `IdeasAdapter` filtered by category or by a search term, and edited
    through dialogs.  The clock's date text and the millisecond time used
    as a new id are inputs. */
module Ideas {
  import opened Outcomes
  import opened JavaString
  import opened OrgJson
  import StoragePaths
  import ListAdapter
  import SeqLaws

  datatype Idea = Idea(id: string, title: string, description: string, category: string,
                       createdDate: string, lastModifiedDate: string)

  function IdeasFile(): string { StoragePaths.ConfigDir() + "/ideas.json" }

  /** The selection of the category spinner that keeps every idea. */
  const ALL: string := "All"

  // -------------------------------------------------------------- filtering

  predicate InCategory(idea: Idea, selected: string) {
    selected == ALL || idea.category == selected
  }

  /** `filterIdeas`: the ideas of the selected category, in order. */
  function Filter(ideas: seq<Idea>, selected: string): (r: seq<Idea>)
    ensures |r| <= |ideas|
    ensures forall x :: x in r <==> x in ideas && InCategory(x, selected)
  {
    if ideas == [] then []
    else (if InCategory(ideas[0], selected) then [ideas[0]] else []) + Filter(ideas[1..], selected)
  }

  /** Filtering keeps the order: it distributes over concatenation. */
  lemma {:induction false} FilterAppend(a: seq<Idea>, b: seq<Idea>, selected: string)
    ensures Filter(a + b, selected) == Filter(a, selected) + Filter(b, selected)
    decreases |a|
  {
    if a != [] {
      var head := if InCategory(a[0], selected) then [a[0]] else [];
      assert (a + b)[0] == a[0] && (a + b)[1..] == a[1..] + b;
      assert Filter(a + b, selected) == head + Filter(a[1..] + b, selected);
      assert Filter(a, selected) == head + Filter(a[1..], selected);
      FilterAppend(a[1..], b, selected);
      SeqLaws.ConcatAssoc(head, Filter(a[1..], selected), Filter(b, selected));
    } else {
      assert a + b == b;
    }
  }

  /** "All" keeps every idea. */
  lemma {:induction false} FilterAll(ideas: seq<Idea>)
    ensures Filter(ideas, ALL) == ideas
    decreases |ideas|
  {
    if ideas != [] {
      FilterAll(ideas[1..]);
    }
  }

  /** Filtering twice by the same category changes nothing more, and
      filtering by two different categories keeps nothing. */
  lemma {:induction false} FilterTwice(ideas: seq<Idea>, first: string, second: string)
    ensures Filter(Filter(ideas, first), first) == Filter(ideas, first)
    ensures first != ALL && second != ALL && first != second ==> Filter(Filter(ideas, first), second) == []
    decreases |ideas|
  {
    if ideas != [] {
      FilterTwice(ideas[1..], first, second);
      var head := if InCategory(ideas[0], first) then [ideas[0]] else [];
      FilterAppend(head, Filter(ideas[1..], first), first);
      FilterAppend(head, Filter(ideas[1..], first), second);
    }
  }

  /** Whether an idea matches a non-blank search term: the lowered term
      inside the lowered title or description.  `lower` is
      `String.toLowerCase()` in the device's default locale, which maps
      every letter Unicode gives a lower case, not only ASCII ones; the
      model keeps it a parameter rather than fix one locale's table. */
  predicate Mentions(idea: Idea, term: string, lower: string -> string) {
    Contains(lower(idea.title), lower(term)) || Contains(lower(idea.description), lower(term))
  }

  /** `searchIdeas`: a blank term is the category filter; otherwise the
      ideas of the category that mention the trimmed term. */
  function Search(ideas: seq<Idea>, selected: string, term: string, lower: string -> string): (r: seq<Idea>)
    ensures Trim(term) == [] ==> r == Filter(ideas, selected)
    ensures Trim(term) != [] ==>
              forall x :: x in r <==> x in ideas && InCategory(x, selected) && Mentions(x, Trim(term), lower)
  {
    var t := Trim(term);
    if t == [] then Filter(ideas, selected) else SearchTrimmed(ideas, selected, t, lower)
  }

  function SearchTrimmed(ideas: seq<Idea>, selected: string, t: string, lower: string -> string): (r: seq<Idea>)
    ensures forall x :: x in r <==> x in ideas && InCategory(x, selected) && Mentions(x, t, lower)
  {
    if ideas == [] then []
    else (if InCategory(ideas[0], selected) && Mentions(ideas[0], t, lower) then [ideas[0]] else [])
         + SearchTrimmed(ideas[1..], selected, t, lower)
  }

  /** A search never shows more than the category filter. */
  lemma {:induction false} SearchWithinFilter(ideas: seq<Idea>, selected: string, t: string, lower: string -> string)
    ensures |SearchTrimmed(ideas, selected, t, lower)| <= |Filter(ideas, selected)|
    decreases |ideas|
  {
    if ideas != [] {
      SearchWithinFilter(ideas[1..], selected, t, lower);
    }
  }

  /** Every text contains itself. */
  lemma {:induction false} ContainsItself(s: string)
    ensures Contains(s, s)
  {
    assert StartsWith(s, s) by {
      assert s[..|s|] == s;
    }
  }

  /** The search ignores case as far as the locale's lowering does: an
      idea titled "Élan" is found by "élan" under any lowering that maps
      both to one text, as Java's does, although the two differ in a
      letter outside ASCII. */
  lemma SearchFoldsAccentedCapital(lower: string -> string, idea: Idea)
    requires idea.title == "Élan" && lower("Élan") == lower("élan")
    ensures Search([idea], ALL, "élan", lower) == [idea]
  {
    TrimKeepsText("élan");
    ContainsItself(lower("élan"));
    assert Mentions(idea, "élan", lower);
    assert [idea][1..] == [];
    assert SearchTrimmed([idea], ALL, "élan", lower) == [idea] + SearchTrimmed([], ALL, "élan", lower);
  }
  // ---------------------------------------------------------------- editing

  /** `AddIdeaTask`: a new idea with the time as id and the date as both
      dates, put first. */
  function Insert(ideas: seq<Idea>, title: string, description: string, category: string,
                  id: string, now: string): (r: seq<Idea>)
    ensures |r| == |ideas| + 1 && r[1..] == ideas
    ensures r[0].title == title && r[0].description == description && r[0].category == category
    ensures r[0].id == id && r[0].createdDate == now && r[0].lastModifiedDate == now
  {
    [Idea(id, title, description, category, now, now)] + ideas
  }

  /** The add dialog: title and description are trimmed, and an empty one
      adds nothing. */
  function Add(ideas: seq<Idea>, title: string, description: string, category: string,
               id: string, now: string): (r: Option<seq<Idea>>)
    ensures r.Some? <==> Trim(title) != [] && Trim(description) != []
    ensures r.Some? ==> r.value == Insert(ideas, Trim(title), Trim(description), category, id, now)
  {
    var t, d := Trim(title), Trim(description);
    if t == [] || d == [] then None else Some(Insert(ideas, t, d, category, id, now))
  }

  /** `duplicateIdea`: a copy titled with " (Copy)" added first, with the
      same description and category, without the dialog's checks. */
  function Duplicate(ideas: seq<Idea>, i: nat, id: string, now: string): (r: seq<Idea>)
    requires i < |ideas|
    ensures |r| == |ideas| + 1 && r[1..] == ideas
    ensures r[0].title == ideas[i].title + " (Copy)"
    ensures r[0].description == ideas[i].description && r[0].category == ideas[i].category
  {
    Insert(ideas, ideas[i].title + " (Copy)", ideas[i].description, ideas[i].category, id, now)
  }

  /** `editIdea`, after the dialog's checks: title, description, category
      and the modification date change; the id and creation date stay,
      and so does every other idea. */
  function Edit(ideas: seq<Idea>, i: nat, title: string, description: string, category: string,
                now: string): (r: Option<seq<Idea>>)
    requires i < |ideas|
    ensures r.Some? <==> Trim(title) != [] && Trim(description) != []
    ensures r.Some? ==> |r.value| == |ideas|
    ensures r.Some? ==> forall j :: 0 <= j < |ideas| && j != i ==> r.value[j] == ideas[j]
    ensures r.Some? ==> r.value[i].id == ideas[i].id && r.value[i].createdDate == ideas[i].createdDate
    ensures r.Some? ==> r.value[i].title == Trim(title) && r.value[i].description == Trim(description)
    ensures r.Some? ==> r.value[i].category == category && r.value[i].lastModifiedDate == now
  {
    var t, d := Trim(title), Trim(description);
    if t == [] || d == [] then None
    else Some(Replaced(ideas, i, Idea(ideas[i].id, t, d, category, ideas[i].createdDate, now)))
  }

  /** The list with the idea at `i` replaced and every other kept. */
  function Replaced(ideas: seq<Idea>, i: nat, edited: Idea): (r: seq<Idea>)
    requires i < |ideas|
    ensures |r| == |ideas| && r[i] == edited
    ensures forall j :: 0 <= j < |ideas| && j != i ==> r[j] == ideas[j]
  {
    ideas[i := edited]
  }

  /** `deleteIdea`: exactly that idea goes; the others keep their order. */
  function Delete(ideas: seq<Idea>, i: nat): (r: seq<Idea>)
    requires i < |ideas|
    ensures |r| == |ideas| - 1
    ensures forall j :: 0 <= j < i ==> r[j] == ideas[j]
    ensures forall j :: i <= j < |r| ==> r[j] == ideas[j + 1]
  {
    ideas[..i] + ideas[i + 1..]
  }

  /** `createDefaultIdeas`: five ideas, ids "1" to "5", one per category
      other than "All". */
  function DefaultIdeas(now: string): (r: seq<Idea>)
    ensures |r| == 5
    ensures forall i :: 0 <= i < 5 ==> r[i].id == DEFAULT_IDS[i] && r[i].category == DEFAULT_CATEGORIES[i]
    ensures forall i :: 0 <= i < 5 ==> r[i].createdDate == now && r[i].lastModifiedDate == now
  {
    seq(5, i requires 0 <= i < 5 => Idea(DEFAULT_IDS[i], DefaultTitle(i), DefaultDescription(i), DEFAULT_CATEGORIES[i], now, now))
  }

  const DEFAULT_IDS: seq<string> := ["1", "2", "3", "4", "5"]
  const DEFAULT_CATEGORIES: seq<string> := ["Video", "Script", "Image", "Audio", "General"]

  function DefaultTitle(i: nat): string {
    match i
    case 0 => "Create a time-lapse video"
    case 1 => "Write a short story"
    case 2 => "Generate fantasy art"
    case 3 => "Compose background music"
    case _ => "AI assistant"
  }

  function DefaultDescription(i: nat): string {
    match i
    case 0 => "Generate a time-lapse video from image sequence"
    case 1 => "Generate a creative short story with characters and plot"
    case 2 => "Create fantasy-style artwork from description"
    case 3 => "Generate ambient background music for videos"
    case _ => "Create an AI assistant for daily tasks"
  }

  // ------------------------------------------------------------ persistence

  function IdeaJson(idea: Idea): Obj {
    map["id" := JStr(idea.id), "title" := JStr(idea.title), "description" := JStr(idea.description),
        "category" := JStr(idea.category), "created_date" := JStr(idea.createdDate),
        "last_modified_date" := JStr(idea.lastModifiedDate)]
  }

  /** One element of the file: four required texts, two dates that
      default to "". */
  function ReadIdea(o: Obj): (r: Result<Idea, JsonError>)
    ensures r.Ok? <==> "id" in o && "title" in o && "description" in o && "category" in o
    ensures r.Ok? && "created_date" !in o ==> r.value.createdDate == ""
    ensures r.Ok? && "last_modified_date" !in o ==> r.value.lastModifiedDate == ""
  {
    match (GetString(o, "id"), GetString(o, "title"), GetString(o, "description"), GetString(o, "category"))
    case (Ok(id), Ok(title), Ok(description), Ok(category)) =>
      Ok(Idea(id, title, description, category, OptString(o, "created_date", ""), OptString(o, "last_modified_date", "")))
    case (Err(e), _, _, _) => Err(e)
    case (_, Err(e), _, _) => Err(e)
    case (_, _, Err(e), _) => Err(e)
    case (_, _, _, Err(e)) => Err(e)
  }

  lemma IdeaReadBack(idea: Idea)
    ensures ReadIdea(IdeaJson(idea)) == Ok(idea)
  {
    var o := IdeaJson(idea);
    assert Holds(o, "id", JStr(idea.id)) && Holds(o, "title", JStr(idea.title));
    assert Holds(o, "description", JStr(idea.description)) && Holds(o, "category", JStr(idea.category));
    assert Holds(o, "created_date", JStr(idea.createdDate));
    assert Holds(o, "last_modified_date", JStr(idea.lastModifiedDate));
  }

  /** The loop of `LoadIdeasTask`: ideas read in order until an element
      throws; those read before it are kept. */
  function ReadIdeas(items: seq<Json>): (r: (seq<Idea>, bool))
    ensures |r.0| <= |items|
    ensures forall i :: 0 <= i < |r.0| ==> items[i].JObj? && ReadIdea(items[i].fields) == Ok(r.0[i])
    ensures r.1 ==> |r.0| == |items|
  {
    if items == [] then ([], true)
    else if !items[0].JObj? || ReadIdea(items[0].fields).Err? then ([], false)
    else
      var rest := ReadIdeas(items[1..]);
      assert forall i :: 1 <= i <= |rest.0| ==> items[i] == items[1..][i - 1];
      ([ReadIdea(items[0].fields).value] + rest.0, rest.1)
  }

  function IdeasJson(ideas: seq<Idea>): (r: seq<Json>)
    ensures |r| == |ideas|
    ensures forall i :: 0 <= i < |ideas| ==> r[i] == JObj(IdeaJson(ideas[i]))
  {
    seq(|ideas|, i requires 0 <= i < |ideas| => JObj(IdeaJson(ideas[i])))
  }

  /** `SaveIdeasTask`: the file overwritten with every idea in order. */
  function Save(docs: Docs, ideas: seq<Idea>): (r: Docs)
    ensures IdeasFile() in r
    ensures forall f :: f in docs && f != IdeasFile() ==> f in r && r[f] == docs[f]
  {
    docs[IdeasFile() := Some(JArr(IdeasJson(ideas)))]
  }

  /** What `LoadIdeasTask` reads: the file's ideas, or `None` when the file
      is missing; `false` when it throws, with the ideas read until then. */
  function LoadFile(docs: Docs): (r: Option<(seq<Idea>, bool)>)
    ensures r.None? <==> IdeasFile() !in docs
  {
    if IdeasFile() !in docs then None
    else match docs[IdeasFile()]
      case Some(JArr(items)) => Some(ReadIdeas(items))
      case _ => Some(([], false))
  }

  /** Saved ideas load back with all six fields, in order. */
  lemma SaveThenLoad(docs: Docs, ideas: seq<Idea>)
    ensures LoadFile(Save(docs, ideas)) == Some((ideas, true))
  {
    ReadWritten(ideas);
  }

  lemma {:induction false} ReadWritten(ideas: seq<Idea>)
    ensures ReadIdeas(IdeasJson(ideas)) == (ideas, true)
    decreases |ideas|
  {
    if ideas != [] {
      var items := IdeasJson(ideas);
      assert items[1..] == IdeasJson(ideas[1..]);
      IdeaReadBack(ideas[0]);
      ReadWritten(ideas[1..]);
      assert ideas == [ideas[0]] + ideas[1..];
    }
  }

  // ---------------------------------------------------------------- screens

  /** The screen as written: the adapter is given the screen's own list, so
      the two are one list. */
  datatype Shared = Shared(ideas: seq<Idea>, docs: Docs, selected: string)

  /** `LoadIdeasTask` as written.  After a successful read,
      `updateList(ideasList)` clears the list it is about to copy, and the
      filter that follows has nothing left to keep.  A missing file gives
      the defaults, which are saved. */
  function LoadAsWritten(s: Shared, now: string): (r: Shared)
    ensures LoadFile(s.docs).Some? && LoadFile(s.docs).value.1 ==> r.ideas == []
  {
    match LoadFile(s.docs)
    case None =>
      var ideas := s.ideas + DefaultIdeas(now);
      var docs := Save(s.docs, ideas);
      var emptied := ListAdapter.UpdateList(ideas, ideas, true);
      s.(ideas := Filter(emptied, s.selected), docs := docs)
    case Some((read, true)) =>
      var emptied := ListAdapter.UpdateList(read, read, true);
      s.(ideas := Filter(emptied, s.selected))
    case Some((read, false)) =>
      if s.docs[IdeasFile()].Some? && s.docs[IdeasFile()].value.JArr? then s.(ideas := read) else s
  }

  /** `AddIdeaTask` as written: the idea goes first in the shared list, the
      list is saved, and the refill empties it again. */
  function AddAsWritten(s: Shared, title: string, description: string, category: string,
                        id: string, now: string): (r: Shared)
  {
    match Add(s.ideas, title, description, category, id, now)
    case None => s
    case Some(ideas) =>
      var docs := Save(s.docs, ideas);
      var emptied := ListAdapter.UpdateList(ideas, ideas, true);
      s.(ideas := Filter(emptied, s.selected), docs := docs)
  }

  /** Loading a saved gallery and adding one idea leaves a file with that
      idea alone: every saved idea is lost. */
  lemma AddAfterLoadLosesIdeas(docs: Docs, saved: seq<Idea>, selected: string, before: seq<Idea>,
                               title: string, description: string, category: string, id: string, now: string)
    requires Trim(title) != [] && Trim(description) != []
    ensures var loaded := LoadAsWritten(Shared(before, Save(docs, saved), selected), now);
            var added := AddAsWritten(loaded, title, description, category, id, now);
            LoadFile(added.docs) == Some(([Idea(id, Trim(title), Trim(description), category, now, now)], true))
  {
    SaveThenLoad(docs, saved);
    var loaded := LoadAsWritten(Shared(before, Save(docs, saved), selected), now);
    assert loaded.ideas == [] && loaded.docs == Save(docs, saved);
    var ideas := Insert([], Trim(title), Trim(description), category, id, now);
    assert ideas == [Idea(id, Trim(title), Trim(description), category, now, now)];
    assert Add([], title, description, category, id, now) == Some(ideas);
    var added := AddAsWritten(loaded, title, description, category, id, now);
    assert added.docs == Save(Save(docs, saved), ideas);
    SaveThenLoad(Save(docs, saved), ideas);
  }

  /** With the five default ideas saved, adding one idea leaves one idea
      in the file instead of six. */
  lemma LostIdeasExample(docs: Docs, title: string, description: string, now: string)
    requires Trim(title) != [] && Trim(description) != []
    ensures var loaded := LoadAsWritten(Shared([], Save(docs, DefaultIdeas(now)), ALL), now);
            |LoadFile(AddAsWritten(loaded, title, description, "General", "7", now).docs).value.0| == 1
  {
    AddAfterLoadLosesIdeas(docs, DefaultIdeas(now), ALL, [], title, description, "General", "7", now);
  }

  /** The screen as intended: the adapter keeps its own list, which shows
      the filtered ideas, while the screen's list keeps all of them. */
  datatype Gallery = Gallery(ideas: seq<Idea>, shown: seq<Idea>, docs: Docs, selected: string)

  /** The adapter's list is the filter of the screen's list. */
  predicate Consistent(g: Gallery) {
    g.shown == Filter(g.ideas, g.selected)
  }

  /** Copying into the adapter's own list. */
  function Show(g: Gallery): (r: Gallery)
    ensures Consistent(r) && r.ideas == g.ideas && r.docs == g.docs
  {
    g.(shown := ListAdapter.UpdateList(g.shown, Filter(g.ideas, g.selected), false))
  }

  /** Loading: the file's ideas, or the defaults (saved) when it is
      missing; a read that throws keeps the ideas read so far and leaves
      the adapter as it was. */
  function Load(g: Gallery, now: string): (r: Gallery)
    ensures LoadFile(g.docs).None? ==> r.ideas == g.ideas + DefaultIdeas(now) && Consistent(r)
    ensures LoadFile(g.docs).Some? && LoadFile(g.docs).value.1 ==> r.ideas == LoadFile(g.docs).value.0 && Consistent(r)
  {
    match LoadFile(g.docs)
    case None =>
      var ideas := g.ideas + DefaultIdeas(now);
      Show(g.(ideas := ideas, docs := Save(g.docs, ideas)))
    case Some((read, true)) => Show(g.(ideas := read))
    case Some((read, false)) =>
      if g.docs[IdeasFile()].Some? && g.docs[IdeasFile()].value.JArr? then g.(ideas := read) else g
  }

  /** Choosing a category filters the shown ideas and keeps all of them. */
  function SelectCategory(g: Gallery, selected: string): (r: Gallery)
    ensures Consistent(r) && r.ideas == g.ideas
  {
    Show(g.(selected := selected))
  }

  /** Adding through the dialog: the new idea first, the file saved. */
  function AddIdea(g: Gallery, title: string, description: string, category: string,
                   id: string, now: string): (r: Gallery)
    ensures Consistent(g) && Add(g.ideas, title, description, category, id, now).None? ==> r == g
    ensures Add(g.ideas, title, description, category, id, now).Some? ==>
              r.ideas == Add(g.ideas, title, description, category, id, now).value && Consistent(r)
              && LoadFile(r.docs) == Some((r.ideas, true))
  {
    match Add(g.ideas, title, description, category, id, now)
    case None => g
    case Some(ideas) =>
      SaveThenLoad(g.docs, ideas);
      Show(g.(ideas := ideas, docs := Save(g.docs, ideas)))
  }

  /** Loading what was saved, then adding, keeps every saved idea after
      the new one. */
  lemma AddAfterLoadKeepsIdeas(docs: Docs, saved: seq<Idea>, selected: string, shown: seq<Idea>,
                               title: string, description: string, category: string, id: string, now: string)
    requires Trim(title) != [] && Trim(description) != []
    ensures var loaded := Load(Gallery([], shown, Save(docs, saved), selected), now);
            var added := AddIdea(loaded, title, description, category, id, now);
            LoadFile(added.docs) == Some(([Idea(id, Trim(title), Trim(description), category, now, now)] + saved, true))
  {
    SaveThenLoad(docs, saved);
  }

  /** Any change to the list is saved and then shown through the filter. */
  function Commit(g: Gallery, ideas: seq<Idea>): (r: Gallery)
    ensures r.ideas == ideas && Consistent(r) && LoadFile(r.docs) == Some((ideas, true))
  {
    SaveThenLoad(g.docs, ideas);
    Show(g.(ideas := ideas, docs := Save(g.docs, ideas)))
  }
}

=== FILE: image_interpreter.dfy ===
/** `ImageInterpreterAgent.analyzeImage`: a missing or undecodable file
    stops at once; a decoded image is described by one request to the
    image-captioning model; results are written to the file of the input's
    name, except the error result of an exception, which is only returned.
    The file system's answer, the decoder's answer and the model's
    `Reading` are inputs. */
module ImageInterpreter {
  import opened Outcomes
  import opened JavaInt
  import opened OrgJson
  import opened ModelEnvelope
  import opened FileStore
  import AgentRecords
  import AppLog
  import HFClient

  const AGENT: string := "ImageInterpreterAgent"
  const ENDPOINT: string := "https://api-inference.huggingface.co/models/nlpconnect/vit-gpt2-image-captioning"
  const INSTRUCTION: string :=
    "Analyze this image and provide a detailed description including objects, scenes, colors, mood, and potential story elements."

  /** What opening the input came to. */
  datatype Source =
    | Missing                          // `new File(path).exists()` is false
    | Undecodable                      // `BitmapFactory.decodeFile` gave null
    | Decoded(width: int, height: int) // the bitmap's dimensions

  /** What `analyzeImage` comes to. */
  datatype Interpretation =
    | NoFile
    | NotLoaded
    | Replied(width: int, height: int, reading: Reading)

  /** `analyzeImage(path)`: the model is asked only about a decoded image. */
  function Interpret(source: Source, reading: Reading): (a: Interpretation)
    ensures a.NoFile? <==> source.Missing?
    ensures a.NotLoaded? <==> source.Undecodable?
    ensures a.Replied? <==> source.Decoded?
    ensures a.Replied? ==> a.width == source.width && a.height == source.height && a.reading == reading
  {
    match source
    case Missing => NoFile
    case Undecodable => NotLoaded
    case Decoded(w, h) => Replied(w, h, reading)
  }

  /** Whether a request went to the model. */
  predicate Requested(a: Interpretation) {
    a.Replied?
  }

  predicate Succeeded(a: Interpretation) {
    a.Replied? && a.reading.Generated?
  }

  /** Whether reading the model's answer threw, which replaces the result
      with the error result. */
  predicate Threw(a: Interpretation) {
    a.Replied? && a.reading.Broken?
  }

  function InterpretationMessage(a: Interpretation): string {
    match a
    case NoFile => "Image file does not exist"
    case NotLoaded => "Failed to load image"
    case Replied(_, _, reading) =>
      (match reading
       case Generated(_) => "Image analyzed successfully"
       case Broken(e) => "Error analyzing image: " + Message(e)
       case _ => FailureMessage(reading))
  }

  /** `getImageInfo`: the dimensions and the placeholder texts (the
      floating-point aspect ratio is not represented). */
  function ImageInfo(width: int, height: int): Obj {
    map["width" := JNum(width), "height" := JNum(height),
        "dominant_colors" := JStr("Color analysis would go here"),
        "composition" := JStr("Composition analysis would go here")]
  }

  /** The result object; the error result of an exception has no input
      path. */
  function ResultJson(path: string, a: Interpretation): Obj {
    var base := map["agent" := JStr(AGENT), "success" := JBool(Succeeded(a)),
                    "message" := JStr(InterpretationMessage(a))];
    if Threw(a) then base
    else
      var withPath := base["image_path" := JStr(path)];
      if Succeeded(a) then
        withPath["analysis" := JObj(map["description" := JStr(a.reading.text),
                                        "image_info" := JObj(ImageInfo(a.width, a.height))])]
      else withPath
  }

  /** What callers read off the result: success exactly when the model's
      answer carried text, the message of each outcome, and the input path
      unless reading the answer threw. */
  lemma ResultJsonReads(path: string, a: Interpretation)
    ensures Holds(ResultJson(path, a), "agent", JStr(AGENT))
    ensures OptBoolean(ResultJson(path, a), "success", false) <==> a.Replied? && a.reading.Generated?
    ensures OptString(ResultJson(path, a), "message", "") == InterpretationMessage(a)
    ensures "image_path" in ResultJson(path, a) <==> !(a.Replied? && a.reading.Broken?)
    ensures !Threw(a) ==> OptString(ResultJson(path, a), "image_path", "") == path
    ensures "analysis" in ResultJson(path, a) <==> Succeeded(a)
  {
  }

  /** A successful result carries the model's text as the description,
      next to the image's dimensions. */
  lemma AnalysisReads(path: string, a: Interpretation)
    requires Succeeded(a)
    ensures var analysis := OptObject(ResultJson(path, a), "analysis");
            analysis.Some?
            && OptString(analysis.value, "description", "") == a.reading.text
            && OptObject(analysis.value, "image_info") == Some(ImageInfo(a.width, a.height))
  {
  }

  /** The image information reads back as the bitmap's dimensions, which
      are Java `int`s. */
  lemma ImageInfoReads(width: int, height: int)
    requires IsInt(width) && IsInt(height)
    ensures OptInt(ImageInfo(width, height), "width", 0) == width
    ensures OptInt(ImageInfo(width, height), "height", 0) == height
  {
  }

  /** The messages of the outcomes that send no request, and of a reply's
      failures. */
  lemma Messages(a: Interpretation)
    ensures a.NoFile? ==> InterpretationMessage(a) == "Image file does not exist"
    ensures a.NotLoaded? ==> InterpretationMessage(a) == "Failed to load image"
    ensures a.Replied? && a.reading.NoResponse? ==> InterpretationMessage(a) == "Failed to get response from model"
    ensures a.Replied? && a.reading.BadFormat? ==> InterpretationMessage(a) == "Invalid response format from model"
    ensures Threw(a) ==> InterpretationMessage(a) == "Error analyzing image: " + Message(a.reading.error)
  {
  }

  /** The messages analysing an image logs: the client's lines
      (`clientLog`, what `HFClient.RequestModel` logged) when the model was
      asked, then the error line when reading its answer threw. */
  function Logged(a: Interpretation, clientLog: seq<string>): (r: seq<AppLog.Said>)
    ensures |r| == (if Requested(a) then |clientLog| else 0) + (if Threw(a) then 1 else 0)
    ensures Requested(a) ==> forall k :: 0 <= k < |clientLog| ==> r[k] == AppLog.Said(HFClient.LOG_AGENT, clientLog[k])
    ensures Threw(a) ==> r[|r| - 1] == AppLog.Said(AGENT, "Error analyzing image: " + Message(a.reading.error))
  {
    (if Requested(a) then AppLog.SaidBy(HFClient.LOG_AGENT, clientLog) else [])
    + (if Threw(a) then [AppLog.Said(AGENT, InterpretationMessage(a))] else [])
  }

  /** `analyzeImage` with its effects: the result; the log with the
      analysis's messages, the k-th at the clock reading `clock(k)`; and
      the result written to the input's file unless reading the answer
      threw. */
  function AnalyzeImage(fs: Files, path: string, source: Source, reading: Reading, clientLog: seq<string>,
                        clock: nat -> AppLog.Stamp, render: Obj -> string): (r: (Interpretation, Files))
    ensures r.0 == Interpret(source, reading)
    ensures var logged := AppLog.LogSaid(fs, Logged(r.0, clientLog), clock, render);
            && (Threw(r.0) ==> r.1 == logged)
            && (!Threw(r.0) ==> r.1 == AgentRecords.Record(logged, AGENT, path, render(ResultJson(path, r.0))))
  {
    var a := Interpret(source, reading);
    var logged := AppLog.LogSaid(fs, Logged(a, clientLog), clock, render);
    if Threw(a) then (a, logged) else (a, AgentRecords.Record(logged, AGENT, path, render(ResultJson(path, a))))
  }

  /** A missing or undecodable file sends no request, so the client logs
      nothing; it fails with its own message whatever the model would have
      said, and is still recorded. */
  lemma UnreadableFileShortCircuits(fs: Files, path: string, source: Source, reading: Reading, clientLog: seq<string>,
                                    clock: nat -> AppLog.Stamp, render: Obj -> string)
    requires source.Missing? || source.Undecodable?
    ensures var (a, after) := AnalyzeImage(fs, path, source, reading, clientLog, clock, render);
            !Requested(a) && !Succeeded(a)
            && InterpretationMessage(a) == (if source.Missing? then "Image file does not exist" else "Failed to load image")
            && AgentRecords.AnalysisFile(AGENT, path) in after
    ensures AnalyzeImage(fs, path, source, reading, clientLog, clock, render)
            == AnalyzeImage(fs, path, source, NoResponse, [], clock, render)
  {
    assert Logged(Interpret(source, reading), clientLog) == [] == Logged(Interpret(source, NoResponse), []);
  }

  /** Besides the app log, the only file an analysis can change is the
      input's result file. */
  lemma OnlyResultFileChanges(fs: Files, path: string, source: Source, reading: Reading, clientLog: seq<string>,
                              clock: nat -> AppLog.Stamp, render: Obj -> string, p: string)
    requires p in fs && p != AgentRecords.AnalysisFile(AGENT, path) && !AppLog.IsLogFile(p)
    ensures var after := AnalyzeImage(fs, path, source, reading, clientLog, clock, render).1;
            p in after && after[p] == fs[p]
  {
  }

  /** Within one day, an analysis appends its messages to a cleanly ended
      log: the client's lines when the model was asked, then the error
      line when reading the answer threw; recording the result leaves the
      log alone. */
  lemma AnalysisLogLines(fs: Files, path: string, source: Source, reading: Reading, clientLog: seq<string>,
                         clock: nat -> AppLog.Stamp, day: string, render: Obj -> string)
    requires forall o: Obj :: '\n' !in render(o) && '\r' !in render(o)
    requires forall k :: 0 <= k <= |clientLog| ==> clock(k).day == day
    requires Terminated(Content(fs, AppLog.LogFile(day)))
    ensures var (a, after) := AnalyzeImage(fs, path, source, reading, clientLog, clock, render);
            Lines(Content(after, AppLog.LogFile(day)))
            == Lines(Content(fs, AppLog.LogFile(day))) + AppLog.SaidLines(Logged(a, clientLog), clock, render)
  {
    var a := Interpret(source, reading);
    var logged := AppLog.LogSaid(fs, Logged(a, clientLog), clock, render);
    AppLog.LogSaidReadsBack(fs, Logged(a, clientLog), clock, day, render);
    AgentRecords.RecordKeepsLogs(logged, AGENT, path, render(ResultJson(path, a)), AppLog.LogFile(day));
  }
}

=== FILE: image_to_story.dfy ===
/** `ImageToStoryActivity`: a picked image and a prompt become a story.  A
    run checks the device and analyses the image, then writes a story
    around the prompt into the editor; the save button stores the editor's
    story and the project metadata.  The agents' result objects, the
    clock's texts, the random number and the serialisation of objects are
    inputs. */
module ImageToStory {
  import opened Outcomes
  import opened JavaString
  import opened OrgJson
  import opened FileStore
  import opened FailFast
  import opened ScreenSteps

  /** `createNewProjectId`: "image_to_story_", the formatted time, "_" and
      a random number below 1000. */
  function NewProjectId(timestamp: string, n: int): (id: string)
    requires 0 <= n < 1000
    ensures StartsWith(id, "image_to_story_" + timestamp + "_")
  {
    ProjectId("image_to_story_", timestamp, n)
  }

  /** The project copy of a picked image. */
  function InputFile(projectId: string): string {
    ProjectFile(projectId, "input.jpg")
  }

  function StoryFile(projectId: string): string {
    ProjectFile(projectId, "story.txt")
  }

  // -------------------------------------------------------------------- run

  /** What a run is given: the check's result and the image analysis
      (`None` for `null`). */
  datatype Inputs = Inputs(sanity: Obj, analysis: Option<Obj>)

  /** `GenerateStoryTask.doInBackground`: the check at 10, the analysis at
      30, and the simulated writing at 60 and 90. */
  function Stages(i: Inputs): (s: seq<Stage>)
    ensures |s| == 3
  {
    [Stage([10], SanityVerdict(i.sanity)),
     Stage([30], AgentVerdict(i.analysis, "Image analysis failed", "Image analysis returned null")),
     Stage([60, 90], Pass)]
  }

  function Run(i: Inputs): Report {
    Drive(Stages(i))
  }

  /** Whether the analysis reads as a success. */
  predicate Analysed(i: Inputs) {
    i.analysis.Some? && OptBoolean(i.analysis.value, "success", false)
  }

  /** A run succeeds exactly when the check passes and the analysis
      succeeds, and then publishes 10, 30, 60 and 90; a failing step ends
      it with its own message. */
  lemma RunOutcome(i: Inputs)
    ensures Run(i).status.Completed? <==> OptBoolean(i.sanity, "passed", false) && Analysed(i)
    ensures Run(i).status.Completed? ==> Run(i).progress == [10, 30, 60, 90]
    ensures !OptBoolean(i.sanity, "passed", false) ==>
              Run(i) == Report([10], Error(OptString(i.sanity, "message", "Sanity check failed")))
    ensures OptBoolean(i.sanity, "passed", false) && i.analysis.None? ==>
              Run(i) == Report([10, 30], Error("Image analysis returned null"))
    ensures OptBoolean(i.sanity, "passed", false) && i.analysis.Some? && !Analysed(i) ==>
              Run(i) == Report([10, 30], Error(OptString(i.analysis.value, "message", "Image analysis failed")))
  {
    var s := Stages(i);
    Peel3(s);
    assert AllOk(s, Passes) <==> Passes(s[0]) && Passes(s[1]);
    if Passes(s[0]) && Passes(s[1]) {
      assert Drive(s[1..][1..]) == Report([60, 90], Completed);
    } else if Passes(s[0]) {
      assert Drive(s[1..]).progress == [30];
    }
  }

  const STORY_LEAD: string := "Once upon a time, "
  const STORY_TAIL: string := ". This is a generated story based on the image and prompt provided. The story would normally be generated by an AI model based on the image analysis and user prompt."

  /** The story of a successful run: the prompt set in a fixed frame; the
      analysis plays no part in it. */
  function Story(prompt: string): (t: string)
    ensures |t| == |STORY_LEAD| + |prompt| + |STORY_TAIL|
    ensures StartsWith(t, STORY_LEAD) && t[|STORY_LEAD|..|STORY_LEAD| + |prompt|] == prompt
  {
    var t := STORY_LEAD + prompt + STORY_TAIL;
    assert t[..|STORY_LEAD|] == STORY_LEAD;
    assert t[|STORY_LEAD|..|STORY_LEAD| + |prompt|] == prompt;
    t
  }

  /** Different prompts give different stories. */
  lemma StoryNamesPrompt(p: string, q: string)
    requires Story(p) == Story(q)
    ensures p == q
  {
    assert |p| == |q|;
  }

  // ----------------------------------------------------------------- screen

  /** The screen: the picked image with the generate button, and the
      editor's story. */
  datatype Screen = Screen(media: MediaScreen, story: string)

  /** A run's completion: on success the editor shows the story; either
      way the generate button comes back. */
  function Generate(s: Screen, prompt: string, i: Inputs): (r: Screen)
    ensures r.media.enabled && r.media.selected == s.media.selected
    ensures r.story == (if OptBoolean(i.sanity, "passed", false) && Analysed(i) then Story(prompt) else s.story)
  {
    RunOutcome(i);
    var media := s.media.(enabled := true);
    if Run(i).status.Completed? then Screen(media, Story(prompt)) else Screen(media, s.story)
  }

  // ------------------------------------------------------------------- save

  /** The metadata `saveStory` writes; a `null` image is left out. */
  function SavedData(projectId: string, image: Option<string>, createdAt: string, modified: string): Obj {
    SavedConfig(projectId, "Image to Story Project", "image_to_story", "source_image", image, createdAt, modified)
  }

  /** `saveStory`: an empty story saves nothing; otherwise the story file
      and then the metadata are written. */
  function Save(fs: Files, projectId: string, s: Screen, createdAt: string, modified: string,
                render: Obj -> string): (r: (bool, Files))
    ensures r.0 <==> s.story != []
    ensures !r.0 ==> r.1 == fs
    ensures r.0 ==> ConfigFile(projectId) in r.1
                    && r.1[ConfigFile(projectId)] == render(SavedData(projectId, s.media.selected, createdAt, modified))
    ensures forall p :: p in fs && p != ConfigFile(projectId) && p != StoryFile(projectId) ==> p in r.1 && r.1[p] == fs[p]
  {
    if s.story == [] then (false, fs)
    else
      var stored := Write(fs, StoryFile(projectId), s.story);
      (true, Write(stored, ConfigFile(projectId), render(SavedData(projectId, s.media.selected, createdAt, modified))))
  }

  /** A saved story reads back as the editor held it, line by line, and the
      metadata names the image exactly when one is selected. */
  lemma SavedStoryReadsBack(fs: Files, projectId: string, s: Screen, createdAt: string, modified: string,
                            render: Obj -> string)
    requires s.story != []
    ensures var after := Save(fs, projectId, s, createdAt, modified, render).1;
            Read(after, StoryFile(projectId)) == Normalize(s.story)
    ensures "source_image" in SavedData(projectId, s.media.selected, createdAt, modified) <==> s.media.selected.Some?
  {
    ProjectFilesDiffer(projectId, "story.txt", "project.json");
    var stored := Write(fs, StoryFile(projectId), s.story);
    WriteAppendLaws(fs, StoryFile(projectId), s.story, s.story);
    assert Read(stored, StoryFile(projectId)) == Normalize(s.story);
  }
}

=== FILE: java_int.dfy ===
/** Java's fixed-width integer arithmetic written out over Dafny's unbounded
    integers: two's-complement wrap-around for `int` and `long`, and the
    truncating division and remainder of `/` and `%`. */
module JavaInt {

  const INT_MIN: int := -0x8000_0000
  const INT_MAX: int := 0x7FFF_FFFF
  const LONG_MIN: int := -0x8000_0000_0000_0000
  const LONG_MAX: int := 0x7FFF_FFFF_FFFF_FFFF

  /** The values a Java `int` can hold. */
  predicate IsInt(x: int) {
    INT_MIN <= x <= INT_MAX
  }

  /** The values a Java `long` can hold. */
  predicate IsLong(x: int) {
    LONG_MIN <= x <= LONG_MAX
  }

  /** The `int` a 32-bit computation yields when the exact result is `x`:
      the unique 32-bit value congruent to `x` modulo 2^32. */
  function WrapInt(x: int): (r: int)
    ensures IsInt(r)
    ensures (x - r) % 0x1_0000_0000 == 0
    ensures IsInt(x) ==> r == x
  {
    (x - INT_MIN) % 0x1_0000_0000 + INT_MIN
  }

  /** The `long` a 64-bit computation yields when the exact result is `x`. */
  function WrapLong(x: int): (r: int)
    ensures IsLong(r)
    ensures (x - r) % 0x1_0000_0000_0000_0000 == 0
    ensures IsLong(x) ==> r == x
  {
    (x - LONG_MIN) % 0x1_0000_0000_0000_0000 + LONG_MIN
  }

  function Abs(x: int): nat {
    if x < 0 then -x else x
  }

  /** Java's `a / b`: the quotient rounded toward zero. */
  function Quot(a: int, b: int): (q: int)
    requires b != 0
  {
    var n, d := Abs(a), Abs(b);
    if (a < 0) == (b < 0) then n / d else -(n / d)
  }

  /** Java's `a % b`: the remainder carries the sign of the dividend and is
      smaller than the divisor in magnitude. */
  function Rem(a: int, b: int): (r: int)
    requires b != 0
    ensures Abs(r) < Abs(b)
    ensures a >= 0 ==> r >= 0
    ensures a <= 0 ==> r <= 0
  {
    if a < 0 then -(Abs(a) % Abs(b)) else Abs(a) % Abs(b)
  }

  /** Java's division identity `(a / b) * b + a % b == a`. */
  lemma {:induction false} QuotRem(a: int, b: int)
    requires b != 0
    ensures a == b * Quot(a, b) + Rem(a, b)
  {
    var n: int, d: int := Abs(a), Abs(b);
    var q0: int, r0: int := n / d, n % d;
    assert n == d * q0 + r0;
    assert Rem(a, b) == if a < 0 then -r0 else r0;
    assert Quot(a, b) == if (a < 0) == (b < 0) then q0 else -q0;
    MulSigns(d, q0);
    if a >= 0 && b > 0 {
      assert b * Quot(a, b) == d * q0;
    } else if a < 0 && b < 0 {
      assert b * Quot(a, b) == (-d) * q0;
    } else if a >= 0 {
      assert b * Quot(a, b) == (-d) * (-q0);
    } else {
      assert b * Quot(a, b) == d * (-q0);
    }
  }

  /** How negation passes through a product. */
  lemma MulSigns(x: int, y: int)
    ensures (-x) * y == -(x * y) && x * (-y) == -(x * y) && (-x) * (-y) == x * y
  {
  }

  /** For a non-negative dividend and a positive divisor Java's operators
      agree with Dafny's Euclidean ones. */
  lemma QuotRemNonNegative(a: int, b: int)
    requires a >= 0 && b > 0
    ensures Quot(a, b) == a / b && Rem(a, b) == a % b
  {
  }
}

=== FILE: java_string.dfy ===
/** The parts of `java.lang.String` and of Java's number formatting and
    parsing that the application relies on, over Dafny strings.  Case mapping
    is ASCII-only and only ASCII digits are recognised. */
module JavaString {
  import opened Outcomes
  import opened JavaInt

  // ---------------------------------------------------------------- trim

  /** `String.trim()` strips every character whose code is at most U+0020. */
  predicate IsTrimmable(c: char) {
    c <= ' '
  }

  /** A string that `trim()` reduces to the empty string. */
  predicate IsBlank(s: string) {
    forall i :: 0 <= i < |s| ==> IsTrimmable(s[i])
  }

  /** The number of trimmable characters `s` starts with. */
  function LeadingBlanks(s: string): (n: nat)
    ensures n <= |s|
    ensures forall k :: 0 <= k < n ==> IsTrimmable(s[k])
    ensures n < |s| ==> !IsTrimmable(s[n])
  {
    if s != [] && IsTrimmable(s[0]) then 1 + LeadingBlanks(s[1..]) else 0
  }

  /** The number of trimmable characters `s` ends with. */
  function TrailingBlanks(s: string): (n: nat)
    ensures n <= |s|
    ensures forall k :: |s| - n <= k < |s| ==> IsTrimmable(s[k])
    ensures n < |s| ==> !IsTrimmable(s[|s| - n - 1])
  {
    if s != [] && IsTrimmable(s[|s| - 1]) then 1 + TrailingBlanks(s[..|s| - 1]) else 0
  }

  function TrimStart(s: string): (r: string)
    ensures |r| <= |s| && r == s[|s| - |r|..]
    ensures forall k :: 0 <= k < |s| - |r| ==> IsTrimmable(s[k])
    ensures r != [] ==> !IsTrimmable(r[0])
  {
    s[LeadingBlanks(s)..]
  }

  function TrimEnd(s: string): (r: string)
    ensures |r| <= |s| && r == s[..|r|]
    ensures forall k :: |r| <= k < |s| ==> IsTrimmable(s[k])
    ensures r != [] ==> !IsTrimmable(r[|r| - 1])
  {
    s[..|s| - TrailingBlanks(s)]
  }

  /** `String.trim()`: the result is a slice of `s`, it neither starts nor
      ends with a trimmable character, and it is empty exactly when `s` is
      blank. */
  function Trim(s: string): (r: string)
    ensures |r| <= |s|
    ensures r != [] ==> !IsTrimmable(r[0]) && !IsTrimmable(r[|r| - 1])
    ensures r == [] <==> IsBlank(s)
  {
    var t := TrimStart(s);
    var r := TrimEnd(t);
    r
  }

  /** A text that starts and ends with a visible character is its own
      trim. */
  lemma TrimKeepsText(s: string)
    requires s != [] && !IsTrimmable(s[0]) && !IsTrimmable(s[|s| - 1])
    ensures Trim(s) == s
  {
    assert TrimStart(s) == s;
  }

  // ---------------------------------------------------------- searching

  predicate StartsWith(s: string, prefix: string) {
    |prefix| <= |s| && s[..|prefix|] == prefix
  }

  predicate EndsWith(s: string, suffix: string) {
    |suffix| <= |s| && s[|s| - |suffix|..] == suffix
  }

  /** `s.contains(t)`: `t` occurs in `s` at some position. */
  predicate Contains(s: string, t: string)
    decreases |s|
  {
    StartsWith(s, t) || (s != [] && Contains(s[1..], t))
  }

  /** `s.lastIndexOf(c)`: the position of the last `c`, or -1 when there is none. */
  function LastIndexOf(s: string, c: char): (r: int)
    ensures -1 <= r < |s|
    ensures r >= 0 ==> s[r] == c && forall k :: r < k < |s| ==> s[k] != c
    ensures r == -1 ==> forall k :: 0 <= k < |s| ==> s[k] != c
  {
    if s == [] then -1
    else if s[|s| - 1] == c then |s| - 1
    else LastIndexOf(s[..|s| - 1], c)
  }

  // ------------------------------------------------------ case and replace

  function LowerChar(c: char): char {
    if 'A' <= c <= 'Z' then (c as int + 32) as char else c
  }

  function UpperChar(c: char): char {
    if 'a' <= c <= 'z' then (c as int - 32) as char else c
  }

  /** `toLowerCase()` on ASCII letters; every other character is kept. */
  function ToLower(s: string): (r: string)
    ensures |r| == |s| && forall i :: 0 <= i < |s| ==> r[i] == LowerChar(s[i])
  {
    seq(|s|, i requires 0 <= i < |s| => LowerChar(s[i]))
  }

  /** `toUpperCase()` on ASCII letters; every other character is kept. */
  function ToUpper(s: string): (r: string)
    ensures |r| == |s| && forall i :: 0 <= i < |s| ==> r[i] == UpperChar(s[i])
  {
    seq(|s|, i requires 0 <= i < |s| => UpperChar(s[i]))
  }

  /** `equalsIgnoreCase` for ASCII letters. */
  predicate EqualsIgnoreCase(a: string, b: string) {
    ToLower(a) == ToLower(b)
  }

  /** `s.replace(a, b)` for single characters. */
  function ReplaceChar(s: string, a: char, b: char): (r: string)
    ensures |r| == |s|
    ensures forall i :: 0 <= i < |s| ==> r[i] == (if s[i] == a then b else s[i])
  {
    seq(|s|, i requires 0 <= i < |s| => if s[i] == a then b else s[i])
  }

  // ---------------------------------------------------------- UTF-16 units

  /** The UTF-16 code units Java stores for a character: two, a surrogate
      pair, for one outside the Basic Multilingual Plane. */
  function Units(c: char): (n: nat)
    ensures n == 1 || n == 2
  {
    if c as int > 0xFFFF then 2 else 1
  }

  /** Text inside the Basic Multilingual Plane: one unit per character. */
  predicate IsBmp(s: string) {
    forall i :: 0 <= i < |s| ==> Units(s[i]) == 1
  }

  /** `length()`: the number of UTF-16 code units. */
  function Length16(s: string): (n: nat)
    ensures |s| <= n <= 2 * |s|
    ensures IsBmp(s) ==> n == |s|
  {
    if s == [] then 0 else Units(s[0]) + Length16(s[1..])
  }

  /** Unit counts add up over concatenation. */
  lemma {:induction false} Length16Append(a: string, b: string)
    ensures Length16(a + b) == Length16(a) + Length16(b)
    decreases |a|
  {
    if a == [] {
      assert a + b == b;
    } else {
      assert (a + b)[1..] == a[1..] + b;
      Length16Append(a[1..], b);
    }
  }

  /** Stands for the half of a surrogate pair that a cut through the pair
      leaves behind: Dafny strings cannot hold a lone surrogate, and
      writing one out as UTF-8 produces this character. */
  const LONE_SURROGATE: char := '?'

  /** `substring(0, n)`, with `n` capped at `length()`: the first `n` code
      units; a pair cut in two leaves its first half. */
  function Prefix16(s: string, n: nat): (t: string)
    ensures Length16(t) == if n < Length16(s) then n else Length16(s)
    ensures |t| <= |s|
    ensures t == s[..|t|] || (0 < |t| && t == s[..|t| - 1] + [LONE_SURROGATE] && Units(s[|t| - 1]) == 2)
    decreases |s|
  {
    if s == [] || n == 0 then []
    else if Units(s[0]) <= n then
      var rest := Prefix16(s[1..], n - Units(s[0]));
      PrefixCons(s, rest);
      [s[0]] + rest
    else
      assert Length16([LONE_SURROGATE]) == 1;
      [LONE_SURROGATE]
  }

  /** Putting back the first character in front of a prefix of the rest
      gives a prefix of the whole, with the same cut. */
  lemma {:induction false} PrefixCons(s: string, rest: string)
    requires s != [] && |rest| <= |s| - 1
    requires rest == s[1..][..|rest|]
             || (0 < |rest| && rest == s[1..][..|rest| - 1] + [LONE_SURROGATE] && Units(s[1..][|rest| - 1]) == 2)
    ensures Length16([s[0]] + rest) == Units(s[0]) + Length16(rest)
    ensures var t := [s[0]] + rest;
            t == s[..|t|] || (0 < |t| && t == s[..|t| - 1] + [LONE_SURROGATE] && Units(s[|t| - 1]) == 2)
  {
    assert ([s[0]] + rest)[1..] == rest;
    if rest == s[1..][..|rest|] {
      assert [s[0]] + rest == s[..|rest| + 1];
    } else {
      assert [s[0]] + s[1..][..|rest| - 1] == s[..|rest|];
      assert s[1..][|rest| - 1] == s[|rest|];
    }
  }

  /** `substring(length() - n)`, with `n` capped at `length()`: the last `n`
      code units; a pair cut in two leaves its second half. */
  function Suffix16(s: string, n: nat): (t: string)
    ensures Length16(t) == if n < Length16(s) then n else Length16(s)
    ensures |t| <= |s|
    ensures t == s[|s| - |t|..] || (0 < |t| && t == [LONE_SURROGATE] + s[|s| - |t| + 1..] && Units(s[|s| - |t|]) == 2)
    decreases |s|
  {
    if Length16(s) <= n then s
    else if Length16(s[1..]) >= n then Suffix16(s[1..], n)
    else
      assert Length16([LONE_SURROGATE] + s[1..]) == 1 + Length16(s[1..]) by {
        assert ([LONE_SURROGATE] + s[1..])[1..] == s[1..];
      }
      [LONE_SURROGATE] + s[1..]
  }

  /** A text no longer than `n` units is kept whole. */
  lemma {:induction false} Prefix16Whole(s: string, n: nat)
    requires Length16(s) <= n
    ensures Prefix16(s, n) == s
    decreases |s|
  {
    if s != [] {
      Prefix16Whole(s[1..], n - Units(s[0]));
    }
  }

  /** Text made only of characters outside the Basic Multilingual Plane,
      each a surrogate pair. */
  predicate AllPairs(s: string) {
    s == [] || (Units(s[0]) == 2 && AllPairs(s[1..]))
  }

  /** Every character a pair makes the text all pairs. */
  lemma {:induction false} AllPairsOf(s: string)
    requires forall i :: 0 <= i < |s| ==> Units(s[i]) == 2
    ensures AllPairs(s)
    decreases |s|
  {
    if s != [] {
      assert forall i :: 0 <= i < |s[1..]| ==> s[1..][i] == s[i + 1];
      AllPairsOf(s[1..]);
    }
  }

  /** Text made only of pairs is twice as many units long. */
  lemma {:induction false} Length16Pairs(s: string)
    requires AllPairs(s)
    ensures Length16(s) == 2 * |s|
    decreases |s|
  {
    if s != [] {
      Length16Pairs(s[1..]);
    }
  }

  /** A first character that fits is kept, and the rest of the units
      come from the rest of the text. */
  lemma Prefix16Step(s: string, n: nat, m: nat)
    requires s != [] && 0 < n && m == n - Units(s[0])
    ensures Prefix16(s, n) == [s[0]] + Prefix16(s[1..], m)
  {
  }

  /** The first `k` characters are the first one and `k - 1` of the rest. */
  lemma TakeCons(s: string, k: nat)
    requires 0 < k <= |s|
    ensures s[..k] == [s[0]] + s[1..][..k - 1]
  {
  }

  /** One step of the induction below: a pair in front adds two units
      and one character. */
  lemma PairsStep(s: string, k: nat)
    requires 0 < k <= |s| && Units(s[0]) == 2
    requires Prefix16(s[1..], 2 * (k - 1)) == s[1..][..k - 1]
    ensures Prefix16(s, 2 * k) == s[..k]
  {
    Prefix16Step(s, 2 * k, 2 * (k - 1));
    TakeCons(s, k);
  }

  /** On text made only of pairs, `2 * k` units are `k` characters. */
  lemma {:induction false} Prefix16Pairs(s: string, k: nat)
    requires AllPairs(s)
    requires k <= |s|
    ensures Prefix16(s, 2 * k) == s[..k]
    decreases |s|
  {
    if k > 0 {
      assert AllPairs(s[1..]);
      Prefix16Pairs(s[1..], k - 1);
      PairsStep(s, k);
    }
  }

  /** The first `n` units lie within the first `n` characters. */
  lemma {:induction false} Prefix16Local(s: string, n: nat)
    requires n <= |s|
    ensures Prefix16(s, n) == Prefix16(s[..n], n)
    decreases |s|
  {
    if n > 0 && Units(s[0]) <= n {
      var m := n - Units(s[0]);
      Prefix16Local(s[1..], m);
      Prefix16Local(s[..n][1..], m);
      assert s[..n][1..][..m] == s[1..][..m];
    }
  }

  /** The last `n` units lie within the last `n` characters. */
  lemma {:induction false} Suffix16Local(s: string, n: nat)
    requires n <= |s|
    ensures Suffix16(s, n) == Suffix16(s[|s| - n..], n)
    decreases |s|
  {
    if |s| > n {
      Suffix16Local(s[1..], n);
      assert s[1..][|s| - 1 - n..] == s[|s| - n..];
    }
  }

  /** On text inside the Basic Multilingual Plane, units are characters. */
  lemma {:induction false} Prefix16Bmp(s: string, n: nat)
    requires IsBmp(s)
    ensures Prefix16(s, n) == s[..if n < |s| then n else |s|]
    decreases |s|
  {
    if s != [] && n != 0 {
      assert IsBmp(s[1..]);
      Prefix16Bmp(s[1..], n - 1);
    }
  }

  lemma {:induction false} Suffix16Bmp(s: string, n: nat)
    requires IsBmp(s)
    ensures Suffix16(s, n) == s[|s| - (if n < |s| then n else |s|)..]
    decreases |s|
  {
    if |s| > n {
      assert IsBmp(s[1..]);
      Suffix16Bmp(s[1..], n);
    }
  }

  // ------------------------------------------------------------ splitting

  /** The pieces of `s` separated by `sep` joined back together. */
  function Join(pieces: seq<string>, sep: char): string
    requires |pieces| >= 1
  {
    if |pieces| == 1 then pieces[0] else pieces[0] + [sep] + Join(pieces[1..], sep)
  }

  /** A prefix of a prefix is a prefix. */
  lemma StartsWithTrans(s: string, p: string, q: string)
    requires StartsWith(s, p) && StartsWith(p, q)
    ensures StartsWith(s, q)
  {
    assert s[..|q|] == s[..|p|][..|q|];
  }

  /** Every piece of `s` between occurrences of `sep`, empty ones included:
      one more piece than there are separators. */
  function Pieces(s: string, sep: char): (r: seq<string>)
    ensures |r| >= 1
    ensures forall i :: 0 <= i < |r| ==> sep !in r[i]
    ensures Join(r, sep) == s
    ensures sep !in s ==> r == [s]
    decreases |s|
  {
    if s == [] then [[]]
    else
      var rest := Pieces(s[1..], sep);
      assert [s[0]] + s[1..] == s;
      if s[0] == sep then
        JoinEmptyFront(rest, sep);
        [[]] + rest
      else
        JoinGrowFront(s[0], rest, sep);
        [[s[0]] + rest[0]] + rest[1..]
  }

  lemma JoinEmptyFront(rest: seq<string>, sep: char)
    requires |rest| >= 1
    ensures Join([[]] + rest, sep) == [sep] + Join(rest, sep)
  {
    assert ([[]] + rest)[1..] == rest;
  }

  lemma JoinGrowFront(c: char, rest: seq<string>, sep: char)
    requires |rest| >= 1
    ensures Join([[c] + rest[0]] + rest[1..], sep) == [c] + Join(rest, sep)
  {
    var r := [[c] + rest[0]] + rest[1..];
    if |rest| > 1 {
      assert r[1..] == rest[1..];
    }
  }

  /** Drops the empty strings at the end, as `String.split` does. */
  function DropTrailingEmpty(pieces: seq<string>): (r: seq<string>)
    ensures |r| <= |pieces| && r == pieces[..|r|]
    ensures r != [] ==> r[|r| - 1] != []
    ensures forall i :: |r| <= i < |pieces| ==> pieces[i] == []
  {
    if pieces == [] then []
    else if pieces[|pieces| - 1] == [] then DropTrailingEmpty(pieces[..|pieces| - 1])
    else pieces
  }

  /** `s.split(String.valueOf(sep))`: the string itself when `sep` does not
      occur, otherwise the pieces with the trailing empty ones dropped. */
  function Split(s: string, sep: char): (r: seq<string>)
    ensures sep !in s ==> r == [s]
    ensures forall i :: 0 <= i < |r| ==> sep !in r[i]
  {
    if sep !in s then [s] else DropTrailingEmpty(Pieces(s, sep))
  }

  /** The characters of the regular-expression class `\s`. */
  predicate IsRegexSpace(c: char) {
    c == ' ' || c == '\t' || c == '\n' || c == '\U{000B}' || c == '\U{000C}' || c == '\r'
  }

  predicate HasRegexSpace(s: string) {
    exists i :: 0 <= i < |s| && IsRegexSpace(s[i])
  }

  /** Every piece of `s` between single `\s` characters, empty ones included. */
  function SpacePieces(s: string): (r: seq<string>)
    ensures |r| >= 1
    ensures forall i, k :: 0 <= i < |r| && 0 <= k < |r[i]| ==> !IsRegexSpace(r[i][k])
    ensures !HasRegexSpace(s) ==> r == [s]
    decreases |s|
  {
    if s == [] then [[]]
    else
      var rest := SpacePieces(s[1..]);
      if IsRegexSpace(s[0]) then [[]] + rest
      else
        assert !HasRegexSpace(s) ==> !HasRegexSpace(s[1..]) by {
          if HasRegexSpace(s[1..]) {
            var i :| 0 <= i < |s[1..]| && IsRegexSpace(s[1..][i]);
            assert IsRegexSpace(s[i + 1]);
          }
        }
        assert [s[0]] + s[1..] == s;
        [[s[0]] + rest[0]] + rest[1..]
  }

  function NonEmpty(pieces: seq<string>): (r: seq<string>)
    ensures forall i :: 0 <= i < |r| ==> r[i] != [] && r[i] in pieces
  {
    if pieces == [] then []
    else if pieces[0] == [] then NonEmpty(pieces[1..])
    else [pieces[0]] + NonEmpty(pieces[1..])
  }

  /** `s.split("\\s+")`: runs of `\s` characters separate the tokens; a
      leading run leaves an empty first token and trailing empty tokens are
      dropped; a string without any `\s` character is its own only token. */
  function SplitOnSpaces(s: string): (r: seq<string>)
    ensures forall i, k :: 0 <= i < |r| && 0 <= k < |r[i]| ==> !IsRegexSpace(r[i][k])
  {
    if !HasRegexSpace(s) then [s]
    else
      var p := SpacePieces(s);
      DropTrailingEmpty([p[0]] + NonEmpty(p[1..]))
  }

  // -------------------------------------------------- decimal conversions

  predicate IsDigit(c: char) {
    '0' <= c <= '9'
  }

  predicate AllDigits(s: string) {
    forall i :: 0 <= i < |s| ==> IsDigit(s[i])
  }

  function DigitChar(d: nat): (c: char)
    requires d < 10
    ensures IsDigit(c) && c as int - '0' as int == d
  {
    ('0' as int + d) as char
  }

  /** The number a string of decimal digits denotes. */
  function DigitsValue(s: string): nat
    requires AllDigits(s)
  {
    if s == [] then 0 else DigitsValue(s[..|s| - 1]) * 10 + (s[|s| - 1] as int - '0' as int)
  }

  /** `Long.toString(n)` for a non-negative `n`: its canonical decimal digits. */
  function NatToString(n: nat): (r: string)
    ensures r != [] && AllDigits(r)
    ensures |r| > 1 ==> r[0] != '0'
  {
    if n < 10 then [DigitChar(n)] else NatToString(n / 10) + [DigitChar(n % 10)]
  }

  /** `Long.toString(n)` / string concatenation of an integer. */
  function IntToString(n: int): (r: string)
    ensures r != []
    ensures n < 0 <==> r[0] == '-'
  {
    if n < 0 then "-" + NatToString(-n) else NatToString(n)
  }

  /** `String.format("%02d", n)`: zero-padded to two characters. */
  function Pad2(n: int): (r: string)
  {
    if 0 <= n < 10 then "0" + NatToString(n) else IntToString(n)
  }

  /** The integer an optionally signed string of decimal digits denotes;
      `None` when `s` is not of that form. */
  function ParseSigned(s: string): (r: Option<int>)
    ensures r.Some? ==> s != [] && (IsDigit(s[0]) || s[0] == '-' || s[0] == '+')
    ensures r.Some? && s[0] == '-' ==> r.value <= 0
    ensures r.Some? && s[0] != '-' ==> r.value >= 0
  {
    if s == [] then None
    else
      var digits := if s[0] == '-' || s[0] == '+' then s[1..] else s;
      if digits == [] || !AllDigits(digits) then None
      else if s[0] == '-' then Some(-(DigitsValue(digits) as int))
      else Some(DigitsValue(digits))
  }

  /** `Integer.parseInt` / `Long.parseLong` with the result range `[lo, hi]`:
      an optional sign, at least one digit, nothing else, and a value in
      range; `None` stands for `NumberFormatException`. */
  function ParseDecimal(s: string, lo: int, hi: int): (r: Option<int>)
    ensures r.Some? ==> lo <= r.value <= hi
    ensures r.Some? <==> ParseSigned(s).Some? && lo <= ParseSigned(s).value <= hi
  {
    match ParseSigned(s)
    case Some(v) => if lo <= v <= hi then Some(v) else None
    case None => None
  }

  function ParseInt(s: string): (r: Option<int>)
    ensures r.Some? ==> IsInt(r.value)
  {
    ParseDecimal(s, INT_MIN, INT_MAX)
  }

  function ParseLong(s: string): (r: Option<int>)
    ensures r.Some? ==> IsLong(r.value)
  {
    ParseDecimal(s, LONG_MIN, LONG_MAX)
  }

  lemma {:induction false} DigitsValueOfNatToString(n: nat)
    ensures DigitsValue(NatToString(n)) == n
  {
    if n >= 10 {
      var s := NatToString(n);
      var p := NatToString(n / 10);
      assert s[..|s| - 1] == p;
      DigitsValueOfNatToString(n / 10);
    }
  }

  /** Parsing the decimal text of any in-range integer gives it back. */
  lemma ParseIntToString(n: int, lo: int, hi: int)
    requires lo <= n <= hi
    ensures ParseDecimal(IntToString(n), lo, hi) == Some(n)
  {
    if n < 0 {
      assert IntToString(n)[1..] == NatToString(-n);
      DigitsValueOfNatToString(-n);
    } else {
      DigitsValueOfNatToString(n);
    }
  }
}

=== FILE: json.dfy ===
/** JSON values and the accessors of Android's `org.json` that the
    application calls.  Numbers are integral; the text of a nested array or
    object is represented by a fixed stand-in (see `Text`). */
module OrgJson {
  import opened Outcomes
  import opened JavaInt
  import opened JavaString

  datatype Json =
    | JNull
    | JBool(b: bool)
    | JNum(n: int)
    | JStr(s: string)
    | JArr(items: seq<Json>)
    | JObj(fields: map<string, Json>)

  /** The members of a `JSONObject`. */
  type Obj = map<string, Json>

  /** The `JSONException`s the accessors throw. */
  datatype JsonError =
    | NoValue(name: string)
    | Mismatch(at: string, actual: Json, required: string)
    | OutOfRange(index: int, size: nat)

  /** The run-time class `typeMismatch` names for a value. */
  function ClassName(v: Json): string {
    match v
    case JNull => "org.json.JSONObject$1"
    case JBool(_) => "java.lang.Boolean"
    case JNum(_) => "java.lang.Integer"
    case JStr(_) => "java.lang.String"
    case JArr(_) => "org.json.JSONArray"
    case JObj(_) => "org.json.JSONObject"
  }

  /** `String.valueOf` of a stored value, as `getString` and `optString`
      return it.  Arrays and objects stand in for their serialised text. */
  function Text(v: Json): (r: string)
    ensures v.JStr? ==> r == v.s
    ensures v.JNull? ==> r == "null"
  {
    match v
    case JNull => "null"
    case JBool(b) => if b then "true" else "false"
    case JNum(n) => IntToString(n)
    case JStr(s) => s
    case JArr(_) => "[...]"
    case JObj(_) => "{...}"
  }

  /** `JSONException.getMessage()`. */
  function Message(e: JsonError): (r: string)
    ensures e.NoValue? ==> r == "No value for " + e.name
  {
    match e
    case NoValue(name) => "No value for " + name
    case Mismatch(at, actual, required) =>
      "Value " + Text(actual) + " at " + at + " of type " + ClassName(actual)
      + " cannot be converted to " + required
    case OutOfRange(i, n) => "Index " + IntToString(i) + " out of range [0.." + IntToString(n) + ")"
  }

  // ------------------------------------------------------------ JSONObject

  /** `name` is present and holds `v`. */
  predicate Holds(o: Obj, name: string, v: Json) {
    name in o && o[name] == v
  }

  /** `get(name)`: the stored value; a missing name throws. */
  function Get(o: Obj, name: string): (r: Result<Json, JsonError>)
    ensures r.Ok? <==> name in o
    ensures r.Ok? ==> r.value == o[name]
    ensures r.Err? ==> r.error == NoValue(name)
  {
    if name in o then Ok(o[name]) else Err(NoValue(name))
  }

  /** `getString(name)`: any stored value is converted to text. */
  function GetString(o: Obj, name: string): (r: Result<string, JsonError>)
    ensures r.Ok? <==> name in o
    ensures r.Ok? ==> r.value == Text(o[name])
    ensures r.Err? ==> r.error == NoValue(name)
  {
    match Get(o, name)
    case Ok(v) => Ok(Text(v))
    case Err(e) => Err(e)
  }

  /** `optString(name, fallback)`: the text of the value, or `fallback` when
      the name is absent (an explicit JSON null reads as "null"). */
  function OptString(o: Obj, name: string, fallback: string): (r: string)
    ensures name !in o ==> r == fallback
    ensures name in o ==> r == Text(o[name])
  {
    if name in o then Text(o[name]) else fallback
  }

  /** The conversion `optBoolean` applies: a boolean, or a string equal to
      "true" or "false" ignoring case. */
  function ToBoolean(v: Json): (r: Option<bool>)
    ensures v.JBool? ==> r == Some(v.b)
    ensures v.JStr? && EqualsIgnoreCase(v.s, "true") ==> r == Some(true)
    ensures !v.JBool? && !v.JStr? ==> r == None
  {
    match v
    case JBool(b) => Some(b)
    case JStr(s) =>
      if EqualsIgnoreCase(s, "true") then Some(true)
      else if EqualsIgnoreCase(s, "false") then Some(false)
      else None
    case _ => None
  }

  function OptBoolean(o: Obj, name: string, fallback: bool): (r: bool)
    ensures name !in o ==> r == fallback
    ensures name in o && o[name].JBool? ==> r == o[name].b
    ensures name in o && ToBoolean(o[name]).None? ==> r == fallback
  {
    if name in o then ToBoolean(o[name]).GetOr(fallback) else fallback
  }

  /** Clamps to the `int` range, as Java's `(int)` cast of a `double` does. */
  function Saturate(x: int): (r: int)
    ensures IsInt(r)
    ensures IsInt(x) ==> r == x
    ensures x > INT_MAX ==> r == INT_MAX
    ensures x < INT_MIN ==> r == INT_MIN
  {
    if x > INT_MAX then INT_MAX else if x < INT_MIN then INT_MIN else x
  }

  /** The conversion `optInt` applies: a number's `intValue()`, or a string
      read by `Double.parseDouble` (after trimming) and cast to `int`. */
  function ToInteger(v: Json): (r: Option<int>)
    ensures r.Some? ==> IsInt(r.value)
    ensures v.JNum? && IsInt(v.n) ==> r == Some(v.n)
    ensures !v.JNum? && !v.JStr? ==> r == None
  {
    match v
    case JNum(n) => Some(WrapInt(n))
    case JStr(s) =>
      (match ParseSigned(Trim(s))
       case Some(x) => Some(Saturate(x))
       case None => None)
    case _ => None
  }

  function OptInt(o: Obj, name: string, fallback: int): (r: int)
    ensures name !in o ==> r == fallback
    ensures name in o && o[name].JNum? && IsInt(o[name].n) ==> r == o[name].n
    ensures name in o && ToInteger(o[name]).None? ==> r == fallback
  {
    if name in o then ToInteger(o[name]).GetOr(fallback) else fallback
  }

  /** `getJSONArray(name)`. */
  function GetArray(o: Obj, name: string): (r: Result<seq<Json>, JsonError>)
    ensures r.Ok? <==> name in o && o[name].JArr?
    ensures r.Ok? ==> r.value == o[name].items
    ensures name !in o ==> r == Err(NoValue(name))
  {
    match Get(o, name)
    case Ok(JArr(items)) => Ok(items)
    case Ok(v) => Err(Mismatch(name, v, "JSONArray"))
    case Err(e) => Err(e)
  }

  /** `getJSONObject(name)`. */
  function GetObject(o: Obj, name: string): (r: Result<Obj, JsonError>)
    ensures r.Ok? <==> name in o && o[name].JObj?
    ensures r.Ok? ==> r.value == o[name].fields
    ensures name !in o ==> r == Err(NoValue(name))
  {
    match Get(o, name)
    case Ok(JObj(fields)) => Ok(fields)
    case Ok(v) => Err(Mismatch(name, v, "JSONObject"))
    case Err(e) => Err(e)
  }

  /** `optJSONObject(name)`: the object stored under `name`, or null. */
  function OptObject(o: Obj, name: string): (r: Option<Obj>)
    ensures r.Some? <==> name in o && o[name].JObj?
    ensures r.Some? ==> r.value == o[name].fields
  {
    if name in o && o[name].JObj? then Some(o[name].fields) else None
  }

  // ------------------------------------------------------------- JSONArray

  /** `JSONArray.get(index)`. */
  function At(a: seq<Json>, i: int): (r: Result<Json, JsonError>)
    ensures r.Ok? <==> 0 <= i < |a|
    ensures r.Ok? ==> r.value == a[i]
  {
    if 0 <= i < |a| then Ok(a[i]) else Err(OutOfRange(i, |a|))
  }

  /** `JSONArray.getJSONObject(index)`. */
  function ObjectAt(a: seq<Json>, i: int): (r: Result<Obj, JsonError>)
    ensures r.Ok? <==> 0 <= i < |a| && a[i].JObj?
    ensures r.Ok? ==> r.value == a[i].fields
  {
    match At(a, i)
    case Ok(JObj(fields)) => Ok(fields)
    case Ok(v) => Err(Mismatch(IntToString(i), v, "JSONObject"))
    case Err(e) => Err(e)
  }

  /** `JSONArray.getString(index)`: any element is converted to text. */
  function StringAt(a: seq<Json>, i: int): (r: Result<string, JsonError>)
    ensures r.Ok? <==> 0 <= i < |a|
    ensures r.Ok? ==> r.value == Text(a[i])
  {
    match At(a, i)
    case Ok(v) => Ok(Text(v))
    case Err(e) => Err(e)
  }

  /** A list of strings as a `JSONArray` of strings. */
  function Strings(xs: seq<string>): (r: seq<Json>)
    ensures |r| == |xs|
    ensures forall i :: 0 <= i < |xs| ==> r[i] == JStr(xs[i])
  {
    seq(|xs|, i requires 0 <= i < |xs| => JStr(xs[i]))
  }

  /** A list of objects as a `JSONArray`, one `put` per object. */
  function Wrap(objs: seq<Obj>): (r: seq<Json>)
    ensures |r| == |objs| && forall i :: 0 <= i < |objs| ==> r[i] == JObj(objs[i])
  {
    seq(|objs|, i requires 0 <= i < |objs| => JObj(objs[i]))
  }

  /** A loading loop of `getJSONObject(i)` over a `JSONArray`, inside a
      `try` around the whole loop: it stops at the first element that is
      not an object, and the objects added before that stay in the list. */
  function ObjectsPrefix(items: seq<Json>): (r: seq<Obj>)
    ensures |r| <= |items|
    ensures forall i :: 0 <= i < |r| ==> items[i] == JObj(r[i])
    ensures |r| < |items| ==> !items[|r|].JObj?
  {
    if items == [] then []
    else match items[0]
      case JObj(o) => [o] + ObjectsPrefix(items[1..])
      case _ => []
  }

  /** A written array reads back whole. */
  lemma {:induction false} ObjectsPrefixWrap(objs: seq<Obj>)
    ensures ObjectsPrefix(Wrap(objs)) == objs
  {
    if objs != [] {
      assert Wrap(objs)[1..] == Wrap(objs[1..]);
      ObjectsPrefixWrap(objs[1..]);
      assert objs == [objs[0]] + objs[1..];
    }
  }

  // ------------------------------------------------------------ documents

  /** Configuration files by the JSON value their text parses to, `None`
      for a file whose text does not parse. */
  type Docs = map<string, Option<Json>>
}

=== FILE: json_logger.dfy ===
/** `JSONLogger`: one JSON object per line, appended to a file per day in
    the agent-results directory.  The clock readings (milliseconds and the
    formatted date and day) are parameters, and the text an entry object
    renders to is given with it. */
module AppLog {
  import opened Outcomes
  import opened OrgJson
  import opened JavaString
  import opened StoragePaths
  import opened FileStore
  import opened SeqLaws

  /** What an entry carries besides its agent and time: a message text
      (`log(agent, message)`) or a JSON object (`log(agent, data)`). */
  datatype Body = Message(text: string) | Data(data: Obj)

  datatype Entry = Entry(agent: string, body: Body, timestamp: int, date: string)

  /** The entry object: agent, the message or data, the milliseconds and
      the formatted date, and no `type` member. */
  function EntryJson(e: Entry): (o: Obj)
    ensures "type" !in o
    ensures |o.Keys| == 4
  {
    var payload := match e.body
      case Message(text) => ("message", JStr(text))
      case Data(data) => ("data", JObj(data));
    map["agent" := JStr(e.agent), payload.0 := payload.1,
        "timestamp" := JNum(e.timestamp), "date" := JStr(e.date)]
  }

  /** A reader of the log gets back every field that was logged. */
  lemma EntryReads(e: Entry)
    ensures OptString(EntryJson(e), "agent", "") == e.agent
    ensures OptString(EntryJson(e), "date", "") == e.date
    ensures Holds(EntryJson(e), "timestamp", JNum(e.timestamp))
    ensures e.body.Message? ==> OptString(EntryJson(e), "message", "") == e.body.text && "data" !in EntryJson(e)
    ensures e.body.Data? ==> OptObject(EntryJson(e), "data") == Some(e.body.data) && "message" !in EntryJson(e)
  {
  }

  /** The log file of a day: `app_log_<day>.jsonl` in the agent-results
      directory. */
  function LogFile(day: string): (p: string)
    ensures StartsWith(p, AgentResultsDir() + "/app_log_")
    ensures EndsWith(p, ".jsonl")
    ensures |p| == |AgentResultsDir()| + |"/app_log_"| + |day| + |".jsonl"|
  {
    AgentResultsDir() + "/app_log_" + day + ".jsonl"
  }

  /** Different days log to different files. */
  lemma LogFileInjective(day1: string, day2: string)
    requires LogFile(day1) == LogFile(day2)
    ensures day1 == day2
  {
    var n := |AgentResultsDir() + "/app_log_"|;
    assert |day1| == |day2|;
    assert day1 == LogFile(day1)[n..n + |day1|];
    assert day2 == LogFile(day2)[n..n + |day2|];
  }

  /** `writeLogEntry`: the entry's text and a line feed are appended to the
      day's file; every other file is left as it was. */
  function Log(fs: Files, day: string, line: string): (r: Files)
    ensures LogFile(day) in r
    ensures StartsWith(r[LogFile(day)], Content(fs, LogFile(day)))
    ensures EndsWith(r[LogFile(day)], line + "\n")
    ensures forall p :: p in fs && p != LogFile(day) ==> p in r && r[p] == fs[p]
    ensures r.Keys == fs.Keys + {LogFile(day)}
  {
    var r := Append(fs, LogFile(day), line + "\n");
    assert r[LogFile(day)] == Content(fs, LogFile(day)) + (line + "\n");
    r
  }

  /** On a log that ends cleanly, logging an entry whose text is one line
      adds exactly that line after the earlier ones, and the log still ends
      cleanly. */
  lemma LogAddsOneLine(fs: Files, day: string, line: string)
    requires '\n' !in line && '\r' !in line
    requires Terminated(Content(fs, LogFile(day)))
    ensures Lines(Log(fs, day, line)[LogFile(day)]) == Lines(Content(fs, LogFile(day))) + [line]
    ensures Terminated(Log(fs, day, line)[LogFile(day)])
  {
    var before := Content(fs, LogFile(day));
    assert Log(fs, day, line)[LogFile(day)] == before + (line + "\n");
    LinesAppend(before, line + "\n");
    LinesOfOne(line);
  }

  /** A log that only `Log` has written to is read back as its entries'
      lines, in the order they were logged. */
  lemma {:induction false} LogReadsBack(fs: Files, day: string, lines: seq<string>)
    requires LogFile(day) !in fs
    requires forall k :: 0 <= k < |lines| ==> '\n' !in lines[k] && '\r' !in lines[k]
    ensures Lines(Content(LogAll(fs, day, lines), LogFile(day))) == lines
    ensures Terminated(Content(LogAll(fs, day, lines), LogFile(day)))
    decreases |lines|
  {
    if lines != [] {
      var init := lines[..|lines| - 1];
      LogReadsBack(fs, day, init);
      LogAddsOneLine(LogAll(fs, day, init), day, lines[|lines| - 1]);
      InitLast(lines);
    }
  }

  /** Logging a sequence of entry texts in order. */
  function LogAll(fs: Files, day: string, lines: seq<string>): (r: Files)
    ensures LogFile(day) !in fs && lines == [] ==> LogFile(day) !in r
    ensures forall p :: p in fs && p != LogFile(day) ==> p in r && r[p] == fs[p]
  {
    if lines == [] then fs else Log(LogAll(fs, day, lines[..|lines| - 1]), day, lines[|lines| - 1])
  }

  // ------------------------------------------------------- messages in order

  /** A message handed to `log(agent, message)`. */
  datatype Said = Said(agent: string, message: string)

  /** The clock readings at one `log` call: the milliseconds, the formatted
      date and the day that names the file. */
  datatype Stamp = Stamp(logged: int, date: string, day: string)

  /** One agent's messages, in order. */
  function SaidBy(agent: string, messages: seq<string>): (r: seq<Said>)
    ensures |r| == |messages|
    ensures forall k :: 0 <= k < |r| ==> r[k] == Said(agent, messages[k])
  {
    seq(|messages|, k requires 0 <= k < |messages| => Said(agent, messages[k]))
  }

  /** The text a message is logged as at the clock reading `t`. */
  function SaidLine(s: Said, t: Stamp, render: Obj -> string): string {
    render(EntryJson(Entry(s.agent, Message(s.message), t.logged, t.date)))
  }

  /** The texts of a run of messages, the k-th read at `clock(k)`. */
  function SaidLines(said: seq<Said>, clock: nat -> Stamp, render: Obj -> string): (r: seq<string>)
    ensures |r| == |said|
    ensures forall k :: 0 <= k < |said| ==> r[k] == SaidLine(said[k], clock(k), render)
  {
    seq(|said|, k requires 0 <= k < |said| => SaidLine(said[k], clock(k), render))
  }

  /** The texts of a run of messages are the texts of all but the last,
      then the last one's. */
  lemma SaidLinesSnoc(said: seq<Said>, clock: nat -> Stamp, render: Obj -> string)
    requires said != []
    ensures SaidLines(said, clock, render)
            == SaidLines(said[..|said| - 1], clock, render) + [SaidLine(said[|said| - 1], clock(|said| - 1), render)]
  {
    var n := |said| - 1;
    var a, b := SaidLines(said, clock, render), SaidLines(said[..n], clock, render) + [SaidLine(said[n], clock(n), render)];
    forall k | 0 <= k < |a| ensures a[k] == b[k] {
      if k < n {
        assert said[..n][k] == said[k];
      }
    }
  }

  lemma Snoc(a: seq<string>, b: seq<string>, c: seq<string>, p: seq<string>, s: seq<string>, line: string)
    requires b == a + p && c == b + [line] && s == p + [line]
    ensures c == a + s
  {
  }

  /** A day's log file, whatever the day. */
  predicate IsLogFile(p: string) {
    StartsWith(p, AgentResultsDir() + "/app_log_")
  }

  /** A file in the agent-results directory whose name does not start
      with a lower-case `a` is no log file. */
  lemma NotLogFile(name: string)
    requires name != [] && name[0] != 'a'
    ensures !IsLogFile(AgentResultsDir() + "/" + name)
  {
    var p := AgentResultsDir() + "/" + name;
    var n := |AgentResultsDir() + "/"|;
    assert p[n] == name[0];
    assert (AgentResultsDir() + "/app_log_")[n] == 'a';
  }

  /** A file outside the agent-results directory is no log file. */
  lemma OutsideResultsNotLogFile(p: string, dir: string)
    requires StartsWith(p, Under(dir) + "/") && dir != [] && dir[0] != 'a'
    ensures !IsLogFile(p)
  {
    var n := |APP_ROOT + "/"|;
    assert p[n] == Under(dir)[n] == dir[0];
    assert (AgentResultsDir() + "/app_log_")[n] == 'a';
  }

  /** `log` called for each message in order, the k-th at the clock
      reading `clock(k)`: only log files change, and no other file
      appears. */
  function LogSaid(fs: Files, said: seq<Said>, clock: nat -> Stamp, render: Obj -> string): (r: Files)
    ensures forall p :: p in fs && !IsLogFile(p) ==> p in r && r[p] == fs[p]
    decreases |said|
  {
    if said == [] then fs
    else
      var n := |said| - 1;
      var before := LogSaid(fs, said[..n], clock, render);
      var r := Log(before, clock(n).day, SaidLine(said[n], clock(n), render));
      assert IsLogFile(LogFile(clock(n).day));
      r
  }

  /** Logging removes no file. */
  lemma {:induction false} LogSaidKeepsFiles(fs: Files, said: seq<Said>, clock: nat -> Stamp, render: Obj -> string)
    ensures forall p :: p in fs ==> p in LogSaid(fs, said, clock, render)
    decreases |said|
  {
    if said != [] {
      LogSaidKeepsFiles(fs, said[..|said| - 1], clock, render);
    }
  }

  /** Logging creates no file but log files. */
  lemma {:induction false} LogSaidAddsOnlyLogs(fs: Files, said: seq<Said>, clock: nat -> Stamp, render: Obj -> string)
    ensures forall p :: p in LogSaid(fs, said, clock, render) && !IsLogFile(p) ==> p in fs
    decreases |said|
  {
    if said != [] {
      var n := |said| - 1;
      LogSaidAddsOnlyLogs(fs, said[..n], clock, render);
      assert IsLogFile(LogFile(clock(n).day));
    }
  }

  /** Messages logged within one day are that day's texts logged in
      order. */
  lemma {:induction false} LogSaidOneDay(fs: Files, said: seq<Said>, clock: nat -> Stamp, day: string,
                                         render: Obj -> string)
    requires forall k :: 0 <= k < |said| ==> clock(k).day == day
    ensures LogSaid(fs, said, clock, render) == LogAll(fs, day, SaidLines(said, clock, render))
    decreases |said|
  {
    if said != [] {
      var n := |said| - 1;
      LogSaidOneDay(fs, said[..n], clock, day, render);
      SaidLinesSnoc(said, clock, render);
      var lines := SaidLines(said, clock, render);
      assert lines[..n] == SaidLines(said[..n], clock, render);
      assert clock(n).day == day;
    }
  }

  /** On a cleanly ended log, messages logged within one day are read back
      as the earlier lines followed by the messages' texts, in order, and
      the log still ends cleanly. */
  lemma LogSaidReadsBack(fs: Files, said: seq<Said>, clock: nat -> Stamp, day: string, render: Obj -> string)
    requires forall o: Obj :: '\n' !in render(o) && '\r' !in render(o)
    requires forall k :: 0 <= k < |said| ==> clock(k).day == day
    requires Terminated(Content(fs, LogFile(day)))
    ensures Lines(Content(LogSaid(fs, said, clock, render), LogFile(day)))
            == Lines(Content(fs, LogFile(day))) + SaidLines(said, clock, render)
    ensures Terminated(Content(LogSaid(fs, said, clock, render), LogFile(day)))
  {
    LogSaidOneDay(fs, said, clock, day, render);
    var lines := SaidLines(said, clock, render);
    forall k | 0 <= k < |lines| ensures '\n' !in lines[k] && '\r' !in lines[k] {
      assert lines[k] == SaidLine(said[k], clock(k), render);
    }
    LogAllAppends(fs, day, lines);
  }

  /** On a cleanly ended log, lines logged in order are read back after the
      earlier ones. */
  lemma {:induction false} LogAllAppends(fs: Files, day: string, lines: seq<string>)
    requires forall k :: 0 <= k < |lines| ==> '\n' !in lines[k] && '\r' !in lines[k]
    requires Terminated(Content(fs, LogFile(day)))
    ensures Lines(Content(LogAll(fs, day, lines), LogFile(day))) == Lines(Content(fs, LogFile(day))) + lines
    ensures Terminated(Content(LogAll(fs, day, lines), LogFile(day)))
    decreases |lines|
  {
    if lines != [] {
      var init, last := lines[..|lines| - 1], lines[|lines| - 1];
      var before := LogAll(fs, day, init);
      LogAllAppends(fs, day, init);
      LogAddsOneLine(before, day, last);
      InitLast(lines);
      assert Content(LogAll(fs, day, lines), LogFile(day)) == Log(before, day, last)[LogFile(day)];
      Snoc(Lines(Content(fs, LogFile(day))), Lines(Content(before, LogFile(day))),
           Lines(Log(before, day, last)[LogFile(day)]), init, lines, last);
    }
  }
}

=== FILE: language.dfy ===
/** `LanguageUtils`: the app's language, kept in the obfuscated setting
    "app_language" and falling back to the language of the default
    locale, and whether it is written right to left.  The default locale
    is state: setting a language also makes it the default. */
module Language {
  import opened Outcomes
  import opened JavaString
  import Prefs

  const LANGUAGE_PREF: string := "app_language"

  /** The settings, and the language of the default locale as
      `Locale.getLanguage()` reports it. */
  datatype Languages = Languages(prefs: Prefs.Prefs, localeLanguage: string)

  /** `new Locale(code).getLanguage()`: the code in lower case, except that
      the three languages whose ISO 639 codes changed are reported under
      their old codes: Hebrew "iw", Yiddish "ji" and Indonesian "in". */
  function LocaleLanguage(code: string): (r: string)
    ensures ToLower(code) == "he" ==> r == "iw"
    ensures ToLower(code) == "yi" ==> r == "ji"
    ensures ToLower(code) == "id" ==> r == "in"
    ensures ToLower(code) !in {"he", "yi", "id"} ==> r == ToLower(code)
  {
    var l := ToLower(code);
    if l == "he" then "iw" else if l == "yi" then "ji" else if l == "id" then "in" else l
  }

  /** Lower-casing twice changes nothing more. */
  lemma ToLowerIdempotent(s: string)
    ensures ToLower(ToLower(s)) == ToLower(s)
  {
    assert forall i :: 0 <= i < |s| ==> LowerChar(LowerChar(s[i])) == LowerChar(s[i]);
  }

  /** A locale made from a reported language reports the same language. */
  lemma LocaleLanguageStable(code: string)
    ensures LocaleLanguage(LocaleLanguage(code)) == LocaleLanguage(code)
  {
    ToLowerIdempotent(code);
    var l := ToLower(code);
    if l in {"he", "yi", "id"} {
      var r := LocaleLanguage(code);
      assert ToLower(r) == r;
      assert r !in {"he", "yi", "id"};
    }
  }

  /** `setAppLanguage`: the code is stored and becomes the default
      locale's language. */
  function SetAppLanguage(u: Languages, code: string): (r: Languages)
    ensures r.localeLanguage == LocaleLanguage(code)
    ensures Prefs.GetString(r.prefs, LANGUAGE_PREF, None) == Some(code)
    ensures forall k :: k != LANGUAGE_PREF ==> Prefs.GetString(r.prefs, k, None) == Prefs.GetString(u.prefs, k, None)
  {
    Prefs.PutGetString(u.prefs, LANGUAGE_PREF, Some(code), None);
    Languages(Prefs.PutString(u.prefs, LANGUAGE_PREF, Some(code)), LocaleLanguage(code))
  }

  /** `getCurrentLanguage`: the stored code, else the default locale's
      language. */
  function CurrentLanguage(u: Languages): (r: string)
    ensures LANGUAGE_PREF !in u.prefs.store ==> r == u.localeLanguage
    ensures LANGUAGE_PREF in u.prefs.store ==> Some(r) == Prefs.GetString(u.prefs, LANGUAGE_PREF, None)
  {
    Prefs.GetString(u.prefs, LANGUAGE_PREF, Some(u.localeLanguage)).value
  }

  /** A set language is the current one, exactly as given. */
  lemma SetThenCurrent(u: Languages, code: string)
    ensures CurrentLanguage(SetAppLanguage(u, code)) == code
  {
    Prefs.PutGetString(u.prefs, LANGUAGE_PREF, Some(code), Some(u.localeLanguage));
  }

  /** `isRTL` as written: the current language is exactly "ar", "he" or
      "fa". */
  function IsRtlAsWritten(u: Languages): bool {
    var l := CurrentLanguage(u);
    l == "ar" || l == "he" || l == "fa"
  }

  /** With nothing stored and a Hebrew default locale, the language read
      is "iw", which `isRTL` as written does not recognise. */
  lemma HebrewLocaleNotRtlAsWritten(p: Prefs.Prefs)
    requires LANGUAGE_PREF !in p.store
    ensures CurrentLanguage(Languages(p, LocaleLanguage("he"))) == "iw"
    ensures !IsRtlAsWritten(Languages(p, LocaleLanguage("he")))
  {
    assert ToLower("he") == "he";
  }

  /** The right-to-left languages, Hebrew under both of its codes. */
  predicate RightToLeft(l: string) {
    l == "ar" || l == "he" || l == "iw" || l == "fa"
  }

  /** `isRTL` as intended: the current language is Arabic, Hebrew or
      Persian, however the locale reports it.  The comparison stays case
      sensitive, as in the source. */
  function IsRtl(u: Languages): (r: bool)
    ensures r <==> RightToLeft(CurrentLanguage(u))
  {
    RightToLeft(CurrentLanguage(u))
  }

  /** Arabic, Hebrew and Persian are right to left when set in the app. */
  lemma RtlWhenSet(u: Languages, code: string)
    requires code in {"ar", "he", "fa"}
    ensures IsRtl(SetAppLanguage(u, code)) && IsRtlAsWritten(SetAppLanguage(u, code))
  {
    SetThenCurrent(u, code);
  }

  /** The codes are matched exactly: "AR" is not right to left. */
  lemma UpperCaseNotRtl(u: Languages)
    ensures !IsRtl(SetAppLanguage(u, "AR")) && !IsRtlAsWritten(SetAppLanguage(u, "AR"))
  {
    SetThenCurrent(u, "AR");
  }

  /** Arabic, Hebrew and Persian are right to left when nothing is stored
      and the default locale is in that language. */
  lemma RtlFromLocale(p: Prefs.Prefs, code: string)
    requires code in {"ar", "he", "fa"} && LANGUAGE_PREF !in p.store
    ensures IsRtl(Languages(p, LocaleLanguage(code)))
  {
    assert ToLower(code) == code;
  }

  /** Where the code is stored, both versions agree. */
  lemma StoredCodesAgree(u: Languages, code: string)
    requires code != "iw"
    ensures IsRtl(SetAppLanguage(u, code)) == IsRtlAsWritten(SetAppLanguage(u, code))
  {
    SetThenCurrent(u, code);
  }
}

=== FILE: list_adapter.dfy ===
/** What the list adapters of the screens share: a backing list that
    `updateList` clears and then refills from the list it is given, an item
    count, and click callbacks that reach a listener only when one is
    set.  Whether the adapter's list is the caller's own list or a copy is
    an argument, since that is what decides the outcome of a refill. */
module ListAdapter {
  import opened Outcomes

  /** `updateList(x)`: `clear()` on the backing list, then `addAll(x)`.
      `sameList` says that `x` is the backing list itself, so that the
      clear has already emptied it by the time it is read. */
  function UpdateList<T>(backing: seq<T>, x: seq<T>, sameList: bool): (r: seq<T>)
    requires sameList ==> x == backing
    ensures !sameList ==> r == x
    ensures sameList ==> r == []
  {
    var cleared: seq<T> := [];
    var added := if sameList then cleared else x;
    cleared + added
  }

  /** `updateList(x)` of an adapter that treats a `null` list as empty. */
  function UpdateListOrNull<T>(backing: seq<T>, x: Option<seq<T>>, sameList: bool): (r: seq<T>)
    requires sameList ==> x == Some(backing)
    ensures x.None? ==> r == []
    ensures x.Some? && !sameList ==> r == x.value
    ensures sameList ==> r == []
  {
    match x
    case None => []
    case Some(xs) => UpdateList(backing, xs, sameList)
  }

  /** A click on the item at `position`: the listener receives the
      position when one is set, and nothing happens otherwise. */
  function Click(hasListener: bool, position: int): (r: Option<int>)
    ensures r.Some? <==> hasListener
    ensures r.Some? ==> r.value == position
  {
    if hasListener then Some(position) else None
  }
}

=== FILE: media_utils.dfy ===
/** `MediaUtils`' arithmetic: the clock text of a duration, the
    human-readable size of a file, and the power-of-two down-sampling
    factor used before decoding a bitmap.  `FileUtils.formatFileSize` and
    the agents' private `formatDuration` copies are the same code and are
    modelled by the same functions. */
module MediaUtils {
  import opened Outcomes
  import opened JavaInt
  import opened JavaString

  // ---------------------------------------------------------------- durations

  /** `formatDuration(durationMs)`: whole seconds, minutes and hours by
      truncating division, seconds and minutes reduced modulo 60, shown as
      `HH:MM:SS` when there is at least one hour and as `MM:SS` otherwise,
      each field zero-padded to two digits. */
  function FormatDuration(durationMs: int): (r: string)
    requires IsLong(durationMs)
    ensures |r| >= 5
  {
    var seconds := Quot(durationMs, 1000);
    var minutes := Quot(seconds, 60);
    var hours := Quot(minutes, 60);
    var s, m := Rem(seconds, 60), Rem(minutes, 60);
    Pad2Length(hours);
    Pad2Length(m);
    Pad2Length(s);
    if hours > 0 then Pad2(hours) + ":" + Pad2(m) + ":" + Pad2(s) else Pad2(m) + ":" + Pad2(s)
  }

  lemma Pad2Length(n: int)
    ensures |Pad2(n)| >= 2
  {
    if n < 0 || n >= 10 {
      assert n <= -1 || n >= 10;
      assert |NatToString(if n < 0 then -n else n)| >= 1;
      if n >= 10 {
        assert NatToString(n) == NatToString(n / 10) + [DigitChar(n % 10)];
      }
    }
  }

  /** The clock text of a non-negative duration reads back as its whole
      seconds, is five characters long exactly below one hour, and has its
      colons where `[H:]MM:SS` puts them. */
  lemma FormatDurationReadsBack(durationMs: int)
    requires IsLong(durationMs)
    ensures var r := FormatDuration(durationMs);
            durationMs >= 0 ==>
              ClockSeconds(r) == durationMs / 1000
              && (|r| == 5 <==> durationMs < 3_600_000)
              && r[|r| - 3] == ':' && (|r| > 5 ==> |r| >= 8 && r[|r| - 6] == ':')
  {
    if durationMs >= 0 {
      var seconds := Quot(durationMs, 1000);
      var minutes := Quot(seconds, 60);
      var hours := Quot(minutes, 60);
      ClockOfFields(hours, Rem(minutes, 60), Rem(seconds, 60), FormatDuration(durationMs));
    }
  }

  /** The seconds a `[H:]MM:SS` clock text denotes, reading the last two
      digits as seconds, the two before the colon as minutes and anything
      before the second colon as hours. */
  function ClockSeconds(r: string): int {
    if |r| < 5 || !AllDigits(r[|r| - 2..]) || !AllDigits(r[|r| - 5..|r| - 3]) then 0
    else
      var hours := if |r| > 5 && AllDigits(r[..|r| - 6]) then DigitsValue(r[..|r| - 6]) else 0;
      3600 * hours + 60 * DigitsValue(r[|r| - 5..|r| - 3]) + DigitsValue(r[|r| - 2..])
  }

  /** A field printed with `%02d` reads back as itself. */
  lemma Pad2Value(n: nat)
    ensures AllDigits(Pad2(n)) && DigitsValue(Pad2(n)) == n && |Pad2(n)| >= 2
    ensures n < 100 ==> |Pad2(n)| == 2
  {
    DigitsValueOfNatToString(n);
    if n < 10 {
      assert Pad2(n) == ['0', DigitChar(n)];
      assert Pad2(n)[..1] == "0";
    } else {
      assert NatToString(n) == NatToString(n / 10) + [DigitChar(n % 10)];
      assert |NatToString(n / 10)| >= 1;
      if n < 100 {
        assert NatToString(n / 10) == [DigitChar(n / 10)];
      }
    }
  }

  lemma ClockOfFields(hours: int, m: int, s: int, r: string)
    requires 0 <= hours && 0 <= m < 60 && 0 <= s < 60
    requires r == if hours > 0 then Pad2(hours) + ":" + Pad2(m) + ":" + Pad2(s) else Pad2(m) + ":" + Pad2(s)
    ensures ClockSeconds(r) == 3600 * hours + 60 * m + s
    ensures |r| == 5 <==> hours == 0
    ensures |r| >= 5 && r[|r| - 3] == ':' && (|r| > 5 ==> |r| >= 8 && r[|r| - 6] == ':')
  {
    MinutesSeconds(m, s);
    var t := Pad2(m) + ":" + Pad2(s);
    if hours > 0 {
      assert r == Pad2(hours) + ":" + t;
      HoursMinutesSeconds(hours, t);
    }
  }

  lemma MinutesSeconds(m: int, s: int)
    requires 0 <= m < 60 && 0 <= s < 60
    ensures var t := Pad2(m) + ":" + Pad2(s);
            |t| == 5 && t[2] == ':' && ClockSeconds(t) == 60 * m + s
            && AllDigits(t[3..]) && DigitsValue(t[3..]) == s && AllDigits(t[..2]) && DigitsValue(t[..2]) == m
  {
    Pad2Value(m);
    Pad2Value(s);
    var t := Pad2(m) + ":" + Pad2(s);
    assert t[3..] == Pad2(s) && t[..2] == Pad2(m);
  }

  lemma HoursMinutesSeconds(hours: int, t: string)
    requires hours > 0 && |t| == 5 && t[2] == ':' && AllDigits(t[3..]) && AllDigits(t[..2])
    ensures var r := Pad2(hours) + ":" + t;
            |r| >= 8 && r[|r| - 3] == ':' && r[|r| - 6] == ':'
            && ClockSeconds(r) == 3600 * hours + 60 * DigitsValue(t[..2]) + DigitsValue(t[3..])
  {
    Pad2Value(hours);
    var h := Pad2(hours);
    var r := h + ":" + t;
    assert r[|r| - 2..] == t[3..];
    assert r[|r| - 5..|r| - 3] == t[..2];
    assert r[..|r| - 6] == h;
  }

  /** The clock text of a non-negative duration is its whole seconds split
      into hours, minutes below 60 and seconds below 60. */
  lemma DurationFields(durationMs: int)
    requires IsLong(durationMs) && durationMs >= 0
    ensures var total := durationMs / 1000;
            FormatDuration(durationMs) ==
              if total >= 3600 then Pad2(total / 3600) + ":" + Pad2(total / 60 % 60) + ":" + Pad2(total % 60)
              else Pad2(total / 60) + ":" + Pad2(total % 60)
  {
    var total := durationMs / 1000;
    assert total / 60 / 60 == total / 3600;
  }

  // ---------------------------------------------------------------- file size

  const KB: int := 1024
  const MB: int := 1024 * 1024
  const GB: int := 1024 * 1024 * 1024

  /** `formatFileSize(size)`: bytes below 1 KiB, then the largest of KiB,
      MiB and GiB the size reaches, each a truncated quotient. */
  function FormatFileSize(size: int): (r: string)
    requires IsLong(size)
  {
    if size < KB then IntToString(size) + " B"
    else if size < MB then IntToString(size / KB) + " KB"
    else if size < GB then IntToString(size / MB) + " MB"
    else IntToString(size / GB) + " GB"
  }

  datatype SizeUnit = Bytes | Kilobytes | Megabytes | Gigabytes {
    function Scale(): int {
      match this
      case Bytes => 1
      case Kilobytes => KB
      case Megabytes => MB
      case Gigabytes => GB
    }

    function Suffix(): string {
      match this
      case Bytes => " B"
      case Kilobytes => " KB"
      case Megabytes => " MB"
      case Gigabytes => " GB"
    }
  }

  /** Reads a size text back as a number and a unit. */
  function ShownSize(r: string): Option<(int, SizeUnit)> {
    if EndsWith(r, " KB") then ShownAs(r, Kilobytes)
    else if EndsWith(r, " MB") then ShownAs(r, Megabytes)
    else if EndsWith(r, " GB") then ShownAs(r, Gigabytes)
    else if EndsWith(r, " B") then ShownAs(r, Bytes)
    else None
  }

  function ShownAs(r: string, u: SizeUnit): Option<(int, SizeUnit)>
    requires EndsWith(r, u.Suffix())
  {
    match ParseLong(r[..|r| - |u.Suffix()|])
    case Some(n) => Some((n, u))
    case None => None
  }

  lemma ShownAsNumber(n: int, u: SizeUnit)
    requires IsLong(n)
    ensures EndsWith(IntToString(n) + u.Suffix(), u.Suffix())
    ensures ShownAs(IntToString(n) + u.Suffix(), u) == Some((n, u))
  {
    var r := IntToString(n) + u.Suffix();
    assert r[..|r| - |u.Suffix()|] == IntToString(n);
    assert r[|r| - |u.Suffix()|..] == u.Suffix();
    ParseIntToString(n, LONG_MIN, LONG_MAX);
  }

  /** The unit `formatFileSize` picks for `size`. */
  function UnitOf(size: int): SizeUnit {
    if size < KB then Bytes else if size < MB then Kilobytes else if size < GB then Megabytes else Gigabytes
  }

  lemma FloorQuotient(size: int, d: int)
    requires size >= 0 && d > 0
    ensures (size / d) * d <= size < (size / d + 1) * d
  {
  }

  /** The size text names a unit the size reaches (or bytes) and below
      which the next unit starts, and the number shown is the size in that
      unit rounded down. */
  lemma FileSizeShown(size: int)
    requires IsLong(size)
    ensures ShownSize(FormatFileSize(size)).Some?
    ensures var (n, u) := ShownSize(FormatFileSize(size)).value;
            u == UnitOf(size)
            && (size >= 0 ==> n * u.Scale() <= size < (n + 1) * u.Scale())
            && (u != Bytes ==> size >= u.Scale())
            && (u != Gigabytes ==> size < KB * u.Scale())
            && (u == Bytes ==> n == size)
  {
    var u := UnitOf(size);
    var n := if u == Bytes then size else size / u.Scale();
    assert FormatFileSize(size) == IntToString(n) + u.Suffix();
    ShownAsNumber(n, u);
    var r := FormatFileSize(size);
    assert r[|r| - 2] == u.Suffix()[|u.Suffix()| - 2];
    assert ShownSize(r) == Some((n, u));
    if size >= 0 {
      FloorQuotient(size, u.Scale());
    }
  }

  // ------------------------------------------------------------- sample size

  function Pow2(k: nat): (p: nat)
    ensures p >= 1
  {
    if k == 0 then 1 else 2 * Pow2(k - 1)
  }

  lemma {:induction false} Pow2Sum(a: nat, b: nat)
    ensures Pow2(a + b) == Pow2(a) * Pow2(b)
    decreases a
  {
    if a > 0 {
      Pow2Sum(a - 1, b);
    }
  }

  /** The largest number of doublings that stays a positive `int`. */
  const TOP: nat := 30

  lemma Pow2Thirty()
    ensures Pow2(TOP) == 0x4000_0000
  {
    assert Pow2(1) == 2;
    assert Pow2(2) == 4;
    assert Pow2(3) == 8;
    assert Pow2(4) == 16;
    assert Pow2(5) == 32;
    Pow2Sum(5, 5);
    Pow2Sum(10, 10);
    Pow2Sum(20, 10);
  }

  lemma {:induction false} Pow2Monotone(k: nat, n: nat)
    requires k <= n
    ensures Pow2(k) <= Pow2(n)
    decreases n
  {
    if k < n {
      Pow2Monotone(k, n - 1);
    }
  }

  /** The loop test of `calculateInSampleSize` for factor `s`. */
  function LoopTest(halfHeight: int, halfWidth: int, reqHeight: int, reqWidth: int): int -> bool {
    (s: int) => s != 0 && Quot(halfHeight, s) >= reqHeight && Quot(halfWidth, s) >= reqWidth
  }

  /** The factor after `k` doublings in `int` arithmetic: 2^k up to 2^30,
      then the wrapped 2^31, then 0. */
  function Factor(k: nat): (s: int)
    ensures IsInt(s)
    ensures k <= TOP ==> s == Pow2(k) && 1 <= s <= 0x4000_0000
    ensures k <= TOP + 1 <==> s != 0
  {
    if k <= TOP then Pow2Monotone(k, TOP); Pow2Thirty(); Pow2(k)
    else if k == TOP + 1 then INT_MIN
    else 0
  }

  /** `inSampleSize *= 2` in `int` arithmetic steps from one factor to the
      next. */
  lemma Doubled(k: nat)
    ensures WrapInt(2 * Factor(k)) == Factor(k + 1)
  {
    if k < TOP {
      assert 2 * Factor(k) == Factor(k + 1);
    } else if k == TOP {
      Pow2Thirty();
      assert 2 * Factor(k) == 0x8000_0000;
      assert WrapInt(0x8000_0000) == INT_MIN;
    } else if k == TOP + 1 {
      assert WrapInt(2 * INT_MIN) == 0;
    }
  }

  /** The reference search: the first factor, from the `k`-th on, that
      fails the loop test `go`; `None` when the factor wraps to 0 first,
      where Java's division by zero throws. */
  function Search(go: int -> bool, k: nat): (r: Option<int>)
    requires k <= 31
    ensures r.Some? ==> !go(r.value)
    decreases 31 - k
  {
    if !go(Factor(k)) then Some(Factor(k))
    else if k == 31 then None
    else Search(go, k + 1)
  }

  /** `calculateInSampleSize(options, reqWidth, reqHeight)`: 1 when the
      image already fits, else the doubling loop; `None` stands for the
      `ArithmeticException` of a factor that has wrapped to 0. */
  method InSampleSize(height: int, width: int, reqWidth: int, reqHeight: int) returns (r: Option<int>)
    requires IsInt(height) && IsInt(width)
    ensures !(height > reqHeight || width > reqWidth) ==> r == Some(1)
    ensures height > reqHeight || width > reqWidth ==>
              r == Search(LoopTest(Quot(height, 2), Quot(width, 2), reqHeight, reqWidth), 0)
  {
    r := Some(1);
    if height > reqHeight || width > reqWidth {
      var halfHeight, halfWidth := Quot(height, 2), Quot(width, 2);
      var go := LoopTest(halfHeight, halfWidth, reqHeight, reqWidth);
      var s, k := 1, 0;
      while go(s)
        invariant k <= 31 && s == Factor(k)
        invariant Search(go, 0) == Search(go, k)
        decreases 31 - k
      {
        if k == 31 {
          r := None;
          return;
        }
        Doubled(k);
        s, k := WrapInt(2 * s), k + 1;
      }
      r := Some(s);
    }
  }

  /** While the test holds up to 2^30 and fails there at the latest, the
      search ends on a power of two. */
  /** The exponent of the first power of two, from `2^k` to `2^top`, at
      which the test `go` fails; `top` when it holds all the way. */
  function FirstStop(go: int -> bool, k: nat, top: nat): (n: nat)
    requires k <= top
    ensures k <= n <= top
    decreases top - k
  {
    if k == top || !go(Pow2(k)) then k else FirstStop(go, k + 1, top)
  }

  lemma {:induction false} SearchPowers(go: int -> bool, k: nat, top: nat)
    requires k <= top == TOP && !go(Pow2(top))
    ensures Search(go, k) == Some(Pow2(FirstStop(go, k, top)))
    decreases top - k
  {
    if k < top && go(Pow2(k)) {
      SearchPowers(go, k + 1, top);
    }
  }

  /** `FirstStop` is where the test first fails: it holds at every
      earlier exponent, and fails at the stop itself unless it held all the
      way to `top`. */
  lemma {:induction false} FirstStopIsFirst(go: int -> bool, k: nat, top: nat, j: nat)
    requires k <= top
    ensures k <= j < FirstStop(go, k, top) ==> go(Pow2(j))
    ensures !go(Pow2(top)) ==> !go(Pow2(FirstStop(go, k, top)))
    decreases top - k
  {
    if k < top && go(Pow2(k)) {
      FirstStopIsFirst(go, k + 1, top, j);
    }
  }

  lemma HalfBelow(x: int)
    requires IsInt(x)
    ensures Quot(x, 2) < 0x4000_0000
  {
  }

  lemma QuotBelow(a: int, d: int)
    requires 0 < d && a < d
    ensures Quot(a, d) <= 0
  {
  }

  /** With positive requested dimensions the factor never wraps: the loop
      ends on the least power of two, at most 2^30, at which either half
      dimension divided by it falls below the request. */
  lemma SampleIsLeastPowerOfTwo(height: int, width: int, reqWidth: int, reqHeight: int)
    requires IsInt(height) && IsInt(width) && reqHeight > 0 && reqWidth > 0
    ensures var go := LoopTest(Quot(height, 2), Quot(width, 2), reqHeight, reqWidth);
            var n := FirstStop(go, 0, TOP);
            Search(go, 0) == Some(Pow2(n)) && !go(Pow2(n))
  {
    var go := LoopTest(Quot(height, 2), Quot(width, 2), reqHeight, reqWidth);
    Pow2Thirty();
    HalfBelow(height);
    QuotBelow(Quot(height, 2), Pow2(TOP));
    SearchPowers(go, 0, TOP);
    FirstStopIsFirst(go, 0, TOP, 0);
  }

  // ------------------------------------------------------------ video facts

  /** What the metadata retriever yields for a video path: nothing when the
      data source cannot be set, else each queried key, `None` for a key the
      file does not carry. */
  datatype VideoMetadata =
    | Unreadable
    | Readable(duration: Option<string>, width: Option<string>, height: Option<string>)

  /** `getVideoDuration`: the clock text of the duration key, `"00:00"` when
      the source is unreadable, the key is missing or does not parse as a
      `long`. */
  function VideoDuration(m: VideoMetadata): (r: string)
    ensures m.Readable? && m.duration.Some? && ParseLong(m.duration.value).Some? && ParseLong(m.duration.value).value >= 0
            ==> ClockSeconds(r) == ParseLong(m.duration.value).value / 1000
    ensures !(m.Readable? && m.duration.Some? && ParseLong(m.duration.value).Some?) ==> r == "00:00"
  {
    if m.Unreadable? || m.duration.None? then "00:00"
    else match ParseLong(m.duration.value)
      case None => "00:00"
      case Some(ms) => FormatDurationReadsBack(ms); FormatDuration(ms)
  }

  /** `getVideoResolution`: `width + "x" + height` when both keys are
      present, `"Unknown"` (which holds no `x`) otherwise; the two texts can
      be read back around the separator. */
  function VideoResolution(m: VideoMetadata): (r: string)
    ensures 'x' in r <==> m.Readable? && m.width.Some? && m.height.Some?
    ensures m.Readable? && m.width.Some? && m.height.Some? ==>
              var w, h := m.width.value, m.height.value;
              |r| == |w| + 1 + |h| && r[..|w|] == w && r[|w|] == 'x' && r[|w| + 1..] == h
  {
    if m.Readable? && m.width.Some? && m.height.Some? then m.width.value + "x" + m.height.value
    else "Unknown"
  }
}

=== FILE: model_validator.dfy ===
/** `ModelValidatorAgent.validateModel`: one test request to a configured
    model, chosen by the model's type, and one log entry with the verdict.
    The inference client is a parameter (what `requestModel` returns for an
    endpoint, a key and a body), and so are the clock readings and the
    serialisation of JSON objects. */
module ModelValidator {
  import opened Outcomes
  import opened JavaString
  import opened OrgJson
  import opened FileStore
  import AppLog
  import HFClient

  const LOG_AGENT: string := "ModelValidator"

  // ---------------------------------------------------------------- request

  /** The test text for each model type. */
  function TestInput(kind: string): (r: string)
    ensures kind == "text" ==> r == "Hello, how are you?"
    ensures kind == "image" ==> r == "A simple test image"
    ensures kind == "audio" ==> r == "Test audio generation"
    ensures kind != "text" && kind != "image" && kind != "audio" ==> r == "Test input"
  {
    match kind
    case "text" => "Hello, how are you?"
    case "image" => "A simple test image"
    case "audio" => "Test audio generation"
    case _ => "Test input"
  }

  /** `createTestPayload(type)`: the test text, and for a text model a
      generation bound of 10 new tokens (the temperature is floating point
      and not represented). */
  function TestPayload(kind: string): Obj {
    var base := map["inputs" := JStr(TestInput(kind))];
    if kind == "text" then base["parameters" := JObj(map["max_new_tokens" := JNum(10)])] else base
  }

  /** The model reads the test text back from the body, and only a text
      model is given generation parameters. */
  lemma TestPayloadReads(kind: string)
    ensures OptString(TestPayload(kind), "inputs", "") == TestInput(kind)
    ensures OptObject(TestPayload(kind), "parameters").Some? <==> kind == "text"
    ensures kind == "text" ==> OptInt(OptObject(TestPayload(kind), "parameters").value, "max_new_tokens", 0) == 10
  {
  }

  /** The key sent with the test request: the stored key when the model
      says it needs one and has one, and the empty text otherwise. */
  function ApiKey(model: Obj): (k: string)
    ensures OptBoolean(model, "requires_api_key", false) && "api_key" in model ==> k == Text(model["api_key"])
    ensures !(OptBoolean(model, "requires_api_key", false) && "api_key" in model) ==> k == ""
  {
    if OptBoolean(model, "requires_api_key", false) && "api_key" in model then GetString(model, "api_key").value
    else ""
  }

  // ---------------------------------------------------------------- verdict

  /** What a validation comes to: the verdict and the message logged with
      it. */
  datatype Validation = Validation(valid: bool, message: string)

  /** The message of a validation that threw. */
  function Failure(e: JsonError): string {
    "Error validating model: " + Message(e)
  }

  /** `validateModel(model)`: a model without an endpoint or a type is
      invalid without any request; otherwise it is valid exactly when the
      client returns a response to the test request. */
  function Validate(model: Obj, client: (string, string, Obj) -> Option<Obj>): (v: Validation)
    ensures v.valid <==> "endpoint" in model && "type" in model
                         && client(Text(model["endpoint"]), ApiKey(model), TestPayload(Text(model["type"]))).Some?
    ensures "endpoint" !in model ==> v.message == Failure(NoValue("endpoint"))
    ensures "endpoint" in model && "type" !in model ==> v.message == Failure(NoValue("type"))
  {
    if "endpoint" !in model then Validation(false, Failure(NoValue("endpoint")))
    else if "type" !in model then Validation(false, Failure(NoValue("type")))
    else if client(Text(model["endpoint"]), ApiKey(model), TestPayload(Text(model["type"]))).Some? then
      Validation(true, "Model validated successfully")
    else Validation(false, "Failed to get response from model")
  }

  /** A reachable model's verdict depends only on the client's answer, and
      the message says which way it went. */
  lemma VerdictMessages(model: Obj, client: (string, string, Obj) -> Option<Obj>)
    requires "endpoint" in model && "type" in model
    ensures Validate(model, client).valid ==> Validate(model, client).message == "Model validated successfully"
    ensures !Validate(model, client).valid ==> Validate(model, client).message == "Failed to get response from model"
  {
  }

  // -------------------------------------------------------------------- log

  /** The first of the fields the log entry copies that the model lacks. */
  function MissingField(model: Obj): (r: Option<string>)
    ensures r.None? <==> "id" in model && "name" in model && "type" in model && "endpoint" in model
    ensures r.Some? ==> r.value !in model
  {
    if "id" !in model then Some("id")
    else if "name" !in model then Some("name")
    else if "type" !in model then Some("type")
    else if "endpoint" !in model then Some("endpoint")
    else None
  }

  /** The object of `logValidationResult`, for a model that has all four
      copied fields. */
  function ValidationEntry(model: Obj, v: Validation, now: int): Obj
    requires MissingField(model).None?
  {
    map["model_id" := JStr(Text(model["id"])), "model_name" := JStr(Text(model["name"])),
        "model_type" := JStr(Text(model["type"])), "endpoint" := JStr(Text(model["endpoint"])),
        "is_valid" := JBool(v.valid), "message" := JStr(v.message), "timestamp" := JNum(now)]
  }

  /** The entry records the verdict and its message. */
  lemma ValidationEntryReads(model: Obj, v: Validation, now: int)
    requires MissingField(model).None?
    ensures OptBoolean(ValidationEntry(model, v, now), "is_valid", !v.valid) == v.valid
    ensures OptString(ValidationEntry(model, v, now), "message", "") == v.message
    ensures OptString(ValidationEntry(model, v, now), "model_id", "") == Text(model["id"])
  {
  }

  /** The message handed to the logger: the entry's text, or, when the
      model lacks a copied field, the text of the error that stopped the
      entry. */
  function LogMessage(model: Obj, v: Validation, now: int, render: Obj -> string): (m: string)
    ensures MissingField(model).None? ==> m == render(ValidationEntry(model, v, now))
    ensures MissingField(model).Some? ==>
              m == "Error logging validation result: No value for " + MissingField(model).value
  {
    match MissingField(model)
    case None => render(ValidationEntry(model, v, now))
    case Some(name) => "Error logging validation result: " + Message(NoValue(name))
  }

  /** Whether the test request is sent: the model has an endpoint and a
      type. */
  predicate Requested(model: Obj) {
    "endpoint" in model && "type" in model
  }

  /** The messages one validation logs: the client's lines (`clientLog`,
      what `HFClient.RequestModel` logged) when the test request was sent,
      then the validation's own entry. */
  function Logged(model: Obj, client: (string, string, Obj) -> Option<Obj>, clientLog: seq<string>, now: int,
                  render: Obj -> string): (r: seq<AppLog.Said>)
    ensures |r| == (if Requested(model) then |clientLog| else 0) + 1
    ensures r[|r| - 1] == AppLog.Said(LOG_AGENT, LogMessage(model, Validate(model, client), now, render))
    ensures Requested(model) ==> forall k :: 0 <= k < |clientLog| ==> r[k] == AppLog.Said(HFClient.LOG_AGENT, clientLog[k])
  {
    var own := AppLog.Said(LOG_AGENT, LogMessage(model, Validate(model, client), now, render));
    (if Requested(model) then AppLog.SaidBy(HFClient.LOG_AGENT, clientLog) else []) + [own]
  }

  /** `validateModel` with its log: the verdict, and the log with the
      client's lines and the validation's entry appended, the k-th message
      at the clock reading `clock(k)`; `now` is the entry's own
      timestamp. */
  function ValidateModel(fs: Files, model: Obj, client: (string, string, Obj) -> Option<Obj>, clientLog: seq<string>,
                         now: int, clock: nat -> AppLog.Stamp, render: Obj -> string): (r: (bool, Files))
    ensures r.0 == Validate(model, client).valid
    ensures r.1 == AppLog.LogSaid(fs, Logged(model, client, clientLog, now, render), clock, render)
    ensures forall p :: p in fs && !AppLog.IsLogFile(p) ==> p in r.1 && r.1[p] == fs[p]
  {
    (Validate(model, client).valid, AppLog.LogSaid(fs, Logged(model, client, clientLog, now, render), clock, render))
  }

  /** Within one day, a validation appends to a cleanly ended log the
      client's lines when a request was sent and then exactly one entry of
      its own, the verdict's; a model without an endpoint or a type adds
      that one line only. */
  lemma ValidationLogLines(fs: Files, model: Obj, client: (string, string, Obj) -> Option<Obj>, clientLog: seq<string>,
                           now: int, clock: nat -> AppLog.Stamp, day: string, render: Obj -> string)
    requires forall o: Obj :: '\n' !in render(o) && '\r' !in render(o)
    requires forall k :: 0 <= k <= |clientLog| ==> clock(k).day == day
    requires Terminated(Content(fs, AppLog.LogFile(day)))
    ensures var said := Logged(model, client, clientLog, now, render);
            var after := ValidateModel(fs, model, client, clientLog, now, clock, render).1;
            Lines(Content(after, AppLog.LogFile(day)))
            == Lines(Content(fs, AppLog.LogFile(day))) + AppLog.SaidLines(said, clock, render)
    ensures var after := ValidateModel(fs, model, client, clientLog, now, clock, render).1;
            |Lines(Content(after, AppLog.LogFile(day)))|
            == |Lines(Content(fs, AppLog.LogFile(day)))| + (if Requested(model) then |clientLog| + 1 else 1)
  {
    var said := Logged(model, client, clientLog, now, render);
    AppLog.LogSaidReadsBack(fs, said, clock, day, render);
  }

  /** A model without a type is never valid, whatever the client would
      answer, and its log line is the error text of the missing type. */
  lemma UntypedModelInvalid(model: Obj, client: (string, string, Obj) -> Option<Obj>, now: int, render: Obj -> string)
    requires "type" !in model
    ensures !Validate(model, client).valid
    ensures "endpoint" in model ==> Validate(model, client).message == "Error validating model: No value for type"
    ensures "id" in model && "name" in model ==>
              LogMessage(model, Validate(model, client), now, render)
              == "Error logging validation result: No value for type"
  {
  }
}

=== FILE: models_manager.dfy ===
/** The model manager (`ModelsManagerActivity` and its fragment twin, with
    `ModelsAdapter`): the AI models the application may call, kept as JSON
    objects in "models_default.json" in the configuration directory, added,
    edited, deleted and tested by position.

    The screen's list holds references to the objects, and the adapter holds
    a copy of that list made when the screen opened: the copy shares the
    objects (so a status change shows), but not later additions or
    deletions.  The objects are therefore kept in a store (`heap`) indexed
    by reference, and both lists are lists of references. */
module ModelsManager {
  import opened Outcomes
  import opened JavaString
  import opened OrgJson
  import StoragePaths

  function ModelsFile(): string {
    StoragePaths.ConfigDir() + "/models_default.json"
  }

  // ------------------------------------------------------------ the records

  /** The texts of the add and edit dialogs as entered: the type and the
      category come from spinners, the rest from text fields. */
  datatype Draft = Draft(name: string, id: string, endpoint: string, apiKey: string,
                         kind: string, category: string, description: string)

  /** The dialogs refuse a draft whose name, id or endpoint trims to
      nothing. */
  predicate Accepts(d: Draft) {
    !IsBlank(d.name) && !IsBlank(d.id) && !IsBlank(d.endpoint)
  }

  /** The keys a dialog writes. */
  const FIELD_KEYS: set<string> :=
    {"name", "id", "endpoint", "api_key", "type", "category", "description", "requires_api_key", "status"}

  /** What the dialog hands on: the text fields trimmed, the spinner
      choices as they are. */
  function Trimmed(d: Draft): (f: Draft)
    ensures f.kind == d.kind && f.category == d.category
    ensures f.apiKey == [] <==> IsBlank(d.apiKey)
  {
    Draft(Trim(d.name), Trim(d.id), Trim(d.endpoint), Trim(d.apiKey), d.kind, d.category, Trim(d.description))
  }

  /** The puts of a confirmed dialog with fields `f`: the texts, whether a
      key was given, and a status reset to "untested"; other members are
      kept. */
  function PutFields(o: Obj, f: Draft): Obj {
    o["name" := JStr(f.name)]["id" := JStr(f.id)]["endpoint" := JStr(f.endpoint)]
     ["api_key" := JStr(f.apiKey)]["type" := JStr(f.kind)]["category" := JStr(f.category)]
     ["description" := JStr(f.description)]["requires_api_key" := JBool(f.apiKey != [])]
     ["status" := JStr("untested")]
  }

  /** The texts read back as handed on. */
  lemma PutFieldsTexts(o: Obj, f: Draft)
    ensures Holds(PutFields(o, f), "name", JStr(f.name))
    ensures Holds(PutFields(o, f), "id", JStr(f.id))
    ensures Holds(PutFields(o, f), "endpoint", JStr(f.endpoint))
    ensures Holds(PutFields(o, f), "api_key", JStr(f.apiKey))
    ensures Holds(PutFields(o, f), "description", JStr(f.description))
  {
  }

  /** The spinner choices read back as chosen, the key flag says whether a
      key was given, and the status is reset. */
  lemma PutFieldsChoices(o: Obj, f: Draft)
    ensures Holds(PutFields(o, f), "type", JStr(f.kind))
    ensures Holds(PutFields(o, f), "category", JStr(f.category))
    ensures Holds(PutFields(o, f), "requires_api_key", JBool(f.apiKey != []))
    ensures Holds(PutFields(o, f), "status", JStr("untested"))
  {
  }

  /** No member outside the dialog's keys is touched. */
  lemma PutFieldsKeeps(o: Obj, f: Draft)
    ensures PutFields(o, f).Keys == o.Keys + FIELD_KEYS
    ensures forall k :: k in o && k !in FIELD_KEYS ==> PutFields(o, f)[k] == o[k]
  {
  }

  /** A new model: the dialog's puts on an empty object. */
  function NewModel(d: Draft): Obj {
    PutFields(map[], Trimmed(d))
  }

  /** The two models written when there is no configuration file. */
  function HuggingFaceDefault(): Obj {
    map["id" := JStr("huggingface-default"), "name" := JStr("Hugging Face Default"), "type" := JStr("text"),
        "endpoint" := JStr("https://api-inference.huggingface.co/models/"), "requires_api_key" := JBool(true),
        "description" := JStr("Default Hugging Face model"), "category" := JStr("text"),
        "status" := JStr("untested")]
  }

  function GeminiDefault(): Obj {
    map["id" := JStr("gemini-pro"), "name" := JStr("Gemini Pro"), "type" := JStr("text"),
        "endpoint" := JStr("https://generativelanguage.googleapis.com/v1beta/models/"),
        "requires_api_key" := JBool(true), "description" := JStr("Google's Gemini Pro model"),
        "category" := JStr("text"), "status" := JStr("untested")]
  }

  function DefaultModels(): seq<Obj> {
    [HuggingFaceDefault(), GeminiDefault()]
  }

  /** A default is an untested text model that needs a key and has none. */
  predicate UntestedTextModel(o: Obj) {
    Holds(o, "status", JStr("untested")) && Holds(o, "requires_api_key", JBool(true))
    && Holds(o, "type", JStr("text")) && "api_key" !in o
  }

  lemma HuggingFaceShape()
    ensures UntestedTextModel(HuggingFaceDefault())
    ensures HuggingFaceDefault()["id"] == JStr("huggingface-default")
  {
  }

  lemma GeminiShape()
    ensures UntestedTextModel(GeminiDefault())
    ensures GeminiDefault()["id"] == JStr("gemini-pro")
  {
  }

  /** Both defaults are untested text models that need a key, under
      different ids. */
  lemma DefaultsShape()
    ensures |DefaultModels()| == 2
    ensures forall o :: o in DefaultModels() ==> UntestedTextModel(o)
    ensures DefaultModels()[0]["id"] != DefaultModels()[1]["id"]
  {
    HuggingFaceShape();
    GeminiShape();
    assert |"huggingface-default"| != |"gemini-pro"|;
  }

  // ------------------------------------------------------------ the screen

  /** The objects by reference, the screen's list, the adapter's copy, and
      the configuration files by parsed value. */
  datatype Screen = Screen(heap: seq<Obj>, models: seq<nat>, shown: seq<nat>, docs: Docs)

  /** Every reference names a stored object, and the screen's list holds
      each object once. */
  predicate Wf(s: Screen) {
    (forall i :: 0 <= i < |s.models| ==> s.models[i] < |s.heap|)
    && (forall i :: 0 <= i < |s.shown| ==> s.shown[i] < |s.heap|)
    && (forall i, j :: 0 <= i < j < |s.models| ==> s.models[i] != s.models[j])
  }

  /** The models, in list order. */
  function Objects(s: Screen): (r: seq<Obj>)
    requires Wf(s)
    ensures |r| == |s.models|
  {
    seq(|s.models|, i requires 0 <= i < |s.models| => s.heap[s.models[i]])
  }

  /** The rows of the list view, in order. */
  function Rows(s: Screen): (r: seq<Obj>)
    requires Wf(s)
    ensures |r| == |s.shown|
  {
    seq(|s.shown|, i requires 0 <= i < |s.shown| => s.heap[s.shown[i]])
  }

  function Range(n: nat): (r: seq<nat>)
    ensures |r| == n && forall i :: 0 <= i < n ==> r[i] == i
  {
    seq(n, i requires 0 <= i < n => i)
  }

  /** A screen holding `objs`, with the adapter's copy made. */
  function FromObjects(objs: seq<Obj>, docs: Docs): (s: Screen)
    ensures Wf(s) && Objects(s) == objs && Rows(s) == objs && s.docs == docs
  {
    Screen(objs, Range(|objs|), Range(|objs|), docs)
  }

  /** `saveModels`: the array of the models, in list order. */
  function Save(s: Screen): (r: Screen)
    requires Wf(s)
    ensures Wf(r) && r.heap == s.heap && r.models == s.models && r.shown == s.shown
    ensures ModelsFile() in r.docs && r.docs[ModelsFile()] == Some(JArr(Wrap(Objects(s))))
    ensures forall p :: p != ModelsFile() && p in s.docs ==> p in r.docs && r.docs[p] == s.docs[p]
  {
    s.(docs := s.docs[ModelsFile() := Some(JArr(Wrap(Objects(s))))])
  }

  /** `loadModels`, then the adapter: the defaults, saved, when there is
      no file; the objects of the array when there is one; an empty list
      when the text is not a JSON array (the exception is caught). */
  function Open(docs: Docs): (s: Screen)
    ensures Wf(s) && Rows(s) == Objects(s)
    ensures ModelsFile() !in docs ==>
              Objects(s) == DefaultModels() && s.docs == docs[ModelsFile() := Some(JArr(Wrap(DefaultModels())))]
    ensures ModelsFile() in docs ==> s.docs == docs
    ensures ModelsFile() in docs && !(docs[ModelsFile()].Some? && docs[ModelsFile()].value.JArr?) ==> Objects(s) == []
  {
    if ModelsFile() !in docs then Save(FromObjects(DefaultModels(), docs))
    else match docs[ModelsFile()]
      case Some(JArr(items)) => FromObjects(ObjectsPrefix(items), docs)
      case _ => FromObjects([], docs)
  }

  /** Reopening after a save finds the same models in the same order. */
  lemma SaveThenOpen(s: Screen)
    requires Wf(s)
    ensures Objects(Open(Save(s).docs)) == Objects(s)
  {
    var docs := Save(s).docs;
    assert docs[ModelsFile()] == Some(JArr(Wrap(Objects(s))));
    ObjectsPrefixWrap(Objects(s));
    assert Open(docs) == FromObjects(Objects(s), docs);
  }

  /** The first start writes the two defaults, and the next start reads
      them back. */
  lemma FirstStartThenReopen(docs: Docs)
    requires ModelsFile() !in docs
    ensures Objects(Open(Open(docs).docs)) == DefaultModels()
  {
    ObjectsPrefixWrap(DefaultModels());
  }

  // ------------------------------------------------------------ list edits

  /** Storing a new object and appending its reference appends the object. */
  lemma AppendObject(s: Screen, o: Obj)
    requires Wf(s)
    ensures var t := s.(heap := s.heap + [o], models := s.models + [|s.heap|]);
            Wf(t) && Objects(t) == Objects(s) + [o] && Rows(t) == Rows(s)
  {
    var t := s.(heap := s.heap + [o], models := s.models + [|s.heap|]);
    assert Wf(t);
    assert Objects(t) == Objects(s) + [o];
    assert Rows(t) == Rows(s);
  }

  /** Replacing the object of the model at `p` replaces that model only. */
  lemma ReplaceObject(s: Screen, p: nat, o: Obj)
    requires Wf(s) && p < |s.models|
    ensures var t := s.(heap := s.heap[s.models[p] := o]);
            Wf(t) && Objects(t) == Objects(s)[p := o]
  {
    var t := s.(heap := s.heap[s.models[p] := o]);
    assert Objects(t) == Objects(s)[p := o];
  }

  /** The positive button of the add dialog: a refused draft changes
      nothing; an accepted one is appended as a new object and the list is
      saved.  The adapter's copy is not touched. */
  function Add(s: Screen, d: Draft): (r: Screen)
    requires Wf(s)
    ensures Wf(r)
    ensures !Accepts(d) ==> r == s
    ensures Accepts(d) ==> Objects(r) == Objects(s) + [NewModel(d)] && Rows(r) == Rows(s)
    ensures Accepts(d) ==> ModelsFile() in r.docs && r.docs[ModelsFile()] == Some(JArr(Wrap(Objects(r))))
  {
    if !Accepts(d) then s
    else
      var added := s.(heap := s.heap + [NewModel(d)], models := s.models + [|s.heap|]);
      AppendObject(s, NewModel(d));
      Save(added)
  }

  /** A new model records whether a key was given and starts untested. */
  lemma NewModelShape(d: Draft)
    ensures Holds(NewModel(d), "requires_api_key", JBool(!IsBlank(d.apiKey)))
    ensures Holds(NewModel(d), "status", JStr("untested"))
    ensures NewModel(d).Keys == FIELD_KEYS
  {
    PutFieldsChoices(map[], Trimmed(d));
    PutFieldsKeeps(map[], Trimmed(d));
  }

  /** The edit dialog only opens for a model that has a name, id, endpoint,
      description, type and category: it reads them with `getString`. */
  predicate EditOpens(o: Obj) {
    "name" in o && "id" in o && "endpoint" in o && "description" in o && "type" in o && "category" in o
  }

  /** The positive button of the edit dialog for the model at `p`: the
      dialog's puts on that object, then a save. */
  function Edit(s: Screen, p: nat, d: Draft): (r: Screen)
    requires Wf(s) && p < |s.models|
    ensures Wf(r) && r.models == s.models && r.shown == s.shown && |r.heap| == |s.heap|
    ensures !(EditOpens(Objects(s)[p]) && Accepts(d)) ==> r == s
    ensures EditOpens(Objects(s)[p]) && Accepts(d) ==>
              Objects(r) == Objects(s)[p := PutFields(Objects(s)[p], Trimmed(d))]
              && ModelsFile() in r.docs && r.docs[ModelsFile()] == Some(JArr(Wrap(Objects(r))))
  {
    var o := s.heap[s.models[p]];
    if !(EditOpens(o) && Accepts(d)) then s
    else
      var edited := s.(heap := s.heap[s.models[p] := PutFields(o, Trimmed(d))]);
      ReplaceObject(s, p, PutFields(o, Trimmed(d)));
      Save(edited)
  }

  /** The options dialog and the delete dialog both read the model's name
      with `getString`: without one they never open. */
  predicate DeleteOpens(o: Obj) {
    "name" in o
  }

  /** The delete dialog's confirmation: the model at `p` leaves the list,
      which is saved; a model without a name cannot be deleted. */
  function Delete(s: Screen, p: nat): (r: Screen)
    requires Wf(s) && p < |s.models|
    ensures Wf(r) && r.heap == s.heap && r.shown == s.shown
    ensures !DeleteOpens(Objects(s)[p]) ==> r == s
    ensures DeleteOpens(Objects(s)[p]) ==> Objects(r) == Objects(s)[..p] + Objects(s)[p + 1..]
    ensures DeleteOpens(Objects(s)[p]) ==> ModelsFile() in r.docs && r.docs[ModelsFile()] == Some(JArr(Wrap(Objects(r))))
  {
    if !DeleteOpens(s.heap[s.models[p]]) then s
    else
    var deleted := s.(models := s.models[..p] + s.models[p + 1..]);
    assert Objects(deleted) == Objects(s)[..p] + Objects(s)[p + 1..];
    Save(deleted)
  }

  // --------------------------------------------------------------- testing

  /** The status text a verdict is recorded as. */
  function Verdict(valid: bool): string {
    if valid then "valid" else "invalid"
  }

  /** `put("status", status)` on the model at `p`; nothing is saved. */
  function SetStatus(s: Screen, p: nat, status: string): (r: Screen)
    requires Wf(s) && p < |s.models|
    ensures Wf(r) && r.models == s.models && r.shown == s.shown && r.docs == s.docs && |r.heap| == |s.heap|
    ensures Objects(r) == Objects(s)[p := Objects(s)[p]["status" := JStr(status)]]
    ensures forall k :: 0 <= k < |s.heap| && k != s.models[p] ==> r.heap[k] == s.heap[k]
  {
    s.(heap := s.heap[s.models[p] := s.heap[s.models[p]]["status" := JStr(status)]])
  }

  /** A model once tested: "testing" while the validator runs on it, then
      its verdict. */
  function Tested(o: Obj, valid: Obj -> bool): Obj {
    o["status" := JStr(Verdict(valid(o["status" := JStr("testing")])))]
  }

  /** `TestModelTask` for the model at `p`: the status is "testing" before
      the validator runs and the verdict after; the validator's own
      failures come back as `false`.  `valid` is `ModelValidator.Validate`
      with its HTTP client. */
  function TestModel(s: Screen, p: nat, valid: Obj -> bool): (r: Screen)
    requires Wf(s) && p < |s.models|
    ensures Wf(r) && r.models == s.models && r.shown == s.shown && r.docs == s.docs
    ensures Objects(r) == Objects(s)[p := Tested(Objects(s)[p], valid)]
  {
    var o := Objects(s)[p];
    var started := SetStatus(s, p, "testing");
    var v := Verdict(valid(Objects(started)[p]));
    assert o["status" := JStr("testing")]["status" := JStr(v)] == o["status" := JStr(v)];
    SetStatus(started, p, v)
  }

  /** The status a test leaves is the verdict, and it is never "testing"
      again, so the row's test button comes back. */
  lemma TestLifecycle(s: Screen, p: nat, valid: Obj -> bool)
    requires Wf(s) && p < |s.models|
    ensures Holds(Objects(SetStatus(s, p, "testing"))[p], "status", JStr("testing"))
    ensures !Row(Objects(SetStatus(s, p, "testing"))[p]).testEnabled
    ensures var o := Objects(TestModel(s, p, valid))[p];
            (Holds(o, "status", JStr("valid")) || Holds(o, "status", JStr("invalid"))) && Row(o).testEnabled
  {
  }

  /** `TestAllModelsTask`: every model in list order goes through the same
      test; nothing is saved. */
  method TestAll(s: Screen, valid: Obj -> bool) returns (r: Screen)
    requires Wf(s)
    ensures Wf(r) && r.models == s.models && r.shown == s.shown && r.docs == s.docs
    ensures forall i :: 0 <= i < |s.models| ==> Objects(r)[i] == Tested(Objects(s)[i], valid)
  {
    r := s;
    var i := 0;
    while i < |s.models|
      invariant 0 <= i <= |s.models|
      invariant Wf(r) && r.models == s.models && r.shown == s.shown && r.docs == s.docs
      invariant forall j :: 0 <= j < i ==> Objects(r)[j] == Tested(Objects(s)[j], valid)
      invariant forall j :: i <= j < |s.models| ==> Objects(r)[j] == Objects(s)[j]
    {
      r := TestModel(r, i, valid);
      i := i + 1;
    }
  }

  /** `getSpinnerPosition`: the first item equal to `value`, or 0 when
      there is none. */
  method SpinnerPosition(items: seq<string>, value: string) returns (pos: nat)
    ensures value in items ==> pos < |items| && items[pos] == value
    ensures forall j :: 0 <= j < pos && j < |items| ==> items[j] != value
    ensures value !in items ==> pos == 0
  {
    var i := 0;
    while i < |items|
      invariant 0 <= i <= |items|
      invariant forall j :: 0 <= j < i ==> items[j] != value
    {
      if items[i] == value {
        return i;
      }
      i := i + 1;
    }
    return 0;
  }

  // ---------------------------------------------------------------- adapter

  /** What a row shows: the name ("Unnamed" when missing), type and
      category ("" when missing), the status ("unknown" when missing), and
      whether the test button is enabled. */
  datatype RowView = RowView(name: string, kind: string, category: string, status: string, testEnabled: bool)

  function Row(o: Obj): (v: RowView)
    ensures "name" !in o ==> v.name == "Unnamed"
    ensures "status" !in o ==> v.status == "unknown" && v.testEnabled
    ensures v.testEnabled <==> !("status" in o && Text(o["status"]) == "testing")
  {
    var status := OptString(o, "status", "unknown");
    RowView(OptString(o, "name", "Unnamed"), OptString(o, "type", ""), OptString(o, "category", ""),
            status, status != "testing")
  }

  /** A click on row `position` of the list view: the screen looks the
      model up in its own list, which throws when the row is stale. */
  function ClickRow(s: Screen, position: nat): (r: Option<Obj>)
    requires Wf(s) && position < |Rows(s)|
    ensures r.Some? <==> position < |s.models|
    ensures r.Some? ==> r.value == Objects(s)[position]
  {
    if position < |s.models| then Some(Objects(s)[position]) else None
  }

  /** The adapter shares the objects: a status set through the screen's
      list shows in the row of the same model. */
  lemma StatusShowsThroughCopy(s: Screen, p: nat, status: string)
    requires Wf(s) && p < |s.models| && p < |s.shown| && s.shown[p] == s.models[p]
    ensures Rows(SetStatus(s, p, status))[p] == Objects(SetStatus(s, p, status))[p]
  {
  }

  /** As written, the list view keeps the rows it was given: after the
      first of the two default models is deleted, two rows remain, and a
      click on the second one throws. */
  lemma StaleRowAfterDelete(docs: Docs)
    requires ModelsFile() !in docs
    ensures |Rows(Delete(Open(docs), 0))| == 2
    ensures ClickRow(Delete(Open(docs), 0), 1).None?
  {
  }

  /** As written, a model added to the list gets no row. */
  lemma AddedModelNotShown(s: Screen, d: Draft)
    requires Wf(s) && Accepts(d)
    ensures |Rows(Add(s, d))| == |Rows(s)|
    ensures |Objects(Add(s, d))| == |Objects(s)| + 1
  {
  }

  /** `updateData(modelsList)`: the adapter takes a fresh copy of the
      screen's list. */
  function Refresh(s: Screen): (r: Screen)
    requires Wf(s)
    ensures Wf(r) && Rows(r) == Objects(r) && Objects(r) == Objects(s)
  {
    s.(shown := s.models)
  }

  /** Delete followed by the refresh the screen needs. */
  function DeleteAndRefresh(s: Screen, p: nat): (r: Screen)
    requires Wf(s) && p < |s.models|
    ensures Wf(r) && Rows(r) == Objects(r)
    ensures DeleteOpens(Objects(s)[p]) ==> Objects(r) == Objects(s)[..p] + Objects(s)[p + 1..]
    ensures !DeleteOpens(Objects(s)[p]) ==> Objects(r) == Objects(s)
  {
    Refresh(Delete(s, p))
  }

  /** Add followed by the refresh. */
  function AddAndRefresh(s: Screen, d: Draft): (r: Screen)
    requires Wf(s)
    ensures Wf(r) && Rows(r) == Objects(r)
    ensures Accepts(d) ==> Rows(r) == Objects(s) + [NewModel(d)]
  {
    Refresh(Add(s, d))
  }

  /** With the refresh, every row stands for the model at its position, so
      no click can throw. */
  lemma RefreshedRowsClickable(s: Screen, position: nat)
    requires Wf(s) && position < |Rows(Refresh(s))|
    ensures ClickRow(Refresh(s), position) == Some(Objects(s)[position])
  {
  }
}

=== FILE: orchestrator.dfy ===
/** `OrchestratorAgent.process`: five generation steps run in a fixed order
    (analyse the prompt, write a script, make images, make audio, assemble
    the video) and the first step whose result lacks `success == true` ends
    the run.  The model client is an input: the response to the analysis
    request, the response to the script request, whether each image and
    audio request returned a response, and whether the assembly wait was
    interrupted.  Every step is a pure function of these inputs, so the run
    is the fail-fast prefix of the five step results.  Its files are
    modelled apart (`Leaves`): the app-log lines, the script saved under
    the shared project and the record `logResult` writes.

    Requests and step messages are kept as small datatypes and rendered to
    JSON and text by separate functions, so that reasoning about the run
    never has to look at the texts. */
module Orchestrator {
  import opened Outcomes
  import opened JavaString
  import opened OrgJson
  import opened ModelEnvelope
  import opened ScriptText
  import opened FailFast
  import FileStore
  import StoragePaths
  import AppLog

  const MODELS: string := "https://api-inference.huggingface.co/models/"
  const TEXT_MODEL: string := MODELS + "microsoft/DialoGPT-medium"
  const IMAGE_MODEL: string := MODELS + "stabilityai/stable-diffusion-2"
  const AUDIO_MODEL: string := MODELS + "facebook/musicgen-small"

  /** `getDefaultModelEndpoint(type)`: "image" and "audio" get their own
      model and every other category the text model. */
  function DefaultModelEndpoint(category: string): (r: string)
    ensures StartsWith(r, MODELS)
    ensures r == IMAGE_MODEL <==> category == "image"
    ensures r == AUDIO_MODEL <==> category == "audio"
    ensures r == TEXT_MODEL <==> category != "image" && category != "audio"
  {
    if category == "image" then IMAGE_MODEL
    else if category == "audio" then AUDIO_MODEL
    else TEXT_MODEL
  }

  // ---------------------------------------------------------------- requests

  /** A call of the inference client, by purpose. */
  datatype Request =
    | AnalysisRequest(prompt: string)
    | ScriptRequest(prompt: string, analysis: Option<Obj>)
    | ImageRequest(description: string)
    | AudioRequest(line: string)
  {
    /** The model the request goes to. */
    function Endpoint(): string {
      match this
      case AnalysisRequest(_) => DefaultModelEndpoint("text")
      case ScriptRequest(_, _) => DefaultModelEndpoint("text")
      case ImageRequest(_) => DefaultModelEndpoint("image")
      case AudioRequest(_) => DefaultModelEndpoint("audio")
    }

    /** The text sent as `inputs`. */
    function Inputs(): string {
      match this
      case AnalysisRequest(prompt) => "Analyze this prompt and extract key information: " + prompt
      case ScriptRequest(prompt, analysis) => ScriptPrompt(prompt, analysis)
      case ImageRequest(description) => description
      case AudioRequest(line) => line
    }

    /** The request body; the text requests also bound the generated length. */
    function Payload(): Obj {
      match this
      case AnalysisRequest(_) =>
        map["inputs" := JStr(Inputs()), "parameters" := JObj(map["max_new_tokens" := JNum(100)])]
      case ScriptRequest(_, _) =>
        map["inputs" := JStr(Inputs()), "parameters" := JObj(map["max_new_tokens" := JNum(500)])]
      case _ => map["inputs" := JStr(Inputs())]
    }
  }

  /** The script request text, with the analysis text when there is one. */
  function ScriptPrompt(prompt: string, analysis: Option<Obj>): (r: string)
    ensures StartsWith(r, "Generate a script based on this prompt: " + prompt)
    ensures EndsWith(r, "\n\nGenerate a script with scenes, dialogue, and descriptions.")
  {
    var head := "Generate a script based on this prompt: " + prompt;
    var middle := if analysis.Some? then "\nAnalysis: " + OptString(analysis.value, "text", "") else "";
    var tail := "\n\nGenerate a script with scenes, dialogue, and descriptions.";
    var r := head + middle + tail;
    assert r[..|head|] == head;
    assert r[|r| - |tail|..] == tail;
    r
  }

  /** Each request goes to the model of its kind and sends its text as
      `inputs`; only the two text requests carry a length bound. */
  lemma RequestShape(q: Request)
    ensures q.Endpoint() == (if q.ImageRequest? then IMAGE_MODEL else if q.AudioRequest? then AUDIO_MODEL else TEXT_MODEL)
    ensures Holds(q.Payload(), "inputs", JStr(q.Inputs()))
    ensures "parameters" in q.Payload() <==> q.AnalysisRequest? || q.ScriptRequest?
    ensures q.ImageRequest? ==> q.Inputs() == q.description
    ensures q.AudioRequest? ==> q.Inputs() == q.line
  {
  }

  // ------------------------------------------------------------------ steps

  /** The five steps, in the order `process` runs them. */
  datatype StepKind = Analyze | Script | Images | Audio | Assemble {

    /** The `step_id` of the step's result. */
    function Id(): string {
      match this
      case Analyze => "analyze_prompt"
      case Script => "generate_script"
      case Images => "generate_images"
      case Audio => "generate_audio"
      case Assemble => "assemble_video"
    }

    /** The words the run's failure message uses for the step. */
    function Label(): string {
      match this
      case Analyze => "analyze prompt"
      case Script => "generate script"
      case Images => "generate images"
      case Audio => "generate audio"
      case Assemble => "assemble video"
    }

    /** The member holding what the step produced. */
    function DataKey(): string {
      match this
      case Analyze => "analysis"
      case Script => "script"
      case Images => "images"
      case Audio => "audio"
      case Assemble => "output_path"
    }

    /** The message of a successful step. */
    function DoneText(): string {
      match this
      case Analyze => "Prompt analyzed successfully"
      case Script => "Script generated successfully"
      case Images => "Images generated successfully"
      case Audio => "Audio generated successfully"
      case Assemble => "Video assembled successfully"
    }

    /** What the message of a step that threw starts with. */
    function ErrorPrefix(): string {
      match this
      case Analyze => "Error analyzing prompt: "
      case Script => "Error generating script: "
      case Images => "Error generating images: "
      case Audio => "Error generating audio: "
      case Assemble => "Error assembling video: "
    }
  }

  const STEP_ORDER: seq<StepKind> := [Analyze, Script, Images, Audio, Assemble]

  /** The identifiers are distinct, so a step result names its step. */
  lemma StepIdsDistinct(a: StepKind, b: StepKind)
    ensures a.Id() == b.Id() ==> a == b
  {
    if a != b {
      assert a.Id()[|a.Id()| - 1] != b.Id()[|b.Id()| - 1] || a.Id()[9] != b.Id()[9];
    }
  }

  /** The message a step sets. */
  datatype Note =
    | Finished             // the step's success message
    | Unanswered           // the model returned nothing
    | Threw(error: JsonError)
    | Interrupted          // the assembly wait was interrupted

  function NoteText(kind: StepKind, n: Note): string {
    match n
    case Finished => kind.DoneText()
    case Unanswered => "Failed to get response from model"
    case Threw(e) => kind.ErrorPrefix() + Message(e)
    case Interrupted => "Video assembly interrupted"
  }

  /** A step's result: whether it succeeded, the message it set (if any)
      and the member it produced (if any). */
  datatype StepResult = StepResult(kind: StepKind, success: bool, note: Option<Note>, data: Option<Json>) {
    function Message(): Option<string> {
      if note.Some? then Some(NoteText(kind, note.value)) else None
    }
  }

  /** The step's `JSONObject`. */
  function StepJson(s: StepResult): Obj {
    var o := map["step_id" := JStr(s.kind.Id()), "success" := JBool(s.success)];
    var o := if s.note.Some? then o["message" := JStr(NoteText(s.kind, s.note.value))] else o;
    if s.data.Some? then o[s.kind.DataKey() := s.data.value] else o
  }

  /** `optJSONObject(<data key>)` of a step's result, read off the typed
      fields. */
  function DataObject(s: StepResult): (r: Option<Obj>)
    ensures r.Some? <==> s.data.Some? && s.data.value.JObj?
  {
    if s.data.Some? && s.data.value.JObj? then Some(s.data.value.fields) else None
  }

  /** Reading a step's object back with the accessors `process` uses gives
      the step's typed fields. */
  lemma StepJsonReads(s: StepResult, fallback: string)
    ensures Holds(StepJson(s), "step_id", JStr(s.kind.Id()))
    ensures OptBoolean(StepJson(s), "success", false) == s.success
    ensures OptString(StepJson(s), "message", fallback) == s.Message().GetOr(fallback)
    ensures OptObject(StepJson(s), s.kind.DataKey()) == DataObject(s)
  {
    var k := s.kind.DataKey();
    assert k != "step_id" && k != "success" && k != "message" by {
      assert k[0] == 'a' || k[0] == 's' || k[0] == 'i' || k[0] == 'o';
      assert k[0] == 's' ==> k[1] == 'c';
    }
  }

  /** A step's requests and result. */
  datatype StepRun = StepRun(result: StepResult, requests: seq<Request>)

  /** The test `step.optBoolean("success", false)` (see `StepJsonReads`). */
  predicate StepOk(s: StepRun) {
    s.result.success
  }

  /** The result of a step that reads one model response: success exactly
      when the response carries text; otherwise the message says why, except
      that a "0" member of the wrong shape sets no message. */
  function EnvelopeStep(kind: StepKind, reading: Reading, data: Json): (s: StepResult)
    ensures s.kind == kind
    ensures s.success <==> reading.Generated?
    ensures reading.Generated? ==> s.note == Some(Finished) && s.data == Some(data)
    ensures reading.NoResponse? ==> s.note == Some(Unanswered)
    ensures reading.BadFormat? ==> s.note == None
    ensures reading.Broken? ==> s.note == Some(Threw(reading.error))
    ensures !reading.Generated? ==> s.data == None
  {
    match reading
    case NoResponse => StepResult(kind, false, Some(Unanswered), None)
    case BadFormat => StepResult(kind, false, None, None)
    case Broken(e) => StepResult(kind, false, Some(Threw(e)), None)
    case Generated(_) => StepResult(kind, true, Some(Finished), Some(data))
  }

  // --------------------------------------------------------- analyse prompt

  /** The analysis object: the generated text, the prompt's keywords and a
      fixed sentiment. */
  function AnalysisObject(text: string, prompt: string): Obj {
    map["text" := JStr(text),
        "keywords" := JArr(Strings(ExtractKeywords(prompt))),
        "sentiment" := JStr("neutral")]
  }

  /** `analyzePrompt`: one request to the text model; the analysis carries
      the generated text. */
  function AnalyzePrompt(prompt: string, reading: Reading): (s: StepRun)
    ensures s.requests == [AnalysisRequest(prompt)]
    ensures s.result.kind == Analyze
    ensures s.result.success <==> reading.Generated?
    ensures reading.Generated? ==> s.result.data == Some(JObj(AnalysisObject(reading.text, prompt)))
  {
    var data := if reading.Generated? then JObj(AnalysisObject(reading.text, prompt)) else JNull;
    StepRun(EnvelopeStep(Analyze, reading, data), [AnalysisRequest(prompt)])
  }

  // --------------------------------------------------------- generate script

  /** One `{description}` object per scene description. */
  function SceneObjects(descriptions: seq<string>): (r: seq<Json>)
    ensures |r| == |descriptions|
    ensures forall i :: 0 <= i < |r| ==> r[i] == JObj(map["description" := JStr(descriptions[i])])
  {
    seq(|descriptions|, i requires 0 <= i < |descriptions| =>
      JObj(map["description" := JStr(descriptions[i])]))
  }

  /** The script object of a generated text: the text, its scenes and its
      dialogue. */
  function ScriptObject(text: string): Obj {
    map["text" := JStr(text),
        "scenes" := JArr(SceneObjects(ExtractScenes(text))),
        "dialogue" := JArr(Strings(ExtractDialogue(text)))]
  }

  /** `generateScript`: one request to the text model; the script object
      holds the generated text with its scenes and dialogue. */
  function GenerateScript(prompt: string, analysis: Option<Obj>, reading: Reading): (s: StepRun)
    ensures s.requests == [ScriptRequest(prompt, analysis)]
    ensures s.result.kind == Script
    ensures s.result.success <==> reading.Generated?
    ensures reading.Generated? ==> s.result.data == Some(JObj(ScriptObject(reading.text)))
  {
    var data := if reading.Generated? then JObj(ScriptObject(reading.text)) else JNull;
    StepRun(EnvelopeStep(Script, reading, data), [ScriptRequest(prompt, analysis)])
  }

  // ------------------------------------------------------- images and audio

  /** The non-empty `description`s of the scene objects from index `i` on;
      an element that is not an object throws. */
  function DescriptionsFrom(scenes: seq<Json>, i: nat): (r: Result<seq<string>, JsonError>)
    requires i <= |scenes|
    ensures r.Ok? ==> forall k :: 0 <= k < |r.value| ==> r.value[k] != []
    decreases |scenes| - i
  {
    if i == |scenes| then Ok([])
    else
      match ObjectAt(scenes, i)
      case Err(e) => Err(e)
      case Ok(scene) =>
        var d := OptString(scene, "description", "");
        match DescriptionsFrom(scenes, i + 1)
        case Err(e) => Err(e)
        case Ok(rest) => Ok(if d != [] then [d] + rest else rest)
  }

  /** The non-empty texts of the dialogue entries from index `i` on. */
  function LinesFrom(dialogue: seq<Json>, i: nat): (r: seq<string>)
    requires i <= |dialogue|
    ensures forall k :: 0 <= k < |r| ==> r[k] != []
    decreases |dialogue| - i
  {
    if i == |dialogue| then []
    else
      var line := Text(dialogue[i]);
      if line != [] then [line] + LinesFrom(dialogue, i + 1) else LinesFrom(dialogue, i + 1)
  }

  /** The image prompts of a script: the non-empty scene descriptions. */
  function ImagePrompts(script: Option<Obj>): (r: Result<seq<string>, JsonError>)
    ensures r.Ok? ==> forall k :: 0 <= k < |r.value| ==> r.value[k] != []
    ensures script.None? ==> r == Ok([])
  {
    if script.None? || "scenes" !in script.value then Ok([])
    else
      match GetArray(script.value, "scenes")
      case Err(e) => Err(e)
      case Ok(scenes) => DescriptionsFrom(scenes, 0)
  }

  /** The texts to voice: the non-empty dialogue lines of a script. */
  function DialogueLines(script: Option<Obj>): (r: Result<seq<string>, JsonError>)
    ensures r.Ok? ==> forall k :: 0 <= k < |r.value| ==> r.value[k] != []
    ensures script.None? ==> r == Ok([])
  {
    if script.None? || "dialogue" !in script.value then Ok([])
    else
      match GetArray(script.value, "dialogue")
      case Err(e) => Err(e)
      case Ok(lines) => Ok(LinesFrom(lines, 0))
  }

  /** One request per item, in item order. */
  function ItemRequests(request: string -> Request, items: seq<string>): (r: seq<Request>)
    ensures |r| == |items|
    ensures forall i :: 0 <= i < |r| ==> r[i] == request(items[i])
  {
    seq(|items|, i requires 0 <= i < |items| => request(items[i]))
  }

  /** The record of a generated item: its text under `key`, its index in the
      item list and the `generated` flag. */
  function Entry(key: string, item: string, index: nat): Json {
    JObj(map[key := JStr(item), "index" := JNum(index), "generated" := JBool(true)])
  }

  /** The records of the items from `i` on whose request got a response. */
  function EntriesFrom(key: string, items: seq<string>, answered: nat -> bool, i: nat): (r: seq<Json>)
    requires i <= |items|
    ensures |r| <= |items| - i
    ensures (forall k :: i <= k < |items| ==> answered(k)) ==>
              r == seq(|items| - i, k requires 0 <= k < |items| - i => Entry(key, items[i + k], i + k))
    ensures (forall k :: i <= k < |items| ==> !answered(k)) ==> r == []
    decreases |items| - i
  {
    if i == |items| then []
    else
      var rest := EntriesFrom(key, items, answered, i + 1);
      if answered(i) then [Entry(key, items[i], i)] + rest else rest
  }

  /** A step that makes one request per item and records the answered ones.
      It succeeds whenever the items can be read, however many requests go
      unanswered; when they cannot, it makes no request. */
  function PerItemStep(kind: StepKind, items: Result<seq<string>, JsonError>,
                       request: string -> Request, key: string, answered: nat -> bool): (s: StepRun)
    ensures s.result.kind == kind
    ensures s.result.success <==> items.Ok?
    ensures items.Ok? ==>
              s.requests == ItemRequests(request, items.value) && s.result.note == Some(Finished)
              && s.result.data == Some(JArr(EntriesFrom(key, items.value, answered, 0)))
    ensures items.Err? ==>
              s.requests == [] && s.result.note == Some(Threw(items.error)) && s.result.data == None
  {
    match items
    case Err(e) => StepRun(StepResult(kind, false, Some(Threw(e)), None), [])
    case Ok(xs) =>
      var entries := EntriesFrom(key, xs, answered, 0);
      StepRun(StepResult(kind, true, Some(Finished), Some(JArr(entries))), ItemRequests(request, xs))
  }

  /** `generateImages`: one image request per image prompt. */
  function GenerateImages(script: Option<Obj>, answered: nat -> bool): (s: StepRun)
    ensures s.result.kind == Images
    ensures s.result.success <==> ImagePrompts(script).Ok?
    ensures ImagePrompts(script).Ok? ==>
              s.requests == ItemRequests(d => ImageRequest(d), ImagePrompts(script).value)
  {
    PerItemStep(Images, ImagePrompts(script), d => ImageRequest(d), "prompt", answered)
  }

  /** `generateAudio`: one audio request per dialogue line. */
  function GenerateAudio(script: Option<Obj>, answered: nat -> bool): (s: StepRun)
    ensures s.result.kind == Audio
    ensures s.result.success <==> DialogueLines(script).Ok?
    ensures DialogueLines(script).Ok? ==>
              s.requests == ItemRequests(l => AudioRequest(l), DialogueLines(script).value)
  {
    PerItemStep(Audio, DialogueLines(script), l => AudioRequest(l), "text", answered)
  }

  lemma {:induction false} DescriptionsOfSceneObjects(ds: seq<string>, i: nat)
    requires i <= |ds|
    ensures DescriptionsFrom(SceneObjects(ds), i) == Ok(NonEmpty(ds[i..]))
    decreases |ds| - i
  {
    if i < |ds| {
      DescriptionsOfSceneObjects(ds, i + 1);
      assert ds[i..] == [ds[i]] + ds[i + 1..];
      assert ds[i..][1..] == ds[i + 1..];
    } else {
      assert ds[i..] == [];
    }
  }

  lemma {:induction false} LinesOfStrings(xs: seq<string>, i: nat)
    requires i <= |xs|
    requires forall k :: 0 <= k < |xs| ==> xs[k] != []
    ensures LinesFrom(Strings(xs), i) == xs[i..]
    decreases |xs| - i
  {
    if i < |xs| {
      LinesOfStrings(xs, i + 1);
      assert xs[i..] == [xs[i]] + xs[i + 1..];
    } else {
      assert xs[i..] == [];
    }
  }

  /** On the script object the script step builds, the images step asks
      for one image per non-empty scene description and the audio step for
      one clip per dialogue line; neither can fail. */
  lemma ScriptFeedsMediaSteps(text: string)
    ensures ImagePrompts(Some(ScriptObject(text))) == Ok(NonEmpty(ExtractScenes(text)))
    ensures DialogueLines(Some(ScriptObject(text))) == Ok(ExtractDialogue(text))
  {
    var o := ScriptObject(text);
    var ds := ExtractScenes(text);
    assert GetArray(o, "scenes") == Ok(SceneObjects(ds));
    DescriptionsOfSceneObjects(ds, 0);
    assert ds[0..] == ds;
    var xs := ExtractDialogue(text);
    assert GetArray(o, "dialogue") == Ok(Strings(xs));
    LinesOfStrings(xs, 0);
    assert xs[0..] == xs;
  }

  // ---------------------------------------------------------- assemble video

  /** The path of a project's final video. */
  function FinalVideoPath(projectId: string): (r: string)
    ensures StartsWith(r, StoragePaths.ProjectDir(projectId) + "/")
  {
    var dir := StoragePaths.ProjectDir(projectId) + "/";
    var r := dir + "final_video.mp4";
    assert r[..|dir|] == dir;
    r
  }

  /** `assembleVideo`: no request; succeeds with the project's final video
      path unless the simulated wait is interrupted. */
  function AssembleVideo(projectId: string, interrupted: bool): (s: StepRun)
    ensures s.requests == []
    ensures s.result.kind == Assemble
    ensures s.result.success <==> !interrupted
    ensures !interrupted ==> s.result.data == Some(JStr(FinalVideoPath(projectId)))
    ensures interrupted ==> s.result.note == Some(Interrupted) && s.result.data == None
  {
    if interrupted then StepRun(StepResult(Assemble, false, Some(Interrupted), None), [])
    else StepRun(StepResult(Assemble, true, Some(Finished), Some(JStr(FinalVideoPath(projectId)))), [])
  }

  // ------------------------------------------------------------------ process

  /** The model client's behaviour during one run. */
  datatype Responses = Responses(
    analysis: Option<Obj>,
    script: Option<Obj>,
    imageAnswered: nat -> bool,
    audioAnswered: nat -> bool,
    assemblyInterrupted: bool)

  /** The five step runs, in execution order, given how the two text
      responses read: the script step sees the analysis object and both
      media steps see the script object. */
  function Candidates(projectId: string, prompt: string, analysis: Reading, script: Reading,
                      rs: Responses): (c: seq<StepRun>)
    ensures |c| == 5
    ensures forall i :: 0 <= i < 5 ==> c[i].result.kind == STEP_ORDER[i]
  {
    var analyze := AnalyzePrompt(prompt, analysis);
    var scriptStep := GenerateScript(prompt, DataObject(analyze.result), script);
    var scriptObj := DataObject(scriptStep.result);
    [analyze, scriptStep, GenerateImages(scriptObj, rs.imageAnswered),
     GenerateAudio(scriptObj, rs.audioAnswered), AssembleVideo(projectId, rs.assemblyInterrupted)]
  }

  function AllRequests(steps: seq<StepRun>): seq<Request> {
    if steps == [] then [] else steps[0].requests + AllRequests(steps[1..])
  }

  function Results(steps: seq<StepRun>): (r: seq<StepResult>)
    ensures |r| == |steps|
    ensures forall i :: 0 <= i < |r| ==> r[i] == steps[i].result
  {
    seq(|steps|, i requires 0 <= i < |steps| => steps[i].result)
  }

  /** The exception reading the input throws, if any: `project_id`,
      `prompt` and `project_config` are read in that order. */
  function InputError(input: Obj): (r: Option<JsonError>)
    ensures r.None? <==> "project_id" in input && "prompt" in input
                         && "project_config" in input && input["project_config"].JObj?
  {
    match GetString(input, "project_id")
    case Err(e) => Some(e)
    case Ok(_) =>
      match GetString(input, "prompt")
      case Err(e) => Some(e)
      case Ok(_) =>
        match GetObject(input, "project_config")
        case Err(e) => Some(e)
        case Ok(_) => None
  }

  const AGENT := "OrchestratorAgent"

  /** How `process` ends: the input could not be read, a step failed, or
      every step succeeded. */
  datatype Outcome =
    | BadInput(error: JsonError)
    | Halted(projectId: string, steps: seq<StepResult>)
    | Done(projectId: string, steps: seq<StepResult>)

  /** The result's `message`. */
  function OutcomeMessage(o: Outcome): string {
    match o
    case BadInput(e) => "Error processing input: " + Message(e)
    case Halted(_, steps) =>
      if steps == [] then "Unknown error"
      else
        var last := steps[|steps| - 1];
        "Failed to " + last.kind.Label() + ": " + last.Message().GetOr("Unknown error")
    case Done(_, _) => "All steps completed successfully"
  }

  function StepsJson(steps: seq<StepResult>): (r: seq<Json>)
    ensures |r| == |steps|
    ensures forall i :: 0 <= i < |r| ==> r[i] == JObj(StepJson(steps[i]))
  {
    seq(|steps|, i requires 0 <= i < |steps| => JObj(StepJson(steps[i])))
  }

  /** The result's `JSONObject`; the steps array appears only on success. */
  function ResultJson(o: Outcome): Obj {
    var base := map["agent" := JStr(AGENT), "success" := JBool(o.Done?),
                    "message" := JStr(OutcomeMessage(o))];
    match o
    case BadInput(_) => base
    case Halted(id, _) => base["project_id" := JStr(id)]
    case Done(id, steps) => base["project_id" := JStr(id)]["steps" := JArr(StepsJson(steps))]
  }

  /** Reading the result object back gives the outcome: it succeeded
      exactly on `Done`, its message is the outcome's message, it names the
      project unless the input was unreadable, and it lists the steps only
      on success. */
  lemma ResultJsonReads(o: Outcome, fallback: string)
    ensures OptBoolean(ResultJson(o), "success", false) <==> o.Done?
    ensures OptString(ResultJson(o), "message", fallback) == OutcomeMessage(o)
    ensures "project_id" in ResultJson(o) <==> !o.BadInput?
    ensures !o.BadInput? ==> OptString(ResultJson(o), "project_id", fallback) == o.projectId
    ensures "steps" in ResultJson(o) <==> o.Done?
  {
  }

  /** A run: how it ended and every request made, in order. */
  datatype Run = Run(outcome: Outcome, requests: seq<Request>)

  /** The run over the candidate steps: the fail-fast prefix, done exactly
      when the last step executed succeeded. */
  function Finish(projectId: string, candidates: seq<StepRun>): (r: Run)
    requires |candidates| == 5
    ensures !r.outcome.BadInput? && r.outcome.projectId == projectId
    ensures r.outcome.steps == Results(Executed(candidates, StepOk))
    ensures r.requests == AllRequests(Executed(candidates, StepOk))
    ensures r.outcome.Done? <==> AllOk(candidates, StepOk)
  {
    var ran := Executed(candidates, StepOk);
    LastOkIffAllOk(candidates, StepOk);
    var done := StepOk(ran[|ran| - 1]);
    assert done <==> AllOk(candidates, StepOk);
    var steps := Results(ran);
    Run(if done then Done(projectId, steps) else Halted(projectId, steps), AllRequests(ran))
  }

  /** `process(input)`. */
  function Process(input: Obj, rs: Responses): (r: Run)
    ensures r.outcome.BadInput? <==> InputError(input).Some?
    ensures r.outcome.BadInput? ==> r.outcome.error == InputError(input).value && r.requests == []
    ensures !r.outcome.BadInput? ==>
              var c := Candidates(GetString(input, "project_id").value, GetString(input, "prompt").value,
                                  Read(rs.analysis), Read(rs.script), rs);
              r == Finish(GetString(input, "project_id").value, c)
  {
    match InputError(input)
    case Some(e) => Run(BadInput(e), [])
    case None =>
      var projectId := GetString(input, "project_id").value;
      var prompt := GetString(input, "prompt").value;
      Finish(projectId, Candidates(projectId, prompt, Read(rs.analysis), Read(rs.script), rs))
  }

  /** Over candidates in the fixed order, the run executes between one and
      five of them in that order, every one but the last succeeding; it is
      done exactly when all five succeed, and a halted run ends with the
      step that failed. */
  lemma FinishStepsInOrder(projectId: string, c: seq<StepRun>)
    requires |c| == 5 && forall i :: 0 <= i < 5 ==> c[i].result.kind == STEP_ORDER[i]
    ensures var o := Finish(projectId, c).outcome;
            1 <= |o.steps| <= 5
            && (forall i :: 0 <= i < |o.steps| ==> o.steps[i].kind == STEP_ORDER[i])
            && (forall i :: 0 <= i < |o.steps| - 1 ==> o.steps[i].success)
            && (o.Done? <==> |o.steps| == 5 && o.steps[4].success)
            && (o.Halted? ==> !o.steps[|o.steps| - 1].success)
  {
    var ran := Executed(c, StepOk);
    var o := Finish(projectId, c).outcome;
    assert o.steps == Results(ran);
    assert forall i :: 0 <= i < |ran| ==> ran[i] == c[i];
    LastOkIffAllOk(c, StepOk);
    if o.Done? {
      assert AllOk(c, StepOk);
      assert |ran| == 5;
    }
  }

  /** `process` runs the steps in the fixed order and stops at the first
      failure (see `FinishStepsInOrder`). */
  lemma ProcessStepsInOrder(input: Obj, rs: Responses)
    requires InputError(input).None?
    ensures var o := Process(input, rs).outcome;
            1 <= |o.steps| <= 5
            && (forall i :: 0 <= i < |o.steps| ==> o.steps[i].kind == STEP_ORDER[i])
            && (forall i :: 0 <= i < |o.steps| - 1 ==> o.steps[i].success)
            && (o.Done? <==> |o.steps| == 5 && o.steps[4].success)
            && (o.Halted? ==> !o.steps[|o.steps| - 1].success)
  {
    var projectId := GetString(input, "project_id").value;
    var c := Candidates(projectId, GetString(input, "prompt").value, Read(rs.analysis), Read(rs.script), rs);
    FinishStepsInOrder(projectId, c);
  }

  /** The images and audio steps cannot fail after a successful script step,
      so a run that gets past its input fails only at the analysis, the
      script or the assembly. */
  lemma OnlyThreeStepsFail(input: Obj, rs: Responses)
    requires Process(input, rs).outcome.Halted?
    ensures |Process(input, rs).outcome.steps| in {1, 2, 5}
  {
    var projectId := GetString(input, "project_id").value;
    var prompt := GetString(input, "prompt").value;
    var c := Candidates(projectId, prompt, Read(rs.analysis), Read(rs.script), rs);
    if StepOk(c[1]) {
      ScriptFeedsMediaSteps(Read(rs.script).text);
      assert StepOk(c[2]) && StepOk(c[3]);
    }
    HaltsAtZeroOneOrFour(c);
  }

  /** Five candidates whose middle two succeed once the script does halt
      after one, two or five steps. */
  lemma HaltsAtZeroOneOrFour(c: seq<StepRun>)
    requires |c| == 5 && !AllOk(c, StepOk)
    requires StepOk(c[1]) ==> StepOk(c[2]) && StepOk(c[3])
    ensures |Executed(c, StepOk)| in {1, 2, 5}
  {
    if !StepOk(c[0]) {
      StopsAtFirstFailure(c, StepOk, 0);
    } else if !StepOk(c[1]) {
      StopsAtFirstFailure(c, StepOk, 1);
    } else {
      StopsAtFirstFailure(c, StepOk, 4);
    }
  }

  // ------------------------------------------------------------------ files

  /** The project `getCurrentProjectId` names, whatever project a run is
      for. */
  const SHARED_PROJECT: string := "current_project"

  /** Where `generateScript` saves the script text: the shared project's
      `script.txt`. */
  function SharedScriptFile(): (p: string)
    ensures StartsWith(p, StoragePaths.ProjectDir(SHARED_PROJECT) + "/")
    ensures StartsWith(p, StoragePaths.Under("projects") + "/")
    ensures !AppLog.IsLogFile(p)
  {
    var head := StoragePaths.ProjectDir(SHARED_PROJECT) + "/";
    var p := head + "script.txt";
    assert p[..|head|] == head;
    StartsWithTrans(p, head, StoragePaths.ProjectsDir() + "/");
    AppLog.OutsideResultsNotLogFile(p, "projects");
    p
  }

  /** `logResult`'s file: the result object, in the agent's own results
      directory, named after the project. */
  function RecordFile(projectId: string): (p: string)
    ensures StartsWith(p, StoragePaths.AgentResultsDir() + "/")
    ensures |StoragePaths.AgentResultsDir() + "/"| < |p| && p[|StoragePaths.AgentResultsDir() + "/"|] == 'O'
    ensures !AppLog.IsLogFile(p)
  {
    var head := StoragePaths.AgentResultsDir() + "/";
    var name := "OrchestratorAgent/orchestrator_" + projectId + ".json";
    assert (head + name)[..|head|] == head;
    AppLog.NotLogFile(name);
    head + name
  }

  /** A record is no other results file whose name does not start with
      the agent's `O`: not the sanity report, not another agent's record. */
  lemma RecordFileNotOther(projectId: string, name: string)
    requires name != [] && name[0] != 'O'
    ensures RecordFile(projectId) != StoragePaths.AgentResultsDir() + "/" + name
  {
    var n := |StoragePaths.AgentResultsDir() + "/"|;
    assert RecordFile(projectId)[n] == 'O';
    assert (StoragePaths.AgentResultsDir() + "/" + name)[n] == name[0];
  }

  /** The file `logResult` writes for a result object: the record of the
      project its `project_id` names.  A result without one (the input
      was unreadable) or a `null` result is never recorded. */
  function Recorded(result: Option<Obj>): (r: Option<string>)
    ensures r.Some? <==> result.Some? && GetString(result.value, "project_id").Ok?
  {
    if result.Some? && GetString(result.value, "project_id").Ok? then
      Some(RecordFile(GetString(result.value, "project_id").value))
    else None
  }

  /** The files a run may write besides its result: the app log, the
      shared script and its record. */
  predicate OwnFile(p: string, result: Option<Obj>) {
    AppLog.IsLogFile(p) || p == SharedScriptFile() || Recorded(result) == Some(p)
  }

  /** What a run writes that its result object does not show: the lines
      logged during it, in order (the model client's for each failed
      attempt and the catch blocks'), the clock that stamps them, and the
      script text when the script step got one. */
  datatype Writes = Writes(said: seq<AppLog.Said>, clock: nat -> AppLog.Stamp, script: Option<string>)

  /** A run's effect on the files: its lines are appended to the app log,
      the script step's text replaces the shared script, and `logResult`
      replaces the record with the rendered result.  Every file that is
      not one of the run's own keeps its content, and every file the run
      adds is one of its own. */
  function Leaves(fs: FileStore.Files, result: Option<Obj>, w: Writes, render: Obj -> string): (r: FileStore.Files)
    ensures Recorded(result).Some? ==> Recorded(result).value in r && r[Recorded(result).value] == render(result.value)
    ensures w.script.Some? ==> SharedScriptFile() in r && r[SharedScriptFile()] == w.script.value
    ensures forall p :: p in fs && !OwnFile(p, result) ==> p in r && r[p] == fs[p]
    ensures forall p :: p in r && p !in fs ==> OwnFile(p, result)
  {
    var logged := AppLog.LogSaid(fs, w.said, w.clock, render);
    AppLog.LogSaidAddsOnlyLogs(fs, w.said, w.clock, render);
    var scripted := if w.script.Some? then FileStore.Write(logged, SharedScriptFile(), w.script.value) else logged;
    match Recorded(result)
    case None => scripted
    case Some(file) =>
      StoragePaths.DifferentTops(file, "agent_results", SharedScriptFile(), "projects");
      FileStore.Write(scripted, file, render(result.value))
  }

  /** The lines a run logs land, in order and stamped, at the end of the
      day's app log, whatever else the run writes. */
  lemma LeavesLogs(fs: FileStore.Files, result: Option<Obj>, w: Writes, day: string, render: Obj -> string)
    requires forall o: Obj :: '\n' !in render(o) && '\r' !in render(o)
    requires forall k :: 0 <= k < |w.said| ==> w.clock(k).day == day
    requires FileStore.Terminated(FileStore.Content(fs, AppLog.LogFile(day)))
    ensures FileStore.Lines(FileStore.Content(Leaves(fs, result, w, render), AppLog.LogFile(day)))
            == FileStore.Lines(FileStore.Content(fs, AppLog.LogFile(day))) + AppLog.SaidLines(w.said, w.clock, render)
  {
    LeavesKeepsLogs(fs, result, w, AppLog.LogFile(day), render);
    AppLog.LogSaidReadsBack(fs, w.said, w.clock, day, render);
  }

  /** Past the logging, a run writes no log file. */
  lemma LeavesKeepsLogs(fs: FileStore.Files, result: Option<Obj>, w: Writes, log: string, render: Obj -> string)
    requires AppLog.IsLogFile(log)
    ensures FileStore.Content(Leaves(fs, result, w, render), log)
            == FileStore.Content(AppLog.LogSaid(fs, w.said, w.clock, render), log)
  {
    var logged := AppLog.LogSaid(fs, w.said, w.clock, render);
    var scripted := if w.script.Some? then FileStore.Write(logged, SharedScriptFile(), w.script.value) else logged;
    assert FileStore.Content(scripted, log) == FileStore.Content(logged, log);
  }

  /** `process` records exactly the runs whose input it could read, under
      the input's project. */
  lemma ProcessRecorded(input: Obj, rs: Responses)
    ensures var recorded := Recorded(Some(ResultJson(Process(input, rs).outcome)));
            (recorded.Some? <==> InputError(input).None?)
            && (recorded.Some? ==> recorded.value == RecordFile(GetString(input, "project_id").value))
  {
    RecordedResult(Process(input, rs).outcome);
  }

  /** A result object is recorded unless its input was unreadable, under
      the project it names. */
  lemma RecordedResult(o: Outcome)
    ensures Recorded(Some(ResultJson(o))) == if o.BadInput? then None else Some(RecordFile(o.projectId))
  {
    if !o.BadInput? {
      assert ResultJson(o)["project_id"] == JStr(o.projectId);
    }
  }

  /** The text `generateScript` saves: the script response's, once the run
      got past its input and the analysis and the script response carried
      text. */
  function SavedScript(input: Obj, rs: Responses): Option<string> {
    if InputError(input).None? && Read(rs.analysis).Generated? && Read(rs.script).Generated? then
      Some(Read(rs.script).text)
    else None
  }

  /** A script is saved exactly when the run's script step ran and
      succeeded, and the saved text is the text of the step's script
      object. */
  lemma SavedScriptFollowsStep(input: Obj, rs: Responses)
    ensures var o := Process(input, rs).outcome;
            (SavedScript(input, rs).Some? <==> !o.BadInput? && |o.steps| >= 2 && o.steps[1].success)
            && (SavedScript(input, rs).Some? ==>
                  DataObject(o.steps[1]) == Some(ScriptObject(SavedScript(input, rs).value)))
  {
    if InputError(input).None? {
      var projectId := GetString(input, "project_id").value;
      var c := Candidates(projectId, GetString(input, "prompt").value, Read(rs.analysis), Read(rs.script), rs);
      var ran := Executed(c, StepOk);
      assert Process(input, rs).outcome.steps == Results(ran);
      assert |ran| >= 2 <==> StepOk(c[0]);
      if |ran| >= 2 {
        assert ran[1] == c[1];
      }
    }
  }
}

=== FILE: outcomes.dfy ===
/** Optional values, standing in for Java's `null`, and results that carry
    either a value or the exception an operation would have thrown. */
module Outcomes {

  /** A value that may be absent; `None` plays the role of a Java `null`. */
  datatype Option<+T> = None | Some(value: T) {

    /** The carried value, or `default` when there is none. */
    function GetOr(default: T): (r: T)
      ensures Some? ==> r == value
      ensures None? ==> r == default
    {
      match this
      case Some(v) => v
      case None => default
    }
  }

  /** The outcome of an operation that either returns a value or throws. */
  datatype Result<+T, +E> = Ok(value: T) | Err(error: E)
}

=== FILE: prefs.dfy ===
/** `PrefsObfuscator`: typed settings kept in the shared preferences file
    "AIAutoCreatePrefs", each value stored as the Base64 text of its UTF-8
    bytes XORed with a per-installation key.  The preferences file is a map
    from key to stored text; the random key bytes of a first start are an
    input. */
module Prefs {
  import opened Outcomes
  import opened JavaInt
  import opened JavaString
  import opened Bytes
  import Utf8
  import Base64

  type Store = map<string, string>

  /** Where the key itself is kept, and its length when created. */
  const OBFS_KEY: string := "AIAutoCreateObfsKey"
  const KEY_LENGTH: nat := 32

  /** The settings object: the preferences file and the key it read or
      created. */
  datatype Prefs = Prefs(store: Store, key: seq<byte>)

  // ------------------------------------------------------------ obfuscation

  /** Byte `i` XORed with key byte `i mod |key|`; an empty key can only
      meet empty bytes, since the loop would divide by zero otherwise. */
  function Xor(bs: seq<byte>, key: seq<byte>): (r: seq<byte>)
    requires |key| > 0 || bs == []
    ensures |r| == |bs|
    ensures forall i :: 0 <= i < |bs| ==> r[i] == XorByte(bs[i], key[i % |key|])
  {
    seq(|bs|, i requires 0 <= i < |bs| => XorByte(bs[i], key[i % |key|]))
  }

  /** XOR with the same key undoes itself. */
  lemma XorTwice(bs: seq<byte>, key: seq<byte>)
    requires |key| > 0 || bs == []
    ensures Xor(Xor(bs, key), key) == bs
  {
    var twice := Xor(Xor(bs, key), key);
    forall i | 0 <= i < |bs| ensures twice[i] == bs[i] {
      XorByteTwice(bs[i], key[i % |key|]);
    }
  }

  /** `obfuscate`: the Base64 text of the XORed UTF-8 bytes.  With an empty
      key a non-empty value makes the loop divide by zero, and the value is
      returned as it is. */
  function Obfuscate(value: string, key: seq<byte>): (r: string)
    ensures |key| > 0 ==> Base64.Decode(r).Some?
  {
    var bytes := Utf8.Encode(value);
    if |key| == 0 && bytes != [] then value
    else
      Base64.DecodeEncode(Xor(bytes, key));
      Base64.Encode(Xor(bytes, key))
  }

  /** `deobfuscate`: decode, XOR and read as UTF-8; a text that is not
      Base64, or any failure, gives the text back unchanged. */
  function Deobfuscate(text: string, key: seq<byte>): (r: string)
    ensures Base64.Decode(text).None? ==> r == text
  {
    match Base64.Decode(text)
      case None => text
      case Some(bs) => if |key| == 0 && bs != [] then text else Utf8.Decode(Xor(bs, key))
  }

  /** Whatever the key, reading back what was written gives the value. */
  lemma ObfuscateRoundTrip(value: string, key: seq<byte>)
    ensures Deobfuscate(Obfuscate(value, key), key) == value
  {
    var bytes := Utf8.Encode(value);
    Utf8.DecodeEncode(value);
    if |key| == 0 && bytes != [] {
      match Base64.Decode(value)
        case None =>
        case Some(bs) => assert bs != [];
    } else {
      Base64.DecodeEncode(Xor(bytes, key));
      XorTwice(bytes, key);
    }
  }

  // -------------------------------------------------------------------- key

  /** `getOrCreateObfuscationKey`, run by the constructor: the stored key
      when there is one; otherwise `generated`, stored as Base64 first.  A
      stored key that is not Base64 makes the constructor throw (`None`). */
  function Open(store: Store, generated: seq<byte>): (r: Option<Prefs>)
    requires |generated| == KEY_LENGTH
    ensures OBFS_KEY !in store ==> r.Some? && r.value.key == generated
                                   && r.value.store == store[OBFS_KEY := Base64.Encode(generated)]
    ensures OBFS_KEY in store ==> (r.Some? <==> Base64.Decode(store[OBFS_KEY]).Some?)
    ensures OBFS_KEY in store && r.Some? ==> r.value.store == store
    ensures r.Some? ==> OBFS_KEY in r.value.store
  {
    if OBFS_KEY in store then
      match Base64.Decode(store[OBFS_KEY])
        case None => None
        case Some(key) => Some(Prefs(store, key))
    else
      Some(Prefs(store[OBFS_KEY := Base64.Encode(generated)], generated))
  }

  /** The key is created once: opening the preferences a key was stored in
      finds the same key and changes nothing, whatever random bytes are
      offered. */
  lemma KeyCreatedOnce(store: Store, generated: seq<byte>, later: seq<byte>)
    requires |generated| == KEY_LENGTH && |later| == KEY_LENGTH
    requires Open(store, generated).Some?
    ensures Open(Open(store, generated).value.store, later) == Open(store, generated)
  {
    var p := Open(store, generated).value;
    if OBFS_KEY !in store {
      Base64.DecodeEncode(generated);
      assert p.store[OBFS_KEY] == Base64.Encode(generated);
    }
  }

  /** The stored text of a created key decodes to that key, as the
      constructor reads it back. */
  lemma CreatedKeyReadBack(store: Store, generated: seq<byte>)
    requires |generated| == KEY_LENGTH && OBFS_KEY !in store
    ensures Base64.Decode(Open(store, generated).value.store[OBFS_KEY]) == Some(Open(store, generated).value.key)
  {
    Base64.DecodeEncode(generated);
  }

  /** A created key has 32 bytes. */
  lemma CreatedKeyLength(store: Store, generated: seq<byte>)
    requires |generated| == KEY_LENGTH && OBFS_KEY !in store
    ensures |Open(store, generated).value.key| == 32
  {
  }

  // ---------------------------------------------------------------- strings

  /** `putString`: a `null` value removes the key; any other is stored
      obfuscated. */
  function PutString(p: Prefs, name: string, value: Option<string>): (r: Prefs)
    ensures r.key == p.key
    ensures name in r.store <==> value.Some?
    ensures forall k :: k != name ==> (k in r.store <==> k in p.store) && (k in r.store ==> r.store[k] == p.store[k])
  {
    match value
      case None => p.(store := p.store - {name})
      case Some(v) => p.(store := p.store[name := Obfuscate(v, p.key)])
  }

  /** `getString`: the default for a missing key, else the stored text
      deobfuscated.  Deobfuscation never fails, so the default is never
      used for a key that is present. */
  function GetString(p: Prefs, name: string, default: Option<string>): (r: Option<string>)
    ensures name !in p.store ==> r == default
    ensures name in p.store ==> r.Some?
    ensures name in p.store && Base64.Decode(p.store[name]).None? ==> r == Some(p.store[name])
  {
    if name !in p.store then default else Some(Deobfuscate(p.store[name], p.key))
  }

  /** Reading a key gives what was last put there, and the default after a
      `null` put. */
  lemma PutGetString(p: Prefs, name: string, value: Option<string>, default: Option<string>)
    ensures GetString(PutString(p, name, value), name, default) == if value.Some? then value else default
  {
    if value.Some? {
      ObfuscateRoundTrip(value.value, p.key);
    }
  }

  /** A put leaves every other key reading as before. */
  lemma PutKeepsOthers(p: Prefs, name: string, value: Option<string>, other: string, default: Option<string>)
    requires other != name
    ensures GetString(PutString(p, name, value), other, default) == GetString(p, other, default)
  {
  }

  function Remove(p: Prefs, name: string): (r: Prefs)
    ensures name !in r.store && r.key == p.key
    ensures forall k :: k != name && k in p.store ==> k in r.store && r.store[k] == p.store[k]
  {
    PutString(p, name, None)
  }

  /** `clear`: every entry goes, the stored key included, while this
      object keeps the key it read. */
  function Clear(p: Prefs): (r: Prefs)
    ensures forall k :: k !in r.store
    ensures r.key == p.key
  {
    p.(store := map[])
  }

  /** After `clear`, the next settings object creates a new key. */
  lemma ClearForgetsKey(p: Prefs, generated: seq<byte>)
    requires |generated| == KEY_LENGTH
    ensures Open(Clear(p).store, generated).value.key == generated
  {
  }

  predicate Contains(p: Prefs, name: string) {
    name in p.store
  }

  // ----------------------------------------------------------- typed values

  /** `getInt`: the default when the key is missing or its text is not an
      `int`. */
  function GetInt(p: Prefs, name: string, default: int): (r: int)
    ensures !Contains(p, name) ==> r == default
    ensures Contains(p, name) ==> r == ParseInt(Deobfuscate(p.store[name], p.key)).GetOr(default)
  {
    match GetString(p, name, None)
      case None => default
      case Some(v) => ParseInt(v).GetOr(default)
  }

  function PutInt(p: Prefs, name: string, value: int): Prefs {
    PutString(p, name, Some(IntToString(value)))
  }

  /** An `int` put is read back. */
  lemma IntRoundTrip(p: Prefs, name: string, value: int, default: int)
    requires IsInt(value)
    ensures GetInt(PutInt(p, name, value), name, default) == value
  {
    PutGetString(p, name, Some(IntToString(value)), None);
    ParseIntToString(value, INT_MIN, INT_MAX);
  }

  /** `getLong`, like `getInt` with the 64-bit range. */
  function GetLong(p: Prefs, name: string, default: int): (r: int)
    ensures !Contains(p, name) ==> r == default
    ensures Contains(p, name) ==> r == ParseLong(Deobfuscate(p.store[name], p.key)).GetOr(default)
  {
    match GetString(p, name, None)
      case None => default
      case Some(v) => ParseLong(v).GetOr(default)
  }

  function PutLong(p: Prefs, name: string, value: int): Prefs {
    PutString(p, name, Some(IntToString(value)))
  }

  lemma LongRoundTrip(p: Prefs, name: string, value: int, default: int)
    requires IsLong(value)
    ensures GetLong(PutLong(p, name, value), name, default) == value
  {
    PutGetString(p, name, Some(IntToString(value)), None);
    ParseIntToString(value, LONG_MIN, LONG_MAX);
  }

  /** `getBoolean`: the default only for a missing key; a stored text is
      true exactly when it is "true" in any letter case. */
  function GetBoolean(p: Prefs, name: string, default: bool): (r: bool)
    ensures !Contains(p, name) ==> r == default
    ensures Contains(p, name) ==> (r <==> EqualsIgnoreCase(Deobfuscate(p.store[name], p.key), "true"))
  {
    match GetString(p, name, None)
      case None => default
      case Some(v) => EqualsIgnoreCase(v, "true")
  }

  /** `Boolean.toString`. */
  function BoolText(b: bool): string {
    if b then "true" else "false"
  }

  function PutBoolean(p: Prefs, name: string, value: bool): Prefs {
    PutString(p, name, Some(BoolText(value)))
  }

  lemma BooleanRoundTrip(p: Prefs, name: string, value: bool, default: bool)
    ensures GetBoolean(PutBoolean(p, name, value), name, default) == value
  {
    PutGetString(p, name, Some(BoolText(value)), None);
  }

  /** A text that is not "true" reads as false, whatever the default. */
  lemma OtherTextIsFalse(p: Prefs, name: string, text: string, default: bool)
    requires !EqualsIgnoreCase(text, "true")
    ensures !GetBoolean(PutString(p, name, Some(text)), name, default)
  {
    PutGetString(p, name, Some(text), None);
  }
}

=== FILE: processing_service.dfy ===
/** `ProcessingService`: the background service that runs one generation
    pipeline at a time.  A run checks the device, writes the project
    configuration, runs the orchestrator, simulates the content work and
    finalises the configuration, announcing progress as it goes; the first
    step that fails ends the run with status "error".  The agents' result
    objects, the clock's texts and the serialisation of objects are
    inputs. */
module ProcessingService {
  import opened Outcomes
  import opened OrgJson
  import opened FileStore
  import opened FailFast
  import opened ScreenSteps
  import SanityCheck
  import StoragePaths
  import Orchestrator

  // -------------------------------------------------------------------- run

  /** What a run is given: the sanity check's result, the orchestrator's
      result (`None` for `null`) and the two formatted times it stamps. */
  datatype Inputs = Inputs(sanity: Obj, orchestrator: Option<Obj>, createdAt: string, completedAt: string)

  /** The four stages: the sanity check at 10, the configuration at 20,
      the orchestrator at 30, and the simulated work from 60 to 100. */
  function Stages(i: Inputs): (s: seq<Stage>)
    ensures |s| == 4
  {
    [Stage([10], SanityVerdict(i.sanity)),
     Stage([20], Pass),
     Stage([30], AgentVerdict(i.orchestrator, "Orchestrator failed", "Orchestrator returned null")),
     Stage([60] + Ramp(60, 6, 5) + [90, 100], Pass)]
  }

  /** The run's progress and final status. */
  function Run(i: Inputs): Report {
    Drive(Stages(i))
  }

  /** The progress values of a successful run. */
  const SUCCESS_TABLE: seq<int> := [10, 20, 30, 60, 60, 66, 72, 78, 84, 90, 100]

  /** A run succeeds exactly when the check passes and the orchestrator
      returns a successful result. */
  lemma SuccessfulRun(i: Inputs)
    ensures Run(i).status.Completed? <==>
              OptBoolean(i.sanity, "passed", false)
              && i.orchestrator.Some? && OptBoolean(i.orchestrator.value, "success", false)
  {
    var s := Stages(i);
    assert AllOk(s, Passes) <==> Passes(s[0]) && Passes(s[2]);
  }

  /** The table of a successful run never decreases and ends at 100. */
  lemma SuccessTableComplete()
    ensures CompleteTable(SUCCESS_TABLE)
  {
    StepsUp(SUCCESS_TABLE);
  }

  /** A successful run publishes the whole table. */
  lemma SuccessProgress(i: Inputs)
    requires OptBoolean(i.sanity, "passed", false)
    requires i.orchestrator.Some? && OptBoolean(i.orchestrator.value, "success", false)
    ensures Run(i).progress == SUCCESS_TABLE
  {
    var s := Stages(i);
    Peel4(s);
    assert Ramp(60, 6, 5) == [60, 66, 72, 78, 84];
    assert Drive(s[1..][1..][1..]) == Report(s[3].progress, Completed);
    assert Drive(s[1..][1..]) == Report([30] + s[3].progress, Completed);
    assert Drive(s[1..]) == Report([20] + ([30] + s[3].progress), Completed);
  }

  /** A failed check ends the run at 10 with the check's message. */
  lemma SanityFailureStops(i: Inputs)
    requires !OptBoolean(i.sanity, "passed", false)
    ensures Run(i) == Report([10], Error(OptString(i.sanity, "message", "Sanity check failed")))
  {
  }

  /** A failed or missing orchestrator result ends the run at 30 with its
      message, or "Orchestrator returned null". */
  lemma OrchestratorFailureStops(i: Inputs)
    requires OptBoolean(i.sanity, "passed", false)
    requires !(i.orchestrator.Some? && OptBoolean(i.orchestrator.value, "success", false))
    ensures Run(i).progress == [10, 20, 30]
    ensures i.orchestrator.None? ==> Run(i).status == Error("Orchestrator returned null")
    ensures i.orchestrator.Some? ==>
              Run(i).status == Error(OptString(i.orchestrator.value, "message", "Orchestrator failed"))
  {
    var s := Stages(i);
    Peel4(s);
    assert Drive(s[1..][1..]).progress == [30];
    assert Drive(s[1..]).progress == [20, 30];
  }

  // ------------------------------------------------------------------ files

  /** The configuration written before the orchestrator runs. */
  function Config(projectId: string, prompt: string, createdAt: string): Obj {
    ProjectConfig(projectId, prompt, "auto_generate", createdAt)
  }

  /** The configuration a completed run leaves. */
  function FinalConfig(projectId: string, prompt: string, i: Inputs): Obj {
    MarkCompleted(Config(projectId, prompt, i.createdAt), i.completedAt)
  }

  /** The files a run leaves: only the sanity report after a failed
      check; once the check passed, the configuration and whatever the
      orchestrator wrote (its log lines, the shared script, its record);
      the script placeholder and the completed configuration after a
      complete run. */
  function Effects(fs: Files, projectId: string, prompt: string, i: Inputs, w: Orchestrator.Writes,
                   render: Obj -> string): (r: Files)
    ensures SanityCheck.ReportFile() in r && r[SanityCheck.ReportFile()] == render(i.sanity)
    ensures !OptBoolean(i.sanity, "passed", false) ==> r == fs[SanityCheck.ReportFile() := render(i.sanity)]
    ensures OptBoolean(i.sanity, "passed", false) ==> ConfigFile(projectId) in r
    ensures forall p :: p in fs && p != ConfigFile(projectId) && p != ScriptFile(projectId) && p != SanityCheck.ReportFile()
                        && !Orchestrator.OwnFile(p, i.orchestrator) ==>
              p in r && r[p] == fs[p]
    ensures forall p :: p in r && p !in fs ==>
              p == ConfigFile(projectId) || p == ScriptFile(projectId) || p == SanityCheck.ReportFile()
              || Orchestrator.OwnFile(p, i.orchestrator)
  {
    var checked := SanityCheck.Record(fs, i.sanity, render);
    if !Passes(Stages(i)[0]) then checked
    else
      SanityCheck.ReportFileInResults();
      ResultsOutsideProject(SanityCheck.ReportFile(), projectId, "project.json");
      ResultsOutsideProject(SanityCheck.ReportFile(), projectId, "script.txt");
      ReportNotOwn(i.orchestrator);
      Generate(checked, projectId, prompt, i, w, render)
  }

  /** What follows a passed check: the configuration is written, the
      orchestrator runs, and a complete run adds the script placeholder
      and completes the configuration. */
  function Generate(fs: Files, projectId: string, prompt: string, i: Inputs, w: Orchestrator.Writes,
                    render: Obj -> string): (r: Files)
    ensures ConfigFile(projectId) in r
    ensures forall p :: p in fs && p != ConfigFile(projectId) && p != ScriptFile(projectId)
                        && !Orchestrator.OwnFile(p, i.orchestrator) ==>
              p in r && r[p] == fs[p]
    ensures forall p :: p in r && p !in fs ==>
              p == ConfigFile(projectId) || p == ScriptFile(projectId) || Orchestrator.OwnFile(p, i.orchestrator)
  {
    var launched := Launch(fs, projectId, prompt, i, w, render);
    if !Passes(Stages(i)[2]) then launched
    else
      var scripted := Write(launched, ScriptFile(projectId), "Generated script content based on: " + prompt);
      Write(scripted, ConfigFile(projectId), render(FinalConfig(projectId, prompt, i)))
  }

  /** The configuration is written and the orchestrator runs; what it
      writes leaves the configuration alone. */
  function Launch(fs: Files, projectId: string, prompt: string, i: Inputs, w: Orchestrator.Writes,
                  render: Obj -> string): (r: Files)
    ensures ConfigFile(projectId) in r && r[ConfigFile(projectId)] == render(Config(projectId, prompt, i.createdAt))
    ensures forall p :: p in fs && p != ConfigFile(projectId) && !Orchestrator.OwnFile(p, i.orchestrator) ==>
              p in r && r[p] == fs[p]
    ensures forall p :: p in r && p !in fs ==> p == ConfigFile(projectId) || Orchestrator.OwnFile(p, i.orchestrator)
  {
    var configured := Write(fs, ConfigFile(projectId), render(Config(projectId, prompt, i.createdAt)));
    OtherNameNotShared(projectId, "project.json");
    ProjectFileNotOwn(i.orchestrator, projectId, "project.json");
    Orchestrator.Leaves(configured, i.orchestrator, w, render)
  }

  /** The configuration is completed exactly when the run is, and the
      script placeholder exists only after a complete run on a project that
      had none.  The project must not be the orchestrator's shared one,
      whose script the orchestrator itself writes. */
  lemma EffectsFollowRun(fs: Files, projectId: string, prompt: string, i: Inputs, w: Orchestrator.Writes,
                         render: Obj -> string)
    requires OptBoolean(i.sanity, "passed", false)
    requires ScriptFile(projectId) !in fs
    requires projectId != Orchestrator.SHARED_PROJECT
    ensures var r := Effects(fs, projectId, prompt, i, w, render);
            (Run(i).status.Completed? ==>
               r[ConfigFile(projectId)] == render(FinalConfig(projectId, prompt, i))
               && ScriptFile(projectId) in r
               && r[ScriptFile(projectId)] == "Generated script content based on: " + prompt)
            && (Run(i).status.Error? ==>
                  r[ConfigFile(projectId)] == render(Config(projectId, prompt, i.createdAt))
                  && ScriptFile(projectId) !in r)
  {
    SuccessfulRun(i);
    var checked := SanityCheck.Record(fs, i.sanity, render);
    SanityCheck.ReportFileInResults();
    ResultsOutsideProject(SanityCheck.ReportFile(), projectId, "script.txt");
    assert ScriptFile(projectId) !in checked;
    EffectsPastCheck(fs, projectId, prompt, i, w, render);
    GenerateFollowsRun(checked, projectId, prompt, i, w, render);
  }

  /** A passed check hands the report's file store on to the rest of the
      run. */
  lemma EffectsPastCheck(fs: Files, projectId: string, prompt: string, i: Inputs, w: Orchestrator.Writes,
                         render: Obj -> string)
    requires OptBoolean(i.sanity, "passed", false)
    ensures Effects(fs, projectId, prompt, i, w, render)
            == Generate(SanityCheck.Record(fs, i.sanity, render), projectId, prompt, i, w, render)
  {
  }

  /** After a passed check: the orchestrator's success completes the
      configuration and adds the placeholder; its failure leaves the
      configuration as first written and no script of the project's. */
  lemma GenerateFollowsRun(fs: Files, projectId: string, prompt: string, i: Inputs, w: Orchestrator.Writes,
                           render: Obj -> string)
    requires ScriptFile(projectId) !in fs
    requires projectId != Orchestrator.SHARED_PROJECT
    ensures var r := Generate(fs, projectId, prompt, i, w, render);
            (Passes(Stages(i)[2]) ==>
               r[ConfigFile(projectId)] == render(FinalConfig(projectId, prompt, i))
               && ScriptFile(projectId) in r
               && r[ScriptFile(projectId)] == "Generated script content based on: " + prompt)
            && (!Passes(Stages(i)[2]) ==>
                  r[ConfigFile(projectId)] == render(Config(projectId, prompt, i.createdAt))
                  && ScriptFile(projectId) !in r)
  {
    ProjectFilesDiffer(projectId, "project.json", "script.txt");
    OtherProjectNotShared(projectId);
    ProjectFileNotOwn(i.orchestrator, projectId, "script.txt");
  }

  // ---------------------------------------------------------------- service

  /** Whether a pipeline is running, and the project last started. */
  datatype Service = Service(processing: bool, projectId: string)

  /** What the service broadcasts: a progress value, or a status with its
      message (`None` for the app's own fixed texts). */
  datatype Update = ProgressUpdate(percent: int) | StatusUpdate(status: string, detail: Option<string>)

  /** `startProcessing(id, prompt)`: refused while a pipeline runs;
      otherwise the service is marked busy with the new project. */
  function Start(s: Service, projectId: string): (r: (Service, bool))
    ensures r.1 <==> !s.processing
    ensures r.1 ==> r.0 == Service(true, projectId)
    ensures !r.1 ==> r.0 == s
  {
    if s.processing then (s, false) else (Service(true, projectId), true)
  }

  /** The end of every run, successful or not: the service is free again. */
  function Finish(s: Service): (r: Service)
    ensures !r.processing && r.projectId == s.projectId
  {
    s.(processing := false)
  }

  /** `cancelProcessing`: the service is marked free and "cancelled" is
      broadcast; the running pipeline is not stopped. */
  function Cancel(s: Service): (r: (Service, Update))
    ensures !r.0.processing && r.0.projectId == s.projectId
    ensures r.1 == StatusUpdate("cancelled", None)
  {
    (s.(processing := false), StatusUpdate("cancelled", None))
  }

  /** The checkpoint `saveCheckpoint` writes in the project's
      "checkpoints" directory. */
  function CheckpointFile(projectId: string): string {
    ProjectFile(projectId, "checkpoints/checkpoint.json")
  }

  function Checkpoint(projectId: string, now: int): Obj {
    map["project_id" := JStr(projectId), "timestamp" := JNum(now), "status" := JStr("paused")]
  }

  /** `pauseProcessing`: the checkpoint of the project last started is
      written and "paused" is broadcast.  Nothing else happens: the service
      stays busy and the running pipeline goes on. */
  function Pause(s: Service, fs: Files, now: int, render: Obj -> string): (r: (Service, Files, Update))
    ensures r.0 == s
    ensures CheckpointFile(s.projectId) in r.1
    ensures forall p :: p in fs && p != CheckpointFile(s.projectId) ==> p in r.1 && r.1[p] == fs[p]
    ensures r.2 == StatusUpdate("paused", None)
  {
    (s, Write(fs, CheckpointFile(s.projectId), render(Checkpoint(s.projectId, now))), StatusUpdate("paused", None))
  }

  /** `resumeProcessing`: "resumed" is broadcast; the checkpoint is not
      read and nothing else changes. */
  function Resume(s: Service): (r: (Service, Update))
    ensures r.0 == s
    ensures r.1 == StatusUpdate("resumed", None)
  {
    (s, StatusUpdate("resumed", None))
  }

  /** The checkpoint names the paused project and its time, and is never
      one of the files a run writes. */
  lemma CheckpointReads(projectId: string, now: int)
    ensures var c := Checkpoint(projectId, now);
            OptString(c, "project_id", "") == projectId && OptString(c, "status", "") == "paused"
            && "timestamp" in c && c["timestamp"] == JNum(now)
    ensures CheckpointFile(projectId) != ConfigFile(projectId) && CheckpointFile(projectId) != ScriptFile(projectId)
  {
    ProjectFilesDiffer(projectId, "checkpoints/checkpoint.json", "project.json");
    ProjectFilesDiffer(projectId, "checkpoints/checkpoint.json", "script.txt");
  }

  /** Pausing does not pause: while paused the service still refuses a
      second start, and the run's files are left to the running pipeline;
      only finishing frees it. */
  lemma PauseKeepsRunning(s: Service, first: string, second: string, fs: Files, now: int, render: Obj -> string)
    requires !s.processing
    ensures var busy := Start(s, first).0;
            var paused := Pause(busy, fs, now, render);
            Start(paused.0, second) == (busy, false)
            && Start(Resume(paused.0).0, second) == (busy, false)
            && forall p :: p in fs && p != CheckpointFile(first) ==> p in paused.1 && paused.1[p] == fs[p]
  {
  }

  /** The updates one run broadcasts: its progress values, then one
      status, "completed" exactly when the run completed and otherwise
      "error" with the failing step's message. */
  function Updates(r: Report): (u: seq<Update>)
    ensures |u| == |r.progress| + 1
    ensures forall k :: 0 <= k < |u| - 1 ==> u[k] == ProgressUpdate(r.progress[k])
    ensures u[|u| - 1].StatusUpdate?
    ensures u[|u| - 1].status == "completed" <==> r.status.Completed?
    ensures u[|u| - 1].status != "completed" ==> u[|u| - 1] == StatusUpdate("error", Some(r.status.message))
  {
    var last := match r.status
      case Completed => StatusUpdate("completed", None)
      case Error(m) => StatusUpdate("error", Some(m));
    seq(|r.progress|, k requires 0 <= k < |r.progress| => ProgressUpdate(r.progress[k])) + [last]
  }

  /** A successful run broadcasts every value of the table, in order, and
      then "completed"; no status comes before the end. */
  lemma SuccessfulUpdates(i: Inputs)
    requires OptBoolean(i.sanity, "passed", false)
    requires i.orchestrator.Some? && OptBoolean(i.orchestrator.value, "success", false)
    ensures var u := Updates(Run(i));
            |u| == |SUCCESS_TABLE| + 1 && u[|u| - 1] == StatusUpdate("completed", None)
            && forall k :: 0 <= k < |SUCCESS_TABLE| ==> u[k] == ProgressUpdate(SUCCESS_TABLE[k])
  {
    SuccessfulRun(i);
    SuccessProgress(i);
  }

  /** While one pipeline runs, a second start is refused and changes
      nothing; once it finishes, the next start is accepted. */
  lemma OneRunAtATime(s: Service, first: string, second: string)
    requires !s.processing
    ensures var busy := Start(s, first).0;
            Start(busy, second) == (busy, false)
            && Start(Finish(busy), second) == (Service(true, second), true)
  {
  }

  /** Cancelling frees the service without stopping the running pipeline,
      so a start after a cancel is accepted while the first pipeline may
      still be running. */
  lemma CancelAdmitsSecondRun(s: Service, first: string, second: string)
    requires !s.processing
    ensures Start(Cancel(Start(s, first).0).0, second).1
  {
  }

  /** The notification shows a determinate bar only strictly between 0
      and 100. */
  predicate ShowsBar(progress: int) {
    0 < progress < 100
  }

  /** A successful run's notification shows a bar at every step but the
      final 100, and the notification shown at the start (progress 0)
      shows none. */
  lemma BarDuringRun()
    ensures !ShowsBar(0) && !ShowsBar(SUCCESS_TABLE[|SUCCESS_TABLE| - 1])
    ensures forall k :: 0 <= k < |SUCCESS_TABLE| - 1 ==> ShowsBar(SUCCESS_TABLE[k])
  {
  }
}

=== FILE: projects_adapter.dfy ===
/** `ProjectsAdapter`: the rows of the projects list.  Each row shows a
    project configuration's title, workflow type, creation date and status,
    the status coloured by what it says.  Date parsing and formatting
    (`SimpleDateFormat` in the default locale) and the existence of the
    source video are inputs. */
module ProjectsAdapter {
  import opened Outcomes
  import opened OrgJson
  import ListAdapter
  import ScreenSteps

  /** The status text colours: dark green, dark red, dark orange and dark
      grey. */
  datatype Colour = Green | Red | Orange | Grey

  /** The switch on the status text. */
  function StatusColour(status: string): Colour {
    if status == "completed" then Green
    else if status == "failed" || status == "error" then Red
    else if status == "processing" then Orange
    else Grey
  }

  /** Each colour stands for exactly its statuses: a finished project is
      green, a failed one red, a running one orange, anything else grey. */
  lemma ColourClasses(status: string)
    ensures StatusColour(status) == Green <==> status == "completed"
    ensures StatusColour(status) == Red <==> status in {"failed", "error"}
    ensures StatusColour(status) == Orange <==> status == "processing"
    ensures StatusColour(status) == Grey <==> status !in {"completed", "failed", "error", "processing"}
  {
  }

  /** `formatDate`: the date in the output pattern when the input pattern
      parses it (`formatted`), and the text unchanged otherwise. */
  function FormatDate(text: string, formatted: Option<string>): (r: string)
    ensures formatted.None? ==> r == text
    ensures formatted.Some? ==> r == formatted.value
  {
    formatted.GetOr(text)
  }

  /** A bound row: `None` for a view left as it was. */
  datatype RowView = RowView(title: Option<string>, kind: Option<string>, date: Option<string>,
                             thumbnail: bool, status: Option<(string, Colour)>)

  /** `onBindViewHolder`, whose `try` holds every step: the title, the
      workflow type and the formatted creation date are read with
      `getString`, so the first one missing ends the binding; then a
      thumbnail when "source_video" names an existing file, and the status,
      "unknown" when absent, with its colour.  `format` is `formatDate`'s
      parse-and-format of a date text; `onDisk` is the file check. */
  function Bind(o: Obj, format: string -> Option<string>, onDisk: string -> bool): (v: RowView)
    ensures v.title.Some? <==> "title" in o
    ensures v.kind.Some? <==> "title" in o && "workflowType" in o
    ensures v.date.Some? <==> v.status.Some?
    ensures v.date.Some? <==> "title" in o && "workflowType" in o && "created_at" in o
    ensures v.title.Some? ==> v.title.value == Text(o["title"])
    ensures v.kind.Some? ==> v.kind.value == Text(o["workflowType"])
    ensures v.date.Some? ==> v.date.value == FormatDate(Text(o["created_at"]), format(Text(o["created_at"])))
    ensures v.thumbnail ==> v.date.Some? && OptString(o, "source_video", "") != [] && onDisk(OptString(o, "source_video", ""))
    ensures v.status.Some? ==> v.status.value.0 == OptString(o, "status", "unknown")
    ensures v.status.Some? ==> v.status.value.1 == StatusColour(v.status.value.0)
  {
    match GetString(o, "title")
    case Err(_) => RowView(None, None, None, false, None)
    case Ok(title) =>
      match GetString(o, "workflowType")
      case Err(_) => RowView(Some(title), None, None, false, None)
      case Ok(kind) =>
        match GetString(o, "created_at")
        case Err(_) => RowView(Some(title), Some(kind), None, false, None)
        case Ok(created) =>
          var video := OptString(o, "source_video", "");
          var status := OptString(o, "status", "unknown");
          RowView(Some(title), Some(kind), Some(FormatDate(created, format(created))),
                  video != [] && onDisk(video), Some((status, StatusColour(status))))
  }

  /** A project without a status shows "unknown" in grey. */
  lemma MissingStatusIsUnknown(o: Obj, format: string -> Option<string>, onDisk: string -> bool)
    requires "title" in o && "workflowType" in o && "created_at" in o && "status" !in o
    ensures Bind(o, format, onDisk).status == Some(("unknown", Grey))
  {
  }

  /** The rows: one per project of the adapter's list, in order. */
  function Rows(projects: seq<Obj>, format: string -> Option<string>, onDisk: string -> bool): (r: seq<RowView>)
    ensures |r| == |projects|
    ensures forall i :: 0 <= i < |r| ==> r[i] == Bind(projects[i], format, onDisk)
  {
    seq(|projects|, i requires 0 <= i < |projects| => Bind(projects[i], format, onDisk))
  }

  /** `updateList`: clear, then add all of the new list; given the
      adapter's own list, it empties it. */
  function UpdateList(projects: seq<Obj>, newList: seq<Obj>, sameList: bool): (r: seq<Obj>)
    requires sameList ==> newList == projects
    ensures !sameList ==> r == newList
    ensures sameList ==> r == []
  {
    ListAdapter.UpdateList(projects, newList, sameList)
  }

  /** A configuration as the screens write it shows its title and
      workflow with status "unknown" in grey; once the pipeline marks it
      completed, it shows "completed" in green. */
  lemma ConfigShown(projectId: string, prompt: string, workflow: string, createdAt: string, completedAt: string,
                    format: string -> Option<string>, onDisk: string -> bool)
    ensures var v := Bind(ScreenSteps.ProjectConfig(projectId, prompt, workflow, createdAt), format, onDisk);
            v.title == Some(ScreenSteps.Title(prompt)) && v.kind == Some(workflow)
            && v.date == Some(FormatDate(createdAt, format(createdAt))) && v.status == Some(("unknown", Grey))
    ensures var done := ScreenSteps.MarkCompleted(ScreenSteps.ProjectConfig(projectId, prompt, workflow, createdAt), completedAt);
            Bind(done, format, onDisk).status == Some(("completed", Green))
  {
    var c := ScreenSteps.ProjectConfig(projectId, prompt, workflow, createdAt);
    ScreenSteps.ConfigReads(projectId, prompt, workflow, createdAt, completedAt);
    var done := ScreenSteps.MarkCompleted(c, completedAt);
    assert "title" in done && "workflowType" in done && "created_at" in done;
  }
}

=== FILE: sanity_check.dfy ===
/** `SanityCheckAgent.runCheck`: five preflight checks run in a fixed
    order.  Storage, permissions and directories are blocking: a failure
    adds its message to `errors` and fails the run.  Memory and FFmpeg are
    advisory: a failure adds its message to `warnings` only.  The device is
    an input: block counts, mount state, memory figures, which FFmpeg
    artefacts are present and what each directory probe returns. */
module SanityCheck {
  import opened JavaInt
  import opened JavaString
  import opened OrgJson
  import opened FileStore
  import StoragePaths
  import AppLog
  import AgentRecords

  const MB: int := 1024 * 1024
  const MIN_STORAGE_MB: int := 500
  const MIN_MEMORY_MB: int := 200

  // ----------------------------------------------------------------- storage

  /** The free space in MB as written: the two `int` factors are multiplied
      in 32-bit arithmetic, and only the wrapped product is widened to
      `long`. */
  function StorageMBAsWritten(blocks: int, blockSize: int): (mb: int)
    requires IsInt(blocks) && IsInt(blockSize)
    ensures IsInt(WrapInt(blocks * blockSize))
  {
    Quot(WrapInt(blocks * blockSize), MB)
  }

  /** A 4 GiB volume in 4 KiB blocks: the product 2^32 wraps to 0, so the
      check reports 0 MB free and fails although 4096 MB are free. */
  lemma StorageOverflowExample()
    ensures StorageMBAsWritten(0x10_0000, 4096) == 0
    ensures StorageMB(0x10_0000, 4096) == 4096
    ensures !StoragePasses(StorageMBAsWritten(0x10_0000, 4096)) && StoragePasses(StorageMB(0x10_0000, 4096))
  {
    assert 0x10_0000 * 4096 == 0x1_0000_0000;
    assert WrapInt(0x1_0000_0000) == 0;
  }

  /** The free space in MB with the product taken in 64 bits, as the
      `long` result type intends. */
  function StorageMB(blocks: int, blockSize: int): (mb: int)
    requires IsInt(blocks) && IsInt(blockSize)
    ensures blocks >= 0 && blockSize >= 0 ==> mb == blocks * blockSize / MB
    ensures blocks >= 0 && blockSize >= 0 ==> mb >= 0
  {
    Quot(blocks * blockSize, MB)
  }

  /** With the product in 64 bits the verdict depends only on the bytes
      free: the check passes exactly when at least 500 MB are free. */
  lemma StorageVerdictByBytes(blocks: int, blockSize: int)
    requires IsInt(blocks) && IsInt(blockSize) && blocks >= 0 && blockSize >= 0
    ensures StoragePasses(StorageMB(blocks, blockSize)) <==> blocks * blockSize >= MIN_STORAGE_MB * MB
  {
  }

  predicate StoragePasses(mb: int) {
    mb >= MIN_STORAGE_MB
  }

  // ------------------------------------------------------------------ memory

  /** The heap headroom in MB: what may still be allocated plus what is
      free in the current heap. */
  function MemoryMB(maxMemory: int, totalMemory: int, freeMemory: int): (mb: int)
    requires IsLong(maxMemory) && IsLong(totalMemory) && IsLong(freeMemory)
    requires 0 <= freeMemory <= totalMemory <= maxMemory
    ensures mb >= 0 && mb == (maxMemory - totalMemory + freeMemory) / MB
  {
    Quot(maxMemory - totalMemory + freeMemory, MB)
  }

  // ------------------------------------------------------------- directories

  /** What probing one directory finds: whether it exists, and whether
      `mkdirs` would create it. */
  datatype DirProbe = DirProbe(exists_: bool, creatable: bool)

  predicate Usable(p: DirProbe) {
    p.exists_ || p.creatable
  }

  /** The directories the app needs, in the order they are probed. */
  function RequiredDirs(): seq<string> {
    [StoragePaths.APP_ROOT, StoragePaths.ProjectsDir(), StoragePaths.TempDir(),
     StoragePaths.AgentResultsDir(), StoragePaths.ConfigDir(), StoragePaths.FontsDir()]
  }

  /** `checkDirectories`' loop: probe the directories in order and stop at
      the first that neither exists nor can be created.  `probed` counts
      the directories looked at. */
  method ProbeDirectories(dirs: seq<string>, probe: string -> DirProbe) returns (allExist: bool, probed: nat)
    ensures allExist <==> forall i :: 0 <= i < |dirs| ==> Usable(probe(dirs[i]))
    ensures allExist ==> probed == |dirs|
    ensures !allExist ==>
              1 <= probed <= |dirs| && !Usable(probe(dirs[probed - 1]))
              && forall i :: 0 <= i < probed - 1 ==> Usable(probe(dirs[i]))
  {
    allExist, probed := true, 0;
    while probed < |dirs|
      invariant probed <= |dirs|
      invariant forall i :: 0 <= i < probed ==> Usable(probe(dirs[i]))
    {
      var p := probe(dirs[probed]);
      probed := probed + 1;
      if !p.exists_ && !p.creatable {
        allExist := false;
        return;
      }
    }
  }

  // ------------------------------------------------------------------ checks

  /** The five checks, in the order `runCheck` performs them. */
  datatype CheckKind = Storage | Permissions | Memory | FFmpeg | Directories {
    /** A failed blocking check fails the run; the others only warn. */
    predicate Blocking() {
      this == Storage || this == Permissions || this == Directories
    }

    /** The check's `check` member. */
    function Name(): string {
      match this
      case Storage => "storage_space"
      case Permissions => "permissions"
      case Memory => "memory"
      case FFmpeg => "ffmpeg"
      case Directories => "directories"
    }
  }

  /** A check's verdict; `mb` is the figure the storage and memory messages
      quote. */
  datatype Verdict = Verdict(kind: CheckKind, passed: bool, mb: int)

  function VerdictMessage(v: Verdict): string {
    var mb := IntToString(v.mb);
    match v.kind
    case Storage =>
      if v.passed then "Storage space check passed (" + mb + "MB available)"
      else "Insufficient storage space (" + mb + "MB available, 500MB required)"
    case Permissions => if v.passed then "Permissions check passed" else "Missing required permissions"
    case Memory =>
      if v.passed then "Memory check passed (" + mb + "MB available)"
      else "Low memory (" + mb + "MB available, 200MB recommended)"
    case FFmpeg => if v.passed then "FFmpeg check passed" else "FFmpeg not available"
    case Directories =>
      if v.passed then "Directory structure check passed" else "Failed to create required directories"
  }

  /** What the checks find on the device. */
  datatype Device = Device(
    availableBlocks: int, blockSize: int,
    mounted: bool, testDirMade: bool, testDirExists: bool,
    maxMemory: int, totalMemory: int, freeMemory: int,
    ffmpegBinaryExists: bool, ffmpegKitLoads: bool,
    probe: string -> DirProbe)

  predicate WellFormed(d: Device) {
    IsInt(d.availableBlocks) && IsInt(d.blockSize)
    && IsLong(d.maxMemory) && IsLong(d.totalMemory) && IsLong(d.freeMemory)
    && 0 <= d.freeMemory <= d.totalMemory <= d.maxMemory
  }

  predicate AllUsable(dirs: seq<string>, probe: string -> DirProbe) {
    forall i :: 0 <= i < |dirs| ==> Usable(probe(dirs[i]))
  }

  /** The five verdicts, one field per check. */
  datatype Checks = Checks(storage: Verdict, permissions: Verdict, memory: Verdict, ffmpeg: Verdict,
                           directories: Verdict)

  predicate Labelled(c: Checks) {
    c.storage.kind == Storage && c.permissions.kind == Permissions && c.memory.kind == Memory
    && c.ffmpeg.kind == FFmpeg && c.directories.kind == Directories
  }

  /** The five verdicts for a storage figure of `storage` MB. */
  function Checked(d: Device, storage: int): Checks
    requires WellFormed(d)
  {
    var memory := MemoryMB(d.maxMemory, d.totalMemory, d.freeMemory);
    Checks(Verdict(Storage, StoragePasses(storage), storage),
           Verdict(Permissions, d.mounted && (d.testDirMade || d.testDirExists), 0),
           Verdict(Memory, memory >= MIN_MEMORY_MB, memory),
           Verdict(FFmpeg, d.ffmpegBinaryExists || d.ffmpegKitLoads, 0),
           Verdict(Directories, AllUsable(RequiredDirs(), d.probe), 0))
  }

  /** What each check concludes about the device, with the storage product
      taken in 64 bits: the intended half of the storage finding. */
  function Evaluate(d: Device): (c: Checks)
    requires WellFormed(d)
    ensures Labelled(c)
    ensures c.storage.mb == StorageMB(d.availableBlocks, d.blockSize)
    ensures c.storage.passed <==> StorageMB(d.availableBlocks, d.blockSize) >= MIN_STORAGE_MB
    ensures c.permissions.passed <==> d.mounted && (d.testDirMade || d.testDirExists)
    ensures c.memory.passed <==> MemoryMB(d.maxMemory, d.totalMemory, d.freeMemory) >= MIN_MEMORY_MB
    ensures c.ffmpeg.passed <==> d.ffmpegBinaryExists || d.ffmpegKitLoads
    ensures c.directories.passed <==> AllUsable(RequiredDirs(), d.probe)
  {
    Checked(d, StorageMB(d.availableBlocks, d.blockSize))
  }

  /** What each check concludes about the device as the program computes
      it: the storage figure is the wrapped 32-bit product; every other
      verdict is the intended one. */
  function EvaluateAsWritten(d: Device): (c: Checks)
    requires WellFormed(d)
    ensures Labelled(c)
    ensures c.storage.mb == StorageMBAsWritten(d.availableBlocks, d.blockSize)
    ensures c.storage.passed <==> StorageMBAsWritten(d.availableBlocks, d.blockSize) >= MIN_STORAGE_MB
    ensures c.permissions == Evaluate(d).permissions && c.memory == Evaluate(d).memory
    ensures c.ffmpeg == Evaluate(d).ffmpeg && c.directories == Evaluate(d).directories
  {
    Checked(d, StorageMBAsWritten(d.availableBlocks, d.blockSize))
  }

  /** While the free bytes fit in an `int`, the program's verdicts are the
      intended ones. */
  lemma AsWrittenAgreesBelowTwoGiB(d: Device)
    requires WellFormed(d) && IsInt(d.availableBlocks * d.blockSize)
    ensures EvaluateAsWritten(d) == Evaluate(d)
  {
  }

  // ------------------------------------------------------------- aggregation

  /** The run's outcome: the verdicts, the error and warning messages and
      the overall verdict. */
  datatype Report = Report(checks: Checks, errors: seq<string>, warnings: seq<string>, passed: bool)

  /** The message a failed check contributes; nothing for a passed one. */
  function Failure(v: Verdict): (r: seq<string>)
    ensures |r| <= 1 && (r == [] <==> v.passed)
  {
    if v.passed then [] else [VerdictMessage(v)]
  }

  /** `runCheck`'s aggregation: storage, permissions and directories
      failures become errors, memory and FFmpeg failures warnings, each
      list in check order, and the run passes exactly when no blocking
      check failed. */
  function Aggregate(c: Checks): (r: Report)
    ensures r.checks == c
    ensures r.passed <==> c.storage.passed && c.permissions.passed && c.directories.passed
    ensures r.passed <==> r.errors == []
    ensures |r.errors| <= 3 && |r.warnings| <= 2
    ensures |r.errors| == Failed(c.storage) + Failed(c.permissions) + Failed(c.directories)
    ensures r.warnings == [] <==> c.memory.passed && c.ffmpeg.passed
  {
    var errors := Failure(c.storage) + Failure(c.permissions) + Failure(c.directories);
    Report(c, errors, Failure(c.memory) + Failure(c.ffmpeg), errors == [])
  }

  function Failed(v: Verdict): nat {
    if v.passed then 0 else 1
  }

  /** The run's `message`. */
  function ReportMessage(r: Report): string {
    if r.passed then "All sanity checks passed"
    else "Sanity check failed with " + IntToString(|r.errors|) + " error(s)"
  }

  /** `runCheck()` with the storage product in 64 bits: the five checks in
      order, then the aggregation. */
  method RunCheck(d: Device) returns (r: Report)
    requires WellFormed(d)
    ensures r == Aggregate(Evaluate(d))
  {
    var storage := StorageMB(d.availableBlocks, d.blockSize);
    r := RunChecks(d, storage);
  }

  /** `runCheck()` as written: the storage figure wraps in 32 bits. */
  method RunCheckAsWritten(d: Device) returns (r: Report)
    requires WellFormed(d)
    ensures r == Aggregate(EvaluateAsWritten(d))
  {
    var storage := StorageMBAsWritten(d.availableBlocks, d.blockSize);
    r := RunChecks(d, storage);
  }

  /** The five checks in order for a storage figure of `storage` MB, the
      directories probed one by one, then the aggregation. */
  method RunChecks(d: Device, storage: int) returns (r: Report)
    requires WellFormed(d)
    ensures r == Aggregate(Checked(d, storage))
  {
    var memory := MemoryMB(d.maxMemory, d.totalMemory, d.freeMemory);
    var dirsOk, _ := ProbeDirectories(RequiredDirs(), d.probe);
    var c := Checks(Verdict(Storage, StoragePasses(storage), storage),
                    Verdict(Permissions, d.mounted && (d.testDirMade || d.testDirExists), 0),
                    Verdict(Memory, memory >= MIN_MEMORY_MB, memory),
                    Verdict(FFmpeg, d.ffmpegBinaryExists || d.ffmpegKitLoads, 0),
                    Verdict(Directories, dirsOk, 0));
    r := Aggregate(c);
  }

  /** A device with 10 GiB free in 4 KiB blocks whose other blocking
      checks pass: the program's product 2621440 * 4096 wraps to -2^31, so
      it reports -2048 MB and fails with the storage message alone, where
      the intended check passes. */
  lemma TenGiBFailsAsWritten(d: Device)
    requires WellFormed(d) && d.availableBlocks == 2621440 && d.blockSize == 4096
    requires d.mounted && d.testDirMade && AllUsable(RequiredDirs(), d.probe)
    ensures StorageMBAsWritten(d.availableBlocks, d.blockSize) == -2048
    ensures !Aggregate(EvaluateAsWritten(d)).passed
    ensures Aggregate(EvaluateAsWritten(d)).errors == [VerdictMessage(Verdict(Storage, false, -2048))]
    ensures Aggregate(Evaluate(d)).passed
  {
    assert 2621440 * 4096 == 10737418240;
    assert WrapInt(10737418240) == -2147483648;
    assert Quot(-2147483648, MB) == -2048;
    assert StorageMB(2621440, 4096) == 10240;
  }

  /** The run passes exactly when storage, permissions and every required
      directory are fine; a failed run's message counts the failed
      blocking checks. */
  lemma RunCheckVerdict(d: Device)
    requires WellFormed(d)
    ensures Aggregate(Evaluate(d)).passed <==>
              StorageMB(d.availableBlocks, d.blockSize) >= MIN_STORAGE_MB
              && d.mounted && (d.testDirMade || d.testDirExists)
              && AllUsable(RequiredDirs(), d.probe)
    ensures !Aggregate(Evaluate(d)).passed ==>
              1 <= |Aggregate(Evaluate(d)).errors| <= 3
  {
  }

  /** Memory and FFmpeg never decide the run: two devices that agree on
      storage, permissions and directories get the same overall verdict
      and the same errors, whatever their memory and FFmpeg. */
  lemma WarningsNeverBlock(d: Device, e: Device)
    requires WellFormed(d) && WellFormed(e)
    requires d.availableBlocks == e.availableBlocks && d.blockSize == e.blockSize
    requires d.mounted == e.mounted && d.testDirMade == e.testDirMade && d.testDirExists == e.testDirExists
    requires d.probe == e.probe
    ensures Aggregate(Evaluate(d)).passed == Aggregate(Evaluate(e)).passed
    ensures Aggregate(Evaluate(d)).errors == Aggregate(Evaluate(e)).errors
  {
  }

  // -------------------------------------------------------------------- JSON

  /** A check's result object. */
  function VerdictJson(v: Verdict): Obj {
    var o := map["check" := JStr(v.kind.Name()), "passed" := JBool(v.passed),
                 "message" := JStr(VerdictMessage(v))];
    if v.kind == Storage || v.kind == Memory then o["available_mb" := JNum(v.mb)] else o
  }

  /** `runCheck` reads each check back with `optBoolean("passed", false)`
      and `optString("message", ...)`: it gets the verdict and its message,
      never the fallback, which is why `Aggregate` uses them directly. */
  lemma VerdictJsonReads(v: Verdict, fallback: string)
    ensures OptBoolean(VerdictJson(v), "passed", false) == v.passed
    ensures OptString(VerdictJson(v), "message", fallback) == VerdictMessage(v)
  {
  }

  /** The result object, stamped with `now`. */
  function ReportJson(r: Report, now: int): Obj {
    var c := r.checks;
    map["agent" := JStr("SanityCheckAgent"), "timestamp" := JNum(now),
        "storage_check" := JObj(VerdictJson(c.storage)), "permissions_check" := JObj(VerdictJson(c.permissions)),
        "memory_check" := JObj(VerdictJson(c.memory)), "ffmpeg_check" := JObj(VerdictJson(c.ffmpeg)),
        "directories_check" := JObj(VerdictJson(c.directories)),
        "passed" := JBool(r.passed), "errors" := JArr(Strings(r.errors)),
        "warnings" := JArr(Strings(r.warnings)), "message" := JStr(ReportMessage(r))]
  }

  /** The screens read the result back with `optBoolean("passed", false)`
      and `optString("message", ...)`, and the activity log reads
      `optString("agent", ...)`; they get the report's verdict, message and
      agent name. */
  lemma ReportJsonReads(r: Report, now: int, fallback: string)
    ensures OptBoolean(ReportJson(r, now), "passed", false) == r.passed
    ensures OptString(ReportJson(r, now), "message", fallback) == ReportMessage(r)
    ensures OptString(ReportJson(r, now), "agent", fallback) == "SanityCheckAgent"
  {
  }

  // ------------------------------------------------------------------ record

  /** Where `logResult` writes the run's result. */
  function ReportFile(): string {
    StoragePaths.AgentResultsDir() + "/" + "SanityCheckAgent/sanity_check.json"
  }

  /** `logResult`: the rendered result object replaces the report file's
      content; every other file is kept. */
  function Record(fs: Files, result: Obj, render: Obj -> string): (after: Files)
    ensures ReportFile() in after && after[ReportFile()] == render(result)
    ensures forall p :: p in fs && p != ReportFile() ==> p in after && after[p] == fs[p]
    ensures after.Keys == fs.Keys + {ReportFile()}
  {
    Write(fs, ReportFile(), render(result))
  }

  /** The report file lies in the agent-results directory, and is not a
      log file, so recording leaves the app log alone. */
  lemma ReportFileInResults()
    ensures StartsWith(ReportFile(), StoragePaths.AgentResultsDir() + "/")
    ensures !AppLog.IsLogFile(ReportFile())
  {
    var head := StoragePaths.AgentResultsDir() + "/";
    assert ReportFile()[..|head|] == head;
    AppLog.NotLogFile("SanityCheckAgent/sanity_check.json");
  }

  /** The report is no other agent's record: the records lie in
      directories named after their agents. */
  lemma ReportNotRecord(agent: string, path: string)
    requires agent != [] && agent[0] != 'S'
    ensures ReportFile() != AgentRecords.AnalysisFile(agent, path)
  {
    var n := |StoragePaths.AgentResultsDir() + "/"|;
    assert ReportFile()[n] == 'S';
    assert AgentRecords.AnalysisFile(agent, path)[n] == (StoragePaths.AgentResultsDir() + "/" + agent + "/analysis_")[n] == agent[0];
  }

  /** The report file holds the latest run only: recording twice is
      recording the second result. */
  lemma LatestRunWins(fs: Files, first: Obj, second: Obj, render: Obj -> string)
    ensures Record(Record(fs, first, render), second, render) == Record(fs, second, render)
  {
  }
}

=== FILE: screen_steps.dfy ===
/** What the generating screens share: how a step's result object becomes a
    verdict, the title a project is given, the prompt guard and the project
    identifiers.  A step's result arrives as the object the agent returned,
    `None` standing for a `null` result. */
module ScreenSteps {
  import opened Outcomes
  import opened JavaString
  import opened OrgJson
  import opened FailFast
  import opened FileStore
  import Orchestrator
  import StoragePaths
  import AppLog
  import SanityCheck

  /** The sanity step: it passes exactly when the check's `passed` reads
      true, and fails with the check's message. */
  function SanityVerdict(sanity: Obj): (v: Verdict)
    ensures v.Pass? <==> OptBoolean(sanity, "passed", false)
    ensures v.Fail? ==> v.message == OptString(sanity, "message", "Sanity check failed")
  {
    if OptBoolean(sanity, "passed", false) then Pass
    else Fail(OptString(sanity, "message", "Sanity check failed"))
  }

  /** An agent step: it passes exactly when a result came back whose
      `success` reads true; a missing result fails with `nullText`, any
      other failure with the result's own message (`fallback` when it has
      none). */
  function AgentVerdict(reply: Option<Obj>, fallback: string, nullText: string): (v: Verdict)
    ensures v.Pass? <==> reply.Some? && OptBoolean(reply.value, "success", false)
    ensures reply.None? ==> v == Fail(nullText)
    ensures reply.Some? && v.Fail? ==> v.message == OptString(reply.value, "message", fallback)
  {
    match reply
    case None => Fail(nullText)
    case Some(o) => if OptBoolean(o, "success", false) then Pass else Fail(OptString(o, "message", fallback))
  }

  /** The project title, `substring(0, min(length(), 50))`: the first 50
      UTF-16 units of the prompt, or all of a shorter prompt. */
  function Title(prompt: string): (t: string)
    ensures Length16(t) == (if Length16(prompt) < 50 then Length16(prompt) else 50)
    ensures Length16(prompt) <= 50 ==> t == prompt
    ensures IsBmp(prompt) ==> t == prompt[..if |prompt| < 50 then |prompt| else 50]
    ensures |t| <= |prompt|
    ensures t == prompt[..|t|] || (0 < |t| && t == prompt[..|t| - 1] + [LONE_SURROGATE])
  {
    if Length16(prompt) <= 50 then Prefix16Whole(prompt, 50); Prefix16(prompt, 50)
    else if IsBmp(prompt) then Prefix16Bmp(prompt, 50); Prefix16(prompt, 50)
    else Prefix16(prompt, 50)
  }

  /** A prompt of characters outside the Basic Multilingual Plane, such as
      emoji, keeps only 25 of them: each takes two of the 50 units. */
  lemma PairsTitle(prompt: string)
    requires forall i :: 0 <= i < |prompt| ==> Units(prompt[i]) == 2
    requires |prompt| >= 25
    ensures Title(prompt) == prompt[..25]
  {
    AllPairsOf(prompt);
    Prefix16Pairs(prompt, 25);
  }

  /** A prompt that starts a run: one that is not blank once trimmed. */
  predicate Submittable(text: string) {
    Trim(text) != []
  }

  /** A generate or test button: the work starts, with the trimmed text,
      exactly when the text is not blank. */
  function Submit(text: string): (r: Option<string>)
    ensures r.Some? <==> Submittable(text)
    ensures r.Some? ==> r.value == Trim(text) && r.value != []
  {
    if Trim(text) == [] then None else Some(Trim(text))
  }

  /** A generated project identifier: the screen's prefix, the formatted
      time, and a random number below 1000. */
  function ProjectId(prefix: string, timestamp: string, n: int): (id: string)
    requires 0 <= n < 1000
    ensures StartsWith(id, prefix + timestamp + "_")
    ensures EndsWith(id, NatToString(n))
  {
    var head := prefix + timestamp + "_";
    var id := head + NatToString(n);
    assert id[..|head|] == head;
    assert id[|id| - |NatToString(n)|..] == NatToString(n);
    id
  }

  /** `onCreate`: the project named by the opening intent, or else a new
      identifier with the screen's prefix. */
  function CurrentProject(extra: Option<string>, prefix: string, timestamp: string, n: int): (id: string)
    requires 0 <= n < 1000
    ensures extra.Some? ==> id == extra.value
    ensures extra.None? ==> StartsWith(id, prefix + timestamp + "_")
  {
    if extra.Some? then extra.value else ProjectId(prefix, timestamp, n)
  }

  /** Identifiers made from different random numbers differ, even within
      the same second. */
  lemma ProjectIdsDiffer(prefix: string, timestamp: string, n: int, m: int)
    requires 0 <= n < 1000 && 0 <= m < 1000 && n != m
    ensures ProjectId(prefix, timestamp, n) != ProjectId(prefix, timestamp, m)
  {
    var head := prefix + timestamp + "_";
    if ProjectId(prefix, timestamp, n) == ProjectId(prefix, timestamp, m) {
      assert head + NatToString(n) == head + NatToString(m);
      assert NatToString(n) == (head + NatToString(n))[|head|..];
      assert NatToString(m) == (head + NatToString(m))[|head|..];
      DigitsValueOfNatToString(n);
      DigitsValueOfNatToString(m);
    }
  }

  /** The orchestrator input the screens build: the project, the prompt and
      the project configuration object. */
  function OrchestratorInput(projectId: string, prompt: string, config: Obj): Obj {
    map["project_id" := JStr(projectId), "prompt" := JStr(prompt), "project_config" := JObj(config)]
  }

  /** The screens' orchestrator input is always accepted: the orchestrator
      gets past reading it, whatever the project and prompt. */
  lemma OrchestratorInputAccepted(projectId: string, prompt: string, config: Obj)
    ensures Orchestrator.InputError(OrchestratorInput(projectId, prompt, config)).None?
  {
  }

  /** A successful run's table of progress values never decreases and ends
      at 100. */
  predicate CompleteTable(xs: seq<int>) {
    NonDecreasing(xs) && xs != [] && xs[|xs| - 1] == 100
  }

  /** A table that never steps down never decreases. */
  lemma {:induction false} StepsUp(xs: seq<int>)
    requires forall i :: 0 <= i < |xs| - 1 ==> xs[i] <= xs[i + 1]
    ensures NonDecreasing(xs)
    decreases |xs|
  {
    if |xs| > 1 {
      var init := xs[..|xs| - 1];
      StepsUp(init);
      forall i, j | 0 <= i < j < |xs| ensures xs[i] <= xs[j] {
        if j < |xs| - 1 {
          assert init[i] <= init[j];
        } else if i < j - 1 {
          assert init[i] <= init[j - 1];
        }
      }
    }
  }

  /** The progress the simulated work announces: `count` values from
      `start` in steps of `step`. */
  function Ramp(start: int, step: int, count: nat): (r: seq<int>)
    ensures |r| == count
    ensures forall i :: 0 <= i < count ==> r[i] == start + i * step
  {
    seq(count, i => start + i * step)
  }

  /** The tails of a three-stage list, as `Drive` visits them. */
  lemma Peel3(s: seq<Stage>)
    requires |s| == 3
    ensures s[1..] == [s[1], s[2]] && s[1..][1..] == [s[2]] && s[1..][1..][1..] == []
  {
  }

  /** The tails of a five-stage list, as `Drive` visits them. */
  lemma Peel5(s: seq<Stage>)
    requires |s| == 5
    ensures s[1..] == [s[1], s[2], s[3], s[4]] && s[1..][1..] == [s[2], s[3], s[4]]
    ensures s[1..][1..][1..] == [s[3], s[4]] && s[1..][1..][1..][1..] == [s[4]]
    ensures s[1..][1..][1..][1..][1..] == []
  {
  }

  /** The tails of a four-stage list, as `Drive` visits them. */
  lemma Peel4(s: seq<Stage>)
    requires |s| == 4
    ensures s[1..] == [s[1], s[2], s[3]] && s[1..][1..] == [s[2], s[3]]
    ensures s[1..][1..][1..] == [s[3]] && s[1..][1..][1..][1..] == []
  {
  }

  /** The progress table of four stages, stage by stage. */
  lemma Progress4(s: seq<Stage>)
    requires |s| == 4
    ensures Progress(s) == s[0].progress + (s[1].progress + (s[2].progress + s[3].progress))
  {
    Peel4(s);
    assert Progress(s[1..][1..][1..]) == s[3].progress + Progress([]) == s[3].progress;
    assert Progress(s[1..][1..]) == s[2].progress + s[3].progress;
    assert Progress(s[1..]) == s[1].progress + (s[2].progress + s[3].progress);
  }

  // ---------------------------------------------------------- project files

  /** A file directly inside a project's directory. */
  function ProjectFile(projectId: string, name: string): (p: string)
    ensures StartsWith(p, StoragePaths.ProjectDir(projectId) + "/")
  {
    var head := StoragePaths.ProjectDir(projectId) + "/";
    assert (head + name)[..|head|] == head;
    head + name
  }

  function ConfigFile(projectId: string): string {
    ProjectFile(projectId, "project.json")
  }

  function ScriptFile(projectId: string): string {
    ProjectFile(projectId, "script.txt")
  }

  /** A project's file is below the projects directory. */
  lemma ProjectFileUnderProjects(projectId: string, name: string)
    ensures StartsWith(ProjectFile(projectId, name), StoragePaths.Under("projects") + "/")
  {
    StartsWithTrans(ProjectFile(projectId, name), StoragePaths.ProjectDir(projectId) + "/", StoragePaths.ProjectsDir() + "/");
  }

  /** No file in the agent-results directory is a project's file, so the
      agents' records and the app log never touch a project. */
  lemma ResultsOutsideProject(p: string, projectId: string, name: string)
    requires StartsWith(p, StoragePaths.AgentResultsDir() + "/")
    ensures p != ProjectFile(projectId, name)
  {
    ProjectFileUnderProjects(projectId, name);
    StoragePaths.DifferentTops(p, "agent_results", ProjectFile(projectId, name), "projects");
  }

  /** Different names in the same project are different files. */
  lemma ProjectFilesDiffer(projectId: string, a: string, b: string)
    requires a != b
    ensures ProjectFile(projectId, a) != ProjectFile(projectId, b)
  {
  }

  // ------------------------------------------------ the orchestrator's files

  /** Only a `script.txt` can be the orchestrator's shared script: a
      project file whose name ends in another letter never is. */
  lemma OtherNameNotShared(projectId: string, name: string)
    requires name != [] && name[|name| - 1] != 't'
    ensures ProjectFile(projectId, name) != Orchestrator.SharedScriptFile()
  {
    var p := ProjectFile(projectId, name);
    assert p[|p| - 1] == name[|name| - 1];
    var q := Orchestrator.SharedScriptFile();
    assert q[|q| - 1] == 't';
  }

  /** A project's script file names its project: the project id sits
      between the projects directory and "/script.txt". */
  lemma ScriptFileNamesProject(projectId: string)
    ensures var f := ScriptFile(projectId);
            var n := |StoragePaths.ProjectsDir()| + 1;
            n <= |f| - |"/script.txt"| && f[n..|f| - |"/script.txt"|] == projectId
  {
    var dir := StoragePaths.ProjectDir(projectId);
    var f := ScriptFile(projectId);
    assert f == dir + "/script.txt";
    assert f[..|dir|] == dir;
  }

  /** Only the shared project's script is the orchestrator's shared
      script. */
  lemma OtherProjectNotShared(projectId: string)
    requires projectId != Orchestrator.SHARED_PROJECT
    ensures ScriptFile(projectId) != Orchestrator.SharedScriptFile()
  {
    ScriptFileNamesProject(projectId);
    ScriptFileNamesProject(Orchestrator.SHARED_PROJECT);
  }

  /** A project file other than the shared script is none of the
      orchestrator's own files, whatever result it recorded. */
  lemma ProjectFileNotOwn(result: Option<Obj>, projectId: string, name: string)
    requires ProjectFile(projectId, name) != Orchestrator.SharedScriptFile()
    ensures !Orchestrator.OwnFile(ProjectFile(projectId, name), result)
  {
    var p := ProjectFile(projectId, name);
    ProjectFileUnderProjects(projectId, name);
    AppLog.OutsideResultsNotLogFile(p, "projects");
    match Orchestrator.Recorded(result)
    case None =>
    case Some(file) =>
      var id := GetString(result.value, "project_id").value;
      ResultsOutsideProject(Orchestrator.RecordFile(id), projectId, name);
  }

  /** The sanity report is none of the orchestrator's own files. */
  lemma ReportNotOwn(result: Option<Obj>)
    ensures !Orchestrator.OwnFile(SanityCheck.ReportFile(), result)
  {
    SanityCheck.ReportFileInResults();
    StoragePaths.DifferentTops(SanityCheck.ReportFile(), "agent_results", Orchestrator.SharedScriptFile(), "projects");
    match Orchestrator.Recorded(result)
    case None =>
    case Some(file) =>
      Orchestrator.RecordFileNotOther(GetString(result.value, "project_id").value, "SanityCheckAgent/sanity_check.json");
  }

  /** The configuration a generating screen writes before its agents run:
      the project, the prompt's title, the whole prompt, the workflow and
      the creation time. */
  function ProjectConfig(projectId: string, prompt: string, workflow: string, createdAt: string): Obj {
    map["project_id" := JStr(projectId), "title" := JStr(Title(prompt)), "prompt" := JStr(prompt),
        "workflowType" := JStr(workflow), "created_at" := JStr(createdAt)]
  }

  /** The configuration marked completed at `completedAt`. */
  function MarkCompleted(config: Obj, completedAt: string): Obj {
    config["status" := JStr("completed")]["completed_at" := JStr(completedAt)]
  }

  /** The configuration names the project and the workflow, keeps the
      whole prompt and titles it with its first 50 characters; only the
      completed one has a status, and it keeps everything else. */
  lemma ConfigReads(projectId: string, prompt: string, workflow: string, createdAt: string, completedAt: string)
    ensures var c := ProjectConfig(projectId, prompt, workflow, createdAt);
            OptString(c, "title", "") == Title(prompt) && OptString(c, "prompt", "") == prompt
            && OptString(c, "project_id", "") == projectId && OptString(c, "workflowType", "") == workflow
            && "status" !in c
    ensures var c := ProjectConfig(projectId, prompt, workflow, createdAt);
            var done := MarkCompleted(c, completedAt);
            OptString(done, "status", "") == "completed" && OptString(done, "completed_at", "") == completedAt
            && forall k :: k in c ==> k in done && done[k] == c[k]
  {
  }
  // ------------------------------------------------------------ picked media

  /** A screen that works on one picked file: the file it holds (`None`
      before a pick) and whether its action button is enabled. */
  datatype MediaScreen = MediaScreen(selected: Option<string>, enabled: bool)

  /** A screen as `onCreate` leaves it: nothing picked, button disabled. */
  const FRESH: MediaScreen := MediaScreen(None, false)

  /** What the picker hands back: nothing (cancelled), an item without a
      file path, or a path. */
  datatype PickResult = Cancelled | NoPath | Path(path: string)

  /** `onActivityResult`: a picked path is remembered at once; the file is
      then copied to `dest` in the project, and only a successful copy
      moves the selection there and refreshes the button. */
  function Pick(s: MediaScreen, fs: Files, picked: PickResult, dest: string): (r: (MediaScreen, Files))
    ensures picked.Cancelled? ==> r == (s, fs)
    ensures picked.NoPath? ==> r.0.selected.None? && r.1 == fs
    ensures r.0.enabled != s.enabled ==> r.0.enabled && picked.Path? && picked.path in fs
    ensures picked.Path? && picked.path in fs ==> r.0 == MediaScreen(Some(dest), true) && r.1 == Copy(fs, picked.path, dest).1
    ensures picked.Path? && picked.path !in fs ==> r.0.selected == Some(picked.path) && r.1 == fs
  {
    match picked
    case Cancelled => (s, fs)
    case NoPath => (s.(selected := None), fs)
    case Path(p) =>
      var (copied, after) := Copy(fs, p, dest);
      if copied then (MediaScreen(Some(dest), true), after) else (s.(selected := Some(p)), fs)
  }

  /** The action button's guard: a run starts, with the trimmed prompt,
      only when a file is selected and the prompt is not blank; whether the
      button looked enabled plays no part. */
  function Request(s: MediaScreen, text: string): (r: Option<string>)
    ensures r.Some? <==> s.selected.Some? && Submittable(text)
    ensures r.Some? ==> r.value == Trim(text)
  {
    if s.selected.None? || Trim(text) == [] then None else Some(Trim(text))
  }

  /** A successful pick leaves the screen ready, holding the project copy
      of the picked file; a path the copy cannot open is still remembered,
      with the project unchanged. */
  lemma PickedFileIsCopied(s: MediaScreen, fs: Files, path: string, dest: string)
    requires path != dest
    ensures var (t, after) := Pick(s, fs, Path(path), dest);
            (path in fs ==> t.enabled && t.selected == Some(dest) && dest in after && after[dest] == fs[path])
            && (path !in fs ==> after == fs && t.selected == Some(path) && t.enabled == s.enabled)
  {
  }

  /** An item without a path clears the selection but leaves the button as
      it was: after a successful pick the button stays enabled while the
      guard refuses every prompt. */
  lemma StaleButton(s: MediaScreen, fs: Files, path: string, dest: string, text: string)
    requires path in fs
    ensures var ready := Pick(s, fs, Path(path), dest);
            var cleared := Pick(ready.0, ready.1, NoPath, dest).0;
            cleared.enabled && Request(cleared, text).None?
  {
  }

  // ---------------------------------------------------------------- saving

  /** The metadata a screen's save button writes: the project, a fixed
      title, the workflow, and the two times it reads; a `null` source is
      left out, as `put` removes a name given `null`. */
  function SavedConfig(projectId: string, title: string, workflow: string, sourceKey: string,
                       source: Option<string>, createdAt: string, modified: string): (c: Obj)
    requires sourceKey !in {"project_id", "title", "workflowType", "created_at", "last_modified"}
    ensures sourceKey in c <==> source.Some?
    ensures source.Some? ==> c[sourceKey] == JStr(source.value)
    ensures OptString(c, "title", "") == title && OptString(c, "workflowType", "") == workflow
    ensures OptString(c, "project_id", "") == projectId
  {
    var base := map["project_id" := JStr(projectId), "title" := JStr(title), "workflowType" := JStr(workflow),
                     "created_at" := JStr(createdAt), "last_modified" := JStr(modified)];
    if source.Some? then base[sourceKey := JStr(source.value)] else base
  }
}

=== FILE: script_generator.dfy ===
/** `ScriptGeneratorAgent.generateScript`: one request to the text model
    with an instruction-wrapped prompt, the first candidate's text with an
    echoed request stripped off, and the result written to one fixed file.
    The model's answer comes in as its `Reading`. */
module ScriptGenerator {
  import opened Outcomes
  import opened JavaString
  import opened OrgJson
  import opened ModelEnvelope
  import opened FileStore
  import StoragePaths
  import AppLog
  import HFClient

  const AGENT: string := "ScriptGeneratorAgent"
  const ENDPOINT: string := "https://api-inference.huggingface.co/models/microsoft/DialoGPT-medium"
  const LEAD: string := "Generate a script based on this prompt: "
  const INSTRUCTIONS: string :=
    "\n\nThe script should include:\n1. Scene descriptions\n2. Character dialogue\n3. Action descriptions\n4. Proper formatting\n\nGenerate a complete, well-structured script."
  const MAX_NEW_TOKENS: int := 800

  // ---------------------------------------------------------------- request

  /** The request text: the lead, the user's prompt, the instructions. */
  function ScriptPrompt(prompt: string): (r: string)
    ensures |r| == |LEAD| + |prompt| + |INSTRUCTIONS|
    ensures StartsWith(r, LEAD) && EndsWith(r, INSTRUCTIONS)
  {
    var r := LEAD + prompt + INSTRUCTIONS;
    assert r[..|LEAD|] == LEAD;
    assert r[|r| - |INSTRUCTIONS|..] == INSTRUCTIONS;
    r
  }

  /** The user's prompt inside a request text. */
  function PromptOf(request: string): string
    requires |request| >= |LEAD| + |INSTRUCTIONS|
  {
    request[|LEAD|..|request| - |INSTRUCTIONS|]
  }

  /** The prompt can be read back from the request text, so different
      prompts make different requests. */
  lemma PromptRecovered(prompt: string)
    ensures PromptOf(ScriptPrompt(prompt)) == prompt
  {
    var r := LEAD + prompt + INSTRUCTIONS;
    assert r[|LEAD|..|r| - |INSTRUCTIONS|] == prompt;
  }

  /** The request body: the request text as `inputs` and a generation
      bound of 800 new tokens (the sampling parameters are floating point
      and not represented). */
  function Payload(prompt: string): Obj {
    map["inputs" := JStr(ScriptPrompt(prompt)),
        "parameters" := JObj(map["max_new_tokens" := JNum(MAX_NEW_TOKENS)])]
  }

  /** The model reads the request text and the 800-token bound back from
      the body. */
  lemma PayloadReads(prompt: string)
    ensures OptString(Payload(prompt), "inputs", "") == ScriptPrompt(prompt)
    ensures OptObject(Payload(prompt), "parameters").Some?
    ensures OptInt(OptObject(Payload(prompt), "parameters").value, "max_new_tokens", 0) == 800
  {
  }

  // ---------------------------------------------------------------- cleanup

  /** The clean-up of the generated text: a copy of the request at its
      start is removed and the rest trimmed; any other text is kept as it
      is. */
  function Clean(text: string, request: string): (r: string)
    ensures !StartsWith(text, request) ==> r == text
    ensures StartsWith(text, request) ==> |r| <= |text| - |request|
  {
    if StartsWith(text, request) then Trim(text[|request|..]) else text
  }

  /** A model that echoes the request before its continuation yields just
      the trimmed continuation. */
  lemma EchoRemoved(prompt: string, continuation: string)
    ensures Clean(ScriptPrompt(prompt) + continuation, ScriptPrompt(prompt)) == Trim(continuation)
  {
    var request := ScriptPrompt(prompt);
    assert (request + continuation)[..|request|] == request;
    assert (request + continuation)[|request|..] == continuation;
  }

  // ---------------------------------------------------------------- outcome

  /** What `generateScript` comes to. */
  datatype Generation =
    | Scripted(script: string)    // a candidate arrived
    | Unanswered                  // no response, or no "0" member
    | Malformed                   // "0" is empty or lacks generated_text
    | Threw(error: JsonError)     // reading the envelope threw

  /** `generateScript(prompt)` given the model's answer. */
  function Generate(prompt: string, reading: Reading): (g: Generation)
    ensures g.Scripted? <==> reading.Generated?
    ensures g.Scripted? ==> g.script == Clean(reading.text, ScriptPrompt(prompt))
    ensures g.Unanswered? <==> reading.NoResponse?
    ensures g.Malformed? <==> reading.BadFormat?
    ensures g.Threw? <==> reading.Broken?
  {
    match reading
    case Generated(text) => Scripted(Clean(text, ScriptPrompt(prompt)))
    case NoResponse => Unanswered
    case BadFormat => Malformed
    case Broken(e) => Threw(e)
  }

  function GenerationMessage(g: Generation): string {
    match g
    case Scripted(_) => "Script generated successfully"
    case Unanswered => FailureMessage(NoResponse)
    case Malformed => FailureMessage(BadFormat)
    case Threw(e) => "Error generating script: " + Message(e)
  }

  /** The result object.  An exception while reading the envelope leaves
      the error result, which has no prompt. */
  function ResultJson(prompt: string, g: Generation): Obj {
    var base := map["agent" := JStr(AGENT), "success" := JBool(g.Scripted?),
                    "message" := JStr(GenerationMessage(g))];
    match g
    case Threw(_) => base
    case Scripted(script) => base["prompt" := JStr(prompt)]["script" := JStr(script)]
    case _ => base["prompt" := JStr(prompt)]
  }

  /** What callers read off the result: the agent, success exactly for a
      script, the message for each outcome, the prompt unless reading the
      envelope threw, and the script (empty when there is none). */
  lemma ResultJsonReads(prompt: string, g: Generation)
    ensures Holds(ResultJson(prompt, g), "agent", JStr(AGENT))
    ensures OptBoolean(ResultJson(prompt, g), "success", false) <==> g.Scripted?
    ensures g.Scripted? ==> OptString(ResultJson(prompt, g), "message", "") == "Script generated successfully"
    ensures g.Unanswered? ==> OptString(ResultJson(prompt, g), "message", "") == "Failed to get response from model"
    ensures g.Malformed? ==> OptString(ResultJson(prompt, g), "message", "") == "Invalid response format from model"
    ensures g.Threw? ==> OptString(ResultJson(prompt, g), "message", "") == "Error generating script: " + Message(g.error)
    ensures "prompt" in ResultJson(prompt, g) <==> !g.Threw?
    ensures !g.Threw? ==> OptString(ResultJson(prompt, g), "prompt", "") == prompt
    ensures OptString(ResultJson(prompt, g), "script", "") == (if g.Scripted? then g.script else "")
  {
  }

  // ---------------------------------------------------------------- record

  /** The one file every result is written to. */
  function ResultFile(): string {
    StoragePaths.AgentResultsDir() + "/" + "ScriptGeneratorAgent/script_generation.json"
  }

  /** The result file is no log file. */
  lemma ResultFileNotLog()
    ensures !AppLog.IsLogFile(ResultFile())
  {
    AppLog.NotLogFile("ScriptGeneratorAgent/script_generation.json");
  }

  /** The messages one generation logs: the client's lines (`clientLog`,
      what `HFClient.RequestModel` logged), then the error line when
      reading the envelope threw. */
  function Logged(g: Generation, clientLog: seq<string>): (r: seq<AppLog.Said>)
    ensures |r| == |clientLog| + (if g.Threw? then 1 else 0)
    ensures forall k :: 0 <= k < |clientLog| ==> r[k] == AppLog.Said(HFClient.LOG_AGENT, clientLog[k])
    ensures g.Threw? ==> r[|r| - 1] == AppLog.Said(AGENT, "Error generating script: " + Message(g.error))
  {
    AppLog.SaidBy(HFClient.LOG_AGENT, clientLog)
    + (if g.Threw? then [AppLog.Said(AGENT, GenerationMessage(g))] else [])
  }

  /** The effects of `generateScript`: the messages go to the app log, the
      k-th at the clock reading `clock(k)`, and every result but the error
      result then replaces the content of the result file with its text
      (`render` stands for the JSON serialisation). */
  function Record(fs: Files, prompt: string, g: Generation, clientLog: seq<string>, clock: nat -> AppLog.Stamp,
                  render: Obj -> string): (r: Files)
    ensures g.Threw? ==> r == AppLog.LogSaid(fs, Logged(g, clientLog), clock, render)
    ensures !g.Threw? ==> ResultFile() in r && r[ResultFile()] == render(ResultJson(prompt, g))
    ensures forall p :: p in fs && p != ResultFile() && !AppLog.IsLogFile(p) ==> p in r && r[p] == fs[p]
  {
    var logged := AppLog.LogSaid(fs, Logged(g, clientLog), clock, render);
    if g.Threw? then logged else Write(logged, ResultFile(), render(ResultJson(prompt, g)))
  }

  /** Within one day, a generation appends its messages to a cleanly ended
      log: the client's lines, then the error line when reading the
      envelope threw; writing the result leaves the log alone. */
  lemma GenerationLogLines(fs: Files, prompt: string, g: Generation, clientLog: seq<string>,
                           clock: nat -> AppLog.Stamp, day: string, render: Obj -> string)
    requires forall o: Obj :: '\n' !in render(o) && '\r' !in render(o)
    requires forall k :: 0 <= k <= |clientLog| ==> clock(k).day == day
    requires Terminated(Content(fs, AppLog.LogFile(day)))
    ensures Lines(Content(Record(fs, prompt, g, clientLog, clock, render), AppLog.LogFile(day)))
            == Lines(Content(fs, AppLog.LogFile(day))) + AppLog.SaidLines(Logged(g, clientLog), clock, render)
  {
    AppLog.LogSaidReadsBack(fs, Logged(g, clientLog), clock, day, render);
    ResultFileNotLog();
  }

  /** Only the latest recorded result survives: apart from the app log,
      recording a second result erases every trace of the first. */
  lemma LatestResultWins(fs: Files, p1: string, g1: Generation, log1: seq<string>, clock1: nat -> AppLog.Stamp,
                         p2: string, g2: Generation, log2: seq<string>, clock2: nat -> AppLog.Stamp,
                         render: Obj -> string, p: string)
    requires !g1.Threw? && !g2.Threw? && !AppLog.IsLogFile(p)
    ensures var twice := Record(Record(fs, p1, g1, log1, clock1, render), p2, g2, log2, clock2, render);
            var once := Record(fs, p2, g2, log2, clock2, render);
            (p in twice <==> p in once) && (p in once ==> twice[p] == once[p])
  {
    var first := Record(fs, p1, g1, log1, clock1, render);
    var twice := Record(first, p2, g2, log2, clock2, render);
    var once := Record(fs, p2, g2, log2, clock2, render);
    if p != ResultFile() {
      AppLog.LogSaidAddsOnlyLogs(fs, Logged(g2, log2), clock2, render);
      AppLog.LogSaidAddsOnlyLogs(fs, Logged(g1, log1), clock1, render);
      AppLog.LogSaidAddsOnlyLogs(first, Logged(g2, log2), clock2, render);
    }
  }
}

=== FILE: script_studio.dfy ===
/** `ScriptStudioActivity`: a script editor for one project.  Opening the
    screen loads the project's saved script; a non-blank prompt starts a
    run that checks the device and asks the script generator, whose script
    replaces the editor's text; the save button stores the editor's text
    and the project metadata.  The agents' result objects, the clock's
    texts, the random number and the serialisation of objects are inputs. */
module ScriptStudio {
  import opened Outcomes
  import opened JavaString
  import opened OrgJson
  import opened FileStore
  import opened FailFast
  import opened ScreenSteps
  import ScriptGenerator

  // -------------------------------------------------------------------- run

  /** What a run is given: the check's result and the generator's result
      (`None` for `null`). */
  datatype Inputs = Inputs(sanity: Obj, script: Option<Obj>)

  /** `GenerateScriptTask.doInBackground`: the check at 10, the generator
      at 30, and 80 once the script is in hand. */
  function Stages(i: Inputs): (s: seq<Stage>)
    ensures |s| == 3
  {
    [Stage([10], SanityVerdict(i.sanity)),
     Stage([30], AgentVerdict(i.script, "Script generation failed", "Script generation returned null")),
     Stage([80], Pass)]
  }

  function Run(i: Inputs): Report {
    Drive(Stages(i))
  }

  /** Whether the generator's result reads as a success. */
  predicate Scripted(i: Inputs) {
    i.script.Some? && OptBoolean(i.script.value, "success", false)
  }

  /** A run succeeds exactly when the check passes and the generator
      succeeds, and then publishes 10, 30 and 80; a failing step ends it
      with its own message. */
  lemma RunOutcome(i: Inputs)
    ensures Run(i).status.Completed? <==> OptBoolean(i.sanity, "passed", false) && Scripted(i)
    ensures Run(i).status.Completed? ==> Run(i).progress == [10, 30, 80]
    ensures !OptBoolean(i.sanity, "passed", false) ==>
              Run(i) == Report([10], Error(OptString(i.sanity, "message", "Sanity check failed")))
    ensures OptBoolean(i.sanity, "passed", false) && i.script.None? ==>
              Run(i) == Report([10, 30], Error("Script generation returned null"))
    ensures OptBoolean(i.sanity, "passed", false) && i.script.Some? && !Scripted(i) ==>
              Run(i) == Report([10, 30], Error(OptString(i.script.value, "message", "Script generation failed")))
  {
    var s := Stages(i);
    Peel3(s);
    assert AllOk(s, Passes) <==> Passes(s[0]) && Passes(s[1]);
    if Passes(s[0]) && Passes(s[1]) {
      assert Drive(s[1..][1..]) == Report([80], Completed);
    } else if Passes(s[0]) {
      assert Drive(s[1..]).progress == [30];
    }
  }

  /** The editor after a run: the result's `script` (empty when it has
      none) on success, the old text otherwise. */
  function Generate(text: string, i: Inputs): (r: string)
    ensures OptBoolean(i.sanity, "passed", false) && Scripted(i) ==> r == OptString(i.script.value, "script", "")
    ensures !(OptBoolean(i.sanity, "passed", false) && Scripted(i)) ==> r == text
  {
    RunOutcome(i);
    if Run(i).status.Completed? then OptString(i.script.value, "script", "") else text
  }

  /** With the script generator's own result, a run succeeds exactly when
      the check passes and the generator produced a script, which then
      fills the editor; a generator failure shows the generator's message. */
  lemma WithGenerator(text: string, sanity: Obj, prompt: string, g: ScriptGenerator.Generation)
    ensures var i := Inputs(sanity, Some(ScriptGenerator.ResultJson(prompt, g)));
            (Run(i).status.Completed? <==> OptBoolean(sanity, "passed", false) && g.Scripted?)
            && (OptBoolean(sanity, "passed", false) && g.Scripted? ==> Generate(text, i) == g.script)
            && (OptBoolean(sanity, "passed", false) && !g.Scripted? ==>
                  Generate(text, i) == text && Run(i).status == Error(ScriptGenerator.GenerationMessage(g)))
  {
    var i := Inputs(sanity, Some(ScriptGenerator.ResultJson(prompt, g)));
    ScriptGenerator.ResultJsonReads(prompt, g);
    RunOutcome(i);
  }

  // ------------------------------------------------------------------ files

  /** `createNewProjectId`: "script_studio_", the formatted time, "_" and a
      random number below 1000. */
  function NewProjectId(timestamp: string, n: int): (id: string)
    requires 0 <= n < 1000
    ensures StartsWith(id, "script_studio_" + timestamp + "_")
  {
    ProjectId("script_studio_", timestamp, n)
  }

  /** `loadExistingScript`: the editor starts empty and shows the saved
      script when the project has one. */
  function Load(fs: Files, projectId: string): (text: string)
    ensures ScriptFile(projectId) !in fs ==> text == ""
    ensures ScriptFile(projectId) in fs ==> text == Normalize(fs[ScriptFile(projectId)])
  {
    if ScriptFile(projectId) in fs then Read(fs, ScriptFile(projectId)) else ""
  }

  /** The metadata `saveScript` writes. */
  function SavedData(projectId: string, createdAt: string, modified: string): Obj {
    map["project_id" := JStr(projectId), "title" := JStr("Script Project"), "workflowType" := JStr("script_studio"),
        "created_at" := JStr(createdAt), "last_modified" := JStr(modified)]
  }

  /** `saveScript`: an empty editor saves nothing; otherwise the script and
      then the metadata are written. */
  function Save(fs: Files, projectId: string, text: string, createdAt: string, modified: string,
                render: Obj -> string): (r: (bool, Files))
    ensures r.0 <==> text != []
    ensures !r.0 ==> r.1 == fs
    ensures r.0 ==> ConfigFile(projectId) in r.1 && r.1[ConfigFile(projectId)] == render(SavedData(projectId, createdAt, modified))
    ensures forall p :: p in fs && p != ConfigFile(projectId) && p != ScriptFile(projectId) ==> p in r.1 && r.1[p] == fs[p]
  {
    if text == [] then (false, fs)
    else (true, Write(Write(fs, ScriptFile(projectId), text), ConfigFile(projectId), render(SavedData(projectId, createdAt, modified))))
  }

  /** Reopening the screen after a save shows the saved text, each line
      ended by a line feed; a text without carriage returns that already
      ends in one comes back unchanged, and saving what was loaded and
      loading again changes nothing more. */
  lemma SaveThenLoad(fs: Files, projectId: string, text: string, createdAt: string, modified: string,
                     render: Obj -> string)
    requires text != []
    ensures var after := Save(fs, projectId, text, createdAt, modified, render).1;
            Load(after, projectId) == Normalize(text)
            && ('\r' !in text && Terminated(text) ==> Load(after, projectId) == text)
            && Normalize(Load(after, projectId)) == Load(after, projectId)
  {
    ProjectFilesDiffer(projectId, "script.txt", "project.json");
    var stored := Write(fs, ScriptFile(projectId), text);
    WriteAppendLaws(fs, ScriptFile(projectId), text, text);
    assert Read(stored, ScriptFile(projectId)) == Normalize(text);
    NormalizeIdempotent(text);
    if '\r' !in text {
      ReadBack(text);
    }
  }
}

=== FILE: script_text.dfy ===
/** The line and word scanners the orchestrator runs over prompts and
    generated scripts: keywords are the whitespace-separated words longer
    than four UTF-16 units, scene lines start with "SCENE:" or "Scene:", and
    dialogue lines hold a ':' without being scene lines. */
module ScriptText {
  import opened JavaString

  // -------------------------------------------------------------- keywords

  /** The words of `ws` longer than four UTF-16 units, in order. */
  function LongWords(ws: seq<string>): (r: seq<string>)
    ensures |r| <= |ws|
    ensures forall i :: 0 <= i < |r| ==> Length16(r[i]) > 4 && r[i] in ws
  {
    if ws == [] then []
    else if Length16(ws[0]) > 4 then [ws[0]] + LongWords(ws[1..])
    else LongWords(ws[1..])
  }

  /** `extractKeywords(text)`: the tokens of `text.split("\\s+")` whose
      `length()` exceeds four, in input order. */
  function ExtractKeywords(text: string): (r: seq<string>)
    ensures forall i :: 0 <= i < |r| ==> Length16(r[i]) > 4
    ensures forall i, k :: 0 <= i < |r| && 0 <= k < |r[i]| ==> !IsRegexSpace(r[i][k])
  {
    LongWords(SplitOnSpaces(text))
  }

  lemma {:induction false} LongWordsAppend(a: seq<string>, b: seq<string>)
    ensures LongWords(a + b) == LongWords(a) + LongWords(b)
    decreases |a|
  {
    if a != [] {
      assert (a + b)[1..] == a[1..] + b;
      LongWordsAppend(a[1..], b);
    } else {
      assert a + b == b;
    }
  }

  /** Empty words never become keywords, so dropping them changes nothing. */
  lemma {:induction false} LongWordsNonEmpty(ws: seq<string>)
    ensures LongWords(NonEmpty(ws)) == LongWords(ws)
    decreases |ws|
  {
    if ws != [] {
      LongWordsNonEmpty(ws[1..]);
      if ws[0] != [] {
        assert NonEmpty(ws) == [ws[0]] + NonEmpty(ws[1..]);
      }
    }
  }

  lemma {:induction false} LongWordsDropTrailing(ws: seq<string>)
    ensures LongWords(DropTrailingEmpty(ws)) == LongWords(ws)
    decreases |ws|
  {
    if ws != [] && ws[|ws| - 1] == [] {
      var init := ws[..|ws| - 1];
      assert ws == init + [[]];
      LongWordsAppend(init, [[]]);
      LongWordsDropTrailing(init);
    }
  }

  /** The keywords are the long pieces between single `\s` characters: the
      run-collapsing and trailing-token rules of `split` do not matter. */
  lemma KeywordsOfPieces(text: string)
    ensures ExtractKeywords(text) == LongWords(SpacePieces(text))
  {
    if HasRegexSpace(text) {
      var p := SpacePieces(text);
      LongWordsDropTrailing([p[0]] + NonEmpty(p[1..]));
      LongWordsAppend([p[0]], NonEmpty(p[1..]));
      LongWordsNonEmpty(p[1..]);
      LongWordsAppend([p[0]], p[1..]);
      assert [p[0]] + p[1..] == p;
    }
  }

  lemma {:induction false} SpacePiecesSplit(a: string, c: char, b: string)
    requires IsRegexSpace(c)
    ensures SpacePieces(a + [c] + b) == SpacePieces(a) + SpacePieces(b)
    decreases |a|
  {
    if a == [] {
      assert a + [c] + b == [c] + b;
      assert ([c] + b)[1..] == b;
    } else {
      var s := a + [c] + b;
      assert s[0] == a[0];
      assert s[1..] == a[1..] + [c] + b;
      var pieces, later := SpacePieces(a[1..]), SpacePieces(b);
      SpacePiecesSplit(a[1..], c, b);
      assert SpacePieces(s[1..]) == pieces + later;
      if IsRegexSpace(a[0]) {
        assert [[]] + (pieces + later) == ([[]] + pieces) + later;
      } else {
        HeadJoin([a[0]], pieces, later);
      }
    }
  }

  /** Gluing a head onto the first of the pieces commutes with appending
      further pieces. */
  lemma HeadJoin(h: string, pieces: seq<string>, later: seq<string>)
    requires |pieces| >= 1
    ensures [h + (pieces + later)[0]] + (pieces + later)[1..] == ([h + pieces[0]] + pieces[1..]) + later
  {
    assert (pieces + later)[1..] == pieces[1..] + later;
  }

  /** Keywords are found word by word: the keywords of two texts joined by
      a whitespace character are the keywords of each, in order. */
  lemma KeywordsOfJoin(a: string, c: char, b: string)
    requires IsRegexSpace(c)
    ensures ExtractKeywords(a + [c] + b) == ExtractKeywords(a) + ExtractKeywords(b)
  {
    KeywordsOfPieces(a + [c] + b);
    KeywordsOfPieces(a);
    KeywordsOfPieces(b);
    SpacePiecesSplit(a, c, b);
    LongWordsAppend(SpacePieces(a), SpacePieces(b));
  }

  /** A single word is a keyword exactly when it is longer than four
      UTF-16 units. */
  lemma KeywordsOfWord(w: string)
    requires !HasRegexSpace(w)
    ensures ExtractKeywords(w) == (if Length16(w) > 4 then [w] else [])
  {
  }

  /** Three characters outside the Basic Multilingual Plane, such as
      emoji, make a keyword: they are six units long. */
  lemma PairsKeyword(w: string)
    requires !HasRegexSpace(w) && |w| == 3
    requires forall i :: 0 <= i < |w| ==> Units(w[i]) == 2
    ensures ExtractKeywords(w) == [w]
  {
    assert Length16(w[2..]) == 2;
    assert Length16(w[1..]) == 4 by { assert w[1..][1..] == w[2..]; }
    KeywordsOfWord(w);
  }

  // ------------------------------------------------------ scenes, dialogue

  predicate IsSceneLine(line: string) {
    StartsWith(line, "SCENE:") || StartsWith(line, "Scene:")
  }

  predicate IsDialogueLine(line: string) {
    ':' in line && !IsSceneLine(line)
  }

  /** The scene descriptions of `lines`: the trimmed text after the
      six-character prefix of each scene line. */
  function ScenesOfLines(lines: seq<string>): (r: seq<string>)
    ensures |r| <= |lines|
  {
    if lines == [] then []
    else if IsSceneLine(lines[0]) then [Trim(lines[0][6..])] + ScenesOfLines(lines[1..])
    else ScenesOfLines(lines[1..])
  }

  /** The dialogue of `lines`: each dialogue line, trimmed. */
  function DialogueOfLines(lines: seq<string>): (r: seq<string>)
    ensures |r| <= |lines|
  {
    if lines == [] then []
    else if IsDialogueLine(lines[0]) then [Trim(lines[0])] + DialogueOfLines(lines[1..])
    else DialogueOfLines(lines[1..])
  }

  /** `scriptText.split("\n")`. */
  function Lines(text: string): seq<string> {
    Split(text, '\n')
  }

  /** `extractScenes(scriptText)`, as the list of descriptions. */
  function ExtractScenes(text: string): (r: seq<string>)
    ensures |r| <= |Lines(text)|
  {
    ScenesOfLines(Lines(text))
  }

  /** `extractDialogue(scriptText)`: every entry keeps its ':' and is
      therefore never empty. */
  function ExtractDialogue(text: string): (r: seq<string>)
    ensures forall i :: 0 <= i < |r| ==> ':' in r[i] && r[i] != []
  {
    DialogueOfLinesKeepColon(Lines(text));
    DialogueOfLines(Lines(text))
  }

  /** Trimming never removes a character above U+0020. */
  lemma TrimKeeps(s: string, k: nat)
    requires k < |s| && !IsTrimmable(s[k])
    ensures s[k] in Trim(s)
  {
    var t := TrimStart(s);
    var d := |s| - |t|;
    assert k >= d;
    assert t[k - d] == s[k];
    var u := TrimEnd(t);
    assert k - d < |u|;
    assert u[k - d] == s[k];
  }

  lemma {:induction false} DialogueOfLinesKeepColon(lines: seq<string>)
    ensures forall i :: 0 <= i < |DialogueOfLines(lines)| ==>
              ':' in DialogueOfLines(lines)[i]
    decreases |lines|
  {
    if lines != [] {
      DialogueOfLinesKeepColon(lines[1..]);
      if IsDialogueLine(lines[0]) {
        var k :| 0 <= k < |lines[0]| && lines[0][k] == ':';
        TrimKeeps(lines[0], k);
      }
    }
  }

  /** No line is both a scene and a dialogue line, so together they never
      outnumber the lines of the script. */
  lemma {:induction false} ScenesAndDialogueDisjoint(lines: seq<string>)
    ensures |ScenesOfLines(lines)| + |DialogueOfLines(lines)| <= |lines|
    decreases |lines|
  {
    if lines != [] {
      ScenesAndDialogueDisjoint(lines[1..]);
    }
  }

  /** Scenes and dialogue are found line by line. */
  lemma {:induction false} ScanLinesAppend(a: seq<string>, b: seq<string>)
    ensures ScenesOfLines(a + b) == ScenesOfLines(a) + ScenesOfLines(b)
    ensures DialogueOfLines(a + b) == DialogueOfLines(a) + DialogueOfLines(b)
    decreases |a|
  {
    if a != [] {
      assert (a + b)[0] == a[0];
      assert (a + b)[1..] == a[1..] + b;
      ScanLinesAppend(a[1..], b);
    } else {
      assert a + b == b;
    }
  }
}

=== FILE: seq_laws.dfy ===
/** Laws of sequence concatenation, stated over an arbitrary element type
    so that they also serve sequences of strings. */
module SeqLaws {
  lemma ConcatAssoc<T>(x: seq<T>, y: seq<T>, z: seq<T>)
    ensures x + (y + z) == (x + y) + z
  {
  }

  /** A non-empty sequence is its front followed by its last element. */
  lemma InitLast<T>(s: seq<T>)
    requires s != []
    ensures s[..|s| - 1] + [s[|s| - 1]] == s
  {
  }
}

=== FILE: storage_paths.dfy ===
/** The application's directory layout on external storage: fixed
    directories under one root, and per-project directories under the
    projects directory. */
module StoragePaths {
  import opened JavaString

  const APP_ROOT: string := "/storage/emulated/0/AIAutoCreate"

  /** A fixed directory: the root, a slash and the directory's name. */
  function Under(name: string): (r: string)
    ensures StartsWith(r, APP_ROOT + "/")
    ensures r[|APP_ROOT| + 1..] == name
  {
    APP_ROOT + "/" + name
  }

  function ProjectsDir(): string { Under("projects") }
  function TempDir(): string { Under("temp") }
  function AgentResultsDir(): string { Under("agent_results") }
  function ConfigDir(): string { Under("config") }
  function FontsDir(): string { Under("fonts") }
  function ImagesDir(): string { Under("images") }
  function AudioDir(): string { Under("audio") }
  function VideosDir(): string { Under("videos") }
  function ScriptsDir(): string { Under("scripts") }

  /** Every fixed directory below the root. */
  function FixedDirs(): seq<string> {
    [ProjectsDir(), TempDir(), AgentResultsDir(), ConfigDir(), FontsDir(),
     ImagesDir(), AudioDir(), VideosDir(), ScriptsDir()]
  }

  /** Directories with different names are different directories. */
  lemma UnderInjective(a: string, b: string)
    ensures Under(a) == Under(b) ==> a == b
  {
    if Under(a) == Under(b) {
      assert a == Under(a)[|APP_ROOT| + 1..];
    }
  }

  /** The fixed directories are pairwise distinct. */
  lemma FixedDirsDistinct()
    ensures forall i, j :: 0 <= i < j < |FixedDirs()| ==> FixedDirs()[i] != FixedDirs()[j]
  {
    var names := ["projects", "temp", "agent_results", "config", "fonts",
                  "images", "audio", "videos", "scripts"];
    forall i, j | 0 <= i < j < |FixedDirs()|
      ensures FixedDirs()[i] != FixedDirs()[j]
    {
      assert FixedDirs()[i] == Under(names[i]) && FixedDirs()[j] == Under(names[j]);
      UnderInjective(names[i], names[j]);
    }
  }

  /** Files below two fixed directories whose names differ in their first
      letter are different files. */
  lemma DifferentTops(p: string, a: string, q: string, b: string)
    requires StartsWith(p, Under(a) + "/") && StartsWith(q, Under(b) + "/")
    requires a != [] && b != [] && a[0] != b[0]
    ensures p != q
  {
    var n := |APP_ROOT + "/"|;
    assert p[n] == (Under(a) + "/")[n] == a[0];
    assert q[n] == (Under(b) + "/")[n] == b[0];
  }

  /** A file below one fixed directory is below no fixed directory whose
      name starts with a different letter. */
  lemma OutsideOtherTop(p: string, a: string, b: string)
    requires StartsWith(p, Under(a) + "/")
    requires a != [] && b != [] && a[0] != b[0]
    ensures !StartsWith(p, Under(b) + "/")
  {
    var n := |APP_ROOT + "/"|;
    assert p[n] == (Under(a) + "/")[n] == a[0];
    assert (Under(b) + "/")[n] == b[0];
  }

  /** `getProjectDir(id)`: the project's own directory below the projects
      directory. */
  function ProjectDir(id: string): (r: string)
    ensures StartsWith(r, ProjectsDir() + "/")
    ensures r[|ProjectsDir()| + 1..] == id
  {
    ProjectsDir() + "/" + id
  }

  /** Different projects get different directories. */
  lemma ProjectDirInjective(a: string, b: string)
    ensures ProjectDir(a) == ProjectDir(b) ==> a == b
  {
    if ProjectDir(a) == ProjectDir(b) {
      assert a == ProjectDir(a)[|ProjectsDir()| + 1..];
    }
  }

  /** A named subdirectory of a project's directory. */
  function ProjectSub(id: string, name: string): (r: string)
    ensures StartsWith(r, ProjectDir(id) + "/")
    ensures |r| > |ProjectDir(id) + "/"|  || name == []
    ensures EndsWith(r, "/" + name)
  {
    ProjectDir(id) + "/" + name
  }

  function ProjectFramesDir(id: string): string { ProjectSub(id, "frames") }
  function ProjectAudioDir(id: string): string { ProjectSub(id, "audio") }
  function ProjectCheckpointsDir(id: string): string { ProjectSub(id, "checkpoints") }

  /** Each project subdirectory lies strictly inside the project's own
      directory, and the three subdirectories of any two projects never
      coincide unless they are the same subdirectory of the same project. */
  lemma ProjectSubdirs(a: string, b: string)
    ensures StartsWith(ProjectFramesDir(a), ProjectDir(a) + "/")
    ensures StartsWith(ProjectAudioDir(a), ProjectDir(a) + "/")
    ensures StartsWith(ProjectCheckpointsDir(a), ProjectDir(a) + "/")
    ensures |ProjectFramesDir(a)| > |ProjectDir(a) + "/"|
    ensures ProjectFramesDir(a) != ProjectAudioDir(b)
    ensures ProjectFramesDir(a) != ProjectCheckpointsDir(b)
    ensures ProjectAudioDir(a) != ProjectCheckpointsDir(b)
    ensures ProjectFramesDir(a) == ProjectFramesDir(b) ==> a == b
  {
    var fa, ab, cb := ProjectFramesDir(a), ProjectAudioDir(b), ProjectCheckpointsDir(b);
    assert fa[|fa| - 2..] == "es" && ab[|ab| - 2..] == "io" && cb[|cb| - 2..] == "ts";
    var aa := ProjectAudioDir(a);
    assert aa[|aa| - 2..] == "io";
    if fa == ProjectFramesDir(b) {
      assert ProjectDir(a) == fa[..|fa| - 7];
      assert ProjectDir(b) == ProjectFramesDir(b)[..|fa| - 7];
      ProjectDirInjective(a, b);
    }
  }
}

=== FILE: subtitle_style.dfy ===
/** `SubtitleStyleActivity`: the subtitle style being edited, the controls
    that show it, its JSON form, and the presets kept beside it in the
    configuration directory.  The opacity (`alpha`, a `float`) is not part
    of the model; a configuration file is represented by the JSON value its
    text parses to (`None` when it does not parse). */
module SubtitleStyle {
  import opened Outcomes
  import opened JavaInt
  import opened OrgJson
  import JavaString
  import StoragePaths

  // ------------------------------------------------------------------ style

  datatype Style = Style(
    name: string, fontName: string, fontSize: int, fontColor: string,
    position: string, alignment: string,
    shadowEnabled: bool, shadowRadius: int, shadowDx: int, shadowDy: int, shadowColor: string,
    outlineEnabled: bool, outlineWidth: int, outlineColor: string,
    backgroundEnabled: bool, backgroundPadding: int, backgroundColor: string,
    applyGlobally: bool)

  /** The field initialisers of `SubtitleStyle`. */
  const DEFAULT: Style := Style("Default", "Default", 16, "#FFFFFF", "Bottom", "Center",
                                true, 3, 0, 2, "#000000", false, 2, "#000000", true, 4, "#000000", false)

  /** Every number field fits a Java `int`. */
  predicate JavaInts(s: Style) {
    IsInt(s.fontSize) && IsInt(s.shadowRadius) && IsInt(s.shadowDx) && IsInt(s.shadowDy)
    && IsInt(s.outlineWidth) && IsInt(s.backgroundPadding)
  }

  // ----------------------------------------------------------------- colour

  /** The colour names any spinner offers. */
  const COLOUR_NAMES: seq<string> := ["White", "Black", "Red", "Green", "Blue", "Yellow", "Cyan", "Magenta", "Gray", "Transparent"]

  /** `getSelectedColor`: the hex form of a named colour; "Custom" and any
      other name read as white. */
  function SelectedColor(colourName: string): (r: string)
    ensures |r| == 7 || |r| == 9
    ensures r[0] == '#'
    ensures colourName !in COLOUR_NAMES ==> r == "#FFFFFF"
    ensures (|r| == 9) <==> colourName == "Transparent"
  {
    match colourName
    case "White" => "#FFFFFF"
    case "Black" => "#000000"
    case "Red" => "#FF0000"
    case "Green" => "#00FF00"
    case "Blue" => "#0000FF"
    case "Yellow" => "#FFFF00"
    case "Cyan" => "#00FFFF"
    case "Magenta" => "#FF00FF"
    case "Gray" => "#808080"
    case "Transparent" => "#00000000"
    case _ => "#FFFFFF"
  }

  /** Distinct names give distinct colours, except that white is also the
      colour of every name outside the list. */
  lemma ColoursDistinct(a: string, b: string)
    requires a in COLOUR_NAMES && b in COLOUR_NAMES && a != b
    ensures SelectedColor(a) != SelectedColor(b)
  {
  }

  // --------------------------------------------------------------- controls

  /** The editing controls: the text field, the slider positions, the
      check boxes and the item each spinner shows. */
  datatype Controls = Controls(
    fontName: string, fontSizeBar: int, fontColor: string, position: string, alignment: string,
    shadow: bool, shadowRadiusBar: int, shadowDxBar: int, shadowDyBar: int, shadowColor: string,
    outline: bool, outlineWidthBar: int, outlineColor: string,
    background: bool, backgroundPaddingBar: int, backgroundColor: string,
    applyGlobally: bool)

  /** The maxima the sliders are given. */
  const FONT_SIZE_MAX: int := 60
  const SHADOW_RADIUS_MAX: int := 20
  const SHADOW_OFFSET_MAX: int := 20
  const OUTLINE_WIDTH_MAX: int := 10
  const PADDING_MAX: int := 20

  /** Every slider lies between 0 and its maximum, as a `SeekBar` keeps it. */
  predicate OnScale(c: Controls) {
    0 <= c.fontSizeBar <= FONT_SIZE_MAX && 0 <= c.shadowRadiusBar <= SHADOW_RADIUS_MAX
    && 0 <= c.shadowDxBar <= SHADOW_OFFSET_MAX && 0 <= c.shadowDyBar <= SHADOW_OFFSET_MAX
    && 0 <= c.outlineWidthBar <= OUTLINE_WIDTH_MAX && 0 <= c.backgroundPaddingBar <= PADDING_MAX
  }

  /** `SeekBar.setProgress`: the value, held between 0 and the maximum. */
  function SetProgress(value: int, max: nat): (r: int)
    ensures 0 <= r <= max
    ensures 0 <= value <= max ==> r == value
    ensures value < 0 ==> r == 0
    ensures value > max ==> r == max
  {
    if value < 0 then 0 else if value > max then max else value
  }

  /** The font size a slider position means (12 to 72 points), and back. */
  function FontSizeAt(bar: int): int { 12 + bar }
  function FontSizeBar(size: int): int { WrapInt(size - 12) }

  /** A shadow offset a slider position means (-10 to 10), and back. */
  function OffsetAt(bar: int): int { bar - 10 }
  function OffsetBar(offset: int): int { WrapInt(offset + 10) }

  /** The slider conversions undo each other on the slider's range. */
  lemma SliderInverse(bar: int)
    requires 0 <= bar <= FONT_SIZE_MAX
    ensures 12 <= FontSizeAt(bar) <= 72 && FontSizeBar(FontSizeAt(bar)) == bar
    ensures bar <= SHADOW_OFFSET_MAX ==> -10 <= OffsetAt(bar) <= 10 && OffsetBar(OffsetAt(bar)) == bar
  {
  }

  /** `updatePreview`: the style takes what the controls show; its name is
      kept. */
  function Collect(current: Style, c: Controls): (r: Style)
    ensures r.name == current.name
    ensures OnScale(c) ==> 12 <= r.fontSize <= 72 && -10 <= r.shadowDx <= 10 && -10 <= r.shadowDy <= 10
    ensures r.fontColor == SelectedColor(c.fontColor) && r.shadowColor == SelectedColor(c.shadowColor)
  {
    current.(fontName := c.fontName, fontSize := FontSizeAt(c.fontSizeBar),
             fontColor := SelectedColor(c.fontColor), position := c.position, alignment := c.alignment,
             shadowEnabled := c.shadow, shadowRadius := c.shadowRadiusBar,
             shadowDx := OffsetAt(c.shadowDxBar), shadowDy := OffsetAt(c.shadowDyBar),
             shadowColor := SelectedColor(c.shadowColor),
             outlineEnabled := c.outline, outlineWidth := c.outlineWidthBar,
             outlineColor := SelectedColor(c.outlineColor),
             backgroundEnabled := c.background, backgroundPadding := c.backgroundPaddingBar,
             backgroundColor := SelectedColor(c.backgroundColor),
             applyGlobally := c.applyGlobally)
  }

  /** The style `updateUIFromStyle` goes on reading after it sets a check
      box.  The box's listener runs only when the box changes, and then it
      runs `updatePreview`, which overwrites that very style with what the
      controls show at that moment; so every later control takes the value
      it already had. */
  function AfterBox(s: Style, c: Controls, changed: bool): (r: Style)
    ensures !changed ==> r == s
    ensures changed ==> r.name == s.name && r.shadowRadius == c.shadowRadiusBar
                        && r.outlineEnabled == c.outline && r.outlineWidth == c.outlineWidthBar
                        && r.backgroundEnabled == c.background && r.backgroundPadding == c.backgroundPaddingBar
                        && r.applyGlobally == c.applyGlobally
  {
    if changed then Collect(s, c) else s
  }

  /** `updateUIFromStyle`, in the order it sets the controls: the text
      field and sliders first, the font colour, position and alignment
      spinners back to White, Bottom and Center whatever the style says, then
      each check box followed by its sliders, read from the style as the
      boxes' listeners have left it.  The other colour spinners are left
      where they were. */
  function Show(s: Style, c: Controls): (r: Controls)
    ensures OnScale(r)
    ensures r.fontName == s.fontName && r.shadow == s.shadowEnabled
    ensures r.fontColor == "White" && r.position == "Bottom" && r.alignment == "Center"
    ensures r.shadowColor == c.shadowColor && r.outlineColor == c.outlineColor && r.backgroundColor == c.backgroundColor
  {
    var head := c.(fontName := s.fontName, fontSizeBar := SetProgress(FontSizeBar(s.fontSize), FONT_SIZE_MAX),
                   fontColor := "White", position := "Bottom", alignment := "Center", shadow := s.shadowEnabled);
    var s1 := AfterBox(s, head, c.shadow != s.shadowEnabled);
    var shadowed := head.(shadowRadiusBar := SetProgress(s1.shadowRadius, SHADOW_RADIUS_MAX),
                          shadowDxBar := SetProgress(OffsetBar(s1.shadowDx), SHADOW_OFFSET_MAX),
                          shadowDyBar := SetProgress(OffsetBar(s1.shadowDy), SHADOW_OFFSET_MAX),
                          outline := s1.outlineEnabled);
    var s2 := AfterBox(s1, shadowed, c.outline != s1.outlineEnabled);
    var outlined := shadowed.(outlineWidthBar := SetProgress(s2.outlineWidth, OUTLINE_WIDTH_MAX),
                              background := s2.backgroundEnabled);
    var s3 := AfterBox(s2, outlined, c.background != s2.backgroundEnabled);
    outlined.(backgroundPaddingBar := SetProgress(s3.backgroundPadding, PADDING_MAX),
              applyGlobally := s3.applyGlobally)
  }

  /** `updateUIFromStyle` as it would behave with the boxes' listeners
      quiet while it runs: every slider and box shows the style's value. */
  function ShowDetached(s: Style, c: Controls): (r: Controls)
    ensures OnScale(r)
    ensures r.fontColor == "White" && r.position == "Bottom" && r.alignment == "Center"
    ensures r.shadowColor == c.shadowColor && r.outlineColor == c.outlineColor && r.backgroundColor == c.backgroundColor
  {
    c.(fontName := s.fontName, fontSizeBar := SetProgress(FontSizeBar(s.fontSize), FONT_SIZE_MAX),
       fontColor := "White", position := "Bottom", alignment := "Center",
       shadow := s.shadowEnabled, shadowRadiusBar := SetProgress(s.shadowRadius, SHADOW_RADIUS_MAX),
       shadowDxBar := SetProgress(OffsetBar(s.shadowDx), SHADOW_OFFSET_MAX),
       shadowDyBar := SetProgress(OffsetBar(s.shadowDy), SHADOW_OFFSET_MAX),
       outline := s.outlineEnabled, outlineWidthBar := SetProgress(s.outlineWidth, OUTLINE_WIDTH_MAX),
       background := s.backgroundEnabled, backgroundPaddingBar := SetProgress(s.backgroundPadding, PADDING_MAX),
       applyGlobally := s.applyGlobally)
  }

  /** A style whose numbers the sliders can show. */
  predicate Showable(s: Style) {
    12 <= s.fontSize <= 72 && 0 <= s.shadowRadius <= SHADOW_RADIUS_MAX
    && -10 <= s.shadowDx <= 10 && -10 <= s.shadowDy <= 10
    && 0 <= s.outlineWidth <= OUTLINE_WIDTH_MAX && 0 <= s.backgroundPadding <= PADDING_MAX
  }

  /** The three check boxes already show what the style says, so setting
      them wakes no listener. */
  predicate InSync(s: Style, c: Controls) {
    c.shadow == s.shadowEnabled && c.outline == s.outlineEnabled && c.background == s.backgroundEnabled
  }

  /** What the style reads as when every control shows it, with the font
      colour, position and alignment the spinners were reset to and the
      other colours taken from the colour spinners. */
  function Shown(s: Style, c: Controls): Style {
    s.(fontColor := "#FFFFFF", position := "Bottom", alignment := "Center",
       shadowColor := SelectedColor(c.shadowColor), outlineColor := SelectedColor(c.outlineColor),
       backgroundColor := SelectedColor(c.backgroundColor))
  }

  /** Showing a style and collecting it again.  When the boxes already
      agree with the style, every field the sliders and boxes can show is
      kept.  Otherwise the first box that changes freezes every control
      after it: those fields read as the controls held them before. */
  lemma ShowThenCollect(s: Style, c: Controls)
    requires Showable(s)
    ensures InSync(s, c) ==> Collect(s, Show(s, c)) == Shown(s, c)
    ensures OnScale(c) && c.shadow != s.shadowEnabled ==>
      Collect(s, Show(s, c)) == Shown(Collect(s, c), c).(fontName := s.fontName, fontSize := s.fontSize,
                                                        shadowEnabled := s.shadowEnabled)
    ensures OnScale(c) && c.shadow == s.shadowEnabled && c.outline != s.outlineEnabled ==>
      Collect(s, Show(s, c)) == Shown(Collect(s, c), c).(fontName := s.fontName, fontSize := s.fontSize,
                                                        shadowEnabled := s.shadowEnabled, shadowRadius := s.shadowRadius,
                                                        shadowDx := s.shadowDx, shadowDy := s.shadowDy,
                                                        outlineEnabled := s.outlineEnabled)
    ensures OnScale(c) && c.shadow == s.shadowEnabled && c.outline == s.outlineEnabled && c.background != s.backgroundEnabled ==>
      Collect(s, Show(s, c)) == Shown(s, c).(backgroundPadding := c.backgroundPaddingBar, applyGlobally := c.applyGlobally)
  {
    if InSync(s, c) {
      InSyncShown(s, c);
    }
    if OnScale(c) && c.shadow != s.shadowEnabled {
      ShadowChangesFirst(s, c);
    } else if OnScale(c) && c.shadow == s.shadowEnabled && c.outline != s.outlineEnabled {
      OutlineChangesFirst(s, c);
    } else if OnScale(c) && c.shadow == s.shadowEnabled && c.outline == s.outlineEnabled && c.background != s.backgroundEnabled {
      BackgroundChanges(s, c);
    }
  }

  /** The boxes agree with the style: every control shows it. */
  lemma InSyncShown(s: Style, c: Controls)
    requires Showable(s) && InSync(s, c)
    ensures Show(s, c) == ShowDetached(s, c)
    ensures Collect(s, Show(s, c)) == Shown(s, c)
  {
  }

  /** The shadow box changes: the shadow sliders and everything after
      them keep their positions. */
  lemma ShadowChangesFirst(s: Style, c: Controls)
    requires Showable(s) && OnScale(c) && c.shadow != s.shadowEnabled
    ensures Show(s, c) == c.(fontName := s.fontName, fontSizeBar := FontSizeBar(s.fontSize),
                             fontColor := "White", position := "Bottom", alignment := "Center", shadow := s.shadowEnabled)
    ensures Collect(s, Show(s, c)) == Shown(Collect(s, c), c).(fontName := s.fontName, fontSize := s.fontSize,
                                                              shadowEnabled := s.shadowEnabled)
  {
  }

  /** The outline box is the first to change: the shadow sliders show
      the style, and the outline slider and everything after keep their
      positions. */
  lemma OutlineChangesFirst(s: Style, c: Controls)
    requires Showable(s) && OnScale(c) && c.shadow == s.shadowEnabled && c.outline != s.outlineEnabled
    ensures Show(s, c) == c.(fontName := s.fontName, fontSizeBar := FontSizeBar(s.fontSize),
                             fontColor := "White", position := "Bottom", alignment := "Center",
                             shadowRadiusBar := s.shadowRadius, shadowDxBar := s.shadowDx + 10,
                             shadowDyBar := s.shadowDy + 10, outline := s.outlineEnabled)
    ensures Collect(s, Show(s, c)) == Shown(Collect(s, c), c).(fontName := s.fontName, fontSize := s.fontSize,
                                                              shadowEnabled := s.shadowEnabled, shadowRadius := s.shadowRadius,
                                                              shadowDx := s.shadowDx, shadowDy := s.shadowDy,
                                                              outlineEnabled := s.outlineEnabled)
  {
  }

  /** Only the background box changes: the padding slider and the
      apply-globally box keep their positions. */
  lemma BackgroundChanges(s: Style, c: Controls)
    requires Showable(s) && OnScale(c) && InSync(s, c.(background := s.backgroundEnabled)) && c.background != s.backgroundEnabled
    ensures Show(s, c) == ShowDetached(s, c).(backgroundPaddingBar := c.backgroundPaddingBar, applyGlobally := c.applyGlobally)
    ensures Collect(s, Show(s, c)) == Shown(s, c).(backgroundPadding := c.backgroundPaddingBar, applyGlobally := c.applyGlobally)
  {
  }

  /** With the listeners quiet, showing and collecting keeps every field
      the sliders and boxes can show, whatever the boxes showed before. */
  lemma ShowDetachedThenCollect(s: Style, c: Controls)
    requires Showable(s)
    ensures Collect(s, ShowDetached(s, c)) == Shown(s, c)
    ensures InSync(s, c) ==> ShowDetached(s, c) == Show(s, c)
  {
  }

  /** A font size beyond the slider's range comes back as the nearest end
      of the range; below `INT_MIN + 12` the subtraction wraps and the size
      comes back as 72. */
  lemma FontSizeClamped(s: Style, c: Controls)
    requires IsInt(s.fontSize)
    ensures s.fontSize < 12 && s.fontSize >= INT_MIN + 12 ==> Collect(s, Show(s, c)).fontSize == 12
    ensures s.fontSize > 72 ==> Collect(s, Show(s, c)).fontSize == 72
    ensures s.fontSize < INT_MIN + 12 ==> Collect(s, Show(s, c)).fontSize == 72
  {
    ShowFontSize(s, c);
  }

  /** The font size slider is set before any box, so no listener
      disturbs it. */
  lemma ShowFontSize(s: Style, c: Controls)
    ensures Collect(s, Show(s, c)).fontSize == FontSizeAt(SetProgress(FontSizeBar(s.fontSize), FONT_SIZE_MAX))
  {
  }

  /** Collecting the controls and showing the result again puts every
      slider, box and the font name back where they were, provided the
      controls shown on hold the same boxes; with the listeners quiet it
      does so whatever they hold. */
  lemma CollectThenShow(current: Style, c: Controls, other: Controls)
    requires OnScale(c)
    ensures InSync(Collect(current, c), other) ==>
      Show(Collect(current, c), other) == c.(fontColor := "White", position := "Bottom", alignment := "Center",
                                             shadowColor := other.shadowColor, outlineColor := other.outlineColor,
                                             backgroundColor := other.backgroundColor)
    ensures ShowDetached(Collect(current, c), other) == c.(fontColor := "White", position := "Bottom", alignment := "Center",
                                                          shadowColor := other.shadowColor, outlineColor := other.outlineColor,
                                                          backgroundColor := other.backgroundColor)
  {
  }

  /** `resetStyle`: the controls the reset button sets. */
  function ResetControls(c: Controls): (r: Controls)
    ensures OnScale(r)
  {
    Controls("Default", 16 - 12, "White", "Bottom", "Center", false, 3, 10, 12, "Black",
             false, 2, "Black", true, 4, "Black", false)
  }

  /** Reset gives the field defaults, except that the shadow is switched
      off (its default is on) and the name is kept. */
  lemma ResetStyle(current: Style, c: Controls)
    ensures Collect(current, ResetControls(c)) == DEFAULT.(name := current.name, shadowEnabled := false)
  {
  }

  /** The text view's padding in the preview: twice the background padding
      when the background is on, 8 otherwise. */
  function PreviewPadding(s: Style): (r: int)
    ensures s.backgroundEnabled ==> r == 2 * s.backgroundPadding
    ensures !s.backgroundEnabled ==> r == 8
  {
    if s.backgroundEnabled then s.backgroundPadding * 2 else 8
  }

  /** On the sliders' scale the padding is even and at most 40. */
  lemma PaddingOnScale(current: Style, c: Controls)
    requires OnScale(c)
    ensures 0 <= PreviewPadding(Collect(current, c)) <= 40
    ensures PreviewPadding(Collect(current, c)) % 2 == 0
  {
  }

  // ------------------------------------------------------------------- JSON

  /** `toJSON`, without the opacity. */
  function ToJson(s: Style): Obj {
    map["name" := JStr(s.name), "font_name" := JStr(s.fontName), "font_size" := JNum(s.fontSize),
        "font_color" := JStr(s.fontColor), "position" := JStr(s.position), "alignment" := JStr(s.alignment),
        "shadow_enabled" := JBool(s.shadowEnabled), "shadow_radius" := JNum(s.shadowRadius),
        "shadow_dx" := JNum(s.shadowDx), "shadow_dy" := JNum(s.shadowDy), "shadow_color" := JStr(s.shadowColor),
        "outline_enabled" := JBool(s.outlineEnabled), "outline_width" := JNum(s.outlineWidth),
        "outline_color" := JStr(s.outlineColor), "background_enabled" := JBool(s.backgroundEnabled),
        "background_padding" := JNum(s.backgroundPadding), "background_color" := JStr(s.backgroundColor),
        "apply_globally" := JBool(s.applyGlobally)]
  }

  /** `fromJSON`: every field is read with its initialiser as the fallback,
      so an empty object reads as the default style. */
  function FromJson(o: Obj): (r: Style)
    ensures JavaInts(r)
  {
    Style(OptString(o, "name", DEFAULT.name), OptString(o, "font_name", DEFAULT.fontName),
          OptInt(o, "font_size", DEFAULT.fontSize), OptString(o, "font_color", DEFAULT.fontColor),
          OptString(o, "position", DEFAULT.position), OptString(o, "alignment", DEFAULT.alignment),
          OptBoolean(o, "shadow_enabled", DEFAULT.shadowEnabled), OptInt(o, "shadow_radius", DEFAULT.shadowRadius),
          OptInt(o, "shadow_dx", DEFAULT.shadowDx), OptInt(o, "shadow_dy", DEFAULT.shadowDy),
          OptString(o, "shadow_color", DEFAULT.shadowColor),
          OptBoolean(o, "outline_enabled", DEFAULT.outlineEnabled), OptInt(o, "outline_width", DEFAULT.outlineWidth),
          OptString(o, "outline_color", DEFAULT.outlineColor),
          OptBoolean(o, "background_enabled", DEFAULT.backgroundEnabled),
          OptInt(o, "background_padding", DEFAULT.backgroundPadding),
          OptString(o, "background_color", DEFAULT.backgroundColor),
          OptBoolean(o, "apply_globally", DEFAULT.applyGlobally))
  }

  /** An object without any of the keys reads as the default style. */
  lemma MissingKeysReadDefaults(o: Obj)
    requires forall k :: k in o ==> k !in ToJson(DEFAULT)
    ensures FromJson(o) == DEFAULT
  {
  }

  /** Reading back what `toJSON` wrote gives the style. */
  lemma JsonRoundTrip(s: Style)
    requires JavaInts(s)
    ensures FromJson(ToJson(s)) == s
  {
    StringsRead(s);
    NumbersRead(s);
    SwitchesRead(s);
  }

  lemma StringsRead(s: Style)
    ensures OptString(ToJson(s), "name", DEFAULT.name) == s.name
    ensures OptString(ToJson(s), "font_name", DEFAULT.fontName) == s.fontName
    ensures OptString(ToJson(s), "font_color", DEFAULT.fontColor) == s.fontColor
    ensures OptString(ToJson(s), "position", DEFAULT.position) == s.position
    ensures OptString(ToJson(s), "alignment", DEFAULT.alignment) == s.alignment
    ensures OptString(ToJson(s), "shadow_color", DEFAULT.shadowColor) == s.shadowColor
    ensures OptString(ToJson(s), "outline_color", DEFAULT.outlineColor) == s.outlineColor
    ensures OptString(ToJson(s), "background_color", DEFAULT.backgroundColor) == s.backgroundColor
  {
    KeyName(s);
    KeyFontName(s);
    KeyFontColor(s);
    KeyPosition(s);
    KeyAlignment(s);
    KeyShadowColor(s);
    KeyOutlineColor(s);
    KeyBackgroundColor(s);
  }

  lemma NumbersRead(s: Style)
    requires JavaInts(s)
    ensures OptInt(ToJson(s), "font_size", DEFAULT.fontSize) == s.fontSize
    ensures OptInt(ToJson(s), "shadow_radius", DEFAULT.shadowRadius) == s.shadowRadius
    ensures OptInt(ToJson(s), "shadow_dx", DEFAULT.shadowDx) == s.shadowDx
    ensures OptInt(ToJson(s), "shadow_dy", DEFAULT.shadowDy) == s.shadowDy
    ensures OptInt(ToJson(s), "outline_width", DEFAULT.outlineWidth) == s.outlineWidth
    ensures OptInt(ToJson(s), "background_padding", DEFAULT.backgroundPadding) == s.backgroundPadding
  {
    KeyFontSize(s);
    KeyShadowRadius(s);
    KeyShadowDx(s);
    KeyShadowDy(s);
    KeyOutlineWidth(s);
    KeyBackgroundPadding(s);
  }

  lemma SwitchesRead(s: Style)
    ensures OptBoolean(ToJson(s), "shadow_enabled", DEFAULT.shadowEnabled) == s.shadowEnabled
    ensures OptBoolean(ToJson(s), "outline_enabled", DEFAULT.outlineEnabled) == s.outlineEnabled
    ensures OptBoolean(ToJson(s), "background_enabled", DEFAULT.backgroundEnabled) == s.backgroundEnabled
    ensures OptBoolean(ToJson(s), "apply_globally", DEFAULT.applyGlobally) == s.applyGlobally
  {
    KeyShadowEnabled(s);
    KeyOutlineEnabled(s);
    KeyBackgroundEnabled(s);
    KeyApplyGlobally(s);
  }

  lemma KeyName(s: Style)
    ensures Holds(ToJson(s), "name", JStr(s.name))
  {
  }

  lemma KeyFontName(s: Style)
    ensures Holds(ToJson(s), "font_name", JStr(s.fontName))
  {
  }

  lemma KeyFontSize(s: Style)
    ensures Holds(ToJson(s), "font_size", JNum(s.fontSize))
  {
  }

  lemma KeyFontColor(s: Style)
    ensures Holds(ToJson(s), "font_color", JStr(s.fontColor))
  {
  }

  lemma KeyPosition(s: Style)
    ensures Holds(ToJson(s), "position", JStr(s.position))
  {
  }

  lemma KeyAlignment(s: Style)
    ensures Holds(ToJson(s), "alignment", JStr(s.alignment))
  {
  }

  lemma KeyShadowEnabled(s: Style)
    ensures Holds(ToJson(s), "shadow_enabled", JBool(s.shadowEnabled))
  {
  }

  lemma KeyShadowRadius(s: Style)
    ensures Holds(ToJson(s), "shadow_radius", JNum(s.shadowRadius))
  {
  }

  lemma KeyShadowDx(s: Style)
    ensures Holds(ToJson(s), "shadow_dx", JNum(s.shadowDx))
  {
  }

  lemma KeyShadowDy(s: Style)
    ensures Holds(ToJson(s), "shadow_dy", JNum(s.shadowDy))
  {
  }

  lemma KeyShadowColor(s: Style)
    ensures Holds(ToJson(s), "shadow_color", JStr(s.shadowColor))
  {
  }

  lemma KeyOutlineEnabled(s: Style)
    ensures Holds(ToJson(s), "outline_enabled", JBool(s.outlineEnabled))
  {
  }

  lemma KeyOutlineWidth(s: Style)
    ensures Holds(ToJson(s), "outline_width", JNum(s.outlineWidth))
  {
  }

  lemma KeyOutlineColor(s: Style)
    ensures Holds(ToJson(s), "outline_color", JStr(s.outlineColor))
  {
  }

  lemma KeyBackgroundEnabled(s: Style)
    ensures Holds(ToJson(s), "background_enabled", JBool(s.backgroundEnabled))
  {
  }

  lemma KeyBackgroundPadding(s: Style)
    ensures Holds(ToJson(s), "background_padding", JNum(s.backgroundPadding))
  {
  }

  lemma KeyBackgroundColor(s: Style)
    ensures Holds(ToJson(s), "background_color", JStr(s.backgroundColor))
  {
  }

  lemma KeyApplyGlobally(s: Style)
    ensures Holds(ToJson(s), "apply_globally", JBool(s.applyGlobally))
  {
  }

  // ---------------------------------------------------------------- presets

  /** The two files in the configuration directory. */
  function StyleFile(): string { StoragePaths.ConfigDir() + "/subtitle_style_default.json" }
  function PresetsFile(): string { StoragePaths.ConfigDir() + "/subtitle_presets.json" }

  /** `createDefaultPresets`: Default, Clean and Bold, each starting from
      the field initialisers. */
  function DefaultPresets(): (r: seq<Style>)
    ensures |r| == 3 && r[0] == DEFAULT
    ensures r[1].name == "Clean" && r[2].name == "Bold"
  {
    [DEFAULT,
     DEFAULT.(name := "Clean", fontSize := 18, shadowEnabled := false, outlineEnabled := false, backgroundEnabled := false),
     DEFAULT.(name := "Bold", fontSize := 20, fontColor := "#FFFF00", shadowRadius := 5, shadowDy := 3,
              outlineEnabled := true, backgroundEnabled := false)]
  }

  /** The loop of `LoadPresetsTask`: each element read as a style, until an
      element that is not an object throws; the styles read before it are
      kept, and the load reports failure. */
  function ReadPresets(items: seq<Json>): (r: (seq<Style>, bool))
    ensures |r.0| <= |items|
    ensures forall i :: 0 <= i < |r.0| ==> items[i].JObj? && r.0[i] == FromJson(items[i].fields)
    ensures r.1 ==> |r.0| == |items|
    ensures !r.1 ==> |r.0| < |items| && !items[|r.0|].JObj?
  {
    if items == [] then ([], true)
    else if !items[0].JObj? then ([], false)
    else
      var rest := ReadPresets(items[1..]);
      ([FromJson(items[0].fields)] + rest.0, rest.1)
  }

  /** `LoadPresetsTask`: the presets file read when it exists, the defaults
      otherwise; a file that is not a JSON array fails with no preset. */
  function LoadPresets(docs: Docs): (r: (seq<Style>, bool))
    ensures PresetsFile() !in docs ==> r == (DefaultPresets(), true)
  {
    if PresetsFile() !in docs then (DefaultPresets(), true)
    else match docs[PresetsFile()]
      case Some(JArr(items)) => ReadPresets(items)
      case _ => ([], false)
  }

  /** `LoadCurrentStyleTask`: the style file read when it exists, else the
      first preset; `false` leaves the style as it was. */
  function LoadCurrentStyle(docs: Docs, presets: seq<Style>, current: Style): (r: (Style, bool))
    ensures !r.1 ==> r.0 == current
    ensures StyleFile() !in docs ==> r == if presets != [] then (presets[0], true) else (current, false)
  {
    if StyleFile() in docs then
      match docs[StyleFile()]
      case Some(JObj(o)) => (FromJson(o), true)
      case _ => (current, false)
    else if presets != [] then (presets[0], true)
    else (current, false)
  }

  /** The JSON array of the presets. */
  function PresetsJson(presets: seq<Style>): (r: seq<Json>)
    ensures |r| == |presets|
    ensures forall i :: 0 <= i < |presets| ==> r[i] == JObj(ToJson(presets[i]))
  {
    seq(|presets|, i requires 0 <= i < |presets| => JObj(ToJson(presets[i])))
  }

  /** `SaveStyleTask`: both files overwritten, the style and then the
      presets. */
  function Save(docs: Docs, current: Style, presets: seq<Style>): (r: Docs)
    ensures forall f :: f in docs ==> f in r
    ensures forall f :: f in docs && f != StyleFile() && f != PresetsFile() ==> r[f] == docs[f]
  {
    docs[StyleFile() := Some(JObj(ToJson(current)))][PresetsFile() := Some(JArr(PresetsJson(presets)))]
  }

  /** Saved presets load back as they were, in order. */
  lemma SaveThenLoadPresets(docs: Docs, current: Style, presets: seq<Style>)
    requires forall i :: 0 <= i < |presets| ==> JavaInts(presets[i])
    ensures LoadPresets(Save(docs, current, presets)) == (presets, true)
  {
    var saved := Save(docs, current, presets);
    var items := PresetsJson(presets);
    assert saved[PresetsFile()] == Some(JArr(items));
    var r := ReadPresets(items);
    forall i | 0 <= i < |presets| ensures r.0[i] == presets[i] {
      JsonRoundTrip(presets[i]);
    }
    assert r.0 == presets;
  }

  /** A saved style loads back as it was. */
  lemma SaveThenLoadStyle(docs: Docs, current: Style, presets: seq<Style>, others: seq<Style>, before: Style)
    requires JavaInts(current)
    ensures LoadCurrentStyle(Save(docs, current, presets), others, before) == (current, true)
  {
    FilesDiffer();
    var saved := Save(docs, current, presets);
    var o := ToJson(current);
    assert saved[StyleFile()] == Some(JObj(o));
    JsonRoundTrip(current);
    assert FromJson(o) == current;
  }

  lemma FilesDiffer()
    ensures StyleFile() != PresetsFile()
  {
    assert |StyleFile()| != |PresetsFile()|;
  }

  /** On a first start, with neither file, the style is the default one. */
  lemma FirstStart(docs: Docs, before: Style)
    requires StyleFile() !in docs && PresetsFile() !in docs
    ensures LoadCurrentStyle(docs, LoadPresets(docs).0, before) == (DEFAULT, true)
  {
  }

  /** `copyFrom`: every field of the other style, its name included. */
  function CopyFrom(target: Style, other: Style): (r: Style) {
    other
  }

  /** `savePreset(name)` as written: the new preset is named and then
      overwritten field by field from the current style, name included. */
  function SavePresetAsWritten(presets: seq<Style>, current: Style, name: string): (r: seq<Style>)
    ensures |r| == |presets| + 1 && r[..|presets|] == presets
  {
    presets + [CopyFrom(DEFAULT.(name := name), current)]
  }

  /** The name entered for the preset is lost: the preset carries the
      current style's name. */
  lemma SavedPresetKeepsOldName(presets: seq<Style>, current: Style, name: string)
    ensures SavePresetAsWritten(presets, current, name)[|presets|].name == current.name
  {
  }

  /** Saving the default style as "Mine" stores a preset named "Default". */
  lemma SavedPresetNameExample()
    ensures SavePresetAsWritten([], DEFAULT, "Mine")[0].name == "Default"
    ensures SavePresetAsWritten([], DEFAULT, "Mine")[0].name != "Mine"
  {
  }

  /** `savePreset(name)` as intended: the current style under the entered
      name, after the presets there were. */
  function SavePreset(presets: seq<Style>, current: Style, name: string): (r: seq<Style>)
    ensures |r| == |presets| + 1 && r[..|presets|] == presets
    ensures r[|presets|].name == name
    ensures r[|presets|].(name := current.name) == current
  {
    presets + [current.(name := name)]
  }

  /** The save dialog: a name that trims to nothing saves nothing;
      otherwise the preset is added under the trimmed name and both files
      are written. */
  function SavePresetDialog(docs: Docs, presets: seq<Style>, current: Style, entered: string): (r: (Docs, seq<Style>))
    ensures JavaString.Trim(entered) == [] ==> r == (docs, presets)
    ensures JavaString.Trim(entered) != [] ==> r.1 == SavePreset(presets, current, JavaString.Trim(entered))
                                               && r.0 == Save(docs, current, r.1)
  {
    var name := JavaString.Trim(entered);
    if name == [] then (docs, presets)
    else
      var added := SavePreset(presets, current, name);
      (Save(docs, current, added), added)
  }

  /** A saved preset is found again, under its name, after a restart. */
  lemma SavedPresetReloads(docs: Docs, presets: seq<Style>, current: Style, entered: string)
    requires JavaString.Trim(entered) != []
    requires JavaInts(current) && forall i :: 0 <= i < |presets| ==> JavaInts(presets[i])
    ensures var (saved, _) := SavePresetDialog(docs, presets, current, entered);
            var loaded := LoadPresets(saved).0;
            |loaded| == |presets| + 1 && loaded[|presets|].name == JavaString.Trim(entered)
  {
    var r := SavePresetDialog(docs, presets, current, entered);
    var added := r.1;
    forall i | 0 <= i < |added| ensures JavaInts(added[i]) {
      if i < |presets| { assert added[i] == presets[i]; }
    }
    SaveThenLoadPresets(docs, current, added);
  }

  // ---------------------------------------------------------- loading presets

  /** `loadPreset(index)` as written: the style is overwritten with the
      preset, name included, the controls show it with the boxes' listeners
      live, and the style is collected from the controls again.  The index
      comes from the dialog that lists the presets. */
  function LoadPresetAsWritten(presets: seq<Style>, index: nat, current: Style, c: Controls): (r: (Style, Controls))
    requires index < |presets|
    ensures OnScale(r.1) && r.1.shadow == presets[index].shadowEnabled
    ensures r.0.name == presets[index].name && r.0.fontName == presets[index].fontName
    ensures r.0.shadowEnabled == presets[index].shadowEnabled
    ensures Showable(presets[index]) && InSync(presets[index], c) ==> r.0 == Shown(presets[index], c)
  {
    var style := CopyFrom(current, presets[index]);
    var shown := Show(style, c);
    if Showable(style) then ShowThenCollect(style, c); (Collect(style, shown), shown)
    else (Collect(style, shown), shown)
  }

  /** After a reset (shadow off, shadow radius 3, vertical offset 2, outline
      off, background on), loading the Bold preset (shadow on, radius 5,
      offset 3, outline on, background off) switches the shadow on and
      keeps every later value the reset left. */
  lemma BoldAfterReset(current: Style, c: Controls)
    ensures var bold := DefaultPresets()[2];
            bold.shadowRadius == 5 && bold.shadowDy == 3 && bold.outlineEnabled && !bold.backgroundEnabled
    ensures var loaded := LoadPresetAsWritten(DefaultPresets(), 2, current, ResetControls(c)).0;
            loaded.shadowEnabled && loaded.shadowRadius == 3 && loaded.shadowDy == 2
            && !loaded.outlineEnabled && loaded.backgroundEnabled
  {
    var bold := DefaultPresets()[2];
    ShadowChangesFirst(bold, ResetControls(c));
  }

  /** `loadPreset(index)` as intended: the style becomes the preset, as
      every control shows it. */
  function LoadPreset(presets: seq<Style>, index: nat, current: Style, c: Controls): (r: (Style, Controls))
    requires index < |presets|
    ensures OnScale(r.1) && r.1.shadow == presets[index].shadowEnabled
    ensures r.1.outline == presets[index].outlineEnabled && r.1.background == presets[index].backgroundEnabled
    ensures Showable(presets[index]) ==> r.0 == Shown(presets[index], c)
  {
    var style := CopyFrom(current, presets[index]);
    var shown := ShowDetached(style, c);
    if Showable(style) then ShowDetachedThenCollect(style, c); (Collect(style, shown), shown)
    else (Collect(style, shown), shown)
  }

  /** Loading the Bold preset after a reset, as intended, gives the Bold
      preset's values. */
  lemma BoldAfterResetIntended(current: Style, c: Controls)
    ensures var loaded := LoadPreset(DefaultPresets(), 2, current, ResetControls(c)).0;
            loaded.shadowEnabled && loaded.shadowRadius == 5 && loaded.shadowDy == 3
            && loaded.outlineEnabled && !loaded.backgroundEnabled
  {
  }
}

=== FILE: tag_steps.dfy ===
/** The pattern both media agents' `extractMetadata` follow: each tag, if
    present, is converted and put into the metadata object in turn, and the
    first exception, a `NumberFormatException` or the `JSONException` a
    non-finite number raises, abandons the rest, keeping what was put
    before it. */
module TagSteps {
  import opened Outcomes
  import opened JavaString
  import opened OrgJson
  import MediaUtils

  /** What stopped an extraction: a text that does not parse as a number,
      or a non-finite floating-point value (by its Java spelling) that
      `JSONObject.put` refuses. */
  datatype Cause = BadNumber(text: string) | NotFinite(value: string)

  /** Extraction so far: still going, or stopped with the members gathered
      before the exception and its cause. */
  datatype Progress = Going(members: Obj) | Stopped(members: Obj, cause: Cause)

  /** The exception's message; `numberError` gives the message of the
      `NumberFormatException` for an unparsable text. */
  function CauseMessage(c: Cause, numberError: string -> string): string {
    match c
    case BadNumber(text) => numberError(text)
    case NotFinite(value) => "Forbidden numeric value: " + value
  }

  /** The line the catch around an extraction logs: its `prefix` and the
      exception's message when the extraction stopped, nothing otherwise. */
  function StopMessages(p: Progress, prefix: string, numberError: string -> string): (r: seq<string>)
    ensures |r| == (if p.Stopped? then 1 else 0)
    ensures p.Stopped? ==> r[0] == prefix + CauseMessage(p.cause, numberError)
  {
    if p.Stopped? then [prefix + CauseMessage(p.cause, numberError)] else []
  }

  /** The duration tag: a `long`, recorded in milliseconds and as clock
      text (the seconds as a floating-point number are not represented). */
  function DurationStep(raw: Option<string>): (q: Progress)
    ensures q.members.Keys <= {"duration_ms", "duration_formatted"}
    ensures q.Going? <==> raw.None? || ParseLong(raw.value).Some?
    ensures q.Stopped? ==> q.cause == BadNumber(raw.value)
    ensures "duration_ms" in q.members <==> raw.Some? && ParseLong(raw.value).Some?
    ensures raw.Some? && ParseLong(raw.value).Some? ==>
              var d := ParseLong(raw.value).value;
              q.members["duration_ms"] == JNum(d)
              && "duration_formatted" in q.members && q.members["duration_formatted"] == JStr(MediaUtils.FormatDuration(d))
  {
    if raw.None? then Going(map[])
    else
      match ParseLong(raw.value)
      case None => Stopped(map[], BadNumber(raw.value))
      case Some(d) => Going(map["duration_ms" := JNum(d), "duration_formatted" := JStr(MediaUtils.FormatDuration(d))])
  }

  /** A numeric tag: an `int` under `key`, or a stop when it does not parse. */
  function IntStep(p: Progress, key: string, raw: Option<string>): (q: Progress)
    ensures forall k :: k != key ==> (k in q.members <==> k in p.members)
    ensures forall k :: k != key && k in p.members ==> q.members[k] == p.members[k]
    ensures q.Going? <==> p.Going? && ParsesAsInt(raw)
    ensures key in q.members <==> key in p.members || (p.Going? && raw.Some? && ParseInt(raw.value).Some?)
    ensures p.Going? && raw.Some? && ParseInt(raw.value).Some? ==> q.members[key] == JNum(ParseInt(raw.value).value)
    ensures q.Stopped? ==> q.members == p.members
    ensures q.Stopped? ==> q.cause == (if p.Stopped? then p.cause else BadNumber(raw.value))
  {
    if p.Stopped? || raw.None? then p
    else
      match ParseInt(raw.value)
      case None => Stopped(p.members, BadNumber(raw.value))
      case Some(n) => Going(p.members[key := JNum(n)])
  }

  /** A text tag: its text under `key`. */
  function TextStep(p: Progress, key: string, raw: Option<string>): (q: Progress)
    ensures forall k :: k != key ==> (k in q.members <==> k in p.members)
    ensures forall k :: k != key && k in p.members ==> q.members[k] == p.members[k]
    ensures q.Going? <==> p.Going?
    ensures q.Stopped? ==> q == p
    ensures key in q.members <==> key in p.members || (p.Going? && raw.Some?)
    ensures p.Going? && raw.Some? ==> q.members[key] == JStr(raw.value)
  {
    if p.Stopped? || raw.None? then p else Going(p.members[key := JStr(raw.value)])
  }

  /** A numeric tag that is absent or parses. */
  predicate ParsesAsInt(raw: Option<string>) {
    raw.None? || ParseInt(raw.value).Some?
  }
}

=== FILE: theme.dfy ===
/** `ThemeUtils`: the app's theme, kept in the obfuscated setting
    "app_theme" ("light", "dark" or "system", the default), and whether the
    app is dark.  "system" and any other value follow the system's night
    mode, which can only be read from Android 10 (API level 29) on.  The
    API level and the configuration's `uiMode` bits are inputs. */
module Theme {
  import opened Outcomes
  import Prefs

  const THEME_PREF: string := "app_theme"
  const SYSTEM: string := "system"

  /** `Build.VERSION_CODES.Q`, and the night bits of `uiMode` with the
      value that means night. */
  const API_Q: int := 29
  const UI_MODE_NIGHT_MASK: bv32 := 0x30
  const UI_MODE_NIGHT_YES: bv32 := 0x20

  datatype Device = Device(sdk: int, uiMode: bv32)

  /** `isSystemDarkMode`: the night bits say night, on API level 29 or
      later; below it, never. */
  function SystemDark(d: Device): (r: bool)
    ensures d.sdk < API_Q ==> !r
  {
    d.sdk >= API_Q && d.uiMode & UI_MODE_NIGHT_MASK == UI_MODE_NIGHT_YES
  }

  /** Whatever the other bits of `uiMode` say, the system is dark exactly
      when its night bits say "yes" rather than "no" or "undefined", from
      API level 29 on. */
  lemma NightBitsDecide(sdk: int, other: bv32, night: bv32)
    requires other & UI_MODE_NIGHT_MASK == 0
    requires night == 0x00 || night == 0x10 || night == 0x20
    ensures SystemDark(Device(sdk, other | night)) <==> sdk >= API_Q && night == UI_MODE_NIGHT_YES
  {
  }

  /** `getCurrentTheme`: the stored value, "system" when there is none. */
  function CurrentTheme(p: Prefs.Prefs): (r: string)
    ensures THEME_PREF !in p.store ==> r == SYSTEM
    ensures THEME_PREF in p.store ==> Some(r) == Prefs.GetString(p, THEME_PREF, None)
  {
    Prefs.GetString(p, THEME_PREF, Some(SYSTEM)).value
  }

  /** `isDarkMode`: "dark" is dark, "light" is not, anything else follows
      the system. */
  function IsDarkMode(p: Prefs.Prefs, d: Device): (r: bool)
    ensures CurrentTheme(p) == "dark" ==> r
    ensures CurrentTheme(p) == "light" ==> !r
    ensures CurrentTheme(p) !in {"dark", "light"} ==> r == SystemDark(d)
  {
    var theme := CurrentTheme(p);
    if theme == "dark" then true
    else if theme == "light" then false
    else SystemDark(d)
  }

  /** The two styles an activity can be given. */
  datatype Style = LightStyle | DarkStyle

  /** `setAppTheme`: the value is stored; an activity is given the light
      style for "light", the dark style for "dark", and the system's for
      anything else.  `None` when the context is not an activity. */
  function SetAppTheme(p: Prefs.Prefs, value: string, d: Device, isActivity: bool): (r: (Prefs.Prefs, Option<Style>))
    ensures r.1.Some? <==> isActivity
    ensures Prefs.GetString(r.0, THEME_PREF, None) == Some(value)
    ensures forall k :: k != THEME_PREF ==> Prefs.GetString(r.0, k, None) == Prefs.GetString(p, k, None)
  {
    Prefs.PutGetString(p, THEME_PREF, Some(value), None);
    var stored := Prefs.PutString(p, THEME_PREF, Some(value));
    if !isActivity then (stored, None)
    else if value == "light" then (stored, Some(LightStyle))
    else if value == "dark" then (stored, Some(DarkStyle))
    else (stored, Some(if SystemDark(d) then DarkStyle else LightStyle))
  }

  /** A set theme is the current one. */
  lemma SetThenCurrent(p: Prefs.Prefs, value: string, d: Device, isActivity: bool)
    ensures CurrentTheme(SetAppTheme(p, value, d, isActivity).0) == value
  {
    Prefs.PutGetString(p, THEME_PREF, Some(value), Some(SYSTEM));
  }

  /** The style an activity is given agrees with what `isDarkMode` then
      says, for every value and every device. */
  lemma StyleMatchesDarkMode(p: Prefs.Prefs, value: string, d: Device)
    ensures var (q, style) := SetAppTheme(p, value, d, true);
            style == Some(if IsDarkMode(q, d) then DarkStyle else LightStyle)
  {
    SetThenCurrent(p, value, d, true);
  }

  /** With nothing stored the app follows the system, and before API
      level 29 it is then light. */
  lemma DefaultFollowsSystem(p: Prefs.Prefs, d: Device)
    requires THEME_PREF !in p.store
    ensures IsDarkMode(p, d) == SystemDark(d)
    ensures d.sdk < API_Q ==> !IsDarkMode(p, d)
  {
  }
}

=== FILE: utf8.dfy ===
/** UTF-8, as `String.getBytes(UTF_8)` writes it and `new String(bytes,
    UTF_8)` reads it (section 3 of RFC 3629).  A character is a Unicode
    scalar value, so every text has an encoding; a byte that does not
    start a well-formed sequence reads as U+FFFD. */
module Utf8 {
  import opened Outcomes
  import opened Bytes

  predicate IsContinuation(b: byte) {
    0x80 <= b < 0xC0
  }

  /** The bytes of one character: one to four, by the size of its value. */
  function EncodeChar(c: char): (r: seq<byte>)
    ensures 1 <= |r| <= 4
    ensures (c as int < 0x80) <==> |r| == 1
    ensures forall k :: 1 <= k < |r| ==> IsContinuation(r[k])
  {
    var n := c as int;
    if n < 0x80 then [n as byte]
    else if n < 0x800 then [(0xC0 + n / 64) as byte, (0x80 + n % 64) as byte]
    else if n < 0x10000 then [(0xE0 + n / 4096) as byte, (0x80 + n / 64 % 64) as byte, (0x80 + n % 64) as byte]
    else [(0xF0 + n / 262144) as byte, (0x80 + n / 4096 % 64) as byte, (0x80 + n / 64 % 64) as byte, (0x80 + n % 64) as byte]
  }

  function Encode(s: string): (r: seq<byte>)
    ensures |r| >= |s|
    ensures r == [] <==> s == []
  {
    if s == [] then [] else EncodeChar(s[0]) + Encode(s[1..])
  }

  const REPLACEMENT: char := '�'

  predicate IsScalar(n: int) {
    0 <= n < 0xD800 || 0xE000 <= n < 0x110000
  }

  /** The character a well-formed sequence at the head of `bs` spells, and
      the length of that sequence; `None` when the head is malformed. */
  function DecodeHead(bs: seq<byte>): (r: Option<(char, nat)>)
    requires bs != []
    ensures r.Some? ==> 1 <= r.value.1 <= |bs| && r.value.1 <= 4
  {
    var b0 := bs[0] as int;
    if b0 < 0x80 then Some((b0 as char, 1))
    else if 0xC2 <= b0 < 0xE0 && |bs| >= 2 && IsContinuation(bs[1]) then
      var n := (b0 - 0xC0) * 64 + (bs[1] as int - 0x80);
      Some((n as char, 2))
    else if 0xE0 <= b0 < 0xF0 && |bs| >= 3 && IsContinuation(bs[1]) && IsContinuation(bs[2]) then
      var n := (b0 - 0xE0) * 4096 + (bs[1] as int - 0x80) * 64 + (bs[2] as int - 0x80);
      if 0x800 <= n && IsScalar(n) then Some((n as char, 3)) else None
    else if 0xF0 <= b0 < 0xF5 && |bs| >= 4 && IsContinuation(bs[1]) && IsContinuation(bs[2]) && IsContinuation(bs[3]) then
      var n := (b0 - 0xF0) * 262144 + (bs[1] as int - 0x80) * 4096 + (bs[2] as int - 0x80) * 64 + (bs[3] as int - 0x80);
      if 0x10000 <= n < 0x110000 then Some((n as char, 4)) else None
    else None
  }

  /** `new String(bytes, UTF_8)`: the characters in order, U+FFFD for each
      byte that does not start a well-formed sequence. */
  function Decode(bs: seq<byte>): (s: string)
    ensures |s| <= |bs|
    decreases |bs|
  {
    if bs == [] then []
    else match DecodeHead(bs)
      case Some((c, len)) => [c] + Decode(bs[len..])
      case None => [REPLACEMENT] + Decode(bs[1..])
  }

  /** The encoding of a character is read back as that character, whatever
      follows it. */
  lemma DecodeEncodedHead(c: char, rest: seq<byte>)
    ensures DecodeHead(EncodeChar(c) + rest) == Some((c, |EncodeChar(c)|))
  {
    var n := c as int;
    var bs := EncodeChar(c) + rest;
    if n < 0x80 {
    } else if n < 0x800 {
      assert bs[0] as int == 0xC0 + n / 64 && bs[1] as int == 0x80 + n % 64;
    } else if n < 0x10000 {
      assert bs[0] as int == 0xE0 + n / 4096 && bs[1] as int == 0x80 + n / 64 % 64 && bs[2] as int == 0x80 + n % 64;
      ThreeByteValue(n);
    } else {
      assert bs[0] as int == 0xF0 + n / 262144 && bs[1] as int == 0x80 + n / 4096 % 64;
      assert bs[2] as int == 0x80 + n / 64 % 64 && bs[3] as int == 0x80 + n % 64;
      FourByteValue(n);
    }
  }

  lemma ThreeByteValue(n: int)
    requires 0x800 <= n < 0x10000
    ensures n / 4096 * 4096 + n / 64 % 64 * 64 + n % 64 == n
  {
  }

  lemma FourByteValue(n: int)
    requires 0x10000 <= n < 0x110000
    ensures n / 262144 < 5
    ensures n / 262144 * 262144 + n / 4096 % 64 * 4096 + n / 64 % 64 * 64 + n % 64 == n
  {
  }

  /** Reading what was written gives the text back. */
  lemma {:induction false} DecodeEncode(s: string)
    ensures Decode(Encode(s)) == s
    decreases |s|
  {
    if s != [] {
      var head := EncodeChar(s[0]);
      var rest := Encode(s[1..]);
      DecodeEncodedHead(s[0], rest);
      assert (head + rest)[|head|..] == rest;
      DecodeEncode(s[1..]);
    }
  }

  /** Text of single-byte characters is encoded one byte per character. */
  lemma {:induction false} AsciiLength(s: string)
    requires forall i :: 0 <= i < |s| ==> s[i] as int < 0x80
    ensures |Encode(s)| == |s|
    decreases |s|
  {
    if s != [] {
      AsciiLength(s[1..]);
    }
  }
}

=== FILE: video_analyzer.dfy ===
/** `VideoAnalyzerAgent.analyzeVideo`: a missing file stops at once; a
    readable file has its metadata extracted, is cut into five equal scenes
    and ten evenly spaced key frames, has its audio track described and
    gets a text summary; every result is written to the file of the input's
    name.  No model is consulted.  The file system's answer, the metadata
    retriever's tags, whether frame files can be created and the message
    when they cannot, the clock and the wording of Java's number-format
    message are inputs. */
module VideoAnalyzer {
  import opened Outcomes
  import opened JavaInt
  import opened JavaString
  import opened OrgJson
  import opened FileStore
  import opened TagSteps
  import MediaUtils
  import StoragePaths
  import AgentRecords
  import AppLog

  const AGENT: string := "VideoAnalyzerAgent"
  const SCENES: int := 5
  const KEY_FRAMES: int := 10

  // -------------------------------------------------------------- metadata

  /** The retriever's raw tag texts, `None` for an absent tag (the capture
      frame rate, a floating-point number, is not represented).  The audio
      sample rate is read from the CD-track-number tag and the channel count
      from the number-of-tracks tag. */
  datatype VideoTags = VideoTags(duration: Option<string>, width: Option<string>, height: Option<string>,
                                 rotation: Option<string>, bitrate: Option<string>, hasAudio: Option<string>,
                                 cdTrackNumber: Option<string>, numTracks: Option<string>)

  /** The resolution text: both dimensions in decimal around an `x`. */
  function Resolution(width: int, height: int): string {
    IntToString(width) + "x" + IntToString(height)
  }

  /** The decimal text of an integer is digits after an optional minus. */
  lemma DecimalChars(n: int)
    ensures forall i :: 0 <= i < |IntToString(n)| ==> IsDigit(IntToString(n)[i]) || IntToString(n)[i] == '-'
  {
    if n < 0 {
      assert forall i :: 1 <= i < |IntToString(n)| ==> IntToString(n)[i] == NatToString(-n)[i - 1];
    }
  }

  /** The resolution text splits at its only `x` into texts that parse back
      as the width and the height. */
  lemma ResolutionReadsBack(width: int, height: int)
    requires IsInt(width) && IsInt(height)
    ensures var r, i := Resolution(width, height), |IntToString(width)|;
            i < |r| && r[i] == 'x' && 'x' !in r[..i] && 'x' !in r[i + 1..]
            && ParseInt(r[..i]) == Some(width) && ParseInt(r[i + 1..]) == Some(height)
  {
    var w, h := IntToString(width), IntToString(height);
    var r := w + "x" + h;
    assert r[..|w|] == w;
    assert r[|w| + 1..] == h;
    DecimalChars(width);
    DecimalChars(height);
    ParseIntToString(width, INT_MIN, INT_MAX);
    ParseIntToString(height, INT_MIN, INT_MAX);
  }

  /** Whether both dimension tags are present and parse as `int`s. */
  predicate SizeParses(width: Option<string>, height: Option<string>) {
    width.Some? && height.Some? && ParseInt(width.value).Some? && ParseInt(height.value).Some?
  }

  /** Java's spelling of `(double) width / 0`: an infinity of the width's
      sign, or not-a-number for a zero width. */
  function RatioOverZero(width: int): string {
    if width > 0 then "Infinity" else if width < 0 then "-Infinity" else "NaN"
  }

  /** The width and height tags, read only when both are present: both
      `int`s, recorded with their resolution text, then the aspect ratio
      (a floating-point number, not represented), which for a zero height
      is not finite, so `put` refuses it and the extraction stops; or a
      stop when either does not parse. */
  function SizeStep(p: Progress, width: Option<string>, height: Option<string>): (q: Progress)
    ensures forall k :: k != "width" && k != "height" && k != "resolution" ==> (k in q.members <==> k in p.members)
    ensures forall k :: k != "width" && k != "height" && k != "resolution" && k in p.members ==> q.members[k] == p.members[k]
    ensures width.None? || height.None? ==> q == p
    ensures q.Going? <==> p.Going? && (width.None? || height.None? || (SizeParses(width, height) && ParseInt(height.value).value != 0))
    ensures p.Stopped? || !SizeParses(width, height) ==> q.members == p.members
    ensures p.Going? && SizeParses(width, height) ==>
              var w, h := ParseInt(width.value).value, ParseInt(height.value).value;
              q.members == p.members["width" := JNum(w)]["height" := JNum(h)]["resolution" := JStr(Resolution(w, h))]
  {
    if p.Stopped? || width.None? || height.None? then p
    else
      match ParseInt(width.value)
      case None => Stopped(p.members, BadNumber(width.value))
      case Some(w) =>
        (match ParseInt(height.value)
         case None => Stopped(p.members, BadNumber(height.value))
         case Some(h) =>
           var sized := p.members["width" := JNum(w)]["height" := JNum(h)]["resolution" := JStr(Resolution(w, h))];
           if h == 0 then Stopped(sized, NotFinite(RatioOverZero(w))) else Going(sized))
  }

  /** Why the size step stops a running extraction: the first dimension
      that does not parse, or a zero height. */
  lemma SizeStepCause(p: Progress, width: Option<string>, height: Option<string>)
    requires p.Going? && width.Some? && height.Some?
    ensures var q := SizeStep(p, width, height);
            (ParseInt(width.value).None? ==> q.Stopped? && q.cause == BadNumber(width.value))
            && (ParseInt(width.value).Some? && ParseInt(height.value).None? ==> q.Stopped? && q.cause == BadNumber(height.value))
            && (SizeParses(width, height) && ParseInt(height.value).value == 0 ==>
                  q.Stopped? && q.cause == NotFinite(RatioOverZero(ParseInt(width.value).value)))
  {
  }

  /** `extractMetadata`'s course: duration, size, rotation, bitrate, in
      that order; the first exception ends it. */
  function Extraction(t: VideoTags): Progress {
    var p := DurationStep(t.duration);
    var p := SizeStep(p, t.width, t.height);
    var p := IntStep(p, "rotation", t.rotation);
    IntStep(p, "bitrate", t.bitrate)
  }

  /** `extractMetadata`: the members gathered before the extraction ended. */
  function ExtractMetadata(t: VideoTags): Obj {
    Extraction(t).members
  }

  /** An unparsable duration leaves the metadata empty; a parsable one is
      recorded with its clock text whatever follows. */
  lemma MetadataDuration(t: VideoTags)
    ensures t.duration.Some? && ParseLong(t.duration.value).None? ==> ExtractMetadata(t) == map[]
    ensures "duration_ms" in ExtractMetadata(t) <==> t.duration.Some? && ParseLong(t.duration.value).Some?
    ensures t.duration.Some? && ParseLong(t.duration.value).Some? ==>
              var d := ParseLong(t.duration.value).value;
              "duration_formatted" in ExtractMetadata(t)
              && ExtractMetadata(t)["duration_formatted"] == JStr(MediaUtils.FormatDuration(d))
  {
    var p0 := DurationStep(t.duration);
    var p1 := SizeStep(p0, t.width, t.height);
    var p2 := IntStep(p1, "rotation", t.rotation);
    assert ExtractMetadata(t) == IntStep(p2, "bitrate", t.bitrate).members;
  }

  /** After a duration that is absent or parses, the resolution is recorded
      exactly when both dimensions are present and parse, as their decimal
      texts around an `x`, a zero height included. */
  lemma MetadataResolution(t: VideoTags)
    requires t.duration.None? || ParseLong(t.duration.value).Some?
    ensures "resolution" in ExtractMetadata(t) <==>
              t.width.Some? && t.height.Some? && ParseInt(t.width.value).Some? && ParseInt(t.height.value).Some?
    ensures "resolution" in ExtractMetadata(t) ==>
              ExtractMetadata(t)["resolution"] == JStr(Resolution(ParseInt(t.width.value).value, ParseInt(t.height.value).value))
  {
    var p0 := DurationStep(t.duration);
    var p1 := SizeStep(p0, t.width, t.height);
    var p2 := IntStep(p1, "rotation", t.rotation);
    assert ExtractMetadata(t) == IntStep(p2, "bitrate", t.bitrate).members;
  }

  /** A zero height with a duration that is absent or parses: the size and
      its resolution are recorded, then the extraction stops on the ratio
      that is not finite, so neither the rotation nor the bitrate is. */
  lemma ZeroHeightStops(t: VideoTags)
    requires t.duration.None? || ParseLong(t.duration.value).Some?
    requires SizeParses(t.width, t.height) && ParseInt(t.height.value).value == 0
    ensures "resolution" in ExtractMetadata(t)
    ensures "rotation" !in ExtractMetadata(t) && "bitrate" !in ExtractMetadata(t)
    ensures Extraction(t) == Stopped(ExtractMetadata(t), NotFinite(RatioOverZero(ParseInt(t.width.value).value)))
  {
    var p0 := DurationStep(t.duration);
    var p1 := SizeStep(p0, t.width, t.height);
    SizeStepCause(p0, t.width, t.height);
    var p2 := IntStep(p1, "rotation", t.rotation);
    assert p2 == p1;
    assert Extraction(t) == IntStep(p2, "bitrate", t.bitrate) == p1;
  }

  // ------------------------------------------------------------ audio track

  /** `"yes".equalsIgnoreCase(tag)`: Java compares upper-cased characters,
      so the long s (U+017F), whose upper case is `S`, matches an `s` too. */
  predicate IsYes(raw: Option<string>) {
    raw.Some? && |raw.value| == 3
    && (raw.value[0] == 'y' || raw.value[0] == 'Y')
    && (raw.value[1] == 'e' || raw.value[1] == 'E')
    && (raw.value[2] == 's' || raw.value[2] == 'S' || raw.value[2] == 'ſ')
  }

  /** `extractAudioInfo`: whether there is an audio track and, if so, its
      sample rate and channel count as far as they parse. */
  function AudioInfo(t: VideoTags): (o: Obj)
    ensures Holds(o, "has_audio", JBool(IsYes(t.hasAudio)))
    ensures !IsYes(t.hasAudio) ==> o.Keys == {"has_audio"}
    ensures "sample_rate" in o <==> IsYes(t.hasAudio) && t.cdTrackNumber.Some? && ParseInt(t.cdTrackNumber.value).Some?
    ensures "num_channels" in o <==>
              IsYes(t.hasAudio) && ParsesAsInt(t.cdTrackNumber) && t.numTracks.Some? && ParseInt(t.numTracks.value).Some?
  {
    AudioProgress(t).members
  }

  /** `extractAudioInfo`'s course: its members, and whether and why a
      count stopped it. */
  function AudioProgress(t: VideoTags): Progress {
    if !IsYes(t.hasAudio) then Going(map["has_audio" := JBool(false)])
    else
      var p := IntStep(Going(map["has_audio" := JBool(true)]), "sample_rate", t.cdTrackNumber);
      IntStep(p, "num_channels", t.numTracks)
  }

  // ---------------------------------------------------------- time marks

  /** `i * (duration / n)` with Java's truncating division: between zero
      and the duration, so still a `long`. */
  function Mark(d: int, n: int, i: int): (t: int)
    requires IsLong(d) && n > 0 && 0 <= i <= n
    ensures d >= 0 ==> 0 <= t <= d
    ensures d < 0 ==> d <= t <= 0
    ensures IsLong(t)
  {
    MarkBounds(d, n, i);
    i * Quot(d, n)
  }

  lemma MarkBounds(d: int, n: int, i: int)
    requires n > 0 && 0 <= i <= n
    ensures d >= 0 ==> 0 <= i * Quot(d, n) <= d
    ensures d < 0 ==> d <= i * Quot(d, n) <= 0
  {
    var q, r := Quot(d, n), Rem(d, n);
    QuotRem(d, n);
    assert d >= 0 ==> q >= 0;
    assert d < 0 ==> q <= 0;
    ScaleBetween(i, n, q);
  }

  /** Scaling by a factor between zero and `n` stays between zero and `n`
      times the value. */
  lemma ScaleBetween(i: int, n: int, q: int)
    requires 0 <= i <= n
    ensures q >= 0 ==> 0 <= i * q <= n * q
    ensures q <= 0 ==> n * q <= i * q <= 0
  {
    assert n * q - i * q == (n - i) * q;
  }

  /** The path of the frame file for mark `index` at `time`. */
  function FramePath(index: int, time: int): string {
    StoragePaths.TempDir() + "/frames/frame_" + IntToString(index) + "_" + IntToString(time) + ".jpg"
  }

  /** Frame files live in the temporary directory. */
  lemma FramePathInTemp(index: int, time: int)
    ensures StartsWith(FramePath(index, time), StoragePaths.TempDir() + "/")
  {
    var head := StoragePaths.TempDir() + "/";
    assert FramePath(index, time)[..|head|] == head;
  }

  // ----------------------------------------------------------------- scenes

  /** One scene: its index, its start and end in milliseconds and its
      thumbnail file, if one was made. */
  datatype Scene = Scene(index: int, start: int, end: int, thumbnail: Option<string>)

  predicate LongTimes(s: Scene) {
    IsLong(s.start) && IsLong(s.end)
  }

  /** `extractScenes` for a duration `d`: five scenes, each a fifth of the
      duration rounded toward zero, the last running to the end. */
  function Scenes(d: int, frames: bool): (s: seq<Scene>)
    requires IsLong(d)
    ensures |s| == SCENES
    ensures s[0].start == 0 && s[SCENES - 1].end == d
    ensures forall i :: 0 <= i < SCENES - 1 ==> s[i].end == s[i + 1].start
    ensures forall i :: 0 <= i < SCENES - 1 ==> s[i].end - s[i].start == Quot(d, SCENES)
    ensures forall i :: 0 <= i < |s| ==> s[i].index == i && LongTimes(s[i]) && s[i].start == Mark(d, SCENES, i)
    ensures forall i :: 0 <= i < |s| ==> s[i].thumbnail == (if frames then Some(FramePath(i, s[i].start)) else None)
  {
    seq(SCENES, i requires 0 <= i < SCENES =>
      var start := Mark(d, SCENES, i);
      var end := if i == SCENES - 1 then d else Mark(d, SCENES, i + 1);
      Scene(i, start, end, if frames then Some(FramePath(i, start)) else None))
  }

  /** The summed length of consecutive scenes. */
  function TotalLength(s: seq<Scene>): int {
    if s == [] then 0 else (s[0].end - s[0].start) + TotalLength(s[1..])
  }

  predicate Contiguous(s: seq<Scene>) {
    forall i :: 0 <= i < |s| - 1 ==> s[i].end == s[i + 1].start
  }

  /** The lengths of contiguous scenes add up to the span they cover. */
  lemma {:induction false} Telescope(s: seq<Scene>)
    requires s != [] && Contiguous(s)
    ensures TotalLength(s) == s[|s| - 1].end - s[0].start
    decreases |s|
  {
    if |s| > 1 {
      assert Contiguous(s[1..]) by {
        forall i | 0 <= i < |s[1..]| - 1
          ensures s[1..][i].end == s[1..][i + 1].start
        {
          assert s[i + 1].end == s[i + 2].start;
        }
      }
      Telescope(s[1..]);
    }
  }

  /** The scenes cover the whole duration without gap or overlap, and for
      a non-negative duration the last one is at most four milliseconds
      longer than the others. */
  lemma ScenesCoverDuration(d: int, frames: bool)
    requires IsLong(d)
    ensures TotalLength(Scenes(d, frames)) == d
    ensures d >= 0 ==>
              var last := Scenes(d, frames)[SCENES - 1];
              Quot(d, SCENES) <= last.end - last.start < Quot(d, SCENES) + SCENES
  {
    var s := Scenes(d, frames);
    Telescope(s);
    QuotRem(d, SCENES);
    assert s[SCENES - 1].start == 4 * Quot(d, SCENES);
  }

  // ------------------------------------------------------------- key frames

  /** One key frame: its index, its time in milliseconds and its frame
      file, if one was made. */
  datatype KeyFrame = KeyFrame(index: int, time: int, frame: Option<string>)

  /** Consecutive marks are one quotient apart, and marks grow with their
      index for a non-negative duration. */
  lemma MarkStep(d: int, n: int, i: int)
    requires IsLong(d) && n > 0 && 0 <= i < n
    ensures Mark(d, n, i + 1) - Mark(d, n, i) == Quot(d, n)
  {
    assert (i + 1) * Quot(d, n) == i * Quot(d, n) + Quot(d, n);
  }

  lemma MarkMonotone(d: int, n: int, i: int, j: int)
    requires IsLong(d) && d >= 0 && n > 0 && 0 <= i <= j <= n
    ensures Mark(d, n, i) <= Mark(d, n, j)
  {
    MarkBounds(d, n, 1);
    ScaleMonotone(i, j, Quot(d, n));
  }

  lemma ScaleMonotone(i: int, j: int, q: int)
    requires i <= j && q >= 0
    ensures i * q <= j * q
  {
    assert j * q - i * q == (j - i) * q;
  }

  /** `extractKeyFrames` for a duration `d`: ten frames a tenth of the
      duration apart, rounded toward zero, the first at the start. */
  function KeyFrames(d: int, frames: bool): (k: seq<KeyFrame>)
    requires IsLong(d)
    ensures |k| == KEY_FRAMES && k[0].time == 0
    ensures forall i :: 0 <= i < |k| ==> k[i].index == i && k[i].time == Mark(d, KEY_FRAMES, i)
    ensures forall i :: 0 <= i < |k| ==> k[i].frame == (if frames then Some(FramePath(i, k[i].time)) else None)
  {
    seq(KEY_FRAMES, i requires 0 <= i < KEY_FRAMES =>
      var time := Mark(d, KEY_FRAMES, i);
      KeyFrame(i, time, if frames then Some(FramePath(i, time)) else None))
  }

  /** Key frames are a tenth of the duration apart, and for a positive
      duration all lie inside the video, in order. */
  lemma KeyFramesInside(d: int, frames: bool)
    requires IsLong(d)
    ensures var k := KeyFrames(d, frames);
            forall i :: 0 <= i < |k| - 1 ==> k[i + 1].time - k[i].time == Quot(d, KEY_FRAMES)
    ensures d > 0 ==>
              var k := KeyFrames(d, frames);
              forall i :: 0 <= i < |k| ==> 0 <= k[i].time < d
    ensures d > 0 ==>
              var k := KeyFrames(d, frames);
              forall i, j :: 0 <= i <= j < |k| ==> k[i].time <= k[j].time
  {
    var k := KeyFrames(d, frames);
    forall i | 0 <= i < |k| - 1
      ensures k[i + 1].time - k[i].time == Quot(d, KEY_FRAMES)
    {
      MarkStep(d, KEY_FRAMES, i);
    }
    if d > 0 {
      var q := Quot(d, KEY_FRAMES);
      QuotRem(d, KEY_FRAMES);
      assert Mark(d, KEY_FRAMES, KEY_FRAMES - 1) == 9 * q < d;
      forall i, j | 0 <= i <= j < |k|
        ensures k[i].time <= k[j].time
      {
        MarkMonotone(d, KEY_FRAMES, i, j);
      }
      forall i | 0 <= i < |k|
        ensures 0 <= k[i].time < d
      {
        MarkMonotone(d, KEY_FRAMES, i, KEY_FRAMES - 1);
      }
    }
  }

  // ---------------------------------------------------------------- summary

  /** The summary line of a scene, numbered from one. */
  function SceneLine(i: int, s: Scene): string
    requires LongTimes(s)
  {
    "Scene " + IntToString(i + 1) + ": " + MediaUtils.FormatDuration(s.start) + " - " + MediaUtils.FormatDuration(s.end)
  }

  function SceneLines(scenes: seq<Scene>): (r: seq<string>)
    requires forall i :: 0 <= i < |scenes| ==> LongTimes(scenes[i])
    ensures |r| == |scenes| && forall i :: 0 <= i < |scenes| ==> r[i] == SceneLine(i, scenes[i])
  {
    seq(|scenes|, i requires 0 <= i < |scenes| && LongTimes(scenes[i]) => SceneLine(i, scenes[i]))
  }

  /** A labelled metadata line, present when the member is. */
  function Header(m: Obj, key: string, caption: string): (r: seq<string>)
    ensures |r| == (if key in m then 1 else 0)
  {
    if key in m then [caption + Text(m[key])] else []
  }

  /** The lines before the scenes: the duration and resolution when known,
      then the scene count. */
  function Heading(m: Obj, count: int): (r: seq<string>)
    ensures |r| == |Header(m, "duration_formatted", "Duration: ")| + |Header(m, "resolution", "Resolution: ")| + 1
    ensures r[|r| - 1] == "Scenes: " + IntToString(count)
  {
    Header(m, "duration_formatted", "Duration: ") + Header(m, "resolution", "Resolution: ") + ["Scenes: " + IntToString(count)]
  }

  /** `generateSummary`'s lines: the heading, then one line per scene. */
  function SummaryLines(m: Obj, scenes: seq<Scene>): (r: seq<string>)
    requires forall i :: 0 <= i < |scenes| ==> LongTimes(scenes[i])
    ensures |r| == |Heading(m, |scenes|)| + |scenes|
  {
    Heading(m, |scenes|) + SceneLines(scenes)
  }

  /** The summary's last lines are the scene count and then each scene's
      bounds, in order. */
  lemma SummaryCount(m: Obj, scenes: seq<Scene>)
    requires forall i :: 0 <= i < |scenes| ==> LongTimes(scenes[i])
    ensures var r := SummaryLines(m, scenes);
            r[|r| - |scenes| - 1] == "Scenes: " + IntToString(|scenes|)
  {
    var h, l := Heading(m, |scenes|), SceneLines(scenes);
    assert (h + l)[|h| - 1] == h[|h| - 1];
  }

  lemma SummaryScene(m: Obj, scenes: seq<Scene>, i: int)
    requires forall i :: 0 <= i < |scenes| ==> LongTimes(scenes[i])
    requires 0 <= i < |scenes|
    ensures var r := SummaryLines(m, scenes);
            r[|r| - |scenes| + i] == SceneLine(i, scenes[i])
  {
    var h, l := Heading(m, |scenes|), SceneLines(scenes);
    var r := SummaryLines(m, scenes);
    assert r[|h| + i] == l[i];
  }

  /** `generateSummary`: each line followed by a line feed. */
  function Summary(m: Obj, scenes: seq<Scene>): string
    requires forall i :: 0 <= i < |scenes| ==> LongTimes(scenes[i])
  {
    Terminate(SummaryLines(m, scenes))
  }

  predicate OneLine(s: string) {
    '\n' !in s && '\r' !in s
  }

  predicate AllOneLine(lines: seq<string>) {
    forall k :: 0 <= k < |lines| ==> OneLine(lines[k])
  }

  lemma AllOneLineAppend(a: seq<string>, b: seq<string>)
    requires AllOneLine(a) && AllOneLine(b)
    ensures AllOneLine(a + b)
  {
    forall k | 0 <= k < |a + b|
      ensures OneLine((a + b)[k])
    {
      if k >= |a| { assert (a + b)[k] == b[k - |a|]; }
    }
  }

  lemma DecimalOneLine(n: int)
    ensures OneLine(IntToString(n))
  {
    DecimalChars(n);
  }

  lemma Pad2OneLine(n: int)
    ensures OneLine(Pad2(n))
  {
    DecimalOneLine(n);
    if 0 <= n < 10 {
      assert NatToString(n) == IntToString(n);
    }
  }

  /** A clock text is one line. */
  lemma ClockOneLine(ms: int)
    requires IsLong(ms)
    ensures OneLine(MediaUtils.FormatDuration(ms))
  {
    var seconds := Quot(ms, 1000);
    var minutes := Quot(seconds, 60);
    var hours := Quot(minutes, 60);
    Pad2OneLine(hours);
    Pad2OneLine(Rem(minutes, 60));
    Pad2OneLine(Rem(seconds, 60));
  }

  /** Whether the metadata's summary texts are single lines. */
  predicate HeadersOneLine(m: Obj) {
    ("duration_formatted" in m ==> OneLine(Text(m["duration_formatted"])))
    && ("resolution" in m ==> OneLine(Text(m["resolution"])))
  }

  lemma SceneLinesOneLine(scenes: seq<Scene>)
    requires forall i :: 0 <= i < |scenes| ==> LongTimes(scenes[i])
    ensures AllOneLine(SceneLines(scenes))
  {
    var r := SceneLines(scenes);
    forall i | 0 <= i < |r|
      ensures OneLine(r[i])
    {
      SceneLineOneLine(i, scenes[i]);
    }
  }

  lemma SceneLineOneLine(i: int, s: Scene)
    requires LongTimes(s)
    ensures OneLine(SceneLine(i, s))
  {
    DecimalOneLine(i + 1);
    ClockOneLine(s.start);
    ClockOneLine(s.end);
    var a := "Scene " + IntToString(i + 1);
    OneLineConcat("Scene ", IntToString(i + 1));
    OneLineConcat(a, ": ");
    OneLineConcat(a + ": ", MediaUtils.FormatDuration(s.start));
    OneLineConcat(a + ": " + MediaUtils.FormatDuration(s.start), " - ");
    OneLineConcat(a + ": " + MediaUtils.FormatDuration(s.start) + " - ", MediaUtils.FormatDuration(s.end));
  }

  lemma OneLineConcat(a: string, b: string)
    requires OneLine(a) && OneLine(b)
    ensures OneLine(a + b)
  {
  }

  /** The summary reads back line by line as its lines. */
  lemma SummaryReadsBack(m: Obj, scenes: seq<Scene>)
    requires forall i :: 0 <= i < |scenes| ==> LongTimes(scenes[i])
    requires HeadersOneLine(m)
    ensures Lines(Summary(m, scenes)) == SummaryLines(m, scenes)
  {
    var h1 := Header(m, "duration_formatted", "Duration: ");
    var h2 := Header(m, "resolution", "Resolution: ");
    DecimalOneLine(|scenes|);
    AllOneLineAppend(h1, h2);
    AllOneLineAppend(h1 + h2, ["Scenes: " + IntToString(|scenes|)]);
    SceneLinesOneLine(scenes);
    AllOneLineAppend(Heading(m, |scenes|), SceneLines(scenes));
    LinesTerminate(SummaryLines(m, scenes));
  }

  /** The metadata extracted from any tags has single-line summary texts. */
  lemma MetadataHeadersOneLine(t: VideoTags)
    ensures HeadersOneLine(ExtractMetadata(t))
  {
    MetadataDuration(t);
    if t.duration.Some? && ParseLong(t.duration.value).Some? {
      ClockOneLine(ParseLong(t.duration.value).value);
    }
    if t.duration.None? || ParseLong(t.duration.value).Some? {
      MetadataResolution(t);
      if "resolution" in ExtractMetadata(t) {
        var w, h := ParseInt(t.width.value).value, ParseInt(t.height.value).value;
        DecimalOneLine(w);
        DecimalOneLine(h);
      }
    }
  }

  // ---------------------------------------------------------------- outcome

  /** What opening the input came to. */
  datatype Source =
    | Missing                   // `new File(path).exists()` is false
    | Unreadable(error: string) // `setDataSource` threw, with this message
    | Readable(tags: VideoTags)

  /** What `analyzeVideo` comes to. */
  datatype Analysis =
    | NoFile
    | SourceFailed(error: string)
      // the duration did not parse: `extractMetadata` swallowed the
      // exception, `extractScenes` let it through
    | BadDuration(metadata: Obj, error: string)
    | Analyzed(metadata: Obj, scenes: seq<Scene>, keyFrames: seq<KeyFrame>, audio: Obj, summary: string)

  /** The marks of a parsed duration; none without a duration tag. */
  function ScenesOf(d: Option<int>, frames: bool): (s: seq<Scene>)
    requires d.Some? ==> IsLong(d.value)
    ensures forall i :: 0 <= i < |s| ==> LongTimes(s[i])
  {
    if d.None? then [] else Scenes(d.value, frames)
  }

  function KeyFramesOf(d: Option<int>, frames: bool): (k: seq<KeyFrame>)
    requires d.Some? ==> IsLong(d.value)
    ensures forall i :: 0 <= i < |k| ==> IsLong(k[i].time)
  {
    if d.None? then [] else KeyFrames(d.value, frames)
  }

  /** The duration a readable file's tag gives, when it parses. */
  function ParsedDuration(t: VideoTags): (d: Option<int>)
    ensures d.Some? ==> IsLong(d.value)
  {
    if t.duration.None? then None else ParseLong(t.duration.value)
  }

  /** `analyzeVideo(path)`; `numberError` gives the message of the
      `NumberFormatException` for an unparsable text. */
  function Analyze(source: Source, frames: bool, numberError: string -> string): (a: Analysis)
    ensures a.NoFile? <==> source.Missing?
    ensures a.SourceFailed? <==> source.Unreadable?
    ensures a.BadDuration? <==> source.Readable? && source.tags.duration.Some? && ParseLong(source.tags.duration.value).None?
    ensures a.BadDuration? ==> a.metadata == map[] && a.error == numberError(source.tags.duration.value)
    ensures a.Analyzed? ==> source.Readable? && a.metadata == ExtractMetadata(source.tags)
    ensures a.Analyzed? ==> a.scenes == ScenesOf(ParsedDuration(source.tags), frames)
                            && a.keyFrames == KeyFramesOf(ParsedDuration(source.tags), frames)
                            && a.audio == AudioInfo(source.tags)
  {
    match source
    case Missing => NoFile
    case Unreadable(e) => SourceFailed(e)
    case Readable(t) => AnalyzeTags(t, frames, numberError)
  }

  /** The part of `analyzeVideo` after the retriever has opened the file. */
  function AnalyzeTags(t: VideoTags, frames: bool, numberError: string -> string): (a: Analysis)
    ensures a.BadDuration? || a.Analyzed?
    ensures a.BadDuration? <==> t.duration.Some? && ParseLong(t.duration.value).None?
    ensures a.BadDuration? ==> a.metadata == map[] && a.error == numberError(t.duration.value)
    ensures a.Analyzed? ==> a.metadata == ExtractMetadata(t)
    ensures a.Analyzed? ==> a.scenes == ScenesOf(ParsedDuration(t), frames)
                            && a.keyFrames == KeyFramesOf(ParsedDuration(t), frames)
                            && a.audio == AudioInfo(t)
  {
    var m := ExtractMetadata(t);
    if t.duration.Some? && ParseLong(t.duration.value).None? then
      MetadataDuration(t);
      BadDuration(m, numberError(t.duration.value))
    else
      var d := ParsedDuration(t);
      var scenes := ScenesOf(d, frames);
      Analyzed(m, scenes, KeyFramesOf(d, frames), AudioInfo(t), Summary(m, scenes))
  }

  /** The scenes' and key frames' times are `long`s. */
  predicate LongMarks(a: Analysis) {
    a.Analyzed? ==>
      (forall i :: 0 <= i < |a.scenes| ==> LongTimes(a.scenes[i]))
      && (forall i :: 0 <= i < |a.keyFrames| ==> IsLong(a.keyFrames[i].time))
  }

  lemma AnalyzeLongMarks(source: Source, frames: bool, numberError: string -> string)
    ensures LongMarks(Analyze(source, frames, numberError))
  {
  }

  /** The summary of an analysed file reads back as its lines. */
  lemma AnalyzedSummaryReadsBack(source: Source, frames: bool, numberError: string -> string)
    requires Analyze(source, frames, numberError).Analyzed?
    ensures var a := Analyze(source, frames, numberError);
            Lines(a.summary) == SummaryLines(a.metadata, a.scenes)
  {
    var a := Analyze(source, frames, numberError);
    MetadataHeadersOneLine(source.tags);
    SummaryReadsBack(a.metadata, a.scenes);
  }

  function AnalysisMessage(a: Analysis): string {
    match a
    case NoFile => "Video file does not exist"
    case SourceFailed(e) => "Error analyzing video: " + e
    case BadDuration(_, e) => "Error analyzing video: " + e
    case Analyzed(_, _, _, _, _) => "Video analyzed successfully"
  }

  // ------------------------------------------------------------------- JSON

  function SceneJson(s: Scene): Obj
    requires LongTimes(s)
  {
    var o := map["index" := JNum(s.index), "start_time_ms" := JNum(s.start), "end_time_ms" := JNum(s.end),
                 "start_time_formatted" := JStr(MediaUtils.FormatDuration(s.start)),
                 "end_time_formatted" := JStr(MediaUtils.FormatDuration(s.end)),
                 "duration_ms" := JNum(s.end - s.start)];
    if s.thumbnail.Some? then o["thumbnail_path" := JStr(s.thumbnail.value)] else o
  }

  function KeyFrameJson(k: KeyFrame): Obj
    requires IsLong(k.time)
  {
    var o := map["index" := JNum(k.index), "time_ms" := JNum(k.time),
                 "time_formatted" := JStr(MediaUtils.FormatDuration(k.time))];
    if k.frame.Some? then o["frame_path" := JStr(k.frame.value)] else o
  }

  /** The result object. */
  function ResultJson(path: string, a: Analysis): Obj
    requires LongMarks(a)
  {
    var base := map["agent" := JStr(AGENT), "video_path" := JStr(path), "success" := JBool(a.Analyzed?),
                    "message" := JStr(AnalysisMessage(a))];
    match a
    case BadDuration(m, _) => base["metadata" := JObj(m)]
    case Analyzed(m, scenes, keyFrames, audio, summary) =>
      base["metadata" := JObj(m)]
          ["scenes" := JArr(seq(|scenes|, i requires 0 <= i < |scenes| && LongTimes(scenes[i]) => JObj(SceneJson(scenes[i]))))]
          ["key_frames" := JArr(seq(|keyFrames|, i requires 0 <= i < |keyFrames| && IsLong(keyFrames[i].time) =>
                                      JObj(KeyFrameJson(keyFrames[i]))))]
          ["audio_info" := JObj(audio)]["summary" := JStr(summary)]
    case _ => base
  }

  /** A scene reads back with the clock texts the summary shows. */
  lemma SceneJsonReads(s: Scene)
    requires LongTimes(s)
    ensures OptString(SceneJson(s), "start_time_formatted", "") == MediaUtils.FormatDuration(s.start)
    ensures OptString(SceneJson(s), "end_time_formatted", "") == MediaUtils.FormatDuration(s.end)
    ensures Holds(SceneJson(s), "duration_ms", JNum(s.end - s.start))
    ensures "thumbnail_path" in SceneJson(s) <==> s.thumbnail.Some?
  {
  }

  /** What callers read off the result: success exactly for an analysed
      file, the message of each outcome, the metadata whenever it was
      extracted, and the scenes only when the duration did not fail. */
  lemma ResultJsonReads(path: string, a: Analysis)
    requires LongMarks(a)
    ensures OptString(ResultJson(path, a), "video_path", "") == path
    ensures OptBoolean(ResultJson(path, a), "success", false) <==> a.Analyzed?
    ensures OptString(ResultJson(path, a), "message", "") == AnalysisMessage(a)
    ensures "metadata" in ResultJson(path, a) <==> a.BadDuration? || a.Analyzed?
    ensures "scenes" in ResultJson(path, a) <==> a.Analyzed?
    ensures a.Analyzed? ==> OptString(ResultJson(path, a), "summary", "") == a.summary
  {
  }

  // ----------------------------------------------------------------- record

  /** The frame files an analysis made, scenes first. */
  function FramesMade(a: Analysis): seq<string> {
    if !a.Analyzed? then []
    else
      Present(seq(|a.scenes|, i requires 0 <= i < |a.scenes| => a.scenes[i].thumbnail)
              + seq(|a.keyFrames|, i requires 0 <= i < |a.keyFrames| => a.keyFrames[i].frame))
  }

  /** The paths of the frames that were made. */
  function Present(made: seq<Option<string>>): (r: seq<string>)
    ensures forall p :: p in r <==> Some(p) in made
  {
    if made == [] then []
    else (if made[0].Some? then [made[0].value] else []) + Present(made[1..])
  }

  /** `createNewFile` for each path: an empty file where there was none,
      an existing file left as it is. */
  function CreateAll(fs: Files, paths: seq<string>): (r: Files)
    ensures r.Keys == fs.Keys + set p | p in paths
    ensures forall p :: p in fs ==> r[p] == fs[p]
    ensures forall p :: p in r && p !in fs ==> r[p] == ""
  {
    if paths == [] then fs
    else
      var rest := CreateAll(fs, paths[1..]);
      if paths[0] in rest then rest else rest[paths[0] := ""]
  }

  /** A frame file, if one was made, in the temporary directory. */
  predicate InTemp(frame: Option<string>) {
    frame.Some? ==> StartsWith(frame.value, StoragePaths.TempDir() + "/")
  }

  /** The marks' frame files are in the temporary directory. */
  lemma MarksInTemp(d: Option<int>, frames: bool)
    requires d.Some? ==> IsLong(d.value)
    ensures forall i :: 0 <= i < |ScenesOf(d, frames)| ==> InTemp(ScenesOf(d, frames)[i].thumbnail)
    ensures forall i :: 0 <= i < |KeyFramesOf(d, frames)| ==> InTemp(KeyFramesOf(d, frames)[i].frame)
  {
    forall i | 0 <= i < |ScenesOf(d, frames)|
      ensures InTemp(ScenesOf(d, frames)[i].thumbnail)
    {
      FramePathInTemp(i, ScenesOf(d, frames)[i].start);
    }
    forall i | 0 <= i < |KeyFramesOf(d, frames)|
      ensures InTemp(KeyFramesOf(d, frames)[i].frame)
    {
      FramePathInTemp(i, KeyFramesOf(d, frames)[i].time);
    }
  }

  lemma PresentInTemp(made: seq<Option<string>>)
    requires forall i :: 0 <= i < |made| ==> InTemp(made[i])
    ensures forall p :: p in Present(made) ==> StartsWith(p, StoragePaths.TempDir() + "/")
  {
    forall p | p in Present(made)
      ensures StartsWith(p, StoragePaths.TempDir() + "/")
    {
      var i :| 0 <= i < |made| && made[i] == Some(p);
      assert InTemp(made[i]);
    }
  }

  /** Every frame file an analysis makes is in the temporary directory. */
  lemma FramesInTemp(source: Source, frames: bool, numberError: string -> string)
    ensures forall p :: p in FramesMade(Analyze(source, frames, numberError)) ==>
              StartsWith(p, StoragePaths.TempDir() + "/")
  {
    var a := Analyze(source, frames, numberError);
    if a.Analyzed? {
      MarksInTemp(ParsedDuration(source.tags), frames);
      MadeInTemp(a);
    }
  }

  lemma MadeInTemp(a: Analysis)
    requires a.Analyzed?
    requires forall i :: 0 <= i < |a.scenes| ==> InTemp(a.scenes[i].thumbnail)
    requires forall i :: 0 <= i < |a.keyFrames| ==> InTemp(a.keyFrames[i].frame)
    ensures forall p :: p in FramesMade(a) ==> StartsWith(p, StoragePaths.TempDir() + "/")
  {
    var ts := seq(|a.scenes|, i requires 0 <= i < |a.scenes| => a.scenes[i].thumbnail);
    var ks := seq(|a.keyFrames|, i requires 0 <= i < |a.keyFrames| => a.keyFrames[i].frame);
    forall i | 0 <= i < |ts + ks|
      ensures InTemp((ts + ks)[i])
    {
      if i < |ts| {
        assert (ts + ks)[i] == ts[i];
      } else {
        assert (ts + ks)[i] == ks[i - |ts|];
      }
    }
    PresentInTemp(ts + ks);
  }

  // -------------------------------------------------------------------- log

  /** The line a frame file that could not be created logs: its time in
      milliseconds and the exception's message. */
  function FrameFailure(time: int, frameError: string): string {
    "Error extracting frame at time " + IntToString(time) + ": " + frameError
  }

  /** One failure line per scene, then one per key frame, in order. */
  function FrameFailures(scenes: seq<Scene>, keyFrames: seq<KeyFrame>, frameError: string): (r: seq<string>)
    ensures |r| == |scenes| + |keyFrames|
    ensures forall i :: 0 <= i < |scenes| ==> r[i] == FrameFailure(scenes[i].start, frameError)
    ensures forall i :: 0 <= i < |keyFrames| ==> r[|scenes| + i] == FrameFailure(keyFrames[i].time, frameError)
  {
    seq(|scenes|, i requires 0 <= i < |scenes| => FrameFailure(scenes[i].start, frameError))
    + seq(|keyFrames|, i requires 0 <= i < |keyFrames| => FrameFailure(keyFrames[i].time, frameError))
  }

  /** The messages analysing a video logs, in order: the metadata
      extraction's exception; for a duration that does not parse, the
      analysis's error line; otherwise, when frame files cannot be created,
      one line per scene and key frame, then the audio description's
      exception.  A file that cannot be opened logs its error line alone;
      a missing one logs nothing.  `frameError` is the message of the
      exception creating a frame file throws. */
  function Messages(source: Source, frames: bool, numberError: string -> string, frameError: string): (r: seq<string>)
    ensures source.Missing? ==> r == []
    ensures source.Unreadable? ==> r == ["Error analyzing video: " + source.error]
  {
    match source
    case Missing => []
    case Unreadable(e) => ["Error analyzing video: " + e]
    case Readable(t) => StopMessages(Extraction(t), "Error extracting metadata: ", numberError) + Later(t, frames, numberError, frameError)
  }

  /** The messages after the metadata extraction's. */
  function Later(t: VideoTags, frames: bool, numberError: string -> string, frameError: string): seq<string> {
    if t.duration.Some? && ParseLong(t.duration.value).None? then
      ["Error analyzing video: " + numberError(t.duration.value)]
    else
      var d := ParsedDuration(t);
      (if frames then [] else FrameFailures(ScenesOf(d, frames), KeyFramesOf(d, frames), frameError))
      + StopMessages(AudioProgress(t), "Error extracting audio info: ", numberError)
  }

  /** A duration that does not parse is logged twice: by the metadata
      extraction, which swallows the exception, and by the analysis, which
      the scene extraction's exception reaches. */
  lemma BadDurationLoggedTwice(t: VideoTags, frames: bool, numberError: string -> string, frameError: string)
    requires t.duration.Some? && ParseLong(t.duration.value).None?
    ensures Messages(Readable(t), frames, numberError, frameError)
            == ["Error extracting metadata: " + numberError(t.duration.value),
                "Error analyzing video: " + numberError(t.duration.value)]
  {
    var p0 := DurationStep(t.duration);
    var p1 := SizeStep(p0, t.width, t.height);
    var p2 := IntStep(p1, "rotation", t.rotation);
    assert Extraction(t) == IntStep(p2, "bitrate", t.bitrate) == p0;
  }

  /** A zero height under a positive width is logged first, with the
      refused value's message. */
  lemma ZeroHeightLogged(t: VideoTags, frames: bool, numberError: string -> string, frameError: string)
    requires t.duration.None? || ParseLong(t.duration.value).Some?
    requires SizeParses(t.width, t.height) && ParseInt(t.height.value).value == 0 && ParseInt(t.width.value).value > 0
    ensures var m := Messages(Readable(t), frames, numberError, frameError);
            |m| > 0 && m[0] == "Error extracting metadata: Forbidden numeric value: Infinity"
  {
    ZeroHeightStops(t);
    ReadableMessages(t, frames, numberError, frameError);
    FirstStopMessage(Extraction(t), "Error extracting metadata: ", numberError, Later(t, frames, numberError, frameError));
    assert Extraction(t).cause == NotFinite("Infinity");
    ConcatLiteral("Error extracting metadata: ", "Forbidden numeric value: ", "Infinity");
  }

  lemma ConcatLiteral(a: string, b: string, c: string)
    requires a == "Error extracting metadata: " && b == "Forbidden numeric value: " && c == "Infinity"
    ensures a + (b + c) == "Error extracting metadata: Forbidden numeric value: Infinity"
  {
  }

  /** A readable file's messages: the metadata extraction's, then the rest. */
  lemma ReadableMessages(t: VideoTags, frames: bool, numberError: string -> string, frameError: string)
    ensures Messages(Readable(t), frames, numberError, frameError)
            == StopMessages(Extraction(t), "Error extracting metadata: ", numberError) + Later(t, frames, numberError, frameError)
  {
  }

  /** A stopped extraction's line comes first. */
  lemma FirstStopMessage(p: Progress, prefix: string, numberError: string -> string, rest: seq<string>)
    requires p.Stopped?
    ensures var m := StopMessages(p, prefix, numberError) + rest;
            |m| > 0 && m[0] == prefix + CauseMessage(p.cause, numberError)
  {
  }

  /** When frame files cannot be created, a parsed duration logs one line
      per scene start and then one per key frame time, right after the
      metadata extraction's line if there is one. */
  lemma FramelessLogsEveryMark(t: VideoTags, numberError: string -> string, frameError: string)
    requires t.duration.Some? && ParseLong(t.duration.value).Some?
    ensures var m, d := Messages(Readable(t), false, numberError, frameError), ParseLong(t.duration.value).value;
            var first := if Extraction(t).Stopped? then 1 else 0;
            |m| >= first + SCENES + KEY_FRAMES
            && (forall i :: 0 <= i < SCENES ==> m[first + i] == FrameFailure(Mark(d, SCENES, i), frameError))
            && (forall i :: 0 <= i < KEY_FRAMES ==> m[first + SCENES + i] == FrameFailure(Mark(d, KEY_FRAMES, i), frameError))
  {
    var d := ParseLong(t.duration.value).value;
    var meta := StopMessages(Extraction(t), "Error extracting metadata: ", numberError);
    var audio := StopMessages(AudioProgress(t), "Error extracting audio info: ", numberError);
    ReadableMessages(t, false, numberError, frameError);
    FramelessLater(t, d, numberError, frameError);
    MarksAfter(Messages(Readable(t), false, numberError, frameError), meta, audio,
               if Extraction(t).Stopped? then 1 else 0, d, frameError);
  }

  /** With a parsed duration `d` and no frame files, the later messages are
      the frame failures and then the audio description's. */
  lemma FramelessLater(t: VideoTags, d: int, numberError: string -> string, frameError: string)
    requires t.duration.Some? && ParseLong(t.duration.value) == Some(d)
    ensures IsLong(d)
    ensures Later(t, false, numberError, frameError)
            == FrameFailures(Scenes(d, false), KeyFrames(d, false), frameError)
               + StopMessages(AudioProgress(t), "Error extracting audio info: ", numberError)
  {
    assert ParsedDuration(t) == Some(d);
  }

  /** The frame failure lines keep their places behind the `first` lines
      of the metadata extraction. */
  lemma MarksAfter(m: seq<string>, meta: seq<string>, audio: seq<string>, first: nat, d: int, frameError: string)
    requires IsLong(d) && first == |meta|
    requires m == meta + (FrameFailures(Scenes(d, false), KeyFrames(d, false), frameError) + audio)
    ensures |m| >= first + SCENES + KEY_FRAMES
    ensures forall i :: 0 <= i < SCENES ==> m[first + i] == FrameFailure(Mark(d, SCENES, i), frameError)
    ensures forall i :: 0 <= i < KEY_FRAMES ==> m[first + SCENES + i] == FrameFailure(Mark(d, KEY_FRAMES, i), frameError)
  {
    var fails := FrameFailures(Scenes(d, false), KeyFrames(d, false), frameError);
    FramelessMarks(d, frameError);
    forall i | 0 <= i < SCENES
      ensures m[first + i] == FrameFailure(Mark(d, SCENES, i), frameError)
    {
      assert m[first + i] == fails[i];
    }
    forall i | 0 <= i < KEY_FRAMES
      ensures m[first + SCENES + i] == FrameFailure(Mark(d, KEY_FRAMES, i), frameError)
    {
      assert m[first + SCENES + i] == fails[SCENES + i];
    }
  }

  /** The failure lines of the frames of a duration `d`, by mark. */
  lemma FramelessMarks(d: int, frameError: string)
    requires IsLong(d)
    ensures var fails := FrameFailures(Scenes(d, false), KeyFrames(d, false), frameError);
            |fails| == SCENES + KEY_FRAMES
            && (forall i :: 0 <= i < SCENES ==> fails[i] == FrameFailure(Mark(d, SCENES, i), frameError))
            && (forall i :: 0 <= i < KEY_FRAMES ==> fails[SCENES + i] == FrameFailure(Mark(d, KEY_FRAMES, i), frameError))
  {
  }

  /** A readable file whose extractions run to the end and whose frame
      files can be created logs nothing. */
  lemma CleanAnalysisLogsNothing(t: VideoTags, numberError: string -> string, frameError: string)
    requires t.duration.None? || ParseLong(t.duration.value).Some?
    requires Extraction(t).Going? && AudioProgress(t).Going?
    ensures Messages(Readable(t), true, numberError, frameError) == []
  {
  }

  /** `analyzeVideo` with its effects: the frame files are created, the
      messages are logged, the k-th at the clock reading `clock(k)`, and
      the result is written to the input's file. */
  function AnalyzeVideo(fs: Files, path: string, source: Source, frames: bool, numberError: string -> string,
                        frameError: string, clock: nat -> AppLog.Stamp, render: Obj -> string): (r: (Analysis, Files))
    ensures r.0 == Analyze(source, frames, numberError) && LongMarks(r.0)
    ensures AgentRecords.AnalysisFile(AGENT, path) in r.1
    ensures forall p :: p in fs && p != AgentRecords.AnalysisFile(AGENT, path) && !AppLog.IsLogFile(p) ==>
              p in r.1 && r.1[p] == fs[p]
    ensures forall p :: p in r.1 && p !in fs ==>
              p == AgentRecords.AnalysisFile(AGENT, path) || AppLog.IsLogFile(p) || p in FramesMade(r.0)
  {
    var a := Analyze(source, frames, numberError);
    AnalyzeLongMarks(source, frames, numberError);
    var made := CreateAll(fs, FramesMade(a));
    var said := AppLog.SaidBy(AGENT, Messages(source, frames, numberError, frameError));
    var logged := AppLog.LogSaid(made, said, clock, render);
    AppLog.LogSaidAddsOnlyLogs(made, said, clock, render);
    (a, AgentRecords.Record(logged, AGENT, path, render(ResultJson(path, a))))
  }

  /** Every frame file the analysis made exists afterwards. */
  lemma FramesCreated(fs: Files, path: string, source: Source, frames: bool, numberError: string -> string,
                      frameError: string, clock: nat -> AppLog.Stamp, render: Obj -> string)
    ensures var r := AnalyzeVideo(fs, path, source, frames, numberError, frameError, clock, render);
            forall p :: p in FramesMade(r.0) ==> p in r.1
  {
    var a := Analyze(source, frames, numberError);
    var made := CreateAll(fs, FramesMade(a));
    var said := AppLog.SaidBy(AGENT, Messages(source, frames, numberError, frameError));
    AppLog.LogSaidKeepsFiles(made, said, clock, render);
  }

  /** The input's record holds the rendered result object. */
  lemma RecordHoldsResult(fs: Files, path: string, source: Source, frames: bool, numberError: string -> string,
                          frameError: string, clock: nat -> AppLog.Stamp, render: Obj -> string)
    ensures var r := AnalyzeVideo(fs, path, source, frames, numberError, frameError, clock, render);
            r.1[AgentRecords.AnalysisFile(AGENT, path)] == render(ResultJson(path, r.0))
  {
  }

  /** Creating files leaves every file's content as it was: a new file is
      empty, as a missing one reads. */
  lemma CreateAllKeepsContent(fs: Files, paths: seq<string>, q: string)
    ensures Content(CreateAll(fs, paths), q) == Content(fs, q)
  {
  }

  /** Within one day, an analysis appends its messages to a cleanly ended
      log; creating the frame files and recording the result leave the log
      alone. */
  lemma AnalysisLogLines(fs: Files, path: string, source: Source, frames: bool, numberError: string -> string,
                         frameError: string, clock: nat -> AppLog.Stamp, day: string, render: Obj -> string)
    requires forall o: Obj :: '\n' !in render(o) && '\r' !in render(o)
    requires forall k :: 0 <= k < |Messages(source, frames, numberError, frameError)| ==> clock(k).day == day
    requires Terminated(Content(fs, AppLog.LogFile(day)))
    ensures var after := AnalyzeVideo(fs, path, source, frames, numberError, frameError, clock, render).1;
            Lines(Content(after, AppLog.LogFile(day)))
            == Lines(Content(fs, AppLog.LogFile(day)))
               + AppLog.SaidLines(AppLog.SaidBy(AGENT, Messages(source, frames, numberError, frameError)), clock, render)
  {
    var a := Analyze(source, frames, numberError);
    AnalyzeLongMarks(source, frames, numberError);
    var made := CreateAll(fs, FramesMade(a));
    CreateAllKeepsContent(fs, FramesMade(a), AppLog.LogFile(day));
    var said := AppLog.SaidBy(AGENT, Messages(source, frames, numberError, frameError));
    var logged := AppLog.LogSaid(made, said, clock, render);
    AppLog.LogSaidReadsBack(made, said, clock, day, render);
    AgentRecords.RecordKeepsLogs(logged, AGENT, path, render(ResultJson(path, a)), AppLog.LogFile(day));
  }

  /** A file without a duration tag is still analysed successfully, with
      no scenes or key frames and a summary that says so. */
  lemma NoDurationNoScenes(t: VideoTags, frames: bool, numberError: string -> string)
    requires t.duration.None?
    ensures var a := Analyze(Readable(t), frames, numberError);
            a.Analyzed? && a.scenes == [] && a.keyFrames == []
            && SummaryLines(a.metadata, a.scenes)[|SummaryLines(a.metadata, a.scenes)| - 1] == "Scenes: 0"
  {
  }

  /** An unparsable duration fails the analysis: no scenes, empty
      metadata, and the number-format message. */
  lemma BadDurationFails(t: VideoTags, frames: bool, numberError: string -> string, path: string)
    requires t.duration.Some? && ParseLong(t.duration.value).None?
    ensures var a := Analyze(Readable(t), frames, numberError);
            a.BadDuration? && FramesMade(a) == []
            && AnalysisMessage(a) == "Error analyzing video: " + numberError(t.duration.value)
  {
  }
}

=== FILE: video_reimaginer.dfy ===
/** `VideoReimaginerActivity`: a picked video and a prompt become a
    reimagined-video project.  A run checks the device, analyses the video,
    writes the project configuration, runs the orchestrator, simulates the
    rendering and completes the configuration, publishing progress as it
    goes.  The agents' result objects, the clock's texts, the random number
    and the serialisation of objects are inputs. */
module VideoReimaginer {
  import opened Outcomes
  import opened OrgJson
  import opened FileStore
  import opened FailFast
  import opened ScreenSteps
  import Orchestrator
  import StoragePaths
  import AppLog
  import AgentRecords
  import SanityCheck
  import VideoAnalyzer

  /** `createNewProjectId`: "video_reimaginer_", the formatted time, "_"
      and a random number below 1000. */
  function NewProjectId(timestamp: string, n: int): (id: string)
    requires 0 <= n < 1000
    ensures JavaString.StartsWith(id, "video_reimaginer_" + timestamp + "_")
  {
    ProjectId("video_reimaginer_", timestamp, n)
  }

  /** The project copy of a picked video. */
  function InputFile(projectId: string): string {
    ProjectFile(projectId, "input.mp4")
  }

  /** The video the finished configuration names. */
  function FinalVideo(projectId: string): string {
    ProjectFile(projectId, "final_reimagined.mp4")
  }

  // -------------------------------------------------------------------- run

  /** What a run is given: the check's result, the video analysis and the
      orchestrator's result (`None` for `null`), and the two times. */
  datatype Inputs = Inputs(sanity: Obj, analysis: Option<Obj>, orchestrator: Option<Obj>,
                           createdAt: string, completedAt: string)

  /** `ProcessVideoTask.doInBackground`: the check at 10, the analysis at
      20, the configuration at 30, the orchestrator at 40, the simulated
      rendering at 60, 60, 66, 72, 78 and 84, and the finishing at 90 and
      100. */
  function Stages(i: Inputs): (s: seq<Stage>)
    ensures |s| == 5
  {
    [Stage([10], SanityVerdict(i.sanity)),
     Stage([20], AgentVerdict(i.analysis, "Video analysis failed", "Video analysis returned null")),
     Stage([30], Pass),
     Stage([40], AgentVerdict(i.orchestrator, "Orchestrator failed", "Orchestrator returned null")),
     Stage([60] + Ramp(60, 6, 5) + [90, 100], Pass)]
  }

  function Run(i: Inputs): Report {
    Drive(Stages(i))
  }

  const SUCCESS_TABLE: seq<int> := [10, 20, 30, 40, 60, 60, 66, 72, 78, 84, 90, 100]

  /** Whether each agent's result reads as a success. */
  predicate Succeeded(reply: Option<Obj>) {
    reply.Some? && OptBoolean(reply.value, "success", false)
  }

  /** A run succeeds exactly when the check passes and both the analysis
      and the orchestrator succeed. */
  lemma SuccessfulRun(i: Inputs)
    ensures Run(i).status.Completed? <==>
              OptBoolean(i.sanity, "passed", false) && Succeeded(i.analysis) && Succeeded(i.orchestrator)
  {
    var s := Stages(i);
    assert AllOk(s, Passes) <==> Passes(s[0]) && Passes(s[1]) && Passes(s[3]);
  }

  /** The table of a successful run never decreases and ends at 100. */
  lemma SuccessTableComplete()
    ensures CompleteTable(SUCCESS_TABLE)
  {
    StepsUp(SUCCESS_TABLE);
  }

  /** A successful run publishes the whole table. */
  lemma SuccessProgress(i: Inputs)
    requires OptBoolean(i.sanity, "passed", false) && Succeeded(i.analysis) && Succeeded(i.orchestrator)
    ensures Run(i).progress == SUCCESS_TABLE
  {
    var s := Stages(i);
    Peel5(s);
    assert Ramp(60, 6, 5) == [60, 66, 72, 78, 84];
    assert Drive(s[1..][1..][1..][1..]) == Report(s[4].progress, Completed);
    assert Drive(s[1..][1..][1..]) == Report([40] + s[4].progress, Completed);
    assert Drive(s[1..][1..]) == Report([30] + ([40] + s[4].progress), Completed);
    assert Drive(s[1..]) == Report([20] + ([30] + ([40] + s[4].progress)), Completed);
  }

  /** A failed check ends the run at 10 with the check's message. */
  lemma SanityFailureStops(i: Inputs)
    requires !OptBoolean(i.sanity, "passed", false)
    ensures Run(i) == Report([10], Error(OptString(i.sanity, "message", "Sanity check failed")))
  {
  }

  /** A failed or missing analysis ends the run at 20, before anything is
      written, with the analysis's message or "Video analysis returned
      null". */
  lemma AnalysisFailureStops(i: Inputs)
    requires OptBoolean(i.sanity, "passed", false) && !Succeeded(i.analysis)
    ensures Run(i).progress == [10, 20]
    ensures i.analysis.None? ==> Run(i).status == Error("Video analysis returned null")
    ensures i.analysis.Some? ==> Run(i).status == Error(OptString(i.analysis.value, "message", "Video analysis failed"))
  {
    var s := Stages(i);
    Peel5(s);
    assert Drive(s[1..]).progress == [20];
  }

  /** A failed or missing orchestrator result ends the run at 40, after the
      configuration was written, with its message or "Orchestrator returned
      null". */
  lemma OrchestratorFailureStops(i: Inputs)
    requires OptBoolean(i.sanity, "passed", false) && Succeeded(i.analysis) && !Succeeded(i.orchestrator)
    ensures Run(i).progress == [10, 20, 30, 40]
    ensures i.orchestrator.None? ==> Run(i).status == Error("Orchestrator returned null")
    ensures i.orchestrator.Some? ==> Run(i).status == Error(OptString(i.orchestrator.value, "message", "Orchestrator failed"))
  {
    var s := Stages(i);
    Peel5(s);
    assert Drive(s[1..][1..][1..]).progress == [40];
    assert Drive(s[1..][1..]).progress == [30, 40];
    assert Drive(s[1..]).progress == [20, 30, 40];
  }

  // ------------------------------------------------------------------ files

  /** The configuration written at 30: the common fields, the project copy
      of the video and the whole analysis. */
  function Config(projectId: string, prompt: string, source: string, analysis: Obj, createdAt: string): Obj {
    ProjectConfig(projectId, prompt, "video_reimagine", createdAt)["source_video" := JStr(source)]["video_analysis" := JObj(analysis)]
  }

  /** The configuration a successful run leaves: completed, and naming the
      final video. */
  function FinalConfig(projectId: string, prompt: string, source: string, analysis: Obj, i: Inputs): Obj {
    MarkCompleted(Config(projectId, prompt, source, analysis, i.createdAt), i.completedAt)["final_video" := JStr(FinalVideo(projectId))]
  }

  /** The orchestrator's input: the screens' common input with the
      analysis added. */
  function OrchestratorRequest(projectId: string, prompt: string, config: Obj, analysis: Obj): Obj {
    OrchestratorInput(projectId, prompt, config)["video_analysis" := JObj(analysis)]
  }

  /** The extra analysis does not disturb the orchestrator's reading of its
      input: it is always accepted. */
  lemma RequestAccepted(projectId: string, prompt: string, config: Obj, analysis: Obj)
    ensures Orchestrator.InputError(OrchestratorRequest(projectId, prompt, config, analysis)).None?
  {
  }

  /** How the video analyzer's run goes: what opening the video comes to,
      whether frame files can be created, the exceptions' messages and
      the clock its log lines are stamped with. */
  datatype Analyzer = Analyzer(video: VideoAnalyzer.Source, frames: bool, numberError: string -> string,
                               frameError: string, clock: nat -> AppLog.Stamp)

  /** The analyzer's record of the picked video. */
  function AnalysisRecord(source: string): string {
    AgentRecords.AnalysisFile(VideoAnalyzer.AGENT, source)
  }

  /** What the analyzer records: its rendered result object. */
  function RecordText(source: string, analyzer: Analyzer, render: Obj -> string): string {
    render(VideoAnalyzer.ResultJson(source, VideoAnalyzer.Analyze(analyzer.video, analyzer.frames, analyzer.numberError)))
  }

  /** The files the agents a run calls write for themselves: the check's
      report, the analyzer's record and the app log. */
  predicate AgentFile(p: string, source: string) {
    p == SanityCheck.ReportFile() || p == AnalysisRecord(source) || AppLog.IsLogFile(p)
  }

  /** `analyzeVideo` on the picked video, as its effects on the files:
      its record, its log lines and its frame files in the temporary
      directory; the check's report is kept. */
  function AnalyzerEffects(fs: Files, source: string, analyzer: Analyzer, render: Obj -> string): (r: Files)
    ensures AnalysisRecord(source) in r
            && r[AnalysisRecord(source)]
               == RecordText(source, analyzer, render)
    ensures forall p :: p in fs && !AgentFile(p, source) ==> p in r && r[p] == fs[p]
    ensures SanityCheck.ReportFile() in fs ==> SanityCheck.ReportFile() in r && r[SanityCheck.ReportFile()] == fs[SanityCheck.ReportFile()]
    ensures forall p :: p in r && p !in fs ==> AgentFile(p, source) || JavaString.StartsWith(p, StoragePaths.TempDir() + "/")
  {
    var run := VideoAnalyzer.AnalyzeVideo(fs, source, analyzer.video, analyzer.frames, analyzer.numberError,
                                          analyzer.frameError, analyzer.clock, render);
    VideoAnalyzer.RecordHoldsResult(fs, source, analyzer.video, analyzer.frames, analyzer.numberError,
                                    analyzer.frameError, analyzer.clock, render);
    VideoAnalyzer.FramesInTemp(analyzer.video, analyzer.frames, analyzer.numberError);
    SanityCheck.ReportFileInResults();
    SanityCheck.ReportNotRecord(VideoAnalyzer.AGENT, source);
    run.1
  }

  /** The files a run leaves: the check's report always; once the check
      passed, the analyzer's frame files, log lines and record; the
      configuration and whatever the orchestrator wrote (its log lines,
      the shared script, its record) from the configuration step on; the
      completed configuration after a successful run.  The final video
      itself is never written. */
  function Effects(fs: Files, projectId: string, prompt: string, source: string, i: Inputs, analyzer: Analyzer,
                   w: Orchestrator.Writes, render: Obj -> string): (r: Files)
    ensures SanityCheck.ReportFile() in r && r[SanityCheck.ReportFile()] == render(i.sanity)
    ensures !OptBoolean(i.sanity, "passed", false) ==> r == fs[SanityCheck.ReportFile() := render(i.sanity)]
    ensures OptBoolean(i.sanity, "passed", false) ==>
              AnalysisRecord(source) in r
              && r[AnalysisRecord(source)]
                 == RecordText(source, analyzer, render)
    ensures OptBoolean(i.sanity, "passed", false) && Succeeded(i.analysis) ==> ConfigFile(projectId) in r
    ensures !(OptBoolean(i.sanity, "passed", false) && Succeeded(i.analysis)) ==>
              forall p :: p in fs && !AgentFile(p, source) ==> p in r && r[p] == fs[p]
    ensures forall p :: p in fs && p != ConfigFile(projectId) && !AgentFile(p, source)
                        && !Orchestrator.OwnFile(p, i.orchestrator) ==>
              p in r && r[p] == fs[p]
    ensures forall p :: p in r && p !in fs ==>
              AgentFile(p, source) || JavaString.StartsWith(p, StoragePaths.TempDir() + "/")
              || ((p == ConfigFile(projectId) || Orchestrator.OwnFile(p, i.orchestrator))
                  && OptBoolean(i.sanity, "passed", false) && Succeeded(i.analysis))
  {
    var checked := SanityCheck.Record(fs, i.sanity, render);
    if !OptBoolean(i.sanity, "passed", false) then checked
    else AfterCheck(checked, projectId, prompt, source, i, analyzer, w, render)
  }

  /** A run past a passed check: the analysis, then the configuration step
      when the analysis succeeded. */
  function AfterCheck(fs: Files, projectId: string, prompt: string, source: string, i: Inputs, analyzer: Analyzer,
                      w: Orchestrator.Writes, render: Obj -> string): (r: Files)
    ensures AnalysisRecord(source) in r && r[AnalysisRecord(source)] == RecordText(source, analyzer, render)
    ensures SanityCheck.ReportFile() in fs ==> SanityCheck.ReportFile() in r && r[SanityCheck.ReportFile()] == fs[SanityCheck.ReportFile()]
    ensures Succeeded(i.analysis) ==> ConfigFile(projectId) in r
    ensures !Succeeded(i.analysis) ==> forall p :: p in fs && !AgentFile(p, source) ==> p in r && r[p] == fs[p]
    ensures forall p :: p in fs && p != ConfigFile(projectId) && !AgentFile(p, source)
                        && !Orchestrator.OwnFile(p, i.orchestrator) ==>
              p in r && r[p] == fs[p]
    ensures forall p :: p in r && p !in fs ==>
              AgentFile(p, source) || JavaString.StartsWith(p, StoragePaths.TempDir() + "/")
              || ((p == ConfigFile(projectId) || Orchestrator.OwnFile(p, i.orchestrator)) && Succeeded(i.analysis))
  {
    var analyzed := AnalyzerEffects(fs, source, analyzer, render);
    if !Succeeded(i.analysis) then analyzed
    else
      SanityCheck.ReportFileInResults();
      ResultsOutsideProject(SanityCheck.ReportFile(), projectId, "project.json");
      AgentRecords.AnalysisFileInResults(VideoAnalyzer.AGENT, source);
      ResultsOutsideProject(AnalysisRecord(source), projectId, "project.json");
      ReportNotOwn(i.orchestrator);
      AnalysisRecordNotOwn(source, i.orchestrator);
      Configure(analyzed, projectId, prompt, source, i, w, render)
  }

  /** The configuration step on: the configuration, then the
      orchestrator's own files, then the configuration completed when the
      orchestrator succeeds. */
  function Configure(fs: Files, projectId: string, prompt: string, source: string, i: Inputs, w: Orchestrator.Writes,
                     render: Obj -> string): (r: Files)
    requires i.analysis.Some?
    ensures ConfigFile(projectId) in r
    ensures forall p :: p in fs && p != ConfigFile(projectId) && !Orchestrator.OwnFile(p, i.orchestrator) ==>
              p in r && r[p] == fs[p]
    ensures forall p :: p in r && p !in fs ==> p == ConfigFile(projectId) || Orchestrator.OwnFile(p, i.orchestrator)
  {
    var analysis := i.analysis.value;
    var configured := Write(fs, ConfigFile(projectId), render(Config(projectId, prompt, source, analysis, i.createdAt)));
    OtherNameNotShared(projectId, "project.json");
    ProjectFileNotOwn(i.orchestrator, projectId, "project.json");
    var ran := Orchestrator.Leaves(configured, i.orchestrator, w, render);
    if !Passes(Stages(i)[3]) then ran
    else Write(ran, ConfigFile(projectId), render(FinalConfig(projectId, prompt, source, analysis, i)))
  }

  /** The configuration is completed exactly when the run succeeds; and
      since the final video is never written, the result dialog finds it
      only when it was there before the run. */
  lemma EffectsFollowRun(fs: Files, projectId: string, prompt: string, source: string, i: Inputs, analyzer: Analyzer,
                         w: Orchestrator.Writes, render: Obj -> string)
    requires OptBoolean(i.sanity, "passed", false) && Succeeded(i.analysis)
    ensures var r := Effects(fs, projectId, prompt, source, i, analyzer, w, render);
            (Run(i).status.Completed? ==>
               r[ConfigFile(projectId)] == render(FinalConfig(projectId, prompt, source, i.analysis.value, i)))
            && (Run(i).status.Error? ==>
                  r[ConfigFile(projectId)] == render(Config(projectId, prompt, source, i.analysis.value, i.createdAt)))
            && (FinalVideo(projectId) in r <==> FinalVideo(projectId) in fs)
  {
    ConfigFollowsRun(fs, projectId, prompt, source, i, analyzer, w, render);
    CompletesWithOrchestrator(i);
    FinalVideoKept(fs, projectId, prompt, source, i, analyzer, w, render);
  }

  /** After a passed check and a successful analysis, the configuration is
      the completed one exactly when the orchestrator's stage passes. */
  lemma ConfigFollowsRun(fs: Files, projectId: string, prompt: string, source: string, i: Inputs, analyzer: Analyzer,
                         w: Orchestrator.Writes, render: Obj -> string)
    requires OptBoolean(i.sanity, "passed", false) && Succeeded(i.analysis)
    ensures var r := Effects(fs, projectId, prompt, source, i, analyzer, w, render);
            ConfigFile(projectId) in r
            && r[ConfigFile(projectId)]
               == render(if Passes(Stages(i)[3]) then FinalConfig(projectId, prompt, source, i.analysis.value, i)
                         else Config(projectId, prompt, source, i.analysis.value, i.createdAt))
  {
    var checked := SanityCheck.Record(fs, i.sanity, render);
    EffectsPastCheck(fs, projectId, prompt, source, i, analyzer, w, render);
    AfterCheckConfigures(checked, projectId, prompt, source, i, analyzer, w, render);
    ConfigureWrites(AnalyzerEffects(checked, source, analyzer, render), projectId, prompt, source, i, w, render);
  }

  /** A passed check hands the report's file store on to the analysis. */
  lemma EffectsPastCheck(fs: Files, projectId: string, prompt: string, source: string, i: Inputs, analyzer: Analyzer,
                         w: Orchestrator.Writes, render: Obj -> string)
    requires OptBoolean(i.sanity, "passed", false)
    ensures Effects(fs, projectId, prompt, source, i, analyzer, w, render)
            == AfterCheck(SanityCheck.Record(fs, i.sanity, render), projectId, prompt, source, i, analyzer, w, render)
  {
  }

  /** A successful analysis hands its file store on to the configuration
      step. */
  lemma AfterCheckConfigures(fs: Files, projectId: string, prompt: string, source: string, i: Inputs, analyzer: Analyzer,
                             w: Orchestrator.Writes, render: Obj -> string)
    requires Succeeded(i.analysis)
    ensures AfterCheck(fs, projectId, prompt, source, i, analyzer, w, render)
            == Configure(AnalyzerEffects(fs, source, analyzer, render), projectId, prompt, source, i, w, render)
  {
  }

  /** Past a passed check and a successful analysis, the run completes
      exactly when the orchestrator's stage passes. */
  lemma CompletesWithOrchestrator(i: Inputs)
    requires OptBoolean(i.sanity, "passed", false) && Succeeded(i.analysis)
    ensures Run(i).status.Completed? <==> Passes(Stages(i)[3])
  {
    SuccessfulRun(i);
  }

  /** The configuration step leaves the completed configuration exactly
      when the orchestrator's stage passes. */
  lemma ConfigureWrites(fs: Files, projectId: string, prompt: string, source: string, i: Inputs, w: Orchestrator.Writes,
                        render: Obj -> string)
    requires i.analysis.Some?
    ensures var r := Configure(fs, projectId, prompt, source, i, w, render);
            ConfigFile(projectId) in r
            && r[ConfigFile(projectId)]
               == render(if Passes(Stages(i)[3]) then FinalConfig(projectId, prompt, source, i.analysis.value, i)
                         else Config(projectId, prompt, source, i.analysis.value, i.createdAt))
  {
    OtherNameNotShared(projectId, "project.json");
    ProjectFileNotOwn(i.orchestrator, projectId, "project.json");
  }

  /** No step writes the final video. */
  lemma FinalVideoKept(fs: Files, projectId: string, prompt: string, source: string, i: Inputs, analyzer: Analyzer,
                       w: Orchestrator.Writes, render: Obj -> string)
    ensures FinalVideo(projectId) in Effects(fs, projectId, prompt, source, i, analyzer, w, render) <==> FinalVideo(projectId) in fs
  {
    var video := FinalVideo(projectId);
    ProjectFilesDiffer(projectId, "project.json", "final_reimagined.mp4");
    ProjectFileUnderProjects(projectId, "final_reimagined.mp4");
    SanityCheck.ReportFileInResults();
    ResultsOutsideProject(SanityCheck.ReportFile(), projectId, "final_reimagined.mp4");
    AgentRecords.AnalysisFileInResults(VideoAnalyzer.AGENT, source);
    ResultsOutsideProject(AnalysisRecord(source), projectId, "final_reimagined.mp4");
    AppLog.OutsideResultsNotLogFile(video, "projects");
    StoragePaths.OutsideOtherTop(video, "projects", "temp");
    assert !AgentFile(video, source);
    OtherNameNotShared(projectId, "final_reimagined.mp4");
    ProjectFileNotOwn(i.orchestrator, projectId, "final_reimagined.mp4");
  }

  /** The analyzer's record is none of the orchestrator's own files. */
  lemma AnalysisRecordNotOwn(source: string, result: Option<Obj>)
    ensures !Orchestrator.OwnFile(AnalysisRecord(source), result)
  {
    var p := AnalysisRecord(source);
    var n := |StoragePaths.AgentResultsDir() + "/"|;
    assert p[n] == (StoragePaths.AgentResultsDir() + "/" + VideoAnalyzer.AGENT + "/analysis_")[n] == 'V';
    assert (StoragePaths.AgentResultsDir() + "/app_log_")[n] == 'a';
    AgentRecords.AnalysisFileInResults(VideoAnalyzer.AGENT, source);
    StoragePaths.DifferentTops(p, "agent_results", Orchestrator.SharedScriptFile(), "projects");
    match Orchestrator.Recorded(result)
    case None =>
    case Some(file) =>
      var id := GetString(result.value, "project_id").value;
      assert Orchestrator.RecordFile(id)[n] == 'O';
  }

  /** The finished configuration keeps the analysis and the source, and
      names the final video inside the project. */
  lemma FinalConfigReads(projectId: string, prompt: string, source: string, analysis: Obj, i: Inputs)
    ensures var c := FinalConfig(projectId, prompt, source, analysis, i);
            OptString(c, "status", "") == "completed" && OptString(c, "source_video", "") == source
            && OptObject(c, "video_analysis") == Some(analysis)
            && OptString(c, "final_video", "") == FinalVideo(projectId)
            && JavaString.StartsWith(OptString(c, "final_video", ""), StoragePaths.ProjectDir(projectId) + "/")
  {
  }

  // ----------------------------------------------------------------- screen

  /** Picking a video: the copy goes to the project's `input.mp4`. */
  function PickVideo(s: MediaScreen, fs: Files, picked: PickResult, projectId: string): (r: (MediaScreen, Files))
    ensures picked.Path? && picked.path in fs && picked.path != InputFile(projectId) ==>
              r.0.enabled && r.0.selected == Some(InputFile(projectId)) && InputFile(projectId) in r.1 && r.1[InputFile(projectId)] == fs[picked.path]
  {
    if picked.Path? && picked.path != InputFile(projectId) then
      PickedFileIsCopied(s, fs, picked.path, InputFile(projectId));
      Pick(s, fs, picked, InputFile(projectId))
    else Pick(s, fs, picked, InputFile(projectId))
  }
}
